=== FILE: README.md ===
# LasTree in Dafny

A model of the storage core of LasTree, a family of B+-trees for nearly
sorted insert streams, together with proofs about it. It covers:

- the three trees:
  - `SimpleBPlusTree`, a plain B+-tree over slotted-page leaves;
  - `LasTree`, whose leaves are lazily sorted record logs, with a fast-path
    leaf for in-order keys and a background sort of the leaves the fast
    path leaves behind;
  - `OptimizedBTree`, with array leaves kept sorted and the same kind of
    fast path;
- their node formats:
  - `BTreeNode` and `BasicBTreeNode`, array nodes;
  - `InternalNode`;
  - `LeafNode`, the slotted page;
  - `LasLeafNode`, `AppendOnlyLeafNode` and `LeafNodeLSM`, the record-log
    leaves;
- the `Tuple` byte codec;
- the in-memory block manager;
- the LRU buffer pool.

Every node is a value and every operation is a pure function that returns
the new node or tree. A tree is a map from page id to page:

- an internal node;
- or a leaf in the tree's own leaf format.

The descent, `internal_insert` and `create_new_root` shared by
`SimpleBPlusTree` and `LasTree` are modelled once, in `NodeStore`. Machine
widths are explicit for 32-bit ids, 16-bit node sizes, the `size_t`
arithmetic of the space checks and the wrap-around of the id counters.
Keys are unbounded `int`: the C++ `key_type` is a 32-bit `int`, and the
model writes out its width only where it changes a result, at the
`INT_MIN`/`INT_MAX` sentinels and the `±1` of the fast path (`Base.Wrap32`).

Where the C++ code does something its authors evidently did not intend, the
model has two members:

- a member named `…AsWritten`, or a concrete counterexample lemma, that
  does what the code does;
- a corrected member that the rest of the model uses, with the intended
  property proved about it.

"## Findings" lists each pair. "## Left out" says, member by member,
where the trees therefore go the corrected way.

| module | file | models |
|---|---|---|
| `Base` | base.dfy | machine integers, sentinels, `Option`/`Result` |
| `Tuples` | tuple.dfy | `Tuple`, `TupleDesc`, `serialize`/`deserialize`, `length` |
| `Keys`, `KeyValues`, `Sorting` | keys.dfy, key_values.dfy, sorting.dfy | `std::lower_bound`, `std::upper_bound`, `std::sort`, `std::nth_element` and key/value arrays as maps |
| `BlockManager` | block_manager.dfy | `InMemoryBlockManager` |
| `BufferPool` | buffer_pool.dfy | `BufferPool` (frames, LRU list, free list, dirty set) |
| `BasicBTreeNode`, `BTreeNode` | basic_btree_node.dfy, btree_node.dfy | the array nodes |
| `InternalNode`, `TreeIndex`, `NodeStore` | internal_node.dfy, tree_index.dfy, node_store.dfy | internal pages and the shared tree code |
| `LeafNode` | leaf_node.dfy | the slotted-page leaf |
| `LogRecords`, `LogLeaf`, `SortedLogs`, `SortedSplit`, `LeafTuples` | log_records.dfy, log_leaf.dfy, sorted_logs.dfy, sorted_split.dfy, leaf_tuples.dfy | the record log the three log leaves share |
| `LasLeafNode`, `AppendOnlyLeafNode`, `LeafNodeLSM` | las_leaf_node.dfy, append_only_leaf_node.dfy, leaf_node_lsm.dfy | the three log leaves |
| `SimpleBPlusTree`, `LasTree`, `OptimizedBTree` | simple_bplus_tree.dfy, las_tree.dfy, optimized_btree.dfy | the trees |

## Model

| member | source | states |
|---|---|---|
| Base.Wrap32 | trees/LasTree.hpp:131 | the `±1` on a 32-bit key agrees with the exact value modulo 2^32 and is the exact value whenever that fits in `int` (see also lines 138, lines 479) |
| Base.Inc16 | trees/LasLeafNode.hpp:186-228 | `++` on a 16-bit counter adds one below 65535 and wraps 65535 to 0 |
| Base.Dec16 | trees/LasLeafNode.hpp:204-227 | `--` on a 16-bit counter subtracts one above 0 and wraps 0 to 65535 |
| BlockManager.Create | trees/MemoryBlockManager.hpp:31-32 | a new manager has the given capacity, has handed out no id and has no dirty block |
| BlockManager.Reset | trees/MemoryBlockManager.hpp:35-38 | `reset` puts the counter back to 0 and empties the dirty set, keeping the capacity: the result is a freshly created manager |
| BlockManager.Allocate | trees/MemoryBlockManager.hpp:41-47 | `allocate` succeeds exactly when the counter is below the capacity and then returns the counter's value; otherwise it fails with "Memory block manager out of capacity"; either way the 32-bit counter advances by one |
| BlockManager.Wrap32u | trees/MemoryBlockManager.hpp:42 | the atomic `fetch_add` on a 32-bit id wraps modulo 2^32 |
| BlockManager.MarkDirty | trees/MemoryBlockManager.hpp:50-52 | `mark_dirty` adds the id to the dirty set and changes nothing else |
| BlockManager.MarkDirtyIdempotent | trees/MemoryBlockManager.hpp:50-52 | marking an id twice equals marking it once; marking keeps every id already dirty |
| BlockManager.OpenBlock | trees/MemoryBlockManager.hpp:55-60 | `open_block` succeeds exactly for ids below the capacity and fails with "Invalid block ID" otherwise |
| BlockManager.AllocateMany | trees/MemoryBlockManager.hpp:41-47 | a run of `count` allocations yields `count` results and leaves capacity and dirty set alone |
| BlockManager.AllocateInOrder | trees/MemoryBlockManager.hpp:41-70 | from a fresh counter, allocations return 0, 1, 2, … in call order while below capacity, fail from the capacity on, and `get_allocated_count` equals the number of calls including failed ones |
| BlockManager.AllocateFullStaysFull | trees/MemoryBlockManager.hpp:42-45 | once the counter has reached the capacity, every further allocation fails |
| BufferPool.Init | trees/BufferPool.cpp:11-13 | a new pool has all `POOL_SIZE` slots on the free list with slot 0 at its back (handed out first), nothing resident or dirty, and satisfies the pool invariant |
| BufferPool.Touch | trees/BufferPool.cpp:50-58 | `touch` succeeds exactly for a slot on the recency list, moves it to the front, keeps the rest of the list in order and changes nothing else; it keeps the invariant |
| BufferPool.Evict | trees/BufferPool.cpp:138-157 | `evict` succeeds exactly for a resident page; it writes the page back iff its slot is dirty, forgets the page, clears the dirty bit and appends the slot to the free list |
| BufferPool.EvictKeepsInv | trees/BufferPool.cpp:138-157 | evicting a resident page keeps the pid/slot bijection, recency-list and free-list invariant and removes exactly that slot from the resident ones |
| BufferPool.FetchSlot | trees/BufferPool.cpp:19-48 | `fetch_slot` takes the back of a non-empty free list without any event; with an empty free list it reuses the least recently used slot (`lru.back()`) |
| BufferPool.FetchFromFreeList | trees/BufferPool.cpp:20-27 | with a free slot, fetching takes it, writes nothing and leaves the resident pages alone; the rest of the pool keeps the invariant |
| BufferPool.FetchByEviction | trees/BufferPool.cpp:43-47 | with no free slot, fetching evicts the page in the least recently used slot, writing it back iff dirty, and hands out that slot |
| BufferPool.FetchSlotFacts | trees/BufferPool.cpp:19-48 | under the invariant `fetch_slot` always succeeds; it returns a slot that is neither free, resident nor dirty, and it produces at most one write-back |
| BufferPool.GetMutPage | trees/BufferPool.cpp:64-94 | a hit returns the resident slot, moves it to the front of the recency list and reads nothing; a miss ends with reading the page into the fetched slot, records pid→slot and slot→pid, and puts the slot at the front |
| BufferPool.ContainsAfterGetMutPage | trees/BufferPool.cpp:187-189 | after `get_mut_page(pid)` the pool `contains` pid; no other page becomes resident, and while the page was resident or a frame was free every other page is resident exactly when it was before (see also lines 64-94) |
| BufferPool.GetMutPageKeepsInv | trees/BufferPool.cpp:64-94 | under the invariant `get_mut_page` always succeeds and keeps the invariant; a miss reads once after at most one write-back |
| BufferPool.InstallKeepsInv | trees/BufferPool.cpp:84-92 | recording a new page in a freshly fetched slot restores the invariant: mutual inverse maps, the recency list holding exactly the resident slots, and no slot both free and resident |
| BufferPool.MarkDirty | trees/BufferPool.cpp:96-103 | `mark_dirty` succeeds exactly for a resident page, adds its slot to the dirty set, changes nothing else and keeps the invariant |
| BufferPool.Flush | trees/BufferPool.cpp:105-113 | `flush` succeeds exactly for a resident page; it writes the page iff its slot is dirty and clears the dirty bit, changing nothing else |
| BufferPool.FlushTwiceWritesOnce | trees/BufferPool.cpp:105-113 | a second `flush` of the same page writes nothing and changes nothing |
| BufferPool.FlushAll | trees/BufferPool.cpp:115-123 | `flush_all` writes exactly one page per dirty slot, under the page the slot holds, and leaves nothing dirty |
| BufferPool.FlushAllWritesDirty | trees/BufferPool.cpp:115-123 | under the invariant `flush_all` succeeds, and a resident page is written iff its slot was dirty |
| BufferPool.Remove | trees/BufferPool.cpp:55 | erasing a slot from the recency list keeps every other slot and their distinctness (see also line 152) |
| InternalNode.Init | trees/InternalNode.hpp:26-32 | a new internal node has no keys and is well formed, so every key routes to its single child (slot 0) |
| Keys.ChildSlotOf | trees/InternalNode.hpp:34-37 | the `child_slot` all three node kinds share is at most the key count, and on sorted keys it is the reference upper bound, with every key before it at most the search key and every key from it on above it (see also trees/BTreeNode.hpp lines 105-110) |
| InternalNode.ChildSlot | trees/InternalNode.hpp:34-37 | `child_slot` lies in `[0, size]`; on sorted keys every key before the slot is ≤ the search key and every key from the slot on is above it (the upper bound) |
| InternalNode.Route | trees/InternalNode.hpp:34-37 | the child a descent follows is one of the node's children |
| InternalNode.ChildSlotMonotone | trees/InternalNode.hpp:34-37 | `child_slot` never decreases as the search key grows, sorted keys or not |
| InternalNode.RouteBetweenSeparators | trees/InternalNode.hpp:34-37 | on a well-formed node the chosen child's left separator is ≤ the key and its right separator is above it |
| InternalNode.ChildSlotExample | trees/InternalNode.hpp:34-37 | with keys `[10, 20, 30]`, key 8 goes to child 0 and key 20 to child 2 |
| BasicBTreeNode.InitIsEmpty | trees/BasicBTreeNode.hpp:53-67 | a new node has the requested type and size 0: not full, every search slot is 0, and `min_key`/`max_key` throw |
| BasicBTreeNode.ValueSlot | trees/BasicBTreeNode.hpp:82-86 | `value_slot` is at most `size`, and on sorted keys it is the lower bound (first index whose key is ≥ the search key) |
| BasicBTreeNode.ChildSlot | trees/BasicBTreeNode.hpp:89-94 | `child_slot` is at most `size`, and on sorted keys it is the index of the first key strictly greater than the search key |
| BasicBTreeNode.InsertSorted | trees/BasicBTreeNode.hpp:98-127 | `insert_sorted` keeps keys and values the same length and the ids, type and children unchanged; a refusal leaves the node unchanged |
| BasicBTreeNode.InsertSortedIsMapUpdate | trees/BasicBTreeNode.hpp:98-127 | on strictly ascending keys, `insert_sorted` succeeds iff the key is present or the leaf is below capacity; then the key reads the new value, every other key reads as before, the keys stay strictly ascending, and `size` grows by one exactly for a new key |
| BasicBTreeNode.InsertSortedKeepsPairs | trees/BasicBTreeNode.hpp:113-126 | an accepted new key adds exactly its pair: the multiset of (key, value) pairs grows by that pair alone |
| BasicBTreeNode.InsertRefusedIffFull | trees/BasicBTreeNode.hpp:103-111 | a sorted leaf refuses an insertion exactly when it is full (`is_full`: `size` has reached the capacity of its node type) and the key is new (see also lines 130-136) |
| BasicBTreeNode.MinKey | trees/BasicBTreeNode.hpp:139-144 | `min_key` fails with "Empty node" iff the node is empty, and otherwise returns a key of the node that is ≤ every key when they are sorted |
| BasicBTreeNode.MaxKey | trees/BasicBTreeNode.hpp:147-152 | `max_key` fails with "Empty node" iff the node is empty, and otherwise returns a key of the node that is ≥ every key when they are sorted |
| BTreeNode.InitIsEmpty | trees/BTreeNode.hpp:62-75 | a new node has the requested type, no keys, the sorted flag set and the cold flag clear, and is well formed |
| BTreeNode.ValueSlot | trees/BTreeNode.hpp:90-103 | `value_slot` is at most `size`; with an honest sorted flag it is the lower bound; unsorted, it is the first index whose key is ≥ the search key (every earlier key is below it), or `size` |
| BTreeNode.ChildSlot | trees/BTreeNode.hpp:105-110 | `child_slot` is at most `size`; on sorted keys it is the upper bound: keys before it are ≤ the search key, keys from it on are greater |
| BTreeNode.InsertSorted | trees/BTreeNode.hpp:128-155 | `insert_sorted` keeps ids, type, cold flag and children; a refusal changes nothing; the size grows by at most one and never past the leaf capacity through an insertion |
| BTreeNode.InsertSortedIsMapUpdate | trees/BTreeNode.hpp:128-155 | on an honest sorted leaf with distinct keys, `insert_sorted` succeeds iff the key is present or the leaf is below capacity; then the key reads the new value, no other key changes, the keys stay sorted and flagged, and `size` grows exactly for a new key |
| BTreeNode.InsertSortedAccepts | trees/BTreeNode.hpp:132-140 | on an honest sorted leaf the only refusal is a new key at a full leaf |
| BTreeNode.InsertSortedPresent | trees/BTreeNode.hpp:132-135 | an existing key has only its value overwritten: keys, size and every other key's value stay |
| BTreeNode.InsertSortedNew | trees/BTreeNode.hpp:142-154 | a new key at a leaf with room is placed at its lower bound with later pairs shifted: size +1, keys still strictly sorted, every other key unchanged |
| BTreeNode.Append | trees/BTreeNode.hpp:158-175 | `append` fails iff the leaf is full, changing nothing; otherwise the pair is written at index `size` and the sorted flag stays set iff it was set and the key is not below the previous last key |
| BTreeNode.AppendKeepsFlagHonest | trees/BTreeNode.hpp:168-171 | after `append`, a set sorted flag still means the keys are sorted |
| BTreeNode.Sort | trees/BTreeNode.hpp:178-200 | `sort` on an unsorted node with more than one key yields an ascending permutation of the (key, value) pairs with the flag set; otherwise it changes nothing; nothing but keys, values and flag ever changes |
| BTreeNode.SortMakesFlagHonest | trees/BTreeNode.hpp:178-200 | after `sort` the flag is honest, and a node with more than one key is flagged sorted |
| BTreeNode.PairsBelow | trees/BTreeNode.hpp:218-226 | the pairs kept by the partition loop are a sub-multiset of the input whose keys are exactly the input keys below the pivot, in order |
| BTreeNode.PairsBelowMembers | trees/BTreeNode.hpp:218-226 | a pair is kept iff it is an input pair whose key is below the pivot |
| BTreeNode.QuickPartition | trees/BTreeNode.hpp:203-239 | with at most one key, `quick_partition` returns 0 and changes nothing; otherwise it keeps, in original order, exactly the pairs whose key is below the element of rank ⌊n/2⌋, sets `size` to their count (at most n/2), returns it, and sets the sorted flag |
| BTreeNode.QuickPartitionLosesKeys | trees/BTreeNode.hpp:203-239 | keys `[3, 1, 2, 0]` partition to `[1, 0]` flagged sorted, and the node's own search then misses key 0 that it holds |
| BTreeNode.QuickPartitionFixed | trees/BTreeNode.hpp:203-239 | the corrected partition keeps the same pairs and count but sets the sorted flag only when the kept keys ascend, so an honest flag stays honest |
| BTreeNode.Find | trees/BTreeNode.hpp:90-103 | a key found at its value slot is a key of the node |
| BTreeNode.FindIffPresent | trees/BTreeNode.hpp:90-103 | on a node that is sorted and flagged so, the value-slot search finds exactly the keys the node holds |
| BTreeNode.MinKey | trees/BTreeNode.hpp:263-273 | `min_key` fails ("Empty node") iff the node is empty; otherwise it returns one of the node's keys that is ≤ every key when the flag is honest |
| BTreeNode.MaxKey | trees/BTreeNode.hpp:276-286 | `max_key` fails ("Empty node") iff the node is empty; otherwise it returns one of the node's keys that is ≥ every key when the flag is honest |
| BTreeNode.MinElement | trees/BTreeNode.hpp:271 | `*std::min_element` is a key of the sequence below or equal to every key |
| BTreeNode.MaxElement | trees/BTreeNode.hpp:284 | `*std::max_element` is a key of the sequence above or equal to every key |
| Keys.StdLowerBound | trees/BTreeNode.hpp:93-94 | the library lower-bound loop stops at a boundary: the element before it is below the key and the element at it is not |
| Keys.StdUpperBound | trees/BTreeNode.hpp:108-109 | the library upper-bound loop stops at a boundary: the element before it is ≤ the key and the element at it is above |
| Keys.StdLowerBoundSorted | trees/BTreeNode.hpp:90-94 | on a sorted range the library lower-bound loop returns the reference lower bound (first index whose key is ≥ the search key) |
| Keys.StdUpperBoundSorted | trees/BTreeNode.hpp:105-110 | on a sorted range the library upper-bound loop returns the reference upper bound (first index whose key is > the search key) |
| Keys.StdUpperBoundMonotone | trees/InternalNode.hpp:34-37 | the library upper bound never decreases as the key grows, on any range |
| Keys.BoundsMonotone | trees/BTreeNode.hpp:90-110 | both reference bounds never decrease as the search key grows |
| Keys.LowerBoundFinds | trees/BTreeNode.hpp:129-135 | on a sorted range a key occurs iff its lower bound lands on it, which is the test `insert_sorted` and the trees' `get` use |
| Keys.MidpointSearch | trees/LasLeafNode.hpp:261-272 | the hand-written halving search of the slotted leaves stays inside its range and keeps the boundary it starts with |
| Keys.MidpointSearchSorted | trees/LasLeafNode.hpp:261-272 | over a whole sorted range the halving search returns the lower bound |
| Keys.BranchlessBinarySearch | trees/BTreeNode.hpp:113-125 | on sorted keys, `branchless_binary_search` returns the same index as the lower bound |
| Keys.InsertAt | trees/BTreeNode.hpp:143-150 | shifting the tail right and storing at `i` gives one more element: the new one at `i`, earlier ones in place, later ones one further on, and the same multiset plus the new element |
| Keys.InsertAtLowerBoundSorted | trees/BTreeNode.hpp:142-154 | storing a new key at its lower bound keeps strictly ascending keys strictly ascending |
| Keys.InsertAtUpperBoundSorted | trees/SimpleBPlusTree.hpp:272-286 | storing a key at its upper bound keeps sorted keys sorted |
| Keys.MinOf | trees/LasLeafNode.hpp:451-476 | the fold of `std::min` from an initial value is ≤ the initial value and every element, and is one of them |
| Keys.MaxOf | trees/LasLeafNode.hpp:451-476 | the fold of `std::max` from an initial value is ≥ the initial value and every element, and is one of them |
| KeyValues.Lookup | trees/BasicBTreeNode.hpp:82-86 | the value a reader finds for a key is present iff the key is, and is a value stored with that key |
| KeyValues.LookupInsertAt | trees/BTreeNode.hpp:142-154 | storing a new key and value at the key's lower bound keeps the keys strictly ascending, makes the key read the new value and leaves every other key's value alone |
| KeyValues.LookupOverwrite | trees/BTreeNode.hpp:132-135 | overwriting the value at a key's slot changes what that key reads and nothing else |
| KeyValues.PairsInsertAt | trees/BasicBTreeNode.hpp:116-124 | shifting both arrays right and storing a pair inserts exactly that pair into the sequence of pairs |
| Sorting.SortByKey | trees/BTreeNode.hpp:188-190 | `std::sort` by key yields an ascending permutation of the pairs |
| Sorting.SortByKeyStrict | trees/LasLeafNode.hpp:401-417 | sorting pairs with distinct keys leaves the keys strictly ascending |
| Sorting.SortInts | trees/LeafNodeLSM.hpp:171-177 | sorting a key array yields an ascending permutation of it |
| Sorting.SortIntsIsSortedPermutation | trees/BTreeNode.hpp:208-212 | any ascending permutation of the input is the sorted result: the element of rank `p` is well defined whatever `std::nth_element` does to the rest |
| Sorting.NthElement | trees/BTreeNode.hpp:208-212 | the element of rank `p` is an element of the range |
| Sorting.BelowNthElementBound | trees/BTreeNode.hpp:208-226 | fewer than `p` elements lie strictly below the element of rank `p`, so the left part of a partition holds at most `p` keys |
| Sorting.BelowCountPermutation | trees/BTreeNode.hpp:218-226 | how many keys lie below a pivot does not depend on their order |
| Tuples.EmptyTuple | trees/Tuple.hpp:21-22 | `Tuple(n)` has `n` fields, each the int 0 declared INT |
| Tuples.MakeTuple | trees/Tuple.hpp:24-29 | the tuple constructor succeeds iff the field and type lists have the same length, keeping both; otherwise it throws `logic_error` |
| Tuples.SetField | trees/Tuple.hpp:31-36 | `set_field(i, v)` throws `out_of_range` iff `i ≥ size()`; otherwise field `i` becomes `v` and every other field and every declared type stays |
| Tuples.NameIndex | trees/Tuple.hpp:70-73 | the name map holds exactly the given names, each sent to a position that carries it |
| Tuples.NameIndexSizeIffDistinct | trees/Tuple.hpp:74-76 | the name map has as many entries as there are names iff no name repeats |
| Tuples.NameIndexOfDistinct | trees/Tuple.hpp:70-73 | with distinct names, every name maps to its own position |
| Tuples.MakeDesc | trees/Tuple.hpp:66-77 | the schema constructor throws `logic_error` on a length mismatch or a repeated name and otherwise keeps types and names |
| Tuples.MakeDescAcceptsValid | trees/Tuple.hpp:66-77 | the schema constructor accepts exactly the schemas with as many names as types and no repeated name |
| Tuples.IndexOf | trees/Tuple.hpp:105-107 | `index_of` succeeds iff the name is in the schema and returns a position holding that name; otherwise it throws `out_of_range` |
| Tuples.CompatibleIffSameTypes | trees/Tuple.hpp:86-97 | `compatible(t)` holds iff `t` declares exactly the schema's type list: same field count and the same type at every position |
| Tuples.Merge | trees/Tuple.hpp:220-231 | `merge` succeeds iff the two schemas share no name; then its types are the first schema's followed by the second's and it is a valid schema; otherwise it throws `logic_error` |
| Tuples.MergeIndexes | trees/Tuple.hpp:224-229 | after a merge the first schema's names keep their index and the second schema's names sit at their own index plus `td1.size()` |
| Tuples.MergeDistinct | trees/Tuple.hpp:220-231 | two duplicate-free name lists concatenate without duplicates iff they share no name |
| Tuples.Length | trees/Tuple.hpp:121-135 | `length` succeeds iff every VARCHAR column has a string value; INT, DOUBLE and CHAR columns never look at the value |
| Tuples.SerializeLengthAgrees | trees/Tuple.hpp:121-176 | on a well-typed tuple `serialize` writes exactly `length(t)` bytes: 4 per INT, 8 per DOUBLE, 64 per CHAR and 2 plus the string length per VARCHAR |
| Tuples.EncodeField | trees/Tuple.hpp:145-173 | a field encodes iff the variant holds the alternative its column type needs; otherwise `std::get` throws `bad_variant_access` |
| Tuples.Serialize | trees/Tuple.hpp:142-176 | `serialize` succeeds iff the tuple has a field for every column and each holds the alternative its column needs |
| Tuples.EncodeChar | trees/Tuple.hpp:155-163 | a CHAR column always takes exactly 64 bytes |
| Tuples.CharStored | trees/Tuple.hpp:155-199 | what a CHAR column keeps of a string has at most 63 bytes and no NUL |
| Tuples.CharRoundTrip | trees/Tuple.hpp:155-199 | reading a CHAR column back gives the string cut to its first 63 bytes and then at its first NUL |
| Tuples.CharStoredCases | trees/Tuple.hpp:155-163 | a CHAR value of at most 63 bytes without NUL comes back whole; a longer one comes back as its first 63 bytes |
| Tuples.NulIndex | trees/Tuple.hpp:197 | `strnlen` is the index of the first NUL, or the whole length when there is none |
| Tuples.IntRoundTrip | trees/Tuple.hpp:147-190 | every 32-bit `int` reads back from its four little-endian bytes |
| Tuples.VarcharRoundTrip | trees/Tuple.hpp:165-206 | a VARCHAR value shorter than 65536 bytes reads back whole from its length prefix and bytes |
| Tuples.FieldRoundTrip | trees/Tuple.hpp:142-211 | each encodable field reads back as the codec stores it (CHAR cut, everything else unchanged) and consumes exactly the bytes it wrote, whatever follows |
| Tuples.FieldsRoundTrip | trees/Tuple.hpp:142-211 | encoding a list of encodable fields and decoding it (with any trailing bytes) gives back the stored fields in order |
| Tuples.SerializeRoundTrip | trees/Tuple.hpp:142-211 | `deserialize(serialize(t))` is `t` with every CHAR value cut to what the column holds and the schema's types declared |
| Tuples.DecodeField | trees/Tuple.hpp:188-206 | reading a field never consumes more bytes than there are |
| Tuples.Deserialize | trees/Tuple.hpp:183-211 | `deserialize` returns one field per column, declared with the schema's types |
| Tuples.StoredFields | trees/Tuple.hpp:155-163 | the stored form of a tuple has one field per column, each the stored form of its value |
| LogLeaf.InitIsEmpty | trees/LasLeafNode.hpp:70-89 | a new leaf keeps the given ids and cold flag, is unsorted and empty with the whole block as free heap, uses the sentinels `INT_MAX`/`INT_MIN` as least and greatest key, is valid, and reads nothing for every key |
| LogLeaf.Reset | trees/LasLeafNode.hpp:405-410 | clearing a leaf before re-insertion leaves no records, an empty heap and a zero count, keeps ids and flags, and gives a valid leaf |
| LogLeaf.UsedSpace | trees/LasLeafNode.hpp:123-132 | `used_space` counts the heap bytes in use plus one slot per record; within the page budget a record fits (`can_insert`) exactly when the header, the used space, its slot and its bytes fit in the block |
| LogLeaf.Insert | trees/LasLeafNode.hpp:168-200 | `insert` refuses with no change iff the record does not fit; otherwise it appends one insert record of the tuple's length plus the operation byte, the key reads the new tuple and every other key reads as before, `size` grows by one (16-bit), the key bounds widen to the key, the sorted flag clears, and validity is kept |
| LogLeaf.Update | trees/LasLeafNode.hpp:202-208 | `update` appends one new version or refuses with no change; on success the key reads the new tuple, every other key reads as before, and `size` is unchanged |
| LogLeaf.EraseAsWritten | trees/LasLeafNode.hpp:234-258 | `erase` as written refuses with no change iff the marker does not fit; otherwise it appends a key-only delete marker, the key reads nothing and every other key reads as before, `size` drops by one (16-bit), and the sorted flag is left as it was |
| LogLeaf.Erase | trees/LasLeafNode.hpp:234-258 | the corrected `erase` behaves as written but clears the sorted flag, so it keeps every leaf valid and afterwards `get` reads nothing for the key and what it read before for every other key |
| LogLeaf.Get | trees/LasLeafNode.hpp:275-310 | `get` on a leaf whose sorted flag is honest (always the case on a valid leaf) returns what the newest record of the key holds: nothing for a delete marker or no record, the tuple for an insert |
| LogLeaf.SortedLeafHasNoMarker | trees/LasLeafNode.hpp:277-289 | a valid leaf flagged sorted holds only insert records, so the halving branch of `get` reads what the newest-record scan reads |
| LogLeaf.ComputeMinMax | trees/LasLeafNode.hpp:451-476 | `compute_min_max` sets the least and greatest key whose newest record is an insert (the sentinels when none is live) and changes nothing else |
| LogLeaf.Reinsert | trees/LasLeafNode.hpp:415-442 | re-inserting compacted records keeps the leaf's ids and cold flag |
| LogLeaf.ReinsertAccepts | trees/LasLeafNode.hpp:415-442 | records that fit together in an empty leaf are all accepted by the repeated `insert` |
| LogLeaf.ReinsertSize | trees/LasLeafNode.hpp:415 | re-inserting `k` records adds `k` to the 16-bit count |
| LogLeaf.ReinsertMin | trees/LasLeafNode.hpp:189-196 | re-inserting records leaves the least key at the minimum of the old one and the records' keys |
| LogLeaf.SplitQuick | trees/LasLeafNode.hpp:419-449 | the quick-partition `split_into` fails iff nothing is live (the C++ code indexes an empty vector); otherwise it relinks `new.next = old.next`, `old.next = new.id`, and keeps both ids and cold flags |
| LogLeaf.SplitQuickKeeps | trees/LasLeafNode.hpp:419-449 | splitting a valid leaf with a live record returns the key at index ⌊3n/4⌋ of the compacted records; both leaves are valid; keys below the split key read as before in the old leaf and nothing in the new one, and the others the reverse |
| LogLeaf.SplitKeepsLeaves | trees/LasLeafNode.hpp:430-442 | the old leaf gets exactly the compacted records below the split key and the new leaf exactly the rest, both valid |
| LogLeaf.RefillSorted | trees/LasLeafNode.hpp:401-417 | a compacted run in strictly ascending key order fills an empty leaf as a valid sorted leaf whose log is the run and whose count is its length |
| LogLeaf.MarkSorted | trees/LasLeafNode.hpp:416 | setting the sorted flag on a compacted log in ascending key order keeps the leaf valid |
| LasLeafNode.GetRange | trees/LasLeafNode.hpp:328-372 | `get_range` returns at most as many tuples as the log holds |
| LasLeafNode.GetRangeIsCompactInRange | trees/LasLeafNode.hpp:328-372 | on a valid leaf every branch of `get_range` returns the live tuples whose key lies in `[lo, hi]`, each key once with its newest tuple, in log order |
| LasLeafNode.GetRangeSorted | trees/LasLeafNode.hpp:369 | the range result put in ascending key order, as the comment on the final reverse intends, is a permutation of it |
| LasLeafNode.GetRangeSortedIsCompactInRange | trees/LasLeafNode.hpp:328-372 | on a valid leaf the key-ordered range read holds exactly the live tuples in `[lo, hi]` in ascending key order |
| LasLeafNode.GetRangeLogOrderExample | trees/LasLeafNode.hpp:345-369 | the scan branch of `get_range` returns the live in-range records in log order (newest first, then reversed): an unsorted leaf that took key 2 then key 1 returns them as 2, 1, so only the sorted branch yields key order |
| LasLeafNode.Sort | trees/LasLeafNode.hpp:401-417 | `sort` sets the sorted flag and keeps ids and cold flag |
| LasLeafNode.SortValid | trees/LasLeafNode.hpp:401-417 | sorting a valid leaf leaves a valid leaf whose log is the compacted records in strictly ascending key order (a permutation of the compaction, no delete markers), counted exactly |
| LasLeafNode.SortKeepsGet | trees/LasLeafNode.hpp:401-417 | sorting changes what no key reads through `get` |
| LasLeafNode.EraseOnSortedLeafKeepsKey | trees/LasLeafNode.hpp:234-289 | on a sorted leaf with keys 1, 2, 3, `erase(2)` as written leaves the sorted flag set, and `get(2)` still returns the erased tuple although the log reads nothing for 2 |
| LasLeafNode.EraseHidesKey | trees/LasLeafNode.hpp:234-258 | with the corrected `erase`, an erased key reads nothing through `get` on every valid leaf with room for the marker |
| LasLeafNode.Remove | trees/LasLeafNode.hpp:210-231 | `remove` is `erase` without the key-bound recomputation: it refuses iff the marker does not fit, and otherwise the key reads nothing and every other key reads as before |
| SortedLogs.SortedCompaction | trees/LasLeafNode.hpp:403-415 | the records `sort` writes back are the compacted log in strictly ascending key order, still compacted, with the same number of records and heap bytes |
| SortedLogs.SortedCutLookup | trees/AppendOnlyLeafNode.hpp:320-322 | cutting a strictly key-sorted log at position `h` sends every key below the key at `h` to the front part with its reading and every other key to the back part |
| SortedLogs.SortedCut | trees/AppendOnlyLeafNode.hpp:320-322 | on a strictly key-sorted log, keeping the keys below the key at `h` is cutting at `h` |
| SortedSplit.RefillSlice | trees/AppendOnlyLeafNode.hpp:320-324 | any slice of a compacted, strictly key-sorted run fills an empty leaf: valid also when flagged sorted, holding the slice and counting it |
| SortedSplit.MovedMin | trees/AppendOnlyLeafNode.hpp:322-330 | the new leaf of a sorting split has as least key the first key of the moved part, or the sentinel when that part is empty |
| LogRecords.LogLookupAppend | trees/LasLeafNode.hpp:291-309 | appending a record changes what its own key reads (the tuple for an insert, nothing for a delete marker) and nothing else |
| LogRecords.HeapBytesPermutation | trees/LasLeafNode.hpp:401-417 | the heap bytes of a log do not depend on the order of its records |
| LogRecords.Compact | trees/LasLeafNode.hpp:374-399 | `compact` yields only inserts with distinct keys, each drawn from the log, in no more records and heap bytes than the log |
| LogRecords.CompactLookup | trees/LasLeafNode.hpp:374-399 | compaction loses nothing: every key reads in the compacted log what it reads in the log |
| LogRecords.CompactKeysLive | trees/LasLeafNode.hpp:374-399 | a key is left after compaction exactly when its newest record is an insert |
| LogRecords.CompactedLookup | trees/LasLeafNode.hpp:374-399 | on a compacted log a key reads something iff it has a record, and then it reads that record's tuple |
| LogRecords.CompactedPermutationLookup | trees/LasLeafNode.hpp:401-417 | two compacted logs with the same records read alike for every key |
| LogRecords.SplitLookup | trees/LasLeafNode.hpp:430-442 | splitting a log at `x` sends every key to exactly one side, where it reads as before |
| LogRecords.SplitCompacted | trees/LasLeafNode.hpp:430-442 | both sides of a split of a compacted log are compacted |
| LogRecords.SortedFindIsLookup | trees/LasLeafNode.hpp:277-289 | on a compacted log in strictly ascending key order the halving search of `get` reads what the newest-first scan reads |
| LogRecords.SortedRangeIsInRange | trees/LasLeafNode.hpp:330-342 | on a log in ascending key order the early-stopping scan of `get_range` returns exactly the records whose key lies in `[lo, hi]` |
| LogRecords.RangeScanIsCompactInRange | trees/LasLeafNode.hpp:343-369 | the newest-first scan of `get_range` returns the compacted log cut to `[lo, hi]`, whatever it records for keys outside the range |
| LogRecords.UndeletedKeysLive | trees/AppendOnlyLeafNode.hpp:334-354 | the scan of `compute_min_max` collects a key exactly when no newer delete marker covers it and its newest record is an insert |
| LogRecords.PutKeys | trees/LeafNodeLSM.hpp:215-244 | the scan of `min_key` and `max_key` collects the key of every insert record, deleted or not, and nothing else; it is empty iff the log has no insert |
| LogRecords.LiveMin | trees/LasLeafNode.hpp:451-476 | the least key is at most every live key and is either `INT_MAX` or itself live |
| LogRecords.LiveMax | trees/LasLeafNode.hpp:451-476 | the greatest key is at least every live key and is either `INT_MIN` or itself live |
| LeafTuples.KeyOf | trees/LasLeafNode.hpp:107-109 | `extract_key` yields the int in the key field; a key index past the fields throws `out_of_range` and a non-int field throws `bad_variant_access` |
| LeafTuples.InsertTuple | trees/AppendOnlyLeafNode.hpp:150-182 | `insert(t)` succeeds without throwing iff `length` succeeds and, when the record fits, `serialize` and `extract_key` succeed; it appends exactly when the record fits, after which the tuple's key reads the tuple and every other key reads as before; validity is kept |
| LeafTuples.InsertTupleReads | trees/LasLeafNode.hpp:168-200 | a tuple of the schema with an INT key never throws on `insert`, is stored exactly when it fits, and is then what `get` returns for its key; its encoded length is the length `length` computes |
| LeafTuples.TombstoneAsWritten | trees/AppendOnlyLeafNode.hpp:193-195 | the marker `erase` builds has one field per column, the erased key in the key field and the int 0 in every other; a key index past the schema throws `out_of_range` |
| LeafTuples.TombstoneAsWrittenSerializes | trees/AppendOnlyLeafNode.hpp:193-205 | that marker serialises iff every column of the schema is INT |
| LeafTuples.BenchmarkTombstoneThrows | trees/LeafNodeLSM.hpp:112-122 | under the `{INT, CHAR}` schema of the benchmark and the tests, serialising the marker of every key throws `bad_variant_access` |
| LeafTuples.DefaultField | trees/Tuple.hpp:142-176 | a default field matches its column's type, and a VARCHAR default is empty |
| LeafTuples.Tombstone | trees/AppendOnlyLeafNode.hpp:193-195 | the corrected marker has the schema's types, the erased key in the key field and a value of each column's type elsewhere; it fails exactly where extracting a key would (index past the schema, non-INT key column) |
| LeafTuples.TombstoneRoundTrip | trees/Tuple.hpp:142-211 | the corrected marker serialises into exactly `length` bytes, and reading them back gives the erased key in the key field |
| LeafTuples.BenchmarkTombstoneSerializes | trees/LeafNodeLSM.hpp:112-122 | under the benchmark schema the corrected marker of every key serialises |
| LeafNodeLSM.InitAsWrittenDropsLink | trees/LeafNodeLSM.hpp:66-80 | the creating constructor as written leaves an empty leaf with the given id but next id 0 and the cold flag cleared, whatever it is given |
| LeafNodeLSM.InitForgetsLink | trees/LeafNodeLSM.hpp:75-78 | a leaf constructed with next id 7 and the cold flag set keeps neither |
| LeafNodeLSM.InitLinkedIsEmpty | trees/LeafNodeLSM.hpp:66-80 | the corrected constructor gives an empty, valid leaf that keeps the id, next id and cold flag it is given and reads nothing for every key |
| LeafNodeLSM.FreeSpace | trees/LeafNodeLSM.hpp:82-84 | the free space is never negative within the page budget, and a record of `len` bytes fits exactly when it and its slot fit in the free space |
| LeafNodeLSM.Insert | trees/LeafNodeLSM.hpp:91-105 | `insert` appends iff the free space holds the tuple, the operation byte and a slot, and is otherwise a no-op; on success the key reads the tuple, every other key reads as before, `size` grows by one (16-bit), the heap end drops by the record, the ids stay, and validity is kept |
| LeafNodeLSM.Update | trees/LeafNodeLSM.hpp:107-109 | `update` is an insert of the new version: refused iff it does not fit, otherwise the key reads the new tuple and `size` grows by one |
| LeafNodeLSM.AppendTombstone | trees/LeafNodeLSM.hpp:117-129 | appending a delete marker succeeds iff it fits; then the key reads nothing, every other key reads as before, `size` grows by one (`LeafNodeLSM::erase` counts a marker as a tuple), and validity is kept |
| LeafNodeLSM.EraseAsWritten | trees/LeafNodeLSM.hpp:112-130 | `erase` as written throws `out_of_range` on a key index past the schema; when it appends, the marker serialised, the key reads nothing, every other key reads as before and `size` grows by one |
| LeafNodeLSM.BenchmarkEraseNeverErases | trees/LeafNodeLSM.hpp:112-130 | under the benchmark schema `erase` as written either refuses for lack of room or throws `bad_variant_access`: it never appends a marker |
| LeafNodeLSM.Erase | trees/LeafNodeLSM.hpp:112-130 | the corrected `erase` fails iff the key column is missing or not INT; otherwise it refuses with no change or appends, after which the key reads nothing and every other key reads as before, and validity is kept |
| LeafNodeLSM.Get | trees/LeafNodeLSM.hpp:133-144 | `get` returns what the compacted log holds for the key, and something exactly when the key survives compaction |
| LeafNodeLSM.IsNearlyFull | trees/LeafNodeLSM.hpp:146-148 | `free_space() < BLOCK_SIZE * 0.1` holds exactly when at most 409 bytes are free |
| LeafNodeLSM.MinKey | trees/LeafNodeLSM.hpp:215-228 | `min_key` throws "Empty node" iff the log has no insert record; otherwise it is the key of an insert record and at most the key of every insert record |
| LeafNodeLSM.MaxKey | trees/LeafNodeLSM.hpp:231-244 | `max_key` throws "Empty node" iff the log has no insert record; otherwise it is the key of an insert record and at least the key of every insert record |
| LeafNodeLSM.MinKeyCountsErased | trees/LeafNodeLSM.hpp:215-228 | a key inserted and then erased is still the least key `min_key` reports, although `get` reads nothing for it |
| LeafNodeLSM.ChooseSplitKey | trees/LeafNodeLSM.hpp:171-177 | `choose_split_key` fails on an empty record set (indexing an empty vector) and otherwise returns one of the keys with at most ⌊3n/4⌋ keys below it |
| LeafNodeLSM.ChooseSplitKeyRank | trees/LeafNodeLSM.hpp:171-177 | on distinct keys exactly ⌊3n/4⌋ keys lie below the chosen split key |
| LeafNodeLSM.Fill | trees/LeafNodeLSM.hpp:183-212 | re-filling the cleared old leaf and the new leaf relinks them (`old.next = new.id`, `new.next = old.next`) and returns the new leaf's least key and id, or the "Empty node" error when it holds no insert |
| LeafNodeLSM.SplitInto | trees/LeafNodeLSM.hpp:179-213 | on success `split_into` returns the new leaf's least key and id and relinks the two leaves; both keep their ids |
| LeafNodeLSM.FillValid | trees/LeafNodeLSM.hpp:208-210 | relinking refilled valid leaves keeps them valid |
| LeafNodeLSM.FillOk | trees/LeafNodeLSM.hpp:212 | when the moved records are all stored and their least key is `x`, the split returns `x` and the new leaf's id |
| LeafNodeLSM.FillEmpty | trees/LeafNodeLSM.hpp:212-226 | moving nothing makes the split report the "Empty node" error of `min_key` |
| LeafNodeLSM.SplitQuickShape | trees/LeafNodeLSM.hpp:179-213 | the quick-partition split of a valid leaf into an empty one fails iff nothing is live; otherwise it returns the chosen split key and the new id, both leaves are valid, and they hold the compacted records below and from the split key |
| LeafNodeLSM.SplitQuickKeeps | trees/LeafNodeLSM.hpp:179-213 | after a quick-partition split keys below the split key read as before in the old leaf and nothing in the new one, and the others the reverse |
| LeafNodeLSM.MovedLeastIsSplitKey | trees/LeafNodeLSM.hpp:189-197 | the records at or above a key of a compacted log hold that key and nothing below it, so it is their least key |
| LeafNodeLSM.SplitSortedLeaves | trees/LeafNodeLSM.hpp:198-207 | the sort-on-split policy fills the old leaf with the first ⌊3n/4⌋ of the compacted records in key order and the new leaf with the rest, both valid |
| LeafNodeLSM.SortedFillKey | trees/LeafNodeLSM.hpp:204-212 | refilling from a compacted run in key order fails iff the run is empty and otherwise returns the key at index ⌊3n/4⌋ |
| LeafNodeLSM.SplitSortedKey | trees/LeafNodeLSM.hpp:198-212 | the sort-on-split policy fails iff nothing is live and otherwise returns the key at index ⌊3n/4⌋ of the records in key order |
| LeafNodeLSM.SplitSortedKeeps | trees/LeafNodeLSM.hpp:198-212 | after a sort-on-split both leaves are valid, keys below the returned key read as before in the old leaf and nothing in the new one, and the others the reverse |
| LeafNodeLSM.SortedHalfLeast | trees/LeafNodeLSM.hpp:204-212 | the back part of a compacted run in strictly ascending key order holds its first key as an insert and nothing below it |
| AppendOnlyLeafNode.UpdateAsWritten | trees/AppendOnlyLeafNode.hpp:184-190 | `update` as written appends the new version iff it fits, after which the key reads the new tuple and every other key as before, but `size` grows by two (16-bit): once in `insert` and once more in `update` |
| AppendOnlyLeafNode.UpdateCountsTwice | trees/AppendOnlyLeafNode.hpp:184-190 | inserting key 5 and updating it leaves a count of 3 for one live tuple as written, and 1 with the corrected `update` |
| AppendOnlyLeafNode.CompactFromCompactedCount | trees/AppendOnlyLeafNode.hpp:267-286 | a log of two inserts of one key compacts to one record |
| AppendOnlyLeafNode.EraseAsWritten | trees/AppendOnlyLeafNode.hpp:193-216 | `erase` as written throws `out_of_range` on a key index past the schema; when it appends, its marker serialised, the key reads nothing, every other key reads as before and the sorted flag is left as it was |
| AppendOnlyLeafNode.BenchmarkEraseNeverErases | trees/AppendOnlyLeafNode.hpp:193-216 | under the benchmark schema `erase` as written refuses for lack of room or throws `bad_variant_access`: it never appends a marker |
| AppendOnlyLeafNode.Erase | trees/AppendOnlyLeafNode.hpp:193-216 | the corrected `erase` fails iff the key column is missing or not INT; otherwise it refuses with no change or appends, after which `get` reads nothing for the key and what it read before for every other key; validity is kept |
| AppendOnlyLeafNode.BenchmarkEraseErases | trees/AppendOnlyLeafNode.hpp:193-216 | under the benchmark schema the corrected `erase` never throws and appends exactly when the 68-byte marker fits |
| AppendOnlyLeafNode.SplitSorted | trees/AppendOnlyLeafNode.hpp:314-331 | the sort-on-split policy returns the new leaf's least key, marks both leaves sorted, relinks them and keeps ids and cold flags |
| AppendOnlyLeafNode.SplitRun | trees/AppendOnlyLeafNode.hpp:318-331 | re-filling from a run marks both leaves sorted, relinks them, keeps ids and cold flags and returns the new leaf's least key |
| AppendOnlyLeafNode.Split | trees/AppendOnlyLeafNode.hpp:288-332 | `split_into` fails only under the quick-partition policy with nothing live; on success it relinks `old.next = new.id`, `new.next = old.next`; the sorting policy marks both leaves sorted |
| AppendOnlyLeafNode.SplitSortedLeaves | trees/AppendOnlyLeafNode.hpp:314-331 | sorting a valid leaf into an empty one leaves the first ⌊3n/4⌋ compacted records in key order in the old leaf and the rest in the new one, both valid and counted exactly |
| AppendOnlyLeafNode.SplitRunLeaves | trees/AppendOnlyLeafNode.hpp:318-331 | a compacted run in strictly ascending key order is cut at ⌊3n/4⌋ into two valid leaves counted exactly |
| AppendOnlyLeafNode.SplitSortedKeeps | trees/AppendOnlyLeafNode.hpp:314-331 | the sorting split returns the live key at index ⌊3n/4⌋ (the sentinel `INT_MAX` when nothing is live); keys below it read as before in the old leaf and nothing in the new one, and the others the reverse |
| AppendOnlyLeafNode.SortedRunLive | trees/AppendOnlyLeafNode.hpp:314-317 | every key of the sorted compaction is a live 32-bit key of the log |
| AppendOnlyLeafNode.CompactedRecordLive | trees/AppendOnlyLeafNode.hpp:267-286 | a record left by compaction has a live 32-bit key |
| AppendOnlyLeafNode.SplitRunKeeps | trees/AppendOnlyLeafNode.hpp:318-331 | re-filling from a strictly sorted compacted run returns the key at ⌊3n/4⌋ (or `INT_MAX`), and each key reads its run reading in exactly one leaf, the lower one below the returned key |
| LeafNode.InitIsEmpty | trees/LeafNode.hpp:65-83 | the creating constructor gives a valid empty leaf with the given id, next id and cold flag, the heap at the block end, reading nothing for every key, and `min_key`/`max_key` throwing |
| LeafNode.Lookup | trees/LeafNode.hpp:128-141 | what a leaf holds for a key is the item of a valid slot carrying that key |
| LeafNode.SearchAsWritten | trees/LeafNode.hpp:112-125 | the sorted branch of `value_slot` as written stays within `[left, right]`; on an invalid middle slot it moves `left` up by one only |
| LeafNode.ScanValid | trees/LeafNode.hpp:103-110 | the unsorted branch of `value_slot` returns the first valid slot whose key is not below `k`, or the slot count, passing only invalid or smaller slots |
| LeafNode.ValueSlot | trees/LeafNode.hpp:102-126 | the corrected `value_slot` returns the lower bound of `k` among the slot keys on a sorted leaf |
| LeafNode.Get | trees/LeafNode.hpp:128-141 | `get` returns only the item of a valid slot carrying the key |
| LeafNode.GetIsLookup | trees/LeafNode.hpp:128-141 | on a sorted leaf `get` answers exactly what the leaf holds for the key |
| LeafNode.CanInsert | trees/LeafNode.hpp:152-159 | the corrected `can_insert` accepts only a tuple no longer than the heap top, and then exactly when it and one more slot fit above the directory |
| LeafNode.CanInsertAgrees | trees/LeafNode.hpp:152-159 | on every tuple no longer than the heap top the written `size_t` check and the corrected one agree |
| LeafNode.CanInsertWrapExample | trees/LeafNode.hpp:152-159 | a 5002-byte tuple passes the written check on an empty 4096-byte leaf because `heap_end - len` wraps; the corrected check refuses it |
| LeafNode.FreeSpaceExample | trees/LeafNode.hpp:148-150 | the written `free_space` adds the page header size instead of subtracting it and ignores the heap, so an empty leaf reports 4120 free bytes, more than the block |
| LeafNode.FreeSpace | trees/LeafNode.hpp:148-150 | the corrected free space of a valid leaf never exceeds the block less the headers and one slot |
| LeafNode.NearlyFullIgnoresHeap | trees/LeafNode.hpp:267-269 | over the written `free_space`, `is_nearly_full` holds exactly from 619 slots on, whatever the heap holds; a valid leaf whose one tuple fills the heap is nearly full with the corrected free space and not as written (see also lines 148-150) |
| LeafNode.IsFullIffCannotInsert | trees/LeafNode.hpp:271-273 | with the corrected free space, `is_full(t)` holds exactly when `can_insert` refuses the tuple together with one more slot; a leaf that is not full also takes the bare tuple |
| LeafNode.Insert | trees/LeafNode.hpp:181-209 | the corrected `insert` accepts iff `can_insert` does and is otherwise a no-op; on success it adds one slot, lowers the heap top by the tuple's length and keeps ids, cold and sorted flags |
| LeafNode.InsertKeepsValid | trees/LeafNode.hpp:181-209 | inserting into a valid leaf keeps it valid: keys ascending, `size` counting the valid slots, directory below the heap |
| LeafNode.InsertIsMapUpdate | trees/LeafNode.hpp:181-209 | an accepted insert into a sorted leaf makes the key read the new tuple and leaves every other key as it read |
| LeafNode.InsertOtherKeys | trees/LeafNode.hpp:181-209 | accepted or refused, an insert into a valid leaf leaves every other key alone |
| LeafNode.Update | trees/LeafNode.hpp:211-230 | the corrected `update` succeeds iff the new tuple fits and keeps ids and cold flag |
| LeafNode.UpdateKeepsValid | trees/LeafNode.hpp:211-230 | an update keeps a valid leaf valid whether or not it succeeds |
| LeafNode.UpdateIsMapUpdate | trees/LeafNode.hpp:211-230 | after an update the key reads the new tuple when it fitted and nothing when it did not (the old slot is already invalidated), and every other key reads as before |
| LeafNode.UpdatePresent | trees/LeafNode.hpp:215-224 | invalidating the found slot and inserting makes the key read the new tuple when it fits and nothing otherwise, and leaves every other key alone |
| LeafNode.MinMaxBound | trees/LeafNode.hpp:275-293 | on a valid leaf `min_key` is at most every valid key and `max_key` at least every valid key |
| LeafNode.MinKey | trees/LeafNode.hpp:275-283 | `min_key` throws "Empty node" iff no slot is valid; otherwise it is the key of the first valid slot |
| LeafNode.MaxKey | trees/LeafNode.hpp:285-293 | `max_key` throws "Empty node" iff no slot is valid; otherwise it is the key of the last valid slot |
| LeafNode.SplitInto | trees/LeafNode.hpp:232-265 | the corrected `split_into` keeps both ids, relinks `old.next = new.id`, `new.next = old.next`, and returns `(new_leaf.min_key(), new_leaf.id)`, or "Empty node" when no valid slot moved |
| LeafNode.SplitIntoSeparator | trees/LeafNode.hpp:232-265 | `split_into` returns `(new_leaf.min_key(), new_leaf.id)` exactly when a valid slot moved; no kept valid key is above that separator and no moved valid key is below it |
| LeafNode.SplitIntoKeepsEntries | trees/LeafNode.hpp:232-265 | splitting a valid leaf into an empty one loses nothing: the kept entries followed by the moved ones are the leaf's entries, the new leaf holds exactly the moved ones, both are valid, and every kept key is at most every moved key |
| LeafNode.FillAccepts | trees/LeafNode.hpp:249-258 | when the moved tuples and their slots fit, every insert into the new leaf is accepted and it holds exactly its entries plus the valid moved ones |
| LeafNode.SplitKept | trees/LeafNode.hpp:249-258 | cutting the slot directory keeps a valid leaf whose entries followed by the cut-off ones are the old entries, and the cut-off slots fit in an empty page |
| LeafNode.SplitFilled | trees/LeafNode.hpp:249-258 | filling an empty leaf with a valid leaf's tail gives a valid leaf with exactly the tail's valid entries |
| LeafNode.SearchAsWrittenAgrees | trees/LeafNode.hpp:112-125 | with no invalid slot the written search is the ordinary halving search |
| LeafNode.InsertAsWritten | trees/LeafNode.hpp:181-209 | `insert` as written accepts iff the wrapping `can_insert` does |
| LeafNode.UpdateAsWritten | trees/LeafNode.hpp:211-230 | `update` as written succeeds iff the wrapping `can_insert` does |
| LeafNode.InvalidateKeepsRoomAsWritten | trees/LeafNode.hpp:221 | invalidating a slot frees neither heap nor directory space |
| LeafNode.ValueSlotAsWrittenLosesKey | trees/LeafNode.hpp:112-141 | as written: insert 5, insert 7, update 7, insert 3 leaves slots (5, 7 invalid, 3, 7) and `get(5)` returns nothing |
| LeafNode.CorrectedKeepsKey | trees/LeafNode.hpp:102-141 | the same four operations on the corrected leaf keep 5 readable |
| LeafNode.MoveAsWritten | trees/LeafNode.hpp:249-258 | the written move loop, whose bound `slot_count` shrinks as it moves, moves at most the slots it is given |
| LeafNode.SplitIntoAsWritten | trees/LeafNode.hpp:232-265 | `split_into` as written relinks the two leaves |
| LeafNode.SplitIntoAsWrittenLosesKey | trees/LeafNode.hpp:232-265 | as written, splitting slots 1, 2, 3 (100, 6, 6 bytes) copies key 2 into the new leaf and keeps it, and drops key 3 from both leaves |
| LeafNode.SplitIntoMovesTail | trees/LeafNode.hpp:232-265 | the corrected split of the same leaf keeps key 1 and moves keys 2 and 3 with their tuples |
| NodeStore.NextId | trees/SimpleBPlusTree.hpp:235 | the id `num_pages.fetch_add(1)` hands out is the page counter cut to 32 bits, and the counter itself while it is below `2^32` (see also line 189) |
| NodeStore.InnerAt | trees/SimpleBPlusTree.hpp:209-216 | a page reads as an internal node exactly when it is stored, is not a leaf, and has one more child than keys within the capacity |
| NodeStore.Descend | trees/LasTree.hpp:543-574 | the descent from `id` ends at a leaf through a chain of internal nodes each sending the key to the next, narrowing the key window on the way; a leaf is its own descent, and an unreadable page or exhausted fuel is an error |
| NodeStore.FindPath | trees/SimpleBPlusTree.hpp:199-224 | `find_leaf` from the root ends at a leaf and its path starts at the root |
| NodeStore.DescendWindow | trees/LasTree.hpp:543-574 | with sorted nodes every key in the window of a descent takes the same descent |
| NodeStore.DescendInWindow | trees/LasTree.hpp:543-574 | with sorted nodes a key lies inside the window of its own descent |
| NodeStore.FindPathWindow | trees/LasTree.hpp:543-574 | with sorted nodes `find_path_to_node` puts the key inside its leaf's window, and every key in that window reaches the same leaf by the same path |
| NodeStore.DescendStep | trees/SimpleBPlusTree.hpp:216-221 | one level of the descent: the internal node's child slot for the key picks the child, the separator right of it becomes the leaf's bound, and the node is prepended to the path |
| NodeStore.SameSlot | trees/InternalNode.hpp:34-37 | on sorted keys a key between the separators around another key's slot has the same slot |
| NodeStore.SplitPosValue | trees/SimpleBPlusTree.hpp:38 | a 4096-byte internal node holds 510 keys and splits at 255 |
| NodeStore.CreateNewRoot | trees/SimpleBPlusTree.hpp:380-415 | `create_new_root` fails iff the root is not an internal node; otherwise it copies the root into a fresh page, rewrites the root in place as one key over the copy and the new right child, takes one page id, adds one to the height (8-bit) and changes no other page |
| NodeStore.CreateNewRootRoutes | trees/SimpleBPlusTree.hpp:380-415 | after `create_new_root` the root sends keys below the separator to the copy and the rest to the right child, and the copy routes every key as the old root did |
| NodeStore.InsertIntoNode | trees/SimpleBPlusTree.hpp:262-372 | one step of `internal_insert` succeeds iff the page is an internal node; it reports a split exactly when the node was full, takes one new page id then and none otherwise, and changes no page but the node and the new one |
| NodeStore.InsertIntoNodeRoom | trees/SimpleBPlusTree.hpp:271-286 | with room, the separator goes in at its upper-bound slot: the node stays sorted, gains exactly that key, and routes to the new child exactly the keys from the separator up to the next one |
| NodeStore.InsertIntoNodeSplit | trees/SimpleBPlusTree.hpp:287-372 | a full node splits into two halves and a promoted key that together are the grown node, and routing through them agrees with the grown node for every key |
| NodeStore.SplitNodeGrown | trees/SimpleBPlusTree.hpp:297-367 | the halves of a full sorted node are well shaped, with 255 keys each side of the promoted key, and make up the grown node |
| NodeStore.SplitNodeRoutes | trees/SimpleBPlusTree.hpp:297-367 | the halves of a full sorted node route every key as the grown node does |
| NodeStore.InternalInsert | trees/SimpleBPlusTree.hpp:258-378 | `internal_insert` keeps the root, head and tuple count, takes at most one page per path node plus one for a new root, never removes a page, changes no page off the path except the root, and gives new pages ids from the counter |
| NodeStore.InternalInsertKeepsSorted | trees/SimpleBPlusTree.hpp:258-378 | `internal_insert` keeps every internal node's keys ascending |
| NodeStore.InternalInsertKeepsLeaves | trees/SimpleBPlusTree.hpp:258-378 | `internal_insert` writes no leaf: every leaf afterwards was there before, unchanged |
| NodeStore.InternalInsertOk | trees/SimpleBPlusTree.hpp:258-378 | along a path of internal nodes under an internal root, `internal_insert` succeeds and the root stays internal |
| NodeStore.LeafWriteKeepsPaths | trees/SimpleBPlusTree.hpp:89-90 | overwriting a leaf changes no key's descent |
| NodeStore.DescendSameIndex | trees/SimpleBPlusTree.hpp:199-224 | stores with the same internal nodes give every key the same descent |
| NodeStore.FindPathLeafMax | trees/LasTree.hpp:546-570 | with sorted nodes the bound `find_path_to_node` reports for the leaf is above the key, or is `INT_MAX` |
| NodeStore.ScanChain | trees/SimpleBPlusTree.hpp:125-138 | walking the leaf chain ends with nothing at `INVALID_NODE_ID`, fails on a page that is not a leaf, and collects at least the first leaf's part |
| NodeStore.ScanChainFrom | trees/SimpleBPlusTree.hpp:125-138 | everything the chain walk collects comes from some leaf, and it starts with the first leaf's part |
| NodeStore.ScanChainLast | trees/SimpleBPlusTree.hpp:125-138 | a leaf with no next leaf contributes exactly its own part |
| TreeIndex.Route | trees/InternalNode.hpp:34-37 | a key is routed to one of the node's children |
| TreeIndex.InsertEntry | trees/SimpleBPlusTree.hpp:273-282 | inserting with room shifts both tails right by one, puts the key at `index` and the child at `index + 1`, and keeps everything else in place |
| TreeIndex.InsertEntryRoutes | trees/SimpleBPlusTree.hpp:269-282 | inserting at the upper-bound slot keeps the keys sorted and changes routing only for the keys from the new separator up to the next one, which go to the new child |
| TreeIndex.SplitEntry | trees/SimpleBPlusTree.hpp:297-367 | the split of a full node leaves `pos` keys on the left and the rest on the right, each with one more child than keys |
| TreeIndex.SplitEntryIsInsertThenCut | trees/SimpleBPlusTree.hpp:297-367 | in all three cases of the split (new key left of, at, or right of `pos`) the result is the insertion followed by a cut at `pos`, the key at `pos` moving up: nothing lost or invented |
| TreeIndex.SplitEntryRoutes | trees/SimpleBPlusTree.hpp:297-367 | a split at the upper-bound slot leaves sorted halves either side of the promoted key, and routing through the parent and a half agrees with the grown node for every key |
| TreeIndex.CutRoutes | trees/SimpleBPlusTree.hpp:297-367 | cutting sorted arrays at `pos` with `ks[pos]` moving up routes every key as before |
| TreeIndex.SplitEntryAsWritten | trees/OptimizedBTree.hpp:528-610 | `OptimizedBTree`'s split as written agrees with the corrected split when the new key lands right of `pos` |
| TreeIndex.SplitEntryAsWrittenDropsKey | trees/OptimizedBTree.hpp:528-560 | with the new key left of `pos`, the written split loses `keys[pos]` from both halves, promotes `keys[pos - 1]`, and routes the promoted key itself to the wrong child |
| TreeIndex.SplitEntryAsWrittenDropsChild | trees/OptimizedBTree.hpp:561-575 | with the new key at `pos`, the written split loses the node's last child from both halves |
| TreeIndex.SplitEntryAsWrittenExample | trees/OptimizedBTree.hpp:528-610 | on keys 10, 20, 30, 40 split at 2 with key 5, the written split promotes 20, keeps it on the left, loses 30 and sends key 25 to child 4; the corrected split sends it to child 3 |
| SimpleBPlusTree.InitShape | trees/SimpleBPlusTree.hpp:52-72 | `init` gives the head leaf page 0 and the root page 1, the root an internal node with no key over the head, the head an empty leaf ending the chain, height 1, no tuples, and the invariant |
| SimpleBPlusTree.InitIsEmpty | trees/SimpleBPlusTree.hpp:52-115 | in a fresh tree every key descends from the root straight to the head leaf and `get` finds nothing |
| SimpleBPlusTree.Get | trees/SimpleBPlusTree.hpp:100-115 | `get` fails only where the descent fails, and what it returns is held by a valid slot of the leaf the key descends to |
| SimpleBPlusTree.LeafRange | trees/SimpleBPlusTree.hpp:129 | a leaf's part of a range is exactly its valid entries with keys in `[lo, hi]`, no more of them than valid slots |
| SimpleBPlusTree.RangeBounds | trees/SimpleBPlusTree.hpp:117-140 | `range` returns only entries with keys in `[lo, hi]` held by some leaf; it starts with the part of the leaf `lo` descends to, and is exactly that part when that leaf ends the chain |
| SimpleBPlusTree.RangeInit | trees/SimpleBPlusTree.hpp:117-140 | a fresh tree has nothing in any range |
| SimpleBPlusTree.Insert | trees/SimpleBPlusTree.hpp:75-98 | `insert` fails where the descent fails; on success it counts one more tuple and keeps root and head |
| SimpleBPlusTree.InsertIntoLeaf | trees/SimpleBPlusTree.hpp:229-255 | `insert_into_leaf` keeps root, head and tuple count (the caller counts) |
| SimpleBPlusTree.CompactedKeeps | trees/SimpleBPlusTree.hpp:240-250 | rewriting a valid leaf's tuples into a fresh page keeps its entries, gives a valid leaf of valid slots only, and never lowers the heap top |
| SimpleBPlusTree.Place | trees/SimpleBPlusTree.hpp:245-250 | the re-insert goes into the old leaf iff the key is below the split key and is stored iff that leaf has room; the other leaf is untouched |
| SimpleBPlusTree.PlaceKeepsEntries | trees/SimpleBPlusTree.hpp:245-250 | the re-insert keeps both leaves valid and adds exactly the new entry when stored |
| SimpleBPlusTree.SplitLeaf | trees/SimpleBPlusTree.hpp:235-250 | the corrected leaf split keeps the old id, gives the new leaf the new id, and relinks `old.next = new`, `new.next = old.next` |
| SimpleBPlusTree.SplitLeafKeepsEntries | trees/SimpleBPlusTree.hpp:235-250 | the corrected leaf split of a valid leaf gives two valid leaves holding exactly the old entries plus the new one when it is stored |
| SimpleBPlusTree.SplitLeafAsWritten | trees/SimpleBPlusTree.hpp:235-250 | the leaf split as written relinks the leaves the same way |
| SimpleBPlusTree.SplitLeafAsWrittenDrops | trees/SimpleBPlusTree.hpp:240-250 | as written, a tuple longer than the old leaf's free heap with a key below the split key is never stored, because the split frees no heap bytes |
| SimpleBPlusTree.SplitLeafAcceptsMore | trees/SimpleBPlusTree.hpp:240-250 | the corrected split makes the same cut and stores the tuple whenever the written one does |
| SimpleBPlusTree.ExampleSplitInto | trees/LeafNode.hpp:232-265 | on the example leaf (four tuples, heap top 596) `split_into` keeps three tuples and returns key 4 and new id 8 |
| SimpleBPlusTree.LostTupleExample | trees/SimpleBPlusTree.hpp:229-255 | a 700-byte tuple with key 0 that does not fit the example leaf is split on key 4, then dropped as written and stored by the corrected split |
| SimpleBPlusTree.InsertWithRoom | trees/SimpleBPlusTree.hpp:83-93 | inserting into a leaf with room keeps the invariant and the pages, counts one more tuple, makes the key read the new tuple, and changes what no other key reads |
| SimpleBPlusTree.InsertWithSplit | trees/SimpleBPlusTree.hpp:95-97 | inserting into a full leaf keeps the invariant, counts one more tuple, writes the two split leaves at the old id and the fresh id `num_pages`, relinks them, keeps every entry (plus the new one when stored), and leaves every other leaf alone (see also lines 229-255) |
| SimpleBPlusTree.SplitLeafPlaces | trees/SimpleBPlusTree.hpp:240-250 | after the split the tuple goes back into the old leaf when its key is below the split key and into the new leaf otherwise; when that leaf accepts it, that leaf's `get` reads it back |
| SimpleBPlusTree.InternalInsertKeepsInv | trees/SimpleBPlusTree.hpp:258-378 | carrying a separator up a path of internal nodes succeeds, keeps the invariant and leaves every leaf alone |
| SimpleBPlusTree.SplitTreeInv | trees/SimpleBPlusTree.hpp:235-242 | writing two valid split leaves at the old id and the fresh page id keeps the invariant |
| LasTree.InitFastPath | trees/LasTree.hpp:79-82 | the fast path of `init` is the head leaf with no hit and no miss, and takes every 32-bit key but `INT_MAX` (see also lines 411-413) |
| LasTree.InitShape | trees/LasTree.hpp:54-85 | `init` puts the head leaf on page 0 and the root on page 1 with the head as its only child, an empty cold queue and the initial fast path |
| LasTree.InitFastPathRoutes | trees/LasTree.hpp:54-85 | after `init` every key descends from the root to the head leaf, the fast-path leaf (see also lines 511-540) |
| LasTree.InitSound | trees/LasTree.hpp:54-85 | a fresh tree's fast path only takes keys that the descent sends to the fast-path leaf (see also lines 411-413) |
| LasTree.AfterInsert | trees/LasTree.hpp:128-156 | after a regular insert, the key `fast_path_max_key + 1` (wrapped) moves the fast path and keeps the miss count; any other key is a miss, and the fast path moves (clearing the count) exactly when the misses reach `MAX_SOFT_FAILS` |
| LasTree.MissesStayBelow | trees/LasTree.hpp:141-156 | the miss count never reaches `MAX_SOFT_FAILS` between inserts (see also line 382) |
| LasTree.ThirdMissMoves | trees/LasTree.hpp:141-156 | from no misses, three regular inserts that do not continue the range move the fast path on the third, to the leaf used, with the count cleared (see also line 382) |
| LasTree.AfterSplit | trees/LasTree.hpp:471-490 | after a split the fast path follows the half the key went to: the old leaf up to one below the split key, or the new leaf from the split key (keeping the old upper bound when the new leaf ends the chain) |
| LasTree.AfterSplitSide | trees/LasTree.hpp:471-490 | every key the fast path takes after a split lies on the side of the split key the tuple went to, and below the next leaf's separator |
| LasTree.Enqueue | trees/LasTree.hpp:158-168 | a leaf the fast path left is queued once: only when the cold set lacks it, and then added to both queue and set; the queue stays free of repeats and inside the set (see also lines 494-504) |
| LasTree.SortStepCold | trees/LasTree.hpp:750-790 | one step of the background worker pops the queue front and drops it from the cold set only when the leaf was unsorted |
| LasTree.SortedLeafStaysCold | trees/LasTree.hpp:776-790 | a queued leaf that is already sorted stays in the cold set after it is popped, so the fast path leaving it again never queues it again |
| LasTree.SortStepColdFixed | trees/LasTree.hpp:776-790 | the corrected step pops the front and always drops it from the cold set |
| LasTree.SortStepFixedRequeues | trees/LasTree.hpp:750-790 | with the corrected step the cold set is exactly the queue, and a popped leaf goes back to the end of the queue when the fast path leaves it again (see also lines 494-504) |
| LasTree.Get | trees/LasTree.hpp:178-200 | `get` fails only where the descent fails, and a found key is in the log of the leaf the key descends to |
| LasTree.Contains | trees/LasTree.hpp:258-263 | `contains` holds exactly when `get` finds the key |
| LasTree.Update | trees/LasTree.hpp:204-229 | `update` fails only where the descent fails; it reports success only for a key `get` finds, and otherwise leaves the tree as it was; fast path, cold queue and count never change; the edited tuple is appended to the leaf of the old key under `extract_key` of the edited tuple (see also trees/LasLeafNode.hpp lines 188, 202-208) |
| LasTree.UpdateOverwrites | trees/LasTree.hpp:204-229 | on a valid leaf, after a successful update `get` returns the edited tuple for the edited tuple's key whenever that key descends to the same leaf, in particular for the old key when the key column was not edited; every key other than the edited tuple's key reads as before, so an edit of the key column leaves `get` of the old key returning the old tuple |
| LasTree.RangeBounds | trees/LasTree.hpp:231-254 | on valid leaves every record `range` returns has its key in `[lo, hi]` and is a live record of some leaf |
| LasTree.Insert | trees/LasTree.hpp:101-176 | `insert` counts one more tuple when it succeeds and keeps root and head |
| LasTree.InsertFastPath | trees/LasTree.hpp:416-445 | the fast-path insert counts one more tuple when it succeeds and keeps root and head |
| LasTree.SplitLeaf | trees/LasTree.hpp:450-490 | the leaf split keeps the old id on the left, gives the right half the new id and relinks `left.next = new`, `right.next = old.next` |
| LasTree.InsertIntoLeaf | trees/LasTree.hpp:450-508 | the split path keeps root, head and count (the caller counts) |
| LasTree.SplitLeafPlaces | trees/LasTree.hpp:468-489 | after the split each key other than the new one reads, in the half on its side of the split key, what the old leaf held for it, and nothing in the other half; the new key reads the new tuple in its half whenever that half takes it |
| LasTree.SplitLeafReads | trees/LasTree.hpp:468-489 | one key's reads in both halves of the split, with the re-insert's acceptance spelled out |
| LasTree.Rehome | trees/LasTree.hpp:471-504 | after a split the fast path is the `AfterSplit` one, and the cold queue changes only when the fast-path leaf changed |
| LasTree.FastHit | trees/LasTree.hpp:108-111 | a key in the fast-path range whose leaf has room goes into that leaf without a descent: one hit and one tuple more, the leaf reads the new tuple for that key and the old ones for the rest, no other page changes, and a sound fast path stays sound (see also lines 416-431) |
| LasTree.RegularFits | trees/LasTree.hpp:113-170 | a regular insert that fits its leaf stores the tuple there, updates the fast path as `AfterInsert` says and queues the leaf it left when it moved, changes no descent and no other page, and `get` reads the tuple back |
| LasTree.RegularSound | trees/LasTree.hpp:128-156 | a regular insert that fits keeps the fast path sound when the leaf lies inside its descent window |
| LasTree.SortStep | trees/LasTree.hpp:750-790 | the background step fails only on a queued id that is not a leaf, and otherwise sorts that leaf and pops the queue, touching no other page nor the fast path |
| LasTree.SortStepKeepsReads | trees/LasTree.hpp:776-790 | sorting a valid leaf in the background changes no read and keeps a sound fast path sound |
| OptimizedBTree.InitShape | trees/OptimizedBTree.hpp:41-73 | the constructor makes block 0 the root and block 1 the empty head leaf, height 1, no tuples, and puts the fast path on the head leaf with no hit |
| OptimizedBTree.InitRoutes | trees/OptimizedBTree.hpp:41-73 | after the constructor every key but `INT_MAX` takes the fast path and every key descends from the root to the head leaf, the fast-path leaf (see also lines 277-282, lines 334-368) |
| OptimizedBTree.InitSound | trees/OptimizedBTree.hpp:41-73 | a fresh tree's fast path only takes keys that the descent sends to the fast-path leaf (see also lines 277-282) |
| OptimizedBTree.Probe | trees/OptimizedBTree.hpp:168-173 | `value_slot` plus the key test finds only keys the leaf holds, and on ascending keys is exactly the leaf's key-to-value mapping |
| OptimizedBTree.Get | trees/OptimizedBTree.hpp:162-174 | `get` fails only where the descent fails or the leaf is out of shape, finds only keys of the leaf the key descends to, and on ascending keys returns that leaf's value for the key |
| OptimizedBTree.Contains | trees/OptimizedBTree.hpp:177-185 | `contains` holds exactly when `get` finds the key |
| OptimizedBTree.Update | trees/OptimizedBTree.hpp:145-159 | `update` reports success exactly when `get` finds the key, and otherwise changes nothing; the fast path and count never change |
| OptimizedBTree.UpdateReads | trees/OptimizedBTree.hpp:145-159 | on ascending keys a successful update is a map update: the key reads the new value and every other key reads what it read before |
| OptimizedBTree.LeafSplitPosValue | trees/OptimizedBTree.hpp:409 | a leaf block holds 510 pairs and a split keeps 459 in the old leaf (see also trees/BTreeNode.hpp:17-24) |
| OptimizedBTree.SplitLeaf | trees/OptimizedBTree.hpp:394-495 | the sorted `split_leaf` keeps 459 pairs and the old id in the left leaf, links it to the new leaf, gives the new leaf the other 52 pairs and the old link, the two halves together being the block with the new pair inserted at `index`, and hands up the new leaf's first key |
| OptimizedBTree.CutStrictlySorted | trees/OptimizedBTree.hpp:413-446 | cutting ascending keys gives two ascending halves, the left one below the first key of the right one |
| OptimizedBTree.SplitLeafKeepsPairs | trees/OptimizedBTree.hpp:394-446 | splitting a full ascending leaf at the key's lower bound gives ascending halves separated by the new first key, sends the key to the side its slot says, and together they map the new key to its value and every other key as before |
| OptimizedBTree.SplitRetarget | trees/OptimizedBTree.hpp:132-139 | after a split the fast path stays on the old leaf and ends at the new first key when the pair went left, and moves to the new leaf from its first key, keeping its upper bound, when it went right (see also lines 314-324) |
| OptimizedBTree.SplitSides | trees/OptimizedBTree.hpp:314-324 | after a split the fast path is on the half that took the pair and accepts only keys on that side of the new leaf's first key (see also lines 394-446) |
| OptimizedBTree.Retarget | trees/OptimizedBTree.hpp:106-114 | a regular insert moves the fast path to the leaf reached, from its first key (the new key for an empty leaf) up to the descent's `leaf_max` |
| OptimizedBTree.Insert | trees/OptimizedBTree.hpp:87-142 | `insert` counts one more tuple when it succeeds and keeps root and head |
| OptimizedBTree.InsertFastPath | trees/OptimizedBTree.hpp:285-331 | the fast-path insert counts one more tuple when it succeeds and keeps root and head |
| OptimizedBTree.SplitInsert | trees/OptimizedBTree.hpp:314-324 | the split path keeps root, head, count and hits (see also lines 394-497) |
| OptimizedBTree.FastHit | trees/OptimizedBTree.hpp:92-95 | a key in the fast-path range whose leaf has room or already holds it goes into that leaf: one hit and one tuple more, the leaf stays ascending, maps the key to the new value and other keys as before, and no other page changes (see also lines 285-294) |
| OptimizedBTree.FastHitKeepsSound | trees/OptimizedBTree.hpp:285-294 | a fast-path hit keeps a sound fast path sound |
| OptimizedBTree.FastHitReads | trees/OptimizedBTree.hpp:285-294 | when the descent agrees with the fast path, `get` reads back what a fast-path hit wrote (see also lines 162-174) |
| OptimizedBTree.RegularFits | trees/OptimizedBTree.hpp:98-122 | a regular insert the leaf takes moves the fast path as `Retarget` says, counts one more tuple without a new page, and `get` reads the value back |
| OptimizedBTree.RegularKeepsOthers | trees/OptimizedBTree.hpp:98-122 | a regular insert the leaf takes changes no descent and no other key's read |
| OptimizedBTree.RegularSound | trees/OptimizedBTree.hpp:98-122 | a regular insert the leaf takes keeps the fast path sound when the leaf lies inside its descent window (see also lines 347-368) |
| OptimizedBTree.RetargetCoversKey | trees/OptimizedBTree.hpp:106-114 | after a regular insert the fast path takes the key just inserted exactly when the key is not below the leaf's first key and is not `INT_MAX` (see also lines 347-368) |
| OptimizedBTree.RegularLeafAsWritten | trees/OptimizedBTree.hpp:117-140 | as written, the regular path splits exactly when the leaf holds at least 459 pairs after `insert_sorted` |
| OptimizedBTree.RegularSplitDuplicatesKey | trees/OptimizedBTree.hpp:117-140 | as written, a new key that brings a leaf to 459 pairs is inserted twice: the split sees it at its slot and right after it, and the new leaf takes stale block entries that were never inserted (see also lines 413-431) |
| OptimizedBTree.SplitBlockDuplicates | trees/OptimizedBTree.hpp:413-431 | splitting a block that already holds the key at its slot shows the key twice, and the new leaf is the block from position 458 on |

## Left out

Corrected members the trees use in place of the code as written:

- LeafNode.ValueSlot: searches past an invalidated middle slot by key. The code steps `++left` (trees/LeafNode.hpp:112-125) and can miss a key it holds. That behaviour is `LeafNode.ValueSlotAsWritten`, shown by `LeafNode.ValueSlotAsWrittenLosesKey` (insert 5, 7, update 7, insert 3: `get(5)` returns nothing). `SimpleBPlusTree` reads through the corrected search.
- LeafNode.FreeSpace: the bytes between the slot directory, with room for one more slot, and the heap. The code adds `sizeof(PageHeader)` where it means to subtract it and ignores the heap (trees/LeafNode.hpp:148-150). That behaviour is `LeafNode.FreeSpaceAsWritten`, shown by `LeafNode.FreeSpaceExample` (4120 free bytes on an empty leaf).
- LeafNode.IsNearlyFull: uses the corrected free space. Over the written one, `is_nearly_full` depends on the slot count alone (`LeafNode.IsNearlyFullAsWritten`, shown by `LeafNode.NearlyFullIgnoresHeap`). No tree in the model calls it.
- LeafNode.CanInsert: refuses a tuple longer than the heap top. The code computes `heap_end - len` in `size_t` (trees/LeafNode.hpp:153), which wraps and accepts such a tuple. That behaviour is `LeafNode.CanInsertAsWritten`, shown by `LeafNode.CanInsertWrapExample` (a 5002-byte VARCHAR tuple on an empty leaf). `LeafNode.CanInsertAgrees` proves the two agree on every shorter tuple.
- LogLeaf.CanInsert: drops the same `size_t` wrap of `can_insert` (trees/AppendOnlyLeafNode.hpp:117-122, trees/LasLeafNode.hpp:127-132). The wrap is the one `LeafNode.CanInsertWrapExample` exhibits. No separate as-written twin exists for the log leaves.
- LeafNode.SplitInto: moves the whole tail of the slot directory. The code (trees/LeafNode.hpp:232-265) moves only ⌈m/2⌉ of the m tail slots. That behaviour is `LeafNode.SplitIntoAsWritten`, shown by `LeafNode.SplitIntoAsWrittenLosesKey`.
- SimpleBPlusTree.SplitLeaf: compacts the old leaf after the split, so the bytes of the moved tuples are free again. The code (trees/SimpleBPlusTree.hpp:240-250) does not compact, and the re-insert into the old leaf can fail silently. That behaviour is `SimpleBPlusTree.SplitLeafAsWritten`, shown by `SimpleBPlusTree.LostTupleExample`. `SimpleBPlusTree.SplitLeafAcceptsMore` proves the corrected split stores the tuple whenever the written one does.
- LogLeaf.Erase: clears the sorted flag. The code (trees/LasLeafNode.hpp:234-258) leaves the flag set, so the halving search of `get` then returns an erased tuple. That behaviour is `LogLeaf.EraseAsWritten` (and `LasLeafNode.Remove`), shown by `LasLeafNode.EraseOnSortedLeafKeepsKey`. `LasLeafNode.EraseHidesKey` proves the corrected erase hides the key.
- AppendOnlyLeafNode.Erase: writes a marker tuple typed by the schema. The code builds `Tuple(td.size())` of int fields (trees/AppendOnlyLeafNode.hpp:193-216), whose serialisation throws `bad_variant_access` on a CHAR, DOUBLE or VARCHAR column. That behaviour is `AppendOnlyLeafNode.EraseAsWritten`, shown by `AppendOnlyLeafNode.BenchmarkEraseNeverErases` and `LeafTuples.BenchmarkTombstoneThrows`.
- LeafNodeLSM.Erase: the same corrected marker, for trees/LeafNodeLSM.hpp:112-130. The as-written twin is `LeafNodeLSM.EraseAsWritten`, shown by `LeafNodeLSM.BenchmarkEraseNeverErases`.
- LeafNodeLSM.InitLinked: keeps the next id and cold flag it is given. The code then overwrites the whole `leaf_info` with `{0, false, false}` (trees/LeafNodeLSM.hpp:75-78). That behaviour is `LeafNodeLSM.InitAsWritten`, shown by `LeafNodeLSM.InitForgetsLink`.
- LogLeaf.Update: counts an update as no new tuple. `AppendOnlyLeafNode::update` adds 2 to `size` (trees/AppendOnlyLeafNode.hpp:184-190). That behaviour is `AppendOnlyLeafNode.UpdateAsWritten`, shown by `AppendOnlyLeafNode.UpdateCountsTwice`.
- BTreeNode.QuickPartitionFixed: sets the sorted flag only when the kept keys ascend. `BTreeNode.QuickPartition` is the code as written (trees/BTreeNode.hpp:203-239), shown by `BTreeNode.QuickPartitionLosesKeys`.
- LasTree.SortStepColdFixed: drops every popped leaf from the cold set. `LasTree.SortStepCold`, which `LasTree.SortStep` uses, is the code as written (trees/LasTree.hpp:776-790), shown by `LasTree.SortedLeafStaysCold`.

`OptimizedBTree` differences:

- OptimizedBTree.InsertRegular: splits the leaf only when `insert_sorted` refuses the pair. The code (trees/OptimizedBTree.hpp:117-140) ignores that answer and splits whenever the leaf is nearly full, that is at least 459 pairs, re-inserting the pair in the split. That behaviour is `OptimizedBTree.RegularLeafAsWritten`, shown by `OptimizedBTree.RegularSplitDuplicatesKey`: the key appears twice and stale block entries enter the new leaf. The tree-level insert of the model does not reproduce the duplicate.
- SimpleBPlusTree.InsertWithSplit: does not prove that `get` reads the new tuple back through the tree after a split. That needs an invariant, which the model does not carry, that each key of a node lies inside the key window of its parent's slot. It also needs a routing theorem through `NodeStore.InternalInsert` for cascading splits. What is proved: entries are conserved, the invariant holds, each leaf other than the split one is unchanged, and the half on the key's side of the split key reads the tuple (`SimpleBPlusTree.SplitLeafPlaces`).
- LasTree.InsertIntoLeaf: likewise does not prove `get` read-back through the tree after a split, for the same reason. What is proved is leaf-level: `LasTree.SplitLeafPlaces` shows the two halves together read every old key as before and the new key in its half. The fast-path placement is proved as well.
- OptimizedBTree.SplitInsert: likewise does not prove `get` read-back through the tree after a split. What is proved is leaf-level: `OptimizedBTree.SplitLeafKeepsPairs` shows the two halves map the new key to its value and every other key as before. It also shows the new key lies on the side of the new leaf's first key that holds it.
- OptimizedBTree.SplitInsert: carries the split key up through `NodeStore`. That code uses `InternalNode`'s capacity 510, the split position 255 and the corrected `TreeIndex.SplitEntry`. The class's internal nodes are `BTreeNode`s with `internal_capacity` 509 (trees/BTreeNode.hpp:17-24, 39-41) and `SPLIT_INTERNAL_POS` 254. Its own split (trees/OptimizedBTree.hpp:528-610) is `TreeIndex.SplitEntryAsWritten`, shown by `TreeIndex.SplitEntryAsWrittenDropsKey` and `TreeIndex.SplitEntryAsWrittenDropsChild`. That split agrees with `TreeIndex.SplitEntry` when the new key lands right of the split position.
- OptimizedBTree.SplitInsert: takes the new block id from the tree's page counter (`NodeStore.NextId`). `InMemoryBlockManager::allocate` throws "out of capacity" once every block is handed out (trees/MemoryBlockManager.hpp:42-45), so the model never fails where the class would throw. `BlockManager.Allocate` models the check on its own.

Reads:

- LogLeaf.Get: on a sorted leaf the model's halving search answers "absent" when it lands on a delete record. The code (trees/LasLeafNode.hpp:275-289) deserialises the record and returns it when the key matches. A sorted leaf holds no delete record unless `erase` ran on it as written: the leaf invariant `Valid` rules it out (`LogLeaf.SortedLeafHasNoMarker`), and the counterexample is `LasLeafNode.EraseOnSortedLeafKeepsKey`.
- LeafNodeLSM.FreeSpace: `layout.free_space()` and `heap_end` are not defined in trees/PageLayout.hpp. The model reconstructs free space as the heap end minus `metadata_end_offset(slot_count)`, that is `heap_end − (34 + 4·slots)` with `META_END` = 2 + 24 + 8 (trees/PageLayout.hpp:23-31).
- SimpleBPlusTree.LeafRange: stands in for `LeafNode::get_range`, which `SimpleBPlusTree::range` calls (trees/SimpleBPlusTree.hpp:129) but `LeafNode` does not define. The model takes it to return the leaf's valid entries with keys in `[lo, hi]`.
- SimpleBPlusTree.RangeBounds: proves only soundness, that every returned entry is in range and held by a leaf, plus the first leaf's part. It does not prove completeness, that every stored entry in range is returned: that needs the whole leaf chain to be ordered, which the tree invariant does not carry.
- LasTree.RangeBounds: soundness only, for the same reason.
- LasTree.Contains: `LasTree::contains` calls a `find_leaf(leaf, key)` overload that the class does not declare (trees/LasTree.hpp:258-263). The model takes it to mean the descent `get` uses.
- NodeStore.FindPath: reads an internal page as the tree last wrote it. The trees read pages through `internal_t node(page)`, but the only one-argument `InternalNode` constructor (trees/InternalNode.hpp:26-32) sets `size` to 0, which would empty every page on load. The two-argument constructor the trees call to create a node (trees/SimpleBPlusTree.hpp:67, trees/LasTree.hpp:73) is not defined either. The model reads the one-argument form as "load" and the two-argument form as "create".

Writes that fail part-way, and code that does not compile as written:

- LeafTuples.InsertTuple: an error returns no leaf. In the code, `insert` has already lowered `heap_end` and written the op byte when `td.serialize` throws, and has already written the slot and raised `slot_count` and `size` when `extract_key` throws (trees/AppendOnlyLeafNode.hpp:157-172, trees/LasLeafNode.hpp:175-190). The model does not describe the leaf those exceptions leave behind.
- LasTree.Update: `keyOf` stands for `extract_key` and is total. The throwing cases of `extract_key` are the ones admitted under `LeafTuples.InsertTuple`.
- NodeStore.CreateNewRoot: `create_new_root` calls `left_child.copyInfoFrom(old_root)` (trees/SimpleBPlusTree.hpp:396, trees/LasTree.hpp:727), which `InternalNode` does not declare. The model gives the copy its own id and the old root's size, keys and children, which is what the `memcpy` calls after it do.
- SimpleBPlusTree.SplitLeaf: `leaf_t` passes four template arguments to `LeafNode` (trees/SimpleBPlusTree.hpp:30), which takes three (trees/LeafNode.hpp:16). The model has no split percentage for `LeafNode`. The same member also reads `key_type split_key = leaf.split_into(new_leaf)` (trees/SimpleBPlusTree.hpp:240), where `split_into` returns a pair (trees/LeafNode.hpp:232). The model takes the split key to be the pair's first component.
- Keys: keys are unbounded `int`. The C++ `key_type` is a 32-bit `int`, and the model makes its width explicit only at the `INT_MIN`/`INT_MAX` sentinels and the fast path's `±1` (`Base.Wrap32`). Keys that come from tuples are 32-bit (`Tuples.IntRoundTrip`).

Bounded recursion:

- NodeStore.FindPath: gives the descent at most as many steps as the tree has pages (fuel). A descent through distinct pages never needs more. A page map with a cycle gives an error instead of the endless loop of the code.
- NodeStore.ScanChain: the range walk along the leaf chain has the same bound and the same error for a cycle.

Not modelled:

- Threads, locks and atomics:
  - `LasTree`'s background sort thread, leaf read-write locks and the queue and cold-set mutexes (trees/LasTree.hpp:84, 404-408, 750-790);
  - `OptimizedBTree`'s `tree_mutex`;
  - the atomic page counters.

  Every operation is modelled as running alone. `LasTree.SortStep` is one step of the worker, taken whenever the caller chooses.
- OptimizedBTree: the `SORT_ON_SPLIT`, `APPEND` and `SORT_ON_MOVE` policy branches are not modelled, because the constructor always sets `ALWAYS_SORTED` (trees/OptimizedBTree.hpp:45). The background thread it never starts is not modelled either.
- BufferPool: `pin_page` and `unpin_page` are not modelled, because their bodies are empty in trees/BufferPool.cpp. The `std::cout` logging of `BufferPool` and the trees, and the `print`/debug functions, are not modelled either.
- BufferPool: file reads and writes become the events the operations return, not I/O.
- Tuples: a DOUBLE field is carried as its 64-bit pattern, because no arithmetic is done on it. The `0.9` and `0.1` fullness thresholds are evaluated exactly as integer comparisons.
- `Database`, the benchmark driver, the plotting script and the test program are not part of this model. The benchmark's `{INT, CHAR}` schema appears only as `LeafTuples.BenchmarkSchema`.

## Findings

Nothing was executed; every row rests on a proof about the model.

| source | as written | input that shows it | evidently intended | confidence | as-written member | corrected member |
|---|---|---|---|---|---|---|
| trees/LeafNode.hpp:112-125 | `value_slot` steps `++left` past an invalid middle slot without comparing keys | insert 5, insert 7, update 7, insert 3, then `get(5)` | find every valid key | high, not executed | LeafNode.ValueSlotAsWrittenLosesKey | LeafNode.CorrectedKeepsKey |
| trees/LeafNode.hpp:232-265 | `split_into` loops to a `slot_count` it decrements, moving ⌈m/2⌉ of m tail slots | slots with keys 1, 2, 3 of 100, 6 and 6 bytes | move the whole tail | high, not executed | LeafNode.SplitIntoAsWrittenLosesKey | LeafNode.SplitIntoMovesTail |
| trees/LeafNode.hpp:152-159 | `heap_end - len` wraps in `size_t` | a 5002-byte tuple on an empty leaf | refuse tuples longer than the heap top | high, not executed | LeafNode.CanInsertWrapExample | LeafNode.CanInsert |
| trees/LeafNode.hpp:148-150 | `free_space` adds the page header instead of subtracting it and ignores the heap | an empty leaf reports 4120 free bytes | heap top minus directory end | high, not executed | LeafNode.FreeSpaceExample | LeafNode.IsFullIffCannotInsert |
| trees/BTreeNode.hpp:203-239 | `quick_partition` marks the kept part sorted without sorting it | keys 3, 1, 2, 0 | flag only an ascending part | high, not executed | BTreeNode.QuickPartitionLosesKeys | BTreeNode.QuickPartitionFixed |
| trees/AppendOnlyLeafNode.hpp:184-190 | `update` counts the tuple twice | insert 5, update 5 | count unchanged by an update | high, not executed | AppendOnlyLeafNode.UpdateCountsTwice | LogLeaf.Update |
| trees/AppendOnlyLeafNode.hpp:193-216 | the delete marker is a tuple of int fields | any key under the `{INT, CHAR}` schema | a marker typed by the schema | high, not executed | AppendOnlyLeafNode.BenchmarkEraseNeverErases | AppendOnlyLeafNode.BenchmarkEraseErases |
| trees/LeafNodeLSM.hpp:112-130 | the same int-field marker | any key under the `{INT, CHAR}` schema | a marker typed by the schema | high, not executed | LeafNodeLSM.BenchmarkEraseNeverErases | LeafTuples.BenchmarkTombstoneSerializes |
| trees/LasLeafNode.hpp:234-258 | `erase` keeps the sorted flag | sorted leaf 1, 2, 3, `erase(2)`, `get(2)` | an erased key reads nothing | high, not executed | LasLeafNode.EraseOnSortedLeafKeepsKey | LasLeafNode.EraseHidesKey |
| trees/LeafNodeLSM.hpp:75-78 | the constructor overwrites `leaf_info` after setting it | id 1, next id 7, cold | keep next id and cold flag | high, not executed | LeafNodeLSM.InitForgetsLink | LeafNodeLSM.InitLinkedIsEmpty |
| trees/SimpleBPlusTree.hpp:240-250 | the re-insert after `split_into` can fail, and the tuple is lost while `size` grows | leaf of four tuples (1000, 1000, 1000, 500 bytes), insert key 0 of 700 bytes | the re-insert succeeds | high, not executed | SimpleBPlusTree.LostTupleExample | SimpleBPlusTree.SplitLeafAcceptsMore |
| trees/OptimizedBTree.hpp:117-140 | a nearly full leaf is split with the pair it already took | a sorted leaf of 458 pairs and a new key | insert the pair once | medium, not executed | OptimizedBTree.RegularSplitDuplicatesKey | OptimizedBTree.RegularFits |
| trees/LasTree.hpp:776-790 | a leaf already sorted stays in the cold set | queue `[id]`, set `{id}`, leaf sorted | a popped leaf can be queued again | medium, not executed | LasTree.SortedLeafStaysCold | LasTree.SortStepFixedRequeues |
| trees/OptimizedBTree.hpp:528-560 | the new internal node is sized `C - S - 1`, so `keys[pos]` is dropped | keys 10, 20, 30, 40 split at 2 with key 5 | insert, then cut | high, not executed | TreeIndex.SplitEntryAsWrittenDropsKey | TreeIndex.SplitEntryIsInsertThenCut |
| trees/OptimizedBTree.hpp:561-575 | with the new key at `pos` the last child is dropped | a full node and a key whose slot is `pos` | insert, then cut | high, not executed | TreeIndex.SplitEntryAsWrittenDropsChild | TreeIndex.SplitEntryIsInsertThenCut |

=== FILE: append_only_leaf_node.dfy ===
/**
  `AppendOnlyLeafNode`, a record-log leaf. It is the log leaf of
  `LogLeaf` with a 48-byte page header (it also stores its split
  policy) and whole-tuple delete markers built by `LeafTuples`. Inserting,
  reading, compacting and the quick-partition split are the shared
  operations; this module adds `update`, `erase` and the sorting split.
 */
module AppendOnlyLeafNode {
  import opened Base
  import opened Keys
  import opened Sorting
  import opened Tuples
  import opened LogRecords
  import opened LogLeaf
  import opened SortedLogs
  import opened LeafTuples
  import opened SortedSplit

  /** `BaseHeader` (2 bytes) and `PageHeader`: id (4), size (2), `leaf_info`
      (8), `slot_count` (8), the split policy (4), the two keys (4 each),
      `heap_end` (8), with the padding these fields need. */
  const HEADER_END: nat := 2 + 48

  // ---------------------------------------------------------------------
  // Update

  /** `update` as written: append the new version as `insert` does, then
      increment the count once more, where the comment on that line says an
      update does not count. */
  function UpdateAsWritten<T(==)>(n: Node<T>, k: int, item: T, tupleLen: nat): (r: (bool, Node<T>))
    ensures r.0 <==> CanInsert(n, HEADER_END, tupleLen + OP_SIZE)
    ensures !r.0 ==> r.1 == n
    ensures r.0 ==> forall j :: LogLookup(r.1.log, j) == if j == k then Some(item) else LogLookup(n.log, j)
    ensures r.0 ==> r.1.size == (n.size + 2) % 0x1_0000
    ensures n.Valid(HEADER_END) ==> r.1.Valid(HEADER_END)
  {
    var (ok, m) := Insert(n, HEADER_END, k, item, tupleLen);
    if ok then (true, m.(size := Inc16(m.size))) else (false, n)
  }

  /** A fresh leaf that takes key 5 and then an update of key 5 holds one
      live tuple but counts three; the corrected `LogLeaf.Update` counts
      one. */
  lemma UpdateCountsTwice<T>(a: T, b: T)
    ensures var n := Insert(Init(0, 1, false), HEADER_END, 5, a, 4);
      && n.0
      && UpdateAsWritten(n.1, 5, b, 4).0
      && UpdateAsWritten(n.1, 5, b, 4).1.size == 3
      && |Compact(UpdateAsWritten(n.1, 5, b, 4).1.log)| == 1
      && Update(n.1, HEADER_END, 5, b, 4).0
      && Update(n.1, HEADER_END, 5, b, 4).1.size == 1
  {
    InitIsEmpty<T>(0, 1, false);
    var n := Insert(Init(0, 1, false), HEADER_END, 5, a, 4).1;
    var m := UpdateAsWritten(n, 5, b, 4).1;
    assert n.log == [(5, Put(a, 4))];
    assert HeapBytes(n.log) == 5 by { assert n.log[..0] == []; }
    assert m.log == [(5, Put(a, 4)), (5, Put(b, 4))];
    CompactFromCompactedCount(m.log);
  }

  /** The compaction of a log of two inserts of the same key is one record. */
  lemma CompactFromCompactedCount<T>(log: seq<Record<T>>)
    requires |log| == 2 && log[0].0 == log[1].0 && log[0].1.Put? && log[1].1.Put?
    ensures |Compact(log)| == 1
  {
    var c := Compact(log);
    var k := log[0].0;
    forall i | 0 <= i < |c|
      ensures c[i].0 == k
    {
      assert c[i] in log;
    }
    CompactKeysLive(log, k);
    assert k in KeysOf(c);
    assert |c| < 2;
  }

  // ---------------------------------------------------------------------
  // Erase

  /** `erase` as written: build the marker as `LeafTuples.TombstoneAsWritten`
      does (setting the key field may throw), take its `length` (may
      throw), refuse when the marker does not fit, then `serialize` it (may
      throw) and append it as `LogLeaf.EraseAsWritten` does. */
  function EraseAsWritten<T(==)>(n: Node<T>, d: Desc, keyIndex: nat, k: int32): (r: Result<(bool, Node<T>)>)
    ensures keyIndex >= |d.types| ==> r.Err? && r.error.OutOfRange?
    ensures r.Ok? ==> keyIndex < |d.types|
    ensures r.Ok? && !r.value.0 ==> r.value.1 == n
    ensures r.Ok? && r.value.0 ==> Serialize(d, TombstoneAsWritten(d, keyIndex, k).value).Ok?
    ensures r.Ok? && r.value.0 ==> forall j ::
      LogLookup(r.value.1.log, j) == if j == k then None else LogLookup(n.log, j)
    ensures r.Ok? && r.value.0 ==> r.value.1.isSorted == n.isSorted
  {
    match TombstoneAsWritten(d, keyIndex, k)
    case Err(e) => Err(e)
    case Ok(t) =>
      match Length(d, t)
      case Err(e) => Err(e)
      case Ok(len) =>
        if !CanInsert(n, HEADER_END, len + OP_SIZE) then Ok((false, n))
        else if Serialize(d, t).Err? then Err(Serialize(d, t).error)
        else Ok(LogLeaf.EraseAsWritten(n, HEADER_END, k, len))
  }

  /** Under the benchmark schema (an INT key and a CHAR value) `erase`
      never appends a marker: when the 69-byte marker record does not fit
      it returns false, and otherwise it throws `bad_variant_access`. */
  lemma BenchmarkEraseNeverErases<T>(n: Node<T>, k: int32)
    ensures var r := EraseAsWritten(n, BenchmarkSchema(), 0, k);
      && (r.Ok? <==> !CanInsert(n, HEADER_END, 68 + OP_SIZE))
      && (r.Ok? ==> r.value == (false, n))
      && (r.Err? ==> r.error == BadVariantAccess)
  {
    var d := BenchmarkSchema();
    BenchmarkTombstoneThrows(k);
    var t := TombstoneAsWritten(d, 0, k).value;
    assert d.types[1..] == [CHAR];
    assert Length(d, t) == Ok(68);
  }

  /** `erase` with the typed marker of `LeafTuples.Tombstone` and the sorted
      flag cleared. It throws only where extracting a key would: a key
      index past the schema or a key column that is not INT. */
  function Erase<T(==)>(n: Node<T>, d: Desc, keyIndex: nat, k: int32): (r: Result<(bool, Node<T>)>)
    ensures r.Ok? <==> keyIndex < |d.types| && d.types[keyIndex] == INT
    ensures r.Ok? && !r.value.0 ==> r.value.1 == n
    ensures r.Ok? && r.value.0 ==> forall j ::
      LogLookup(r.value.1.log, j) == if j == k then None else LogLookup(n.log, j)
    ensures r.Ok? && n.Valid(HEADER_END) ==> r.value.1.Valid(HEADER_END)
    ensures r.Ok? && r.value.0 && n.Valid(HEADER_END) ==> forall j ::
      Get(r.value.1, j) == if j == k then None else Get(n, j)
  {
    match Tombstone(d, keyIndex, k)
    case Err(e) => Err(e)
    case Ok(t) =>
      TombstoneRoundTrip(d, keyIndex, k);
      Ok(LogLeaf.Erase(n, HEADER_END, k, Length(d, t).value))
  }

  /** Under the benchmark schema the corrected `erase` takes a 69-byte
      marker record and succeeds whenever it fits. */
  lemma BenchmarkEraseErases<T>(n: Node<T>, k: int32)
    ensures var r := Erase(n, BenchmarkSchema(), 0, k);
      && r.Ok?
      && (r.value.0 <==> CanInsert(n, HEADER_END, 68 + OP_SIZE))
  {
    var d := BenchmarkSchema();
    var t := Tombstone(d, 0, k).value;
    assert d.types[1..] == [CHAR];
    assert Length(d, t) == Ok(68);
  }

  // ---------------------------------------------------------------------
  // Splitting

  /** The sorting `split_into`: compact, clear the leaf, sort the compacted
      records by key and cut them as `SplitRun` does. */
  function SplitSorted<T(==)>(n: Node<T>, target: Node<T>): (r: (int, Node<T>, Node<T>))
    ensures r.1.isSorted && r.2.isSorted
    ensures r.1.nextId == target.id && r.2.nextId == n.nextId
    ensures r.1.id == n.id && r.2.id == target.id && r.1.isCold == n.isCold && r.2.isCold == target.isCold
    ensures r.0 == r.2.minKey
  {
    SplitRun(n, target, SortByKey(Compact(n.log)))
  }

  /** Re-insert the first three quarters of the run `s` into the cleared
      leaf and the rest into `target`, mark both sorted, link `target` after
      this leaf, and return `target`'s least key. */
  function SplitRun<T(==)>(n: Node<T>, target: Node<T>, s: seq<Record<T>>): (r: (int, Node<T>, Node<T>))
    ensures r.1.isSorted && r.2.isSorted
    ensures r.1.nextId == target.id && r.2.nextId == n.nextId
    ensures r.1.id == n.id && r.2.id == target.id && r.1.isCold == n.isCold && r.2.isCold == target.isCold
    ensures r.0 == r.2.minKey
  {
    var half := |s| * 3 / 4;
    var kept := Reinsert(Reset(n), HEADER_END, s[..half]);
    var moved := Reinsert(target, HEADER_END, s[half..]);
    (moved.minKey, kept.(isSorted := true, nextId := target.id), moved.(isSorted := true, nextId := n.nextId))
  }

  /** `split_into` under the leaf's split policy. The quick partition
      indexes an empty vector when nothing is live, an error here; the
      sorting split always returns a key. */
  function Split<T(==)>(n: Node<T>, target: Node<T>, policy: SplitPolicy): (r: (Result<int>, Node<T>, Node<T>))
    ensures r.0.Err? <==> policy == QuickPartition && |Compact(n.log)| == 0
    ensures r.0.Ok? ==> r.1.nextId == target.id && r.2.nextId == n.nextId
    ensures policy == SortOnSplit ==> r.1.isSorted && r.2.isSorted
  {
    match policy
    case QuickPartition => SplitQuick(n, HEADER_END, target)
    case SortOnSplit =>
      var (key, kept, moved) := SplitSorted(n, target);
      (Ok(key), kept, moved)
  }

  /** Both halves of a sorting split of a valid leaf into an empty one are
      valid sorted leaves: the old leaf holds the first three quarters of
      the sorted compacted records and counts them, the new leaf holds the
      rest and counts them. */
  lemma SplitSortedLeaves<T>(n: Node<T>, target: Node<T>)
    requires n.Valid(HEADER_END) && target.Valid(HEADER_END) && target.log == [] && target.size == 0
    ensures var s := SortByKey(Compact(n.log));
      var half := |s| * 3 / 4;
      var r := SplitSorted(n, target);
      && r.1.Valid(HEADER_END) && r.1.log == s[..half] && r.1.size == half
      && r.2.Valid(HEADER_END) && r.2.log == s[half..] && r.2.size == |s| - half
  {
    SortedCompaction(n.log);
    SplitRunLeaves(n, target, SortByKey(Compact(n.log)));
  }

  /** The same for any compacted, strictly key-sorted run no larger than
      the leaf's log. */
  lemma SplitRunLeaves<T>(n: Node<T>, target: Node<T>, s: seq<Record<T>>)
    requires n.Valid(HEADER_END) && target.Valid(HEADER_END) && target.log == [] && target.size == 0
    requires Compacted(s) && StrictlySorted(KeysOf(s))
    requires |s| <= |n.log| && HeapBytes(s) <= HeapBytes(n.log)
    ensures var half := |s| * 3 / 4;
      var r := SplitRun(n, target, s);
      && r.1.Valid(HEADER_END) && r.1.log == s[..half] && r.1.size == half
      && r.2.Valid(HEADER_END) && r.2.log == s[half..] && r.2.size == |s| - half
  {
    var half := |s| * 3 / 4;
    assert Reset(n).Valid(HEADER_END);
    RefillSlice(n, HEADER_END, Reset(n), s, 0, half);
    RefillSlice(n, HEADER_END, target, s, half, |s|);
    Relinked(Reinsert(Reset(n), HEADER_END, s[..half]).(isSorted := true), HEADER_END, target.id);
    Relinked(Reinsert(target, HEADER_END, s[half..]).(isSorted := true), HEADER_END, n.nextId);
  }

  /** The sorting split loses nothing: with something live the returned
      key is the least key moved, the key at three quarters of the sorted
      compacted records; every key below it reads in the old leaf what it
      read before and every other key reads so in the new leaf. */
  lemma SplitSortedKeeps<T>(n: Node<T>, target: Node<T>, k: int)
    requires n.Valid(HEADER_END) && Int32Keys(n.log)
    requires target.Valid(HEADER_END) && target.log == [] && target.size == 0 && target.minKey == INT_MAX
    ensures var s := SortByKey(Compact(n.log));
      var r := SplitSorted(n, target);
      && (|s| > 0 ==> r.0 == s[|s| * 3 / 4].0 && LogLookup(n.log, r.0).Some?)
      && (|s| == 0 ==> r.0 == INT_MAX)
      && Get(r.1, k) == (if k < r.0 then LogLookup(n.log, k) else None)
      && Get(r.2, k) == (if k >= r.0 then LogLookup(n.log, k) else None)
  {
    var c := Compact(n.log);
    var s := SortByKey(c);
    SortedCompaction(n.log);
    SortedRunLive(n.log);
    CompactLookup(n.log, k);
    CompactedPermutationLookup(s, c, k);
    SplitRunKeeps(n, target, s, k);
    if |s| > 0 {
      assert LogLookup(n.log, s[|s| * 3 / 4].0).Some?;
    }
  }

  /** Every key of the sorted compaction of a log of 32-bit keys is a live
      32-bit key of the log. */
  lemma SortedRunLive<T>(log: seq<Record<T>>)
    requires Int32Keys(log)
    ensures var s := SortByKey(Compact(log));
      forall i :: 0 <= i < |s| ==> s[i].0 <= INT_MAX && LogLookup(log, s[i].0).Some?
  {
    var c := Compact(log);
    var s := SortByKey(c);
    SortedCompaction(log);
    forall i | 0 <= i < |s|
      ensures s[i].0 <= INT_MAX && LogLookup(log, s[i].0).Some?
    {
      CompactedRecordLive(log, s[i]);
    }
  }

  /** A record left by compaction is a record of the log whose key is live. */
  lemma CompactedRecordLive<T>(log: seq<Record<T>>, x: Record<T>)
    requires Int32Keys(log) && x in Compact(log)
    ensures x.0 <= INT_MAX && LogLookup(log, x.0).Some?
  {
    var c := Compact(log);
    var i :| 0 <= i < |c| && c[i] == x;
    assert x in log;
    CompactedLookup(c, x.0);
    CompactLookup(log, x.0);
  }

  /** The same for any compacted, strictly key-sorted run of 32-bit keys no
      larger than the leaf's log, with `LogLookup(s, k)` for what the key
      reads. */
  lemma SplitRunKeeps<T>(n: Node<T>, target: Node<T>, s: seq<Record<T>>, k: int)
    requires n.Valid(HEADER_END)
    requires target.Valid(HEADER_END) && target.log == [] && target.size == 0 && target.minKey == INT_MAX
    requires Compacted(s) && StrictlySorted(KeysOf(s))
    requires |s| <= |n.log| && HeapBytes(s) <= HeapBytes(n.log)
    requires forall i :: 0 <= i < |s| ==> s[i].0 <= INT_MAX
    ensures var r := SplitRun(n, target, s);
      && (|s| > 0 ==> r.0 == s[|s| * 3 / 4].0)
      && (|s| == 0 ==> r.0 == INT_MAX)
      && Get(r.1, k) == (if k < r.0 then LogLookup(s, k) else None)
      && Get(r.2, k) == (if k >= r.0 then LogLookup(s, k) else None)
  {
    var half := |s| * 3 / 4;
    SplitRunLeaves(n, target, s);
    MovedMin(target, HEADER_END, s, half);
    if |s| > 0 {
      SortedCutLookup(s, half, k);
    }
  }
}

=== FILE: base.dfy ===
/**
  Machine integers, sentinels and the optional-value type shared by every
  module of the model.

  The trees are instantiated with 32-bit `int` keys, `uint16_t` node sizes and
  `uint32_t` node ids. Dafny's integers are unbounded, so the widths are
  subset types and every wrap-around the C++ code relies on is written out.
 */
module Base {

  const INT_MIN: int := -0x8000_0000
  const INT_MAX: int := 0x7FFF_FFFF

  /** `int` on the platforms the trees are built for. */
  type int32 = x: int | INT_MIN <= x <= INT_MAX

  /** `uint16_t`: node sizes and slot offsets. */
  type uint16 = x: int | 0 <= x < 0x1_0000

  /** `uint32_t`: node and page ids. */
  type uint32 = x: int | 0 <= x < 0x1_0000_0000

  /** `std::numeric_limits<node_id_t>::max()`, the "no node" id. */
  const INVALID_NODE_ID: uint32 := 0xFFFF_FFFF

  /** Two's-complement wrap of an arbitrary integer into `int`. */
  function Wrap32(x: int): (r: int32)
    ensures (r - x) % 0x1_0000_0000 == 0
    ensures INT_MIN <= x <= INT_MAX ==> r == x
  {
    var m := x % 0x1_0000_0000;
    if m > INT_MAX then m - 0x1_0000_0000 else m
  }

  /** `++` on a `uint16_t` field. */
  function Inc16(x: uint16): (r: uint16)
    ensures x < 0xFFFF ==> r == x + 1
    ensures x == 0xFFFF ==> r == 0
  {
    (x + 1) % 0x1_0000
  }

  /** `--` on a `uint16_t` field: decrementing 0 gives 65535. */
  function Dec16(x: uint16): (r: uint16)
    ensures x > 0 ==> r == x - 1
    ensures x == 0 ==> r == 0xFFFF
  {
    (x - 1) % 0x1_0000
  }

  /** `bp_node_type`, the `type` word every page starts with: LEAF is 0,
      INTERNAL is 1. */
  datatype NodeType = Leaf | Internal

  /** `SplitPolicy`, how an append-only leaf splits: partition the
      compacted records around the key at three quarters of them, or sort
      them and cut at three quarters. */
  datatype SplitPolicy = QuickPartition | SortOnSplit

  /** `DEFAULT_PAGE_SIZE` and the block manager's `BLOCK_SIZE_BYTES`. */
  const BLOCK_SIZE: nat := 4096

  datatype Option<T> = None | Some(value: T)

  /** The C++ exceptions the modelled code throws. */
  datatype Error =
    | LogicError(what: string)
    | OutOfRange(what: string)
    | RuntimeError(what: string)
    | BadVariantAccess

  datatype Result<T> = Ok(value: T) | Err(error: Error)

  /** A byte of a page or of a `std::string`. */
  type byte = x: int | 0 <= x < 0x100

  function Min(a: int, b: int): int { if a <= b then a else b }
  function Max(a: int, b: int): int { if a >= b then a else b }
}

=== FILE: basic_btree_node.dfy ===
/**
  `BasicBTreeNode`: the plain sorted node without the sorted and cold flags.
  The header is id, next id, size and type (12 bytes); the key array follows
  it, then the value array of a leaf or the child array of an internal node.
  Keys are always searched with the library bounds: the node relies on its
  keys being kept in ascending order by `insert_sorted`.
 */
module BasicBTreeNode {
  import opened Base
  import opened Keys
  import opened KeyValues

  /** `node_info`: two 4-byte ids and two `uint16_t`. */
  const NODE_INFO_SIZE: nat := 12
  const KEY_SIZE: nat := 4
  const VALUE_SIZE: nat := 4
  const NODE_ID_SIZE: nat := 4

  const LEAF_CAPACITY: nat := (BLOCK_SIZE - NODE_INFO_SIZE) / (KEY_SIZE + VALUE_SIZE)
  const INTERNAL_CAPACITY: nat :=
    (BLOCK_SIZE - NODE_INFO_SIZE - NODE_ID_SIZE) / (KEY_SIZE + NODE_ID_SIZE)

  /** `keys` has the header's `size` entries; `values` is meaningful for a
      leaf and `children` for an internal node. */
  datatype Node<V> = Node(
    id: uint32,
    nextId: uint32,
    kind: NodeType,
    keys: seq<int>,
    values: seq<V>,
    children: seq<uint32>)

  /** The initialising constructor: the requested type and no keys. The ids
      are whatever the block already held. */
  function Init<V>(id: uint32, nextId: uint32, kind: NodeType): (r: Node<V>)
  {
    Node(id, nextId, kind, [], [], [])
  }

  lemma InitIsEmpty<V>(id: uint32, nextId: uint32, kind: NodeType)
    ensures var r := Init<V>(id, nextId, kind);
      && r.kind == kind && r.id == id && r.nextId == nextId
      && |r.keys| == 0 && |r.values| == 0
      && !IsFull(r)
      && (forall k :: ValueSlot(r, k) == 0 && ChildSlot(r, k) == 0)
      && MinKey(r).Err? && MaxKey(r).Err?
  {
  }

  /** `value_slot`: `std::lower_bound` over the keys. */
  function ValueSlot<V>(n: Node<V>, key: int): (r: nat)
    ensures r <= |n.keys|
    ensures Sorted(n.keys) ==> r == LowerBound(n.keys, key)
  {
    if Sorted(n.keys) then StdLowerBoundSorted(n.keys, key); StdLowerBound(n.keys, key)
    else StdLowerBound(n.keys, key)
  }

  /** `child_slot`: `std::upper_bound` over the keys, the index of the first
      key above `key`. */
  function ChildSlot<V>(n: Node<V>, key: int): (r: nat)
    ensures r <= |n.keys|
    ensures Sorted(n.keys) ==> r == UpperBound(n.keys, key)
  {
    ChildSlotOf(n.keys, key)
  }

  /** `insert_sorted`: overwrite a present key's value; refuse a new key when
      the leaf is full; otherwise shift the tail right and store the pair at
      the value slot. */
  function InsertSorted<V>(n: Node<V>, key: int, value: V): (r: (bool, Node<V>))
    requires |n.keys| == |n.values|
    ensures |r.1.keys| == |r.1.values|
    ensures r.1.id == n.id && r.1.nextId == n.nextId && r.1.kind == n.kind && r.1.children == n.children
    ensures !r.0 ==> r.1 == n
  {
    var index := ValueSlot(n, key);
    if index < |n.keys| && n.keys[index] == key then
      (true, n.(values := n.values[index := value]))
    else if |n.keys| >= LEAF_CAPACITY then
      (false, n)
    else
      (true, n.(keys := InsertAt(n.keys, index, key), values := InsertAt(n.values, index, value)))
  }

  /** On a leaf whose keys ascend strictly (the only kind `insert_sorted`
      builds), inserting is a map update: the key reads back the new value,
      every other key reads back what it did, the order is kept, and the one
      refusal is a new key at a full leaf. */
  lemma InsertSortedIsMapUpdate<V>(n: Node<V>, key: int, value: V)
    requires |n.keys| == |n.values|
    requires StrictlySorted(n.keys)
    ensures var (ok, m) := InsertSorted(n, key, value);
      && (ok <==> key in n.keys || |n.keys| < LEAF_CAPACITY)
      && (ok ==> Lookup(m.keys, m.values, key) == Some(value))
      && (ok ==> forall k :: k != key ==> Lookup(m.keys, m.values, k) == Lookup(n.keys, n.values, k))
      && (ok ==> StrictlySorted(m.keys))
      && |m.keys| == if ok && key !in n.keys then |n.keys| + 1 else |n.keys|
  {
    assert Sorted(n.keys);
    var i := LowerBound(n.keys, key);
    LowerBoundFinds(n.keys, key);
    if key in n.keys {
      LookupOverwrite(n.keys, n.values, i, value);
    } else if |n.keys| < LEAF_CAPACITY {
      LookupInsertAt(n.keys, n.values, i, key, value);
    }
  }

  /** A new key that is accepted adds exactly its pair: every previous pair
      is kept. */
  lemma InsertSortedKeepsPairs<V>(n: Node<V>, key: int, value: V)
    requires |n.keys| == |n.values|
    requires Sorted(n.keys)
    requires key !in n.keys
    requires InsertSorted(n, key, value).0
    ensures var m := InsertSorted(n, key, value).1;
      multiset(Pairs(m.keys, m.values)) == multiset(Pairs(n.keys, n.values)) + multiset{(key, value)}
  {
    PairsInsertAt(n.keys, n.values, LowerBound(n.keys, key), key, value);
  }

  /** `is_full`: the capacity that applies to the node's type is reached. */
  predicate IsFull<V>(n: Node<V>) {
    if n.kind == Leaf then |n.keys| >= LEAF_CAPACITY else |n.keys| >= INTERNAL_CAPACITY
  }

  /** A leaf refuses an insertion exactly when it is full and the key is new. */
  lemma InsertRefusedIffFull<V>(n: Node<V>, key: int, value: V)
    requires |n.keys| == |n.values|
    requires n.kind == Leaf
    requires Sorted(n.keys)
    ensures !InsertSorted(n, key, value).0 <==> IsFull(n) && key !in n.keys
  {
    LowerBoundFinds(n.keys, key);
  }

  /** `min_key`: the first key; an empty node throws "Empty node". */
  function MinKey<V>(n: Node<V>): (r: Result<int>)
    ensures r.Ok? <==> |n.keys| > 0
    ensures r.Err? ==> r.error.RuntimeError?
    ensures r.Ok? ==> r.value in n.keys
    ensures r.Ok? && Sorted(n.keys) ==> forall i :: 0 <= i < |n.keys| ==> r.value <= n.keys[i]
  {
    if |n.keys| == 0 then Err(RuntimeError("Empty node")) else Ok(n.keys[0])
  }

  /** `max_key`: the last key; an empty node throws "Empty node". */
  function MaxKey<V>(n: Node<V>): (r: Result<int>)
    ensures r.Ok? <==> |n.keys| > 0
    ensures r.Err? ==> r.error.RuntimeError?
    ensures r.Ok? ==> r.value in n.keys
    ensures r.Ok? && Sorted(n.keys) ==> forall i :: 0 <= i < |n.keys| ==> r.value >= n.keys[i]
  {
    if |n.keys| == 0 then Err(RuntimeError("Empty node")) else Ok(n.keys[|n.keys| - 1])
  }
}

=== FILE: block_manager.dfy ===
/**
  `InMemoryBlockManager`: a fixed number of blocks handed out by a counter
  that only moves forward, plus the set of ids written since the last
  reset. The block contents are not modelled here: `OptimizedBTree` keeps
  its nodes in the node store of its own model, and the manager only
  decides which ids exist.

  The counter is a 32-bit atomic, so `fetch_add` wraps at `2^32`.
 */
module BlockManager {
  import opened Base

  datatype Manager = Manager(capacity: uint32, next: uint32, dirty: set<uint32>)

  /** The constructor: `capacity` blocks, none handed out, none dirty. */
  function Create(capacity: uint32): (r: Manager)
    ensures r.capacity == capacity && AllocatedCount(r) == 0 && r.dirty == {}
  {
    Manager(capacity, 0, {})
  }

  /** `reset`: the counter back to zero and no dirty block; the capacity
      stays. */
  function Reset(m: Manager): (r: Manager)
    ensures r.capacity == m.capacity && AllocatedCount(r) == 0 && r.dirty == {}
    ensures r == Create(m.capacity)
  {
    m.(next := 0, dirty := {})
  }

  /** `allocate`: take the counter's value and advance it; an id at or past
      the capacity throws "out of capacity", and the counter has moved all
      the same. */
  function Allocate(m: Manager): (r: (Result<uint32>, Manager))
    ensures r.1.capacity == m.capacity && r.1.dirty == m.dirty
    ensures r.1.next == (m.next + 1) % 0x1_0000_0000
    ensures r.0.Ok? <==> m.next < m.capacity
    ensures r.0.Ok? ==> r.0.value == m.next
    ensures r.0.Err? ==> r.0.error == RuntimeError("Memory block manager out of capacity")
  {
    var id := m.next;
    var m' := m.(next := Wrap32u(m.next + 1));
    if id >= m.capacity then (Err(RuntimeError("Memory block manager out of capacity")), m')
    else (Ok(id), m')
  }

  /** The counter's `fetch_add` on a 32-bit id. */
  function Wrap32u(x: nat): (r: uint32)
    ensures r == x % 0x1_0000_0000
  {
    x % 0x1_0000_0000
  }

  /** `mark_dirty`: remember the id. */
  function MarkDirty(m: Manager, id: uint32): (r: Manager)
    ensures r.dirty == m.dirty + {id}
    ensures r.capacity == m.capacity && r.next == m.next
  {
    m.(dirty := m.dirty + {id})
  }

  /** Marking an id dirty twice is marking it once, and marking never
      forgets an id. */
  lemma MarkDirtyIdempotent(m: Manager, id: uint32, other: uint32)
    ensures MarkDirty(MarkDirty(m, id), id) == MarkDirty(m, id)
    ensures other in m.dirty ==> other in MarkDirty(m, id).dirty
    ensures id in MarkDirty(m, id).dirty
  {
  }

  /** `open_block`: the block of an id below the capacity, "Invalid block
      ID" otherwise. The block is named by its id. */
  function OpenBlock(m: Manager, id: uint32): (r: Result<uint32>)
    ensures r.Ok? <==> id < m.capacity
    ensures r.Ok? ==> r.value == id
    ensures r.Err? ==> r.error == RuntimeError("Invalid block ID")
  {
    if id >= m.capacity then Err(RuntimeError("Invalid block ID")) else Ok(id)
  }

  /** `get_allocated_count`: the counter. */
  function AllocatedCount(m: Manager): (r: uint32)
  {
    m.next
  }

  /** `count` calls to `allocate` in a row, with their results in call
      order. */
  function AllocateMany(m: Manager, count: nat): (r: (seq<Result<uint32>>, Manager))
    ensures |r.0| == count
    ensures r.1.capacity == m.capacity && r.1.dirty == m.dirty
    decreases count
  {
    if count == 0 then ([], m)
    else
      var (init, m1) := AllocateMany(m, count - 1);
      var (last, m2) := Allocate(m1);
      (init + [last], m2)
  }

  /** From a fresh or reset manager, `count` allocations (fewer than `2^32`)
      return the ids `0, 1, 2, …` in call order while they are below the
      capacity and fail from there on, and the allocated count is the number
      of calls, failed ones included. */
  lemma {:induction false} AllocateInOrder(m: Manager, count: nat)
    requires m.next == 0
    requires count < 0x1_0000_0000
    ensures var (results, m') := AllocateMany(m, count);
      && AllocatedCount(m') == count
      && (forall i :: 0 <= i < count && i < m.capacity ==> results[i] == Ok(i as uint32))
      && (forall i :: m.capacity <= i < count ==> results[i].Err?)
    decreases count
  {
    if count > 0 {
      AllocateInOrder(m, count - 1);
      var (init, m1) := AllocateMany(m, count - 1);
      var (results, m') := AllocateMany(m, count);
      assert results[..count - 1] == init;
      forall i | 0 <= i < count - 1
        ensures results[i] == init[i]
      {
      }
    }
  }

  /** Allocations past the capacity keep failing: a failed call never
      hands out an id. */
  lemma AllocateFullStaysFull(m: Manager)
    requires m.capacity <= m.next < 0xFFFF_FFFF
    ensures Allocate(m).0.Err? && Allocate(Allocate(m).1).0.Err?
  {
  }
}

=== FILE: btree_node.dfy ===
/**
  `BTreeNode`: a fixed-size block holding a header (id, next id, size, type,
  sorted flag, cold flag) followed by a key array and, after it, either the
  value array of a leaf or the child array of an internal node.

  A node is a value here: the key array is `keys` (its length is the header's
  `size`), and the union of value and child arrays is kept as two fields of
  which only the one matching `kind` is meaningful. Operations that change a
  node return the new node.
 */
module BTreeNode {
  import opened Base
  import opened Keys
  import opened Sorting
  import opened KeyValues

  /** `node_info`: two 4-byte ids, two `uint16_t`, two `bool`, padded to 16. */
  const NODE_INFO_SIZE: nat := 16
  const KEY_SIZE: nat := 4
  /** Values are 4-byte integers in every tree that uses this node. */
  const VALUE_SIZE: nat := 4
  const NODE_ID_SIZE: nat := 4

  const LEAF_CAPACITY: nat := (BLOCK_SIZE - NODE_INFO_SIZE) / (KEY_SIZE + VALUE_SIZE)
  const INTERNAL_CAPACITY: nat :=
    (BLOCK_SIZE - NODE_INFO_SIZE - NODE_ID_SIZE) / (KEY_SIZE + NODE_ID_SIZE)

  datatype Node<V> = Node(
    id: uint32,
    nextId: uint32,
    kind: NodeType,
    isSorted: bool,
    isCold: bool,
    keys: seq<int>,
    values: seq<V>,
    children: seq<uint32>)
  {
    /** A leaf's arrays are parallel and fit in the block. */
    ghost predicate LeafShape() {
      |keys| == |values| <= LEAF_CAPACITY
    }

    /** The sorted flag does not lie. */
    ghost predicate FlagHonest() {
      isSorted ==> Sorted(keys)
    }
  }

  /** The constructor for a new node of the given type: empty, sorted, not
      cold. It does not write `id` or `next_id`; whatever the block held is
      passed in. */
  function Init<V>(id: uint32, nextId: uint32, kind: NodeType): (r: Node<V>)
  {
    Node(id, nextId, kind, true, false, [], [], [])
  }

  lemma InitIsEmpty<V>(id: uint32, nextId: uint32, kind: NodeType)
    ensures var r := Init<V>(id, nextId, kind);
      && r.kind == kind && r.id == id && r.nextId == nextId
      && |r.keys| == 0 && |r.values| == 0 && |r.children| == 0
      && r.isSorted && !r.isCold
      && r.LeafShape() && r.FlagHonest()
  {
  }

  /** `value_slot`: the library lower bound when the node claims to be
      sorted, otherwise a linear scan for the first key not below `key`. */
  function ValueSlot<V>(n: Node<V>, key: int): (r: nat)
    ensures r <= |n.keys|
    ensures n.FlagHonest() ==> r == LowerBound(n.keys, key)
    ensures !n.isSorted ==> forall i :: 0 <= i < r ==> n.keys[i] < key
    ensures !n.isSorted && r < |n.keys| ==> n.keys[r] >= key
  {
    if n.isSorted then
      if Sorted(n.keys) then StdLowerBoundSorted(n.keys, key); StdLowerBound(n.keys, key)
      else StdLowerBound(n.keys, key)
    else LowerBound(n.keys, key)
  }

  /** `child_slot`: the library upper bound over the keys. */
  function ChildSlot<V>(n: Node<V>, key: int): (r: nat)
    ensures r <= |n.keys|
    ensures Sorted(n.keys) ==> forall i :: 0 <= i < r ==> n.keys[i] <= key
    ensures Sorted(n.keys) ==> forall i :: r <= i < |n.keys| ==> n.keys[i] > key
  {
    ChildSlotOf(n.keys, key)
  }

  /** `insert_sorted`: overwrite the value of a present key, refuse a new key
      when full, otherwise shift the tail right and store the pair at the
      lower-bound slot. The returned flag is the C++ return value. */
  function InsertSorted<V>(n: Node<V>, key: int, value: V): (r: (bool, Node<V>))
    requires |n.keys| == |n.values|
    ensures |r.1.keys| == |r.1.values|
    ensures r.1.id == n.id && r.1.nextId == n.nextId && r.1.kind == n.kind
    ensures r.1.isCold == n.isCold && r.1.children == n.children
    ensures !r.0 ==> r.1 == n
    ensures r.0 ==> |r.1.keys| <= Max(|n.keys|, LEAF_CAPACITY)
    ensures |n.keys| <= |r.1.keys| <= |n.keys| + 1
  {
    var index := ValueSlot(n, key);
    if index < |n.keys| && n.keys[index] == key then
      (true, n.(values := n.values[index := value]))
    else if |n.keys| >= LEAF_CAPACITY then
      (false, n)
    else
      (true, n.(keys := InsertAt(n.keys, index, key),
                values := InsertAt(n.values, index, value),
                isSorted := true))
  }

  /** On an honest sorted leaf, `insert_sorted` acts as a map update: the key
      now reads back the new value, no other key changes, the order is kept,
      and the only refusal is a new key arriving at a full leaf, which changes
      nothing. */
  lemma InsertSortedIsMapUpdate<V>(n: Node<V>, key: int, value: V)
    requires |n.keys| == |n.values|
    requires n.isSorted && StrictlySorted(n.keys)
    ensures var (ok, m) := InsertSorted(n, key, value);
      && (ok <==> key in n.keys || |n.keys| < LEAF_CAPACITY)
      && (ok ==> Lookup(m.keys, m.values, key) == Some(value))
      && (ok ==> forall k :: k != key ==> Lookup(m.keys, m.values, k) == Lookup(n.keys, n.values, k))
      && (ok ==> m.isSorted && StrictlySorted(m.keys))
      && |m.keys| == if ok && key !in n.keys then |n.keys| + 1 else |n.keys|
  {
    assert Sorted(n.keys);
    LowerBoundFinds(n.keys, key);
    if key in n.keys {
      InsertSortedPresent(n, key, value);
    } else if |n.keys| < LEAF_CAPACITY {
      InsertSortedNew(n, key, value);
    }
  }

  /** On an honest sorted leaf `insert_sorted` refuses exactly a new key
      arriving at a full leaf. */
  lemma InsertSortedAccepts<V>(n: Node<V>, key: int, value: V)
    requires |n.keys| == |n.values|
    requires n.isSorted && StrictlySorted(n.keys)
    ensures InsertSorted(n, key, value).0 <==> key in n.keys || |n.keys| < LEAF_CAPACITY
  {
    assert Sorted(n.keys);
    LowerBoundFinds(n.keys, key);
  }

  /** The overwrite case of `insert_sorted`. */
  lemma InsertSortedPresent<V>(n: Node<V>, key: int, value: V)
    requires |n.keys| == |n.values|
    requires n.isSorted && StrictlySorted(n.keys)
    requires key in n.keys
    ensures InsertSorted(n, key, value).0
    ensures InsertSorted(n, key, value).1 == n.(values := InsertSorted(n, key, value).1.values)
    ensures Lookup(n.keys, InsertSorted(n, key, value).1.values, key) == Some(value)
    ensures forall k :: k != key ==>
      Lookup(n.keys, InsertSorted(n, key, value).1.values, k) == Lookup(n.keys, n.values, k)
  {
    assert Sorted(n.keys);
    var i := LowerBound(n.keys, key);
    LowerBoundFinds(n.keys, key);
    LookupOverwrite(n.keys, n.values, i, value);
  }

  /** The insertion case of `insert_sorted`, for a leaf with room. */
  lemma InsertSortedNew<V>(n: Node<V>, key: int, value: V)
    requires |n.keys| == |n.values| < LEAF_CAPACITY
    requires n.isSorted && StrictlySorted(n.keys)
    requires key !in n.keys
    ensures var (ok, m) := InsertSorted(n, key, value);
      && ok && m.isSorted && StrictlySorted(m.keys) && |m.keys| == |n.keys| + 1
      && Lookup(m.keys, m.values, key) == Some(value)
      && (forall k :: k != key ==> Lookup(m.keys, m.values, k) == Lookup(n.keys, n.values, k))
  {
    assert Sorted(n.keys);
    var i := LowerBound(n.keys, key);
    LookupInsertAt(n.keys, n.values, i, key, value);
  }

  /** `append`: write at the end and clear the sorted flag iff the key is
      below the previous last key. */
  function Append<V>(n: Node<V>, key: int, value: V): (r: (bool, Node<V>))
    requires |n.keys| == |n.values|
    ensures !r.0 <==> |n.keys| >= LEAF_CAPACITY
    ensures !r.0 ==> r.1 == n
    ensures r.0 ==> r.1.keys == n.keys + [key] && r.1.values == n.values + [value]
    ensures r.0 ==> r.1 == n.(keys := r.1.keys, values := r.1.values, isSorted := r.1.isSorted)
    ensures r.0 ==> (r.1.isSorted <==> n.isSorted && (|n.keys| == 0 || key >= n.keys[|n.keys| - 1]))
  {
    if |n.keys| >= LEAF_CAPACITY then (false, n)
    else
      var unsorted := |n.keys| > 0 && key < n.keys[|n.keys| - 1];
      (true, n.(keys := n.keys + [key], values := n.values + [value],
                isSorted := if unsorted then false else n.isSorted))
  }

  /** Appending keeps an honest flag honest: the flag stays set only when the
      new key extends a sorted run. */
  lemma AppendKeepsFlagHonest<V>(n: Node<V>, key: int, value: V)
    requires |n.keys| == |n.values|
    requires n.FlagHonest()
    ensures Append(n, key, value).1.FlagHonest()
  {
  }

  /** `sort`: on an unsorted node with more than one key, an ascending
      permutation of the (key, value) pairs with the flag set; otherwise no
      change. */
  function Sort<V>(n: Node<V>): (r: Node<V>)
    requires |n.keys| == |n.values|
    ensures |r.keys| == |r.values| == |n.keys|
    ensures multiset(Pairs(r.keys, r.values)) == multiset(Pairs(n.keys, n.values))
    ensures !n.isSorted && |n.keys| > 1 ==> r.isSorted && Sorted(r.keys)
    ensures n.isSorted || |n.keys| <= 1 ==> r == n
    ensures r == n.(keys := r.keys, values := r.values, isSorted := r.isSorted)
  {
    if !n.isSorted && |n.keys| > 1 then
      var sorted := SortByKey(Pairs(n.keys, n.values));
      PairsOfParts(sorted);
      n.(keys := KeysOf(sorted), values := ValuesOf(sorted), isSorted := true)
    else n
  }

  /** After `sort` the flag is honest, whatever the node was before, as long
      as a set flag was honest before. */
  lemma SortMakesFlagHonest<V>(n: Node<V>)
    requires |n.keys| == |n.values|
    requires n.FlagHonest()
    ensures Sort(n).FlagHonest()
    ensures |n.keys| > 1 ==> Sort(n).isSorted
  {
  }

  /** The pairs whose key is below `pivot`, in their original order. */
  function PairsBelow<V>(s: seq<(int, V)>, pivot: int): (r: seq<(int, V)>)
    ensures KeysOf(r) == Below(KeysOf(s), pivot)
    ensures multiset(r) <= multiset(s)
  {
    if |s| == 0 then []
    else
      assert KeysOf(s)[1..] == KeysOf(s[1..]);
      assert s == [s[0]] + s[1..];
      var rest := PairsBelow(s[1..], pivot);
      if s[0].0 < pivot then
        KeysOfAppend([s[0]], rest);
        [s[0]] + rest
      else rest
  }

  /** A pair survives the filter exactly when it is a pair of the input
      with its key below the pivot. */
  lemma {:induction false} PairsBelowMembers<V>(s: seq<(int, V)>, pivot: int, x: (int, V))
    ensures x in PairsBelow(s, pivot) <==> x in s && x.0 < pivot
  {
    if |s| > 0 {
      PairsBelowMembers(s[1..], pivot, x);
      var rest := PairsBelow(s[1..], pivot);
      assert PairsBelow(s, pivot) == if s[0].0 < pivot then [s[0]] + rest else rest;
      assert x in s <==> x == s[0] || x in s[1..];
    }
  }

  /** `quick_partition` as written: keep, in original order, the pairs whose
      key is below the median (`nth_element` at `n/2`), and set the sorted
      flag. The kept keys are not reordered. */
  function QuickPartition<V>(n: Node<V>): (r: (int, Node<V>))
    requires |n.keys| == |n.values|
    ensures |r.1.keys| == |r.1.values|
    ensures |n.keys| <= 1 ==> r == (0, n)
    ensures |n.keys| > 1 ==> |r.1.keys| == r.0
    ensures |n.keys| > 1 ==> r.0 <= |n.keys| / 2
    ensures |n.keys| > 1 ==> r.1.keys == Below(n.keys, NthElement(n.keys, |n.keys| / 2))
    ensures |n.keys| > 1 ==> multiset(Pairs(r.1.keys, r.1.values)) <= multiset(Pairs(n.keys, n.values))
    ensures |n.keys| > 1 ==>
      Pairs(r.1.keys, r.1.values) == PairsBelow(Pairs(n.keys, n.values), NthElement(n.keys, |n.keys| / 2))
    ensures |n.keys| > 1 ==> r.1.isSorted
  {
    if |n.keys| <= 1 then (0, n)
    else
      var median := NthElement(n.keys, |n.keys| / 2);
      var pairs := Pairs(n.keys, n.values);
      var left := PairsBelow(pairs, median);
      assert KeysOf(pairs) == n.keys;
      BelowNthElementBound(n.keys, |n.keys| / 2);
      PairsOfParts(left);
      (|left|, n.(keys := KeysOf(left), values := ValuesOf(left), isSorted := true))
  }

  /** The partition as evidently intended: same kept pairs, but the sorted
      flag is set only when the kept keys are in ascending order. */
  function QuickPartitionFixed<V>(n: Node<V>): (r: (int, Node<V>))
    requires |n.keys| == |n.values|
    ensures r.1.keys == QuickPartition(n).1.keys && r.1.values == QuickPartition(n).1.values
    ensures r.0 == QuickPartition(n).0
    ensures n.FlagHonest() ==> r.1.FlagHonest()
  {
    var (count, m) := QuickPartition(n);
    if |n.keys| <= 1 then (count, m)
    else (count, m.(isSorted := Sorted(m.keys)))
  }

  /** Whether `key` is found by the node's own search: the value slot is in
      range and holds the key (what `get`/`contains` of the trees test). */
  function Find<V>(n: Node<V>, key: int): (r: bool)
    ensures r ==> key in n.keys
  {
    var i := ValueSlot(n, key);
    i < |n.keys| && n.keys[i] == key
  }

  /** On a node that is sorted and says so, the search finds exactly the keys
      it holds. */
  lemma FindIffPresent<V>(n: Node<V>, key: int)
    requires n.isSorted && Sorted(n.keys)
    ensures Find(n, key) <==> key in n.keys
  {
    LowerBoundFinds(n.keys, key);
  }

  /** A node that `quick_partition` leaves holding keys [1, 0]: its flag is
      set, and searching for 0, which it holds, fails. */
  lemma QuickPartitionLosesKeys()
    ensures var n := Node(0, 0, Leaf, false, false, [3, 1, 2, 0], [30, 10, 20, 0], []);
      var m := QuickPartition(n).1;
      && m.keys == [1, 0] && m.isSorted
      && 0 in m.keys && !Find(m, 0)
  {
    var n := Node(0, 0, Leaf, false, false, [3, 1, 2, 0], [30, 10, 20, 0], []);
    var m := QuickPartition(n).1;
    assert m.keys == [1, 0] by {
      MedianExample();
      BelowExample();
    }
    LowerBoundExample();
  }

  lemma MedianExample()
    ensures NthElement([3, 1, 2, 0], 2) == 2
  {
    var s, t := [3, 1, 2, 0], [0, 1, 2, 3];
    PermutationExample(s, t);
    SortIntsIsSortedPermutation(s, t);
  }

  lemma PermutationExample(s: seq<int>, t: seq<int>)
    requires s == [3, 1, 2, 0] && t == [0, 1, 2, 3]
    ensures multiset(t) == multiset(s)
  {
    calc {
      multiset(s);
      multiset([3]) + multiset([1]) + multiset([2]) + multiset([0]);
      multiset([0]) + multiset([1]) + multiset([2]) + multiset([3]);
      multiset(t);
    }
  }

  lemma BelowExample()
    ensures Below([3, 1, 2, 0], 2) == [1, 0]
  {
    assert [3, 1, 2, 0][1..] == [1, 2, 0];
    assert [1, 2, 0][1..] == [2, 0];
    assert [2, 0][1..] == [0];
    assert [0][1..] == [];
    assert Below([0], 2) == [0];
  }

  lemma LowerBoundExample()
    ensures StdLowerBound([1, 0], 0) == 0
  {
    assert StdLowerBoundFrom([1, 0], 0, 0, 1) == 0;
  }

  /** `min_key`: `None` models the "Empty node" exception. */
  function MinKey<V>(n: Node<V>): (r: Option<int>)
    ensures r.Some? <==> |n.keys| > 0
    ensures r.Some? ==> r.value in n.keys
    ensures r.Some? && n.FlagHonest() ==> forall i :: 0 <= i < |n.keys| ==> r.value <= n.keys[i]
  {
    if |n.keys| == 0 then None
    else if n.isSorted then Some(n.keys[0])
    else Some(MinElement(n.keys))
  }

  /** `max_key`: `None` models the "Empty node" exception. */
  function MaxKey<V>(n: Node<V>): (r: Option<int>)
    ensures r.Some? <==> |n.keys| > 0
    ensures r.Some? ==> r.value in n.keys
    ensures r.Some? && n.FlagHonest() ==> forall i :: 0 <= i < |n.keys| ==> r.value >= n.keys[i]
  {
    if |n.keys| == 0 then None
    else if n.isSorted then Some(n.keys[|n.keys| - 1])
    else Some(MaxElement(n.keys))
  }

  /** `*std::min_element`. */
  function MinElement(s: seq<int>): (r: int)
    requires |s| > 0
    ensures r in s
    ensures forall i :: 0 <= i < |s| ==> r <= s[i]
  {
    if |s| == 1 then s[0]
    else
      var m := MinElement(s[1..]);
      assert forall i :: 1 <= i < |s| ==> s[i] == s[1..][i - 1];
      if s[0] <= m then s[0] else m
  }

  /** `*std::max_element`. */
  function MaxElement(s: seq<int>): (r: int)
    requires |s| > 0
    ensures r in s
    ensures forall i :: 0 <= i < |s| ==> r >= s[i]
  {
    if |s| == 1 then s[0]
    else
      var m := MaxElement(s[1..]);
      assert forall i :: 1 <= i < |s| ==> s[i] == s[1..][i - 1];
      if s[0] >= m then s[0] else m
  }
}

=== FILE: buffer_pool.dfy ===
/**
  `BufferPool`: `POOL_SIZE` page frames shared by every file. A page id
  maps to the frame (slot) that holds it and back; the recency list holds
  the resident slots, most recent first; the free list holds the unused
  slots and hands out its back element first; the dirty set holds the
  slots written since they were last saved.

  Frame contents and the files themselves are not modelled: reading a
  page into a slot and writing a slot back are the events the operations
  return, in the order `BufferPool` performs them. `pin_page` and
  `unpin_page` have empty bodies in `BufferPool.cpp` and are not modelled.
 */
module BufferPool {
  import opened Base

  const POOL_SIZE: nat := 64

  datatype PageId = PageId(file: string, page: nat)

  datatype Event = ReadPage(pid: PageId, slot: nat) | WritePage(pid: PageId, slot: nat)

  datatype Pool = Pool(
    freeList: seq<nat>,
    pidToSlot: map<PageId, nat>,
    slotToId: map<nat, PageId>,
    dirty: set<nat>,
    lru: seq<nat>)

  predicate Distinct(s: seq<nat>) {
    forall i, j :: 0 <= i < j < |s| ==> s[i] != s[j]
  }

  /** What every operation keeps: the two maps are inverse bijections
      between the resident pages and their slots; the recency list holds
      each resident slot once; the free list holds the other slots once;
      every slot is below `POOL_SIZE`; only resident slots are dirty. */
  ghost predicate Inv(p: Pool) {
    && (forall pid :: pid in p.pidToSlot ==> p.pidToSlot[pid] in p.slotToId && p.slotToId[p.pidToSlot[pid]] == pid)
    && (forall s :: s in p.slotToId ==> p.slotToId[s] in p.pidToSlot && p.pidToSlot[p.slotToId[s]] == s)
    && Distinct(p.lru) && (forall s :: s in p.lru <==> s in p.slotToId)
    && Distinct(p.freeList) && (forall s :: s in p.freeList ==> s !in p.slotToId)
    && (forall s: nat :: (s in p.freeList || s in p.slotToId) <==> s < POOL_SIZE)
    && p.dirty <= p.slotToId.Keys
  }

  /** The slots `n - 1` down to `0`: what `std::iota` over the reversed
      free list writes. */
  function Countdown(n: nat): (r: seq<nat>)
    ensures |r| == n
    ensures forall i :: 0 <= i < n ==> r[i] == n - 1 - i
  {
    if n == 0 then [] else [n - 1] + Countdown(n - 1)
  }

  /** `s` without `x`, the rest in order. */
  function Remove(s: seq<nat>, x: nat): (r: seq<nat>)
    ensures forall y :: y in r <==> y in s && y != x
    ensures Distinct(s) ==> Distinct(r)
    ensures Distinct(s) && x in s ==> |r| == |s| - 1
    ensures x !in s ==> r == s
  {
    if |s| == 0 then []
    else if s[0] == x then
      assert Distinct(s) ==> x !in s[1..];
      Remove(s[1..], x)
    else
      var rest := Remove(s[1..], x);
      assert Distinct(s) ==> s[0] !in s[1..];
      [s[0]] + rest
  }

  /** The constructor: every slot free, nothing resident or dirty. */
  function Init(): (r: Pool)
    ensures Inv(r)
    ensures |r.freeList| == POOL_SIZE && r.freeList[POOL_SIZE - 1] == 0
    ensures r.pidToSlot == map[] && r.lru == [] && r.dirty == {}
  {
    var free := Countdown(POOL_SIZE);
    assert forall s: nat :: s in free <==> s < POOL_SIZE by {
      forall s: nat | s < POOL_SIZE
        ensures s in free
      {
        assert free[POOL_SIZE - 1 - s] == s;
      }
    }
    Pool(free, map[], map[], {}, [])
  }

  /** `contains`: whether the page is resident. */
  predicate Contains(p: Pool, pid: PageId) {
    pid in p.pidToSlot
  }

  /** `touch`: move a slot to the front of the recency list; a slot that is
      not on it throws. */
  function Touch(p: Pool, slot: nat): (r: Result<Pool>)
    ensures r.Ok? <==> slot in p.lru
    ensures r.Ok? ==> r.value.lru == [slot] + Remove(p.lru, slot)
    ensures r.Ok? ==> r.value == p.(lru := r.value.lru)
    ensures r.Ok? && Inv(p) ==> Inv(r.value)
  {
    if slot !in p.lru then Err(RuntimeError("touch: slot not found in slot_lru_map!"))
    else Ok(p.(lru := [slot] + Remove(p.lru, slot)))
  }

  /** `evict`: write the page back when it is dirty, then forget it in both
      maps and the recency list and put its slot at the back of the free
      list; a page that is not resident throws. */
  function Evict(p: Pool, pid: PageId): (r: Result<(Pool, seq<Event>)>)
    ensures r.Ok? <==> pid in p.pidToSlot
    ensures r.Ok? ==> var slot := p.pidToSlot[pid];
      && r.value.1 == (if slot in p.dirty then [WritePage(pid, slot)] else [])
      && r.value.0.freeList == p.freeList + [slot]
      && r.value.0.pidToSlot == p.pidToSlot - {pid}
      && slot !in r.value.0.dirty
  {
    if pid !in p.pidToSlot then Err(RuntimeError("evict: PageId not found in pid_to_slot!"))
    else
      var slot := p.pidToSlot[pid];
      var events := if slot in p.dirty then [WritePage(pid, slot)] else [];
      Ok((p.(dirty := p.dirty - {slot},
             pidToSlot := p.pidToSlot - {pid},
             slotToId := p.slotToId - {slot},
             lru := Remove(p.lru, slot),
             freeList := p.freeList + [slot]), events))
  }

  /** Evicting a resident page keeps the invariant and leaves its slot
      free and no longer resident. */
  lemma EvictKeepsInv(p: Pool, pid: PageId)
    requires Inv(p) && pid in p.pidToSlot
    ensures var (q, _) := Evict(p, pid).value;
      && Inv(q)
      && p.pidToSlot[pid] !in q.slotToId
      && q.slotToId == p.slotToId - {p.pidToSlot[pid]}
  {
    var slot := p.pidToSlot[pid];
    var (q, _) := Evict(p, pid).value;
    assert slot !in p.freeList;
    forall i, j | 0 <= i < j < |q.freeList|
      ensures q.freeList[i] != q.freeList[j]
    {
      if j == |q.freeList| - 1 {
        assert q.freeList[i] in p.freeList;
      }
    }
  }

  /** `fetch_slot`: the back of the free list when there is one, otherwise
      the least recently used slot, after evicting its page. */
  function FetchSlot(p: Pool): (r: Result<(nat, Pool, seq<Event>)>)
    ensures |p.freeList| > 0 ==> r == Ok((p.freeList[|p.freeList| - 1], p.(freeList := p.freeList[..|p.freeList| - 1]), []))
    ensures |p.freeList| == 0 && r.Ok? ==> |p.lru| > 0 && r.value.0 == p.lru[|p.lru| - 1]
  {
    if |p.freeList| > 0 then
      Ok((p.freeList[|p.freeList| - 1], p.(freeList := p.freeList[..|p.freeList| - 1]), []))
    else if |p.lru| == 0 then Err(RuntimeError("lru is empty"))
    else
      var slot := p.lru[|p.lru| - 1];
      if slot !in p.slotToId then Err(OutOfRange("slot_to_id.at"))
      else
        match Evict(p, p.slotToId[slot])
        case Err(e) => Err(e)
        case Ok((q, events)) =>
          if |q.freeList| == 0 then Err(RuntimeError("free list is empty"))
          else Ok((slot, q.(freeList := q.freeList[..|q.freeList| - 1]), events))
  }

  /** The invariant of a pool whose slot `slot` has just been taken: it is
      below `POOL_SIZE` and neither free, resident nor dirty, and every other
      slot keeps its place. */
  ghost predicate InvWithout(q: Pool, slot: nat) {
    && slot < POOL_SIZE && slot !in q.slotToId && slot !in q.freeList && slot !in q.dirty
    && Distinct(q.lru) && (forall s :: s in q.lru <==> s in q.slotToId)
    && (forall pid :: pid in q.pidToSlot ==> q.pidToSlot[pid] in q.slotToId && q.slotToId[q.pidToSlot[pid]] == pid)
    && (forall s :: s in q.slotToId ==> q.slotToId[s] in q.pidToSlot && q.pidToSlot[q.slotToId[s]] == s)
    && Distinct(q.freeList) && (forall s :: s in q.freeList ==> s !in q.slotToId)
    && (forall s: nat :: (s in q.freeList || s in q.slotToId || s == slot) <==> s < POOL_SIZE)
    && q.dirty <= q.slotToId.Keys
  }

  /** With a free slot, `fetch_slot` takes the back of the free list and
      touches nothing else. */
  lemma FetchFromFreeList(p: Pool)
    requires Inv(p) && |p.freeList| > 0
    ensures FetchSlot(p).Ok?
    ensures var (slot, q, events) := FetchSlot(p).value;
      InvWithout(q, slot) && events == [] && q.pidToSlot == p.pidToSlot
  {
    var n := |p.freeList|;
    var slot := p.freeList[n - 1];
    var q := p.(freeList := p.freeList[..n - 1]);
    assert slot in p.freeList;
    assert slot !in p.slotToId;
    assert slot !in q.freeList;
    assert forall s :: s in q.freeList ==> s in p.freeList;
    forall s: nat | s < POOL_SIZE
      ensures s in q.freeList || s in q.slotToId || s == slot
    {
      if s in p.freeList && s != slot {
        var i :| 0 <= i < n && p.freeList[i] == s;
        assert q.freeList[i] == s;
      }
    }
  }

  /** With no free slot, `fetch_slot` evicts the page of the least recently
      used slot, writing it back only when it is dirty, and hands out that
      slot. */
  lemma FetchByEviction(p: Pool)
    requires Inv(p) && |p.freeList| == 0
    ensures FetchSlot(p).Ok?
    ensures var (slot, q, events) := FetchSlot(p).value;
      && InvWithout(q, slot)
      && slot in p.slotToId && slot == p.lru[|p.lru| - 1]
      && q.pidToSlot == p.pidToSlot - {p.slotToId[slot]}
      && events == if slot in p.dirty then [WritePage(p.slotToId[slot], slot)] else []
  {
    assert 0 in p.freeList || 0 in p.slotToId;
    assert 0 in p.lru;
    var slot := p.lru[|p.lru| - 1];
    assert slot in p.slotToId;
    var prev := p.slotToId[slot];
    EvictKeepsInv(p, prev);
    var (q, events) := Evict(p, prev).value;
    assert q.freeList == [slot];
  }

  /** Under the invariant `fetch_slot` always succeeds, and the slot it
      returns is taken out of an otherwise intact pool. */
  lemma FetchSlotFacts(p: Pool)
    requires Inv(p)
    ensures FetchSlot(p).Ok?
    ensures var (slot, q, events) := FetchSlot(p).value;
      && InvWithout(q, slot)
      && (|p.freeList| > 0 ==> events == [] && q.pidToSlot == p.pidToSlot)
      && (|p.freeList| == 0 ==> slot in p.slotToId && q.pidToSlot == p.pidToSlot - {p.slotToId[slot]} && |events| <= 1)
  {
    if |p.freeList| > 0 {
      FetchFromFreeList(p);
    } else {
      FetchByEviction(p);
    }
  }

  /** `get_mut_page`: a resident page is touched and its slot returned
      without any read; otherwise a slot is fetched, the page is read into
      it, both maps record the pair and the slot goes to the front of the
      recency list. */
  function GetMutPage(p: Pool, pid: PageId): (r: Result<(nat, Pool, seq<Event>)>)
    ensures pid in p.pidToSlot && p.pidToSlot[pid] in p.lru ==> r.Ok?
    ensures r.Ok? ==> pid in r.value.1.pidToSlot && r.value.1.pidToSlot[pid] == r.value.0
    ensures r.Ok? ==> |r.value.1.lru| > 0 && r.value.1.lru[0] == r.value.0
    ensures pid in p.pidToSlot && r.Ok? ==> r.value.0 == p.pidToSlot[pid] && r.value.2 == [] && r.value.1.pidToSlot == p.pidToSlot
    ensures pid !in p.pidToSlot && r.Ok? ==> |r.value.2| > 0 && r.value.2[|r.value.2| - 1] == ReadPage(pid, r.value.0)
  {
    if pid in p.pidToSlot then
      var slot := p.pidToSlot[pid];
      match Touch(p, slot)
      case Err(e) => Err(e)
      case Ok(q) => Ok((slot, q, []))
    else
      match FetchSlot(p)
      case Err(e) => Err(e)
      case Ok((slot, q, events)) =>
        Ok((slot,
            q.(pidToSlot := q.pidToSlot[pid := slot],
               slotToId := q.slotToId[slot := pid],
               lru := [slot] + q.lru),
            events + [ReadPage(pid, slot)]))
  }

  /** `get_mut_page` keeps the invariant and always succeeds under it; a
      hit reads nothing and a miss reads the page exactly once, after at
      most one write-back of the page it evicts. */
  lemma GetMutPageKeepsInv(p: Pool, pid: PageId)
    requires Inv(p)
    ensures GetMutPage(p, pid).Ok?
    ensures Inv(GetMutPage(p, pid).value.1)
    ensures GetMutPage(p, pid).value.1.pidToSlot.Keys == p.pidToSlot.Keys + {pid} || |p.freeList| == 0
    ensures pid !in p.pidToSlot ==> |GetMutPage(p, pid).value.2| <= 2
  {
    if pid !in p.pidToSlot {
      FetchSlotFacts(p);
      var (slot, q, events) := FetchSlot(p).value;
      InstallKeepsInv(q, slot, pid);
    }
  }

  /** `contains` after `get_mut_page`: the fetched page is resident; no
      other page becomes resident; and while a frame is free no other page
      stops being resident, so only eviction removes one. */
  lemma ContainsAfterGetMutPage(p: Pool, pid: PageId, other: PageId)
    requires Inv(p)
    ensures GetMutPage(p, pid).Ok?
    ensures Contains(GetMutPage(p, pid).value.1, pid)
    ensures other != pid && Contains(GetMutPage(p, pid).value.1, other) ==> Contains(p, other)
    ensures other != pid && (Contains(p, pid) || |p.freeList| > 0) ==>
      (Contains(GetMutPage(p, pid).value.1, other) <==> Contains(p, other))
  {
    GetMutPageKeepsInv(p, pid);
    if pid !in p.pidToSlot {
      FetchSlotFacts(p);
    }
  }

  /** Recording a page that is not resident in a slot just taken out of
      the pool restores the invariant. */
  lemma InstallKeepsInv(q: Pool, slot: nat, pid: PageId)
    requires InvWithout(q, slot) && pid !in q.pidToSlot
    ensures Inv(q.(pidToSlot := q.pidToSlot[pid := slot], slotToId := q.slotToId[slot := pid], lru := [slot] + q.lru))
  {
    var r := q.(pidToSlot := q.pidToSlot[pid := slot], slotToId := q.slotToId[slot := pid], lru := [slot] + q.lru);
    assert slot !in q.lru;
    forall i, j | 0 <= i < j < |r.lru|
      ensures r.lru[i] != r.lru[j]
    {
      if i == 0 {
        assert r.lru[j] in q.lru;
      }
    }
    forall x | x in r.pidToSlot
      ensures r.pidToSlot[x] in r.slotToId && r.slotToId[r.pidToSlot[x]] == x
    {
      if x != pid {
        assert q.pidToSlot[x] != slot;
      }
    }
    forall s | s in r.slotToId
      ensures r.slotToId[s] in r.pidToSlot && r.pidToSlot[r.slotToId[s]] == s
    {
      if s != slot {
        assert q.slotToId[s] != pid;
      }
    }
  }

  /** `mark_dirty`: remember the page's slot as dirty; a page that is not
      resident throws. */
  function MarkDirty(p: Pool, pid: PageId): (r: Result<Pool>)
    ensures r.Ok? <==> pid in p.pidToSlot
    ensures r.Ok? ==> r.value == p.(dirty := p.dirty + {p.pidToSlot[pid]})
    ensures r.Ok? && Inv(p) ==> Inv(r.value)
  {
    if pid !in p.pidToSlot then Err(RuntimeError("mark_dirty: PageId not found in pid_to_slot!"))
    else Ok(p.(dirty := p.dirty + {p.pidToSlot[pid]}))
  }

  /** `flush`: write the page back only when its slot is dirty and clear
      the bit; a page that is not resident throws. */
  function Flush(p: Pool, pid: PageId): (r: Result<(Pool, seq<Event>)>)
    ensures r.Ok? <==> pid in p.pidToSlot
    ensures r.Ok? ==> var slot := p.pidToSlot[pid];
      && r.value.0 == p.(dirty := p.dirty - {slot})
      && r.value.1 == (if slot in p.dirty then [WritePage(pid, slot)] else [])
    ensures r.Ok? && Inv(p) ==> Inv(r.value.0)
  {
    if pid !in p.pidToSlot then Err(RuntimeError("flush: PageId not found in pid_to_slot!"))
    else
      var slot := p.pidToSlot[pid];
      if slot !in p.dirty then Ok((p, []))
      else Ok((p.(dirty := p.dirty - {slot}), [WritePage(pid, slot)]))
  }

  /** Flushing a page twice writes it at most once. */
  lemma FlushTwiceWritesOnce(p: Pool, pid: PageId)
    requires pid in p.pidToSlot
    ensures var (q, _) := Flush(p, pid).value;
      Flush(q, pid).value == (q, [])
  {
  }

  /** `flush_all`: every dirty slot is written back under the page it
      holds, in the unordered set's order, so the writes are a set here;
      afterwards nothing is dirty. A dirty slot without a page throws. */
  function FlushAll(p: Pool): (r: Result<(Pool, set<Event>)>)
    ensures r.Ok? <==> p.dirty <= p.slotToId.Keys
    ensures r.Ok? ==> r.value.0 == p.(dirty := {})
    ensures r.Ok? ==> forall s :: s in p.dirty ==> WritePage(p.slotToId[s], s) in r.value.1
    ensures r.Ok? ==> forall e :: e in r.value.1 ==> e.WritePage? && e.slot in p.dirty && e.pid == p.slotToId[e.slot]
    ensures r.Ok? && Inv(p) ==> Inv(r.value.0)
  {
    if !(p.dirty <= p.slotToId.Keys) then Err(OutOfRange("slot_to_id.at"))
    else
      var writes := set s | s in p.dirty :: WritePage(p.slotToId[s], s);
      Ok((p.(dirty := {}), writes))
  }

  /** Under the invariant `flush_all` always succeeds and writes one page
      per dirty slot. */
  lemma FlushAllWritesDirty(p: Pool)
    requires Inv(p)
    ensures FlushAll(p).Ok?
    ensures forall pid :: pid in p.pidToSlot ==>
      (WritePage(pid, p.pidToSlot[pid]) in FlushAll(p).value.1 <==> p.pidToSlot[pid] in p.dirty)
  {
    var writes := FlushAll(p).value.1;
    forall pid | pid in p.pidToSlot
      ensures WritePage(pid, p.pidToSlot[pid]) in writes <==> p.pidToSlot[pid] in p.dirty
    {
      var s := p.pidToSlot[pid];
      if s in p.dirty {
        assert WritePage(p.slotToId[s], s) in writes;
      }
    }
  }
}

=== FILE: internal_node.dfy ===
/**
  `InternalNode`: the routing page of `SimpleBPlusTree` and `LasTree`. A
  header (id, size, type) is followed by the key array and then the child
  array; a node with `size` keys has `size + 1` children, and child `i`
  holds the keys from `keys[i - 1]` (inclusive) up to `keys[i]` (exclusive).

  The page's type word is the tag of the page in the node store (see
  `NodeStore`), so it is not a field here.
 */
module InternalNode {
  import opened Base
  import opened Keys

  /** The capacity formula subtracts `sizeof(header)`, and `header` is a
      pointer member: 8 bytes on the 64-bit targets. The header struct itself
      is also 8 bytes, so the capacity is the one intended either way. */
  const HEADER_SIZE: nat := 8
  const KEY_SIZE: nat := 4
  const NODE_ID_SIZE: nat := 4
  const INTERNAL_CAPACITY: nat :=
    (BLOCK_SIZE - HEADER_SIZE - NODE_ID_SIZE) / (KEY_SIZE + NODE_ID_SIZE)

  datatype Node = Node(id: uint32, keys: seq<int>, children: seq<uint32>)
  {
    /** One more child than keys, keys ascending, and within capacity. */
    ghost predicate Valid() {
      |children| == |keys| + 1 && |keys| <= INTERNAL_CAPACITY && Sorted(keys)
    }
  }

  /** The constructor: type INTERNAL and size 0. Only the children array is
      left as the block held it, so the caller passes the first child it
      stores next. */
  function Init(id: uint32, firstChild: uint32): (r: Node)
    ensures r.id == id && |r.keys| == 0
    ensures r.Valid()
    ensures forall k :: ChildSlot(r, k) == 0 && Route(r, k) == firstChild
  {
    Node(id, [], [firstChild])
  }

  /** `child_slot`: `std::upper_bound` over the keys. */
  function ChildSlot(n: Node, key: int): (r: nat)
    ensures r <= |n.keys|
    ensures Sorted(n.keys) ==> forall i :: 0 <= i < r ==> n.keys[i] <= key
    ensures Sorted(n.keys) ==> forall i :: r <= i < |n.keys| ==> n.keys[i] > key
  {
    ChildSlotOf(n.keys, key)
  }

  /** The child a descent follows for `key`. */
  function Route(n: Node, key: int): (r: uint32)
    requires |n.children| == |n.keys| + 1
    ensures r in n.children
  {
    n.children[ChildSlot(n, key)]
  }

  /** A larger key never routes further left, sorted keys or not. */
  lemma ChildSlotMonotone(n: Node, k1: int, k2: int)
    requires k1 <= k2
    ensures ChildSlot(n, k1) <= ChildSlot(n, k2)
  {
    StdUpperBoundMonotone(n.keys, k1, k2);
  }

  /** Every key routes to the child whose separator range contains it: the
      separator on its left is at most the key and the one on its right is
      above it. */
  lemma RouteBetweenSeparators(n: Node, key: int)
    requires n.Valid()
    ensures var i := ChildSlot(n, key);
      (i > 0 ==> n.keys[i - 1] <= key) && (i < |n.keys| ==> key < n.keys[i])
  {
  }

  /** The documented example: with keys `[10, 20, 30]`, key 8 goes to child 0
      and key 20 to child 2. */
  lemma ChildSlotExample()
    ensures ChildSlot(Node(0, [10, 20, 30], [1, 2, 3, 4]), 8) == 0
    ensures ChildSlot(Node(0, [10, 20, 30], [1, 2, 3, 4]), 20) == 2
  {
    var n := Node(0, [10, 20, 30], [1, 2, 3, 4]);
    assert Sorted(n.keys);
    assert UpperBound(n.keys, 8) == 0;
    assert UpperBound(n.keys, 20) == 2 by {
      assert n.keys[1..] == [20, 30];
      assert n.keys[1..][1..] == [30];
    }
  }
}

=== FILE: key_values.dfy ===
/**
  Parallel key and value arrays read as a map: the pairs they hold, the
  value a reader finds for a key, and how positional updates change it.
 */
module KeyValues {
  import opened Base
  import opened Keys
  import opened Sorting

  /** The (key, value) pairs of a leaf in slot order. */
  function Pairs<V>(keys: seq<int>, values: seq<V>): (r: seq<(int, V)>)
    requires |keys| == |values|
    ensures |r| == |keys|
    ensures forall i :: 0 <= i < |r| ==> r[i] == (keys[i], values[i])
  {
    seq(|keys|, i requires 0 <= i < |keys| => (keys[i], values[i]))
  }

  function ValuesOf<V>(s: seq<(int, V)>): (r: seq<V>)
    ensures |r| == |s|
    ensures forall i :: 0 <= i < |s| ==> r[i] == s[i].1
  {
    seq(|s|, i requires 0 <= i < |s| => s[i].1)
  }

  lemma PairsOfParts<V>(s: seq<(int, V)>)
    ensures Pairs(KeysOf(s), ValuesOf(s)) == s
  {
  }

  /** The value stored with the first occurrence of `k`: what a reader of the
      leaf means by "the value of `k`", whatever order the slots are in. */
  function Lookup<V>(keys: seq<int>, values: seq<V>, k: int): (r: Option<V>)
    requires |keys| == |values|
    ensures r.Some? <==> k in keys
    ensures r.Some? ==> exists i :: 0 <= i < |keys| && keys[i] == k && values[i] == r.value
  {
    if |keys| == 0 then None
    else if keys[0] == k then Some(values[0])
    else
      var r := Lookup(keys[1..], values[1..], k);
      if r.Some? then
        ghost var i :| 0 <= i < |keys| - 1 && keys[1..][i] == k && values[1..][i] == r.value;
        assert keys[i + 1] == k && values[i + 1] == r.value;
        r
      else r
  }

  /** Overwriting the value at the first occurrence of its key. */
  lemma LookupOverwrite<V>(keys: seq<int>, values: seq<V>, i: nat, value: V)
    requires |keys| == |values|
    requires i < |keys|
    requires StrictlySorted(keys)
    ensures Lookup(keys, values[i := value], keys[i]) == Some(value)
    ensures forall k :: k != keys[i] ==> Lookup(keys, values[i := value], k) == Lookup(keys, values, k)
  {
    forall k | k in keys
      ensures Lookup(keys, values[i := value], k) == Some(if k == keys[i] then value else Lookup(keys, values, k).value)
    {
      var j :| 0 <= j < |keys| && keys[j] == k;
      LookupAt(keys, values[i := value], j);
      LookupAt(keys, values, j);
    }
  }

  /** In a strictly sorted key array the lookup of `keys[j]` is `values[j]`. */
  lemma LookupAt<V>(keys: seq<int>, values: seq<V>, j: nat)
    requires |keys| == |values|
    requires j < |keys|
    requires StrictlySorted(keys)
    ensures Lookup(keys, values, keys[j]) == Some(values[j])
  {
    var r := Lookup(keys, values, keys[j]);
    var i :| 0 <= i < |keys| && keys[i] == keys[j] && values[i] == r.value;
    if i < j {
      assert keys[i] < keys[j];
    } else if j < i {
      assert keys[j] < keys[i];
    }
  }

  /** Inserting a new key into a strictly sorted array at its lower bound. */
  lemma LookupInsertAt<V>(keys: seq<int>, values: seq<V>, i: nat, key: int, value: V)
    requires |keys| == |values|
    requires StrictlySorted(keys)
    requires key !in keys
    requires i == LowerBound(keys, key)
    ensures StrictlySorted(InsertAt(keys, i, key))
    ensures Lookup(InsertAt(keys, i, key), InsertAt(values, i, value), key) == Some(value)
    ensures forall k :: k != key ==>
      Lookup(InsertAt(keys, i, key), InsertAt(values, i, value), k) == Lookup(keys, values, k)
  {
    var ks, vs := InsertAt(keys, i, key), InsertAt(values, i, value);
    InsertAtLowerBoundSorted(keys, key);
    LookupAt(ks, vs, i);
    forall k | k != key
      ensures Lookup(ks, vs, k) == Lookup(keys, values, k)
    {
      if k in keys {
        var j :| 0 <= j < |keys| && keys[j] == k;
        LookupAt(keys, values, j);
        if j < i {
          assert ks[j] == k && vs[j] == values[j];
          LookupAt(ks, vs, j);
        } else {
          assert ks[j + 1] == k && vs[j + 1] == values[j];
          LookupAt(ks, vs, j + 1);
        }
      } else {
        assert k !in ks;
      }
    }
  }

  /** Shifting both arrays right at `i` and storing the pair there inserts
      that pair into the sequence of pairs at `i`. */
  lemma PairsInsertAt<V>(keys: seq<int>, values: seq<V>, i: nat, key: int, value: V)
    requires |keys| == |values|
    requires i <= |keys|
    ensures Pairs(InsertAt(keys, i, key), InsertAt(values, i, value)) == InsertAt(Pairs(keys, values), i, (key, value))
    ensures multiset(Pairs(InsertAt(keys, i, key), InsertAt(values, i, value))) ==
      multiset(Pairs(keys, values)) + multiset{(key, value)}
  {
    var l := Pairs(InsertAt(keys, i, key), InsertAt(values, i, value));
    var r := InsertAt(Pairs(keys, values), i, (key, value));
    assert |l| == |r|;
    forall j | 0 <= j < |l|
      ensures l[j] == r[j]
    {
    }
  }
}

=== FILE: keys.dfy ===
/**
  Key sequences: ordering predicates, the two bound searches every node
  uses (`std::lower_bound` and `std::upper_bound`), positional insertion and
  the filters used by the partitioning splits.
 */
module Keys {

  predicate Sorted(s: seq<int>) {
    forall i, j :: 0 <= i < j < |s| ==> s[i] <= s[j]
  }

  predicate StrictlySorted(s: seq<int>) {
    forall i, j :: 0 <= i < j < |s| ==> s[i] < s[j]
  }

  /** Index of the first element that is not below `k`, or `|s|` if there is
      none. On a sorted range this is what `std::lower_bound` returns; on any
      range it is what a left-to-right scan for `s[i] >= k` returns. */
  function LowerBound(s: seq<int>, k: int): (r: nat)
    ensures r <= |s|
    ensures forall i :: 0 <= i < r ==> s[i] < k
    ensures r < |s| ==> s[r] >= k
  {
    if |s| == 0 || s[0] >= k then 0 else 1 + LowerBound(s[1..], k)
  }

  /** Index of the first element above `k`, or `|s|`: `std::upper_bound`. */
  function UpperBound(s: seq<int>, k: int): (r: nat)
    ensures r <= |s|
    ensures forall i :: 0 <= i < r ==> s[i] <= k
    ensures r < |s| ==> s[r] > k
  {
    if |s| == 0 || s[0] > k then 0 else 1 + UpperBound(s[1..], k)
  }

  /** `memmove` the tail right by one and store `x` at `i`. */
  function InsertAt<T>(s: seq<T>, i: nat, x: T): (r: seq<T>)
    requires i <= |s|
    ensures |r| == |s| + 1
    ensures r[i] == x
    ensures forall j :: 0 <= j < i ==> r[j] == s[j]
    ensures forall j :: i < j < |r| ==> r[j] == s[j - 1]
    ensures multiset(r) == multiset(s) + multiset{x}
  {
    assert s == s[..i] + s[i..];
    s[..i] + [x] + s[i..]
  }

  /** `InsertAt` as the two sides of the cut with the element between. */
  lemma InsertAtConcat<T>(s: seq<T>, i: nat, x: T)
    requires i <= |s|
    ensures InsertAt(s, i, x) == s[..i] + ([x] + s[i..])
    ensures s == s[..i] + s[i..]
  {
  }

  /** Inserting at `i` and cutting at `p - 1` past it: the pieces a split
      builds when the new element stays left of the cut. */
  lemma InsertAtCutLeft<T>(s: seq<T>, i: nat, x: T, p: nat)
    requires i < p <= |s|
    ensures (s[..i] + [x] + s[i..p - 1]) + s[p - 1..] == InsertAt(s, i, x)
  {
    assert s[i..] == s[i..p - 1] + s[p - 1..];
  }

  /** Inserting at `i` at or right of the cut `p`: the pieces a split builds
      when the new element goes right of the cut. */
  lemma InsertAtCutRight<T>(s: seq<T>, i: nat, x: T, p: nat)
    requires p <= i <= |s|
    ensures s[..p] + (s[p..i] + [x] + s[i..]) == InsertAt(s, i, x)
  {
    assert s[..i] == s[..p] + s[p..i];
  }

  /** Elements below `pivot`, in their original order. */
  function Below(s: seq<int>, pivot: int): (r: seq<int>)
    ensures |r| <= |s|
    ensures forall x :: x in r <==> x in s && x < pivot
  {
    if |s| == 0 then []
    else if s[0] < pivot then [s[0]] + Below(s[1..], pivot)
    else Below(s[1..], pivot)
  }

  /** The halving step of the library searches, `__len >> 1`. */
  function Half(len: nat): (h: nat)
    ensures h <= len && (len > 0 ==> h < len)
  {
    len / 2
  }

  /** One round of the `std::lower_bound` loop on `s[first..first+len)`:
      with `middle` at `first + len / 2`, a middle element below `k` sends
      the search to the part after the middle, otherwise to the part before
      it. The result is the next `(first, len)`. */
  function LowerNext(s: seq<int>, k: int, first: nat, len: nat): (r: (nat, nat))
    requires first + len <= |s| && len > 0
    ensures first <= r.0 && r.0 + r.1 <= first + len && r.1 < len
  {
    var half := Half(len);
    if s[first + half] < k then (first + half + 1, len - half - 1) else (first, half)
  }

  /** One round of the `std::upper_bound` loop: a middle element above `k`
      sends the search to the part before the middle, otherwise to the part
      after it. */
  function UpperNext(s: seq<int>, k: int, first: nat, len: nat): (r: (nat, nat))
    requires first + len <= |s| && len > 0
    ensures first <= r.0 && r.0 + r.1 <= first + len && r.1 < len
  {
    var half := Half(len);
    if k < s[first + half] then (first, half) else (first + half + 1, len - half - 1)
  }

  /** The binary search `std::lower_bound` performs on `s[first..first+len)`
      (the libstdc++ halving loop). It is defined on every range; only on a
      sorted one does it agree with `LowerBound`. */
  function StdLowerBoundFrom(s: seq<int>, k: int, first: nat, len: nat): (r: nat)
    requires first + len <= |s|
    ensures first <= r <= first + len
    decreases len
  {
    if len == 0 then first
    else
      var next := LowerNext(s, k, first, len);
      StdLowerBoundFrom(s, k, next.0, next.1)
  }

  /** `std::upper_bound`'s halving loop on `s[first..first+len)`. */
  function StdUpperBoundFrom(s: seq<int>, k: int, first: nat, len: nat): (r: nat)
    requires first + len <= |s|
    ensures first <= r <= first + len
    decreases len
  {
    if len == 0 then first
    else
      var next := UpperNext(s, k, first, len);
      StdUpperBoundFrom(s, k, next.0, next.1)
  }

  /** The element before `lo`, where there is one, is below `k`. */
  predicate BelowBefore(s: seq<int>, k: int, lo: nat) {
    0 < lo <= |s| ==> s[lo - 1] < k
  }

  /** The element at `hi`, where there is one, is not below `k`. */
  predicate NotBelowAt(s: seq<int>, k: int, hi: nat) {
    hi < |s| ==> s[hi] >= k
  }

  /** The element before `lo`, where there is one, is at most `k`. */
  predicate AtMostBefore(s: seq<int>, k: int, lo: nat) {
    0 < lo <= |s| ==> s[lo - 1] <= k
  }

  /** The element at `hi`, where there is one, is above `k`. */
  predicate AboveAt(s: seq<int>, k: int, hi: nat) {
    hi < |s| ==> s[hi] > k
  }

  /** A round of the lower-bound loop keeps the range between a boundary:
      what holds around the range holds around the next one. */
  lemma LowerNextBoundary(s: seq<int>, k: int, first: nat, len: nat)
    requires first + len <= |s| && len > 0
    ensures var next := LowerNext(s, k, first, len);
      && (BelowBefore(s, k, first) ==> BelowBefore(s, k, next.0))
      && (NotBelowAt(s, k, first + len) ==> NotBelowAt(s, k, next.0 + next.1))
  {
  }

  /** A round of the upper-bound loop keeps the range between a boundary. */
  lemma UpperNextBoundary(s: seq<int>, k: int, first: nat, len: nat)
    requires first + len <= |s| && len > 0
    ensures var next := UpperNext(s, k, first, len);
      && (AtMostBefore(s, k, first) ==> AtMostBefore(s, k, next.0))
      && (AboveAt(s, k, first + len) ==> AboveAt(s, k, next.0 + next.1))
  {
  }

  /** On any range the lower-bound search stops at a boundary: if the
      element before the range is below `k` and the one after it is not,
      the same holds around the result. */
  lemma {:induction false} StdLowerBoundFromBoundary(s: seq<int>, k: int, first: nat, len: nat)
    requires first + len <= |s|
    requires BelowBefore(s, k, first) && NotBelowAt(s, k, first + len)
    ensures BelowBefore(s, k, StdLowerBoundFrom(s, k, first, len))
    ensures NotBelowAt(s, k, StdLowerBoundFrom(s, k, first, len))
    decreases len
  {
    if len > 0 {
      var next := LowerNext(s, k, first, len);
      LowerNextBoundary(s, k, first, len);
      StdLowerBoundFromBoundary(s, k, next.0, next.1);
    }
  }

  /** On any range the upper-bound search stops at a boundary: if the
      element before the range is at most `k` and the one after it is above
      it, the same holds around the result. */
  lemma {:induction false} StdUpperBoundFromBoundary(s: seq<int>, k: int, first: nat, len: nat)
    requires first + len <= |s|
    requires AtMostBefore(s, k, first) && AboveAt(s, k, first + len)
    ensures AtMostBefore(s, k, StdUpperBoundFrom(s, k, first, len))
    ensures AboveAt(s, k, StdUpperBoundFrom(s, k, first, len))
    decreases len
  {
    if len > 0 {
      var next := UpperNext(s, k, first, len);
      UpperNextBoundary(s, k, first, len);
      StdUpperBoundFromBoundary(s, k, next.0, next.1);
    }
  }

  /** `std::lower_bound` over the whole range. */
  function StdLowerBound(s: seq<int>, k: int): (r: nat)
    ensures r <= |s|
    ensures r > 0 ==> s[r - 1] < k
    ensures r < |s| ==> s[r] >= k
  {
    StdLowerBoundFromBoundary(s, k, 0, |s|);
    StdLowerBoundFrom(s, k, 0, |s|)
  }

  /** `std::upper_bound` over the whole range. */
  function StdUpperBound(s: seq<int>, k: int): (r: nat)
    ensures r <= |s|
    ensures r > 0 ==> s[r - 1] <= k
    ensures r < |s| ==> s[r] > k
  {
    StdUpperBoundFromBoundary(s, k, 0, |s|);
    StdUpperBoundFrom(s, k, 0, |s|)
  }

  /** On a sorted range the lower bound is fixed by its two neighbours. */
  lemma LowerBoundBetween(s: seq<int>, k: int, r: nat)
    requires Sorted(s)
    requires r <= |s|
    requires r > 0 ==> s[r - 1] < k
    requires r < |s| ==> s[r] >= k
    ensures r == LowerBound(s, k)
  {
    assert forall i :: 0 <= i < r ==> s[i] < k by {
      assert forall i :: 0 <= i < r ==> s[i] <= s[r - 1];
    }
    LowerBoundUnique(s, k, r);
  }

  /** On a sorted range the library search returns the lower bound. */
  lemma StdLowerBoundSorted(s: seq<int>, k: int)
    requires Sorted(s)
    ensures StdLowerBound(s, k) == LowerBound(s, k)
  {
    LowerBoundBetween(s, k, StdLowerBound(s, k));
  }

  /** The hand-written search of the slotted leaves: `left` and `right`
      close in on the first key not below `k` by halving at
      `(left + right) / 2`. On any range it stops at a boundary as the
      library search does; on a sorted range it is the lower bound. */
  function MidpointSearch(keys: seq<int>, k: int, left: nat, right: nat): (r: nat)
    requires left <= right <= |keys|
    ensures left <= r <= right
    ensures (left > 0 ==> keys[left - 1] < k) ==> (r > 0 ==> keys[r - 1] < k)
    ensures (right < |keys| ==> keys[right] >= k) ==> (r < |keys| ==> keys[r] >= k)
    decreases right - left
  {
    if left >= right then left
    else
      var mid := (left + right) / 2;
      if keys[mid] < k then MidpointSearch(keys, k, mid + 1, right)
      else MidpointSearch(keys, k, left, mid)
  }

  /** Over a whole sorted range the midpoint search is the lower bound. */
  lemma MidpointSearchSorted(keys: seq<int>, k: int)
    requires Sorted(keys)
    ensures MidpointSearch(keys, k, 0, |keys|) == LowerBound(keys, k)
  {
    LowerBoundBetween(keys, k, MidpointSearch(keys, k, 0, |keys|));
  }

  /** The upper bound is the only index with its two defining properties. */
  lemma UpperBoundUnique(s: seq<int>, k: int, r: nat)
    requires r <= |s|
    requires forall i :: 0 <= i < r ==> s[i] <= k
    requires r < |s| ==> s[r] > k
    ensures r == UpperBound(s, k)
  {
    var ub := UpperBound(s, k);
    if r < |s| {
      assert s[r] > k;
    }
    if ub < |s| {
      assert s[ub] > k;
    }
  }

  /** On a sorted range the upper bound is fixed by its two neighbours. */
  lemma UpperBoundBetween(s: seq<int>, k: int, r: nat)
    requires Sorted(s)
    requires r <= |s|
    requires r > 0 ==> s[r - 1] <= k
    requires r < |s| ==> s[r] > k
    ensures r == UpperBound(s, k)
  {
    assert forall i :: 0 <= i < r ==> s[i] <= k by {
      assert forall i :: 0 <= i < r ==> s[i] <= s[r - 1];
    }
    UpperBoundUnique(s, k, r);
  }

  /** On a sorted range the library search returns the upper bound. */
  lemma StdUpperBoundSorted(s: seq<int>, k: int)
    requires Sorted(s)
    ensures StdUpperBound(s, k) == UpperBound(s, k)
  {
    UpperBoundBetween(s, k, StdUpperBound(s, k));
  }

  /** Every comparison of the upper-bound search can only turn from "go left"
      to "go right" as the key grows, so the result is monotone in the key on
      any range, sorted or not. */
  lemma {:induction false} StdUpperBoundFromMonotone(s: seq<int>, k1: int, k2: int, first: nat, len: nat)
    requires k1 <= k2
    requires first + len <= |s|
    ensures StdUpperBoundFrom(s, k1, first, len) <= StdUpperBoundFrom(s, k2, first, len)
    decreases len
  {
    if len > 0 {
      var n1 := UpperNext(s, k1, first, len);
      var n2 := UpperNext(s, k2, first, len);
      if n1 == n2 {
        StdUpperBoundFromMonotone(s, k1, k2, n1.0, n1.1);
      } else {
        UpperNextParts(s, k1, k2, first, len);
      }
    }
  }

  /** When two keys part at the middle, the smaller key goes to the range
      before it and the larger to the range after it. */
  lemma UpperNextParts(s: seq<int>, k1: int, k2: int, first: nat, len: nat)
    requires k1 <= k2 && first + len <= |s| && len > 0
    requires UpperNext(s, k1, first, len) != UpperNext(s, k2, first, len)
    ensures UpperNext(s, k1, first, len).0 + UpperNext(s, k1, first, len).1 <= UpperNext(s, k2, first, len).0
  {
  }

  lemma StdUpperBoundMonotone(s: seq<int>, k1: int, k2: int)
    requires k1 <= k2
    ensures StdUpperBound(s, k1) <= StdUpperBound(s, k2)
  {
    StdUpperBoundFromMonotone(s, k1, k2, 0, |s|);
  }

  /** On a sorted range the lower bound splits it into a part below `k` and a
      part at or above `k`. */
  lemma LowerBoundPartitions(s: seq<int>, k: int)
    requires Sorted(s)
    ensures forall i :: 0 <= i < LowerBound(s, k) ==> s[i] < k
    ensures forall i :: LowerBound(s, k) <= i < |s| ==> s[i] >= k
  {
  }

  /** On a sorted range the upper bound is the number of elements `<= k`. */
  lemma UpperBoundPartitions(s: seq<int>, k: int)
    requires Sorted(s)
    ensures forall i :: 0 <= i < UpperBound(s, k) ==> s[i] <= k
    ensures forall i :: UpperBound(s, k) <= i < |s| ==> s[i] > k
  {
  }

  /** The `child_slot` every node kind shares: the library upper bound over
      the keys, which on sorted keys is the reference upper bound, with
      every key before it at most `key` and every key from it on above. */
  function ChildSlotOf(s: seq<int>, key: int): (r: nat)
    ensures r <= |s|
    ensures Sorted(s) ==> r == UpperBound(s, key)
    ensures Sorted(s) ==> forall i :: 0 <= i < r ==> s[i] <= key
    ensures Sorted(s) ==> forall i :: r <= i < |s| ==> s[i] > key
  {
    if Sorted(s) then
      StdUpperBoundSorted(s, key);
      UpperBoundPartitions(s, key);
      StdUpperBound(s, key)
    else StdUpperBound(s, key)
  }

  /** The lower bound is the only index with its two defining properties. */
  lemma LowerBoundUnique(s: seq<int>, k: int, r: nat)
    requires r <= |s|
    requires forall i :: 0 <= i < r ==> s[i] < k
    requires r < |s| ==> s[r] >= k
    ensures r == LowerBound(s, k)
  {
    var lb := LowerBound(s, k);
    if r < |s| {
      assert s[r] >= k;
    }
    if lb < |s| {
      assert s[lb] >= k;
    }
  }

  /** On a sorted range, `k` occurs iff the lower bound lands on it. */
  lemma LowerBoundFinds(s: seq<int>, k: int)
    requires Sorted(s)
    ensures k in s <==> LowerBound(s, k) < |s| && s[LowerBound(s, k)] == k
  {
    var r := LowerBound(s, k);
    if k in s {
      var j :| 0 <= j < |s| && s[j] == k;
      assert r <= j;
    }
  }

  /** Both searches move right (never left) as the search key grows; no
      ordering of the range is needed for this. */
  lemma {:induction false} BoundsMonotone(s: seq<int>, k1: int, k2: int)
    requires k1 <= k2
    ensures LowerBound(s, k1) <= LowerBound(s, k2)
    ensures UpperBound(s, k1) <= UpperBound(s, k2)
  {
    if |s| > 0 {
      BoundsMonotone(s[1..], k1, k2);
    }
  }

  /** The lower bound never passes the upper bound. */
  lemma LowerBelowUpper(s: seq<int>, k: int)
    ensures LowerBound(s, k) <= UpperBound(s, k)
  {
  }

  /** After `k` is inserted at its lower bound, the lower bound of `k` is
      where it went in. */
  lemma LowerBoundOfInsertAt(s: seq<int>, k: int)
    ensures var i := LowerBound(s, k);
      LowerBound(InsertAt(s, i, k), k) == i
  {
  }

  /** Inserting `k` at its lower bound keeps a strictly sorted range strictly
      sorted when `k` is not already present. */
  lemma InsertAtLowerBoundSorted(s: seq<int>, k: int)
    requires StrictlySorted(s)
    requires k !in s
    ensures StrictlySorted(InsertAt(s, LowerBound(s, k), k))
  {
    var i := LowerBound(s, k);
    var r := InsertAt(s, i, k);
    forall a, b | 0 <= a < b < |r|
      ensures r[a] < r[b]
    {
      if b < i {
      } else if b == i {
      } else if a < i {
      } else if a == i {
        assert s[b - 1] >= k && s[b - 1] != k;
      } else {
      }
    }
  }

  /** Inserting `k` at its lower bound keeps a sorted range sorted (duplicates
      allowed). */
  lemma InsertAtLowerBoundSortedWeak(s: seq<int>, k: int)
    requires Sorted(s)
    ensures Sorted(InsertAt(s, LowerBound(s, k), k))
  {
  }

  /** A sorted sequence cut around position `p`: both sides sorted, and
      they rebuild it with the element at `p` between them. */
  lemma SortedAround(s: seq<int>, p: nat)
    requires Sorted(s) && p < |s|
    ensures Sorted(s[..p]) && Sorted(s[p + 1..])
    ensures s[..p] + [s[p]] + s[p + 1..] == s
  {
    assert s[..p] + [s[p]] + s[p + 1..] == s[..p] + s[p..];
  }

  /** Inserting `k` at its upper bound keeps a sorted range sorted. */
  lemma InsertAtUpperBoundSorted(s: seq<int>, k: int)
    requires Sorted(s)
    ensures Sorted(InsertAt(s, UpperBound(s, k), k))
  {
  }

  /**
    `BTreeNode::branchless_binary_search`: `left`/`right` are C++ `int`, and
    the loop updates both with conditional moves. On a sorted range it
    returns the lower bound.
   */
  method BranchlessBinarySearch(keys: seq<int>, key: int) returns (r: nat)
    requires |keys| < 0x1_0000
    ensures r <= |keys|
    ensures Sorted(keys) ==> r == LowerBound(keys, key)
  {
    var left: int := 0;
    var right: int := |keys| - 1;
    while left <= right
      invariant 0 <= left <= right + 1 <= |keys|
      invariant Sorted(keys) ==> forall i :: 0 <= i < left ==> keys[i] < key
      invariant Sorted(keys) ==> forall i :: right < i < |keys| ==> keys[i] >= key
      decreases right - left
    {
      var mid := (left + right) / 2;
      left := if keys[mid] < key then mid + 1 else left;
      right := if keys[mid] >= key then mid - 1 else right;
    }
    r := left;
    if Sorted(keys) {
      LowerBoundUnique(keys, key, r);
    }
  }

  /** `std::min` folded over `s`, starting from `init`. */
  function MinOf(s: seq<int>, init: int): (r: int)
    ensures r <= init && forall i :: 0 <= i < |s| ==> r <= s[i]
    ensures r == init || r in s
  {
    if |s| == 0 then init
    else
      var m := MinOf(s[..|s| - 1], init);
      if s[|s| - 1] < m then s[|s| - 1] else m
  }

  /** `std::max` folded over `s`, starting from `init`. */
  function MaxOf(s: seq<int>, init: int): (r: int)
    ensures r >= init && forall i :: 0 <= i < |s| ==> r >= s[i]
    ensures r == init || r in s
  {
    if |s| == 0 then init
    else
      var m := MaxOf(s[..|s| - 1], init);
      if s[|s| - 1] > m then s[|s| - 1] else m
  }

  /** The fold depends only on which values occur. */
  lemma MinMaxSameElements(a: seq<int>, b: seq<int>, init: int)
    requires forall x :: x in a <==> x in b
    ensures MinOf(a, init) == MinOf(b, init) && MaxOf(a, init) == MaxOf(b, init)
  {
    var ma, mb := MinOf(a, init), MinOf(b, init);
    if ma != init { var i :| 0 <= i < |a| && a[i] == ma; var j :| 0 <= j < |b| && b[j] == ma; }
    if mb != init { var i :| 0 <= i < |b| && b[i] == mb; var j :| 0 <= j < |a| && a[j] == mb; }
    var xa, xb := MaxOf(a, init), MaxOf(b, init);
    if xa != init { var i :| 0 <= i < |a| && a[i] == xa; var j :| 0 <= j < |b| && b[j] == xa; }
    if xb != init { var i :| 0 <= i < |b| && b[i] == xb; var j :| 0 <= j < |a| && a[j] == xb; }
  }
}

=== FILE: las_leaf_node.dfy ===
/**
  `LasLeafNode`, the lazily sorted leaf of `LasTree`. It is the record-log
  leaf of `LogLeaf` with a 40-byte page header and key-only delete markers;
  on top of the shared operations it has `update`, `get_range` and `sort`,
  which compacts the log and rewrites it in ascending key order so that
  `get` can search it by halving.
 */
module LasLeafNode {
  import opened Base
  import opened Keys
  import opened Sorting
  import opened LogRecords
  import opened LogLeaf
  import opened SortedLogs

  /** `BaseHeader` (2 bytes) and `PageHeader`: id (4), size (2), `leaf_info`
      (8, at offset 8), `slot_count` (8), the two keys (4 each), `heap_end`
      (8). The slot directory starts right after them. */
  const HEADER_END: nat := 2 + 40
  /** A delete marker carries only the key after its operation byte. */
  const KEY_SIZE: nat := 4

  // ---------------------------------------------------------------------
  // Range reads

  /** `get_range(lo, hi)`: nothing when the leaf's least key is above `hi`;
      on a sorted leaf the records from the first key not below `lo` up to
      the last key not above `hi`; otherwise the newest-first scan of
      `LogRecords.RangeScan`, reversed back into log order. */
  function GetRange<T(==)>(n: Node<T>, lo: int, hi: int): (r: seq<Record<T>>)
    ensures |r| <= |n.log|
  {
    if n.minKey > hi then []
    else if n.isSorted then SortedRange(n.log, lo, hi)
    else RangeScan(n.log, lo, hi, {}, {})
  }

  /** On a valid leaf every branch of `get_range` returns the live records
      whose key lies in `[lo, hi]`, each key once with its newest tuple, in
      log order. */
  lemma GetRangeIsCompactInRange<T>(n: Node<T>, lo: int, hi: int)
    requires n.Valid(HEADER_END)
    ensures GetRange(n, lo, hi) == InRange(Compact(n.log), lo, hi)
  {
    var c := Compact(n.log);
    if n.minKey > hi {
      forall i | 0 <= i < |c|
        ensures c[i].0 > hi
      {
        assert KeysOf(c)[i] == c[i].0;
        CompactKeysLive(n.log, c[i].0);
      }
      InRangeAbove(c, lo, hi);
    } else if n.isSorted {
      CompactFromCompacted(n.log, {});
      SortedRangeIsInRange(n.log, lo, hi);
    } else {
      RangeScanIsCompactInRange(n.log, lo, hi, {}, {}, {});
    }
  }

  /** `get_range` with the result put in ascending key order, as the
      comment on its final reverse intends. */
  function GetRangeSorted<T(==)>(n: Node<T>, lo: int, hi: int): (r: seq<Record<T>>)
    ensures SortedByKey(r)
    ensures multiset(r) == multiset(GetRange(n, lo, hi))
  {
    SortByKey(GetRange(n, lo, hi))
  }

  /** On a valid leaf the sorted range read holds exactly the live records
      in the range, in ascending key order. */
  lemma GetRangeSortedIsCompactInRange<T>(n: Node<T>, lo: int, hi: int)
    requires n.Valid(HEADER_END)
    ensures multiset(GetRangeSorted(n, lo, hi)) == multiset(InRange(Compact(n.log), lo, hi))
    ensures SortedByKey(GetRangeSorted(n, lo, hi))
  {
    GetRangeIsCompactInRange(n, lo, hi);
  }

  /** The order of the scan branch of `get_range`: newest first, then
      reversed, which is log order. An unsorted leaf that took key 2 and
      then key 1 returns them as 2, 1. Key order comes only from the sorted
      branch, so `range` over unsorted leaves is not key-ordered either. */
  lemma GetRangeLogOrderExample<T>(a: T, b: T)
    ensures var n := Node(0, INVALID_NODE_ID, false, false, 2, [(2, Put(a, 4)), (1, Put(b, 4))], 1, 2, BLOCK_SIZE - 10);
      && n.Valid(HEADER_END)
      && GetRange(n, 0, 10) == [(2, Put(a, 4)), (1, Put(b, 4))]
      && !SortedByKey(GetRange(n, 0, 10))
  {
    var log := [(2, Put(a, 4)), (1, Put(b, 4))];
    var n := Node(0, INVALID_NODE_ID, false, false, 2, log, 1, 2, BLOCK_SIZE - 10);
    assert log[..1] == [(2, Put(a, 4))];
    assert log[..1][..0] == log[..0];
    assert HeapBytes(log[..1]) == 5;
    assert HeapBytes(log) == 10;
    forall k | LogLookup(log, k).Some?
      ensures 1 <= k <= 2
    {
    }
    assert RangeScan(log[..0], 0, 10, {2, 1}, {}) == [];
    assert RangeScan(log[..1], 0, 10, {1}, {}) == [(2, Put(a, 4))];
    assert RangeScan(log, 0, 10, {}, {}) == [(2, Put(a, 4)), (1, Put(b, 4))];
  }

  // ---------------------------------------------------------------------
  // Lazy sort

  /** `sort`: compact, clear the leaf, sort the compacted records by key,
      re-insert them in that order and set the sorted flag. */
  function Sort<T(==)>(n: Node<T>): (r: Node<T>)
    ensures r.isSorted
    ensures r.id == n.id && r.nextId == n.nextId && r.isCold == n.isCold
  {
    Reinsert(Reset(n), HEADER_END, SortByKey(Compact(n.log))).(isSorted := true)
  }

  /** Sorting a valid leaf keeps it valid; afterwards the log is the
      compacted records in strictly ascending key order, and the count is
      their number. */
  lemma SortValid<T>(n: Node<T>)
    requires n.Valid(HEADER_END)
    ensures var r := Sort(n);
      && r.Valid(HEADER_END)
      && r.log == SortByKey(Compact(n.log))
      && StrictlySorted(KeysOf(r.log))
      && multiset(r.log) == multiset(Compact(n.log))
      && r.size == |Compact(n.log)|
  {
    var c := Compact(n.log);
    var s := SortByKey(c);
    SortedCompaction(n.log);
    assert Reset(n).Valid(HEADER_END);
    RefillSorted(n, HEADER_END, Reset(n), s);
  }

  /** Sorting keeps what every key reads. */
  lemma SortKeepsGet<T>(n: Node<T>, k: int)
    requires n.Valid(HEADER_END)
    ensures Get(Sort(n), k) == Get(n, k)
  {
    var c := Compact(n.log);
    var s := SortByKey(c);
    SortValid(n);
    SortedCompaction(n.log);
    CompactedPermutationLookup(s, c, k);
    CompactLookup(n.log, k);
  }

  // ---------------------------------------------------------------------
  // Erasing from a sorted leaf

  /** A sorted leaf holding keys 1, 2 and 3: the shape `sort` leaves. */
  function SortedThree<T>(a: T, b: T, c: T): Node<T> {
    Node(0, INVALID_NODE_ID, true, false, 3, [(1, Put(a, 4)), (2, Put(b, 4)), (3, Put(c, 4))], 1, 3, BLOCK_SIZE - 15)
  }

  /** `erase` as written on a sorted leaf: the delete marker of key 2 is
      appended but the leaf stays marked sorted, so the halving search of
      `get` lands on the old insert of 2 and returns the erased tuple, while
      the log itself reads nothing for 2. */
  lemma EraseOnSortedLeafKeepsKey<T>(a: T, b: T, c: T)
    ensures SortedThree(a, b, c).Valid(HEADER_END)
    ensures var r := EraseAsWritten(SortedThree(a, b, c), HEADER_END, 2, KEY_SIZE);
      && r.0 && r.1.isSorted
      && LogLookup(r.1.log, 2) == None
      && Get(r.1, 2) == Some(b)
  {
    var n := SortedThree(a, b, c);
    var log := n.log;
    assert log[..2] == [(1, Put(a, 4)), (2, Put(b, 4))];
    assert log[..2][..1] == [(1, Put(a, 4))];
    assert log[..2][..1][..0] == log[..0];
    assert HeapBytes(log[..2][..1]) == 5;
    assert HeapBytes(log[..2]) == 10;
    assert HeapBytes(log) == 15;
    assert KeysOf(log) == [1, 2, 3];
    forall k | LogLookup(log, k).Some?
      ensures 1 <= k <= 3
    {
    }
    var r := EraseAsWritten(n, HEADER_END, 2, KEY_SIZE);
    var keys := KeysOf(r.1.log);
    assert keys == [1, 2, 3, 2];
    assert MidpointSearch(keys, 2, 1, 1) == 1;
    assert MidpointSearch(keys, 2, 0, 1) == 1;
    assert MidpointSearch(keys, 2, 0, 2) == 1;
    assert MidpointSearch(keys, 2, 0, 4) == 1;
  }

  /** `remove`: append a delete marker and count one tuple less, like
      `erase`, but leave the key bounds as they were. */
  function Remove<T(==)>(n: Node<T>, k: int): (r: (bool, Node<T>))
    ensures r.0 <==> CanInsert(n, HEADER_END, KEY_SIZE + OP_SIZE)
    ensures r.0 ==> r.1 == EraseAsWritten(n, HEADER_END, k, KEY_SIZE).1.(minKey := n.minKey, maxKey := n.maxKey)
    ensures !r.0 ==> r.1 == n
    ensures r.0 ==> forall j :: LogLookup(r.1.log, j) == if j == k then None else LogLookup(n.log, j)
    ensures n.Valid(HEADER_END) && !n.isSorted ==> r.1.Valid(HEADER_END)
  {
    var len := KEY_SIZE + OP_SIZE;
    if !CanInsert(n, HEADER_END, len) then (false, n)
    else
      var rec := (k, Tomb(KEY_SIZE));
      var log := n.log + [rec];
      forall j
        ensures LogLookup(log, j) == if j == k then None else LogLookup(n.log, j)
      {
        LogLookupAppend(n.log, rec, j);
      }
      (true, n.(log := log, heapEnd := n.heapEnd - len, size := Dec16(n.size)))
  }

  /** The corrected `erase`, which clears the sorted flag, reads nothing for
      the erased key through `get` on every valid leaf. */
  lemma EraseHidesKey<T>(n: Node<T>, k: int)
    requires n.Valid(HEADER_END)
    requires CanInsert(n, HEADER_END, KEY_SIZE + OP_SIZE)
    ensures var r := Erase(n, HEADER_END, k, KEY_SIZE);
      r.0 && r.1.Valid(HEADER_END) && Get(r.1, k) == None
  {
  }
}

=== FILE: las_tree.dfy ===
/**
  `LasTree`: a B+-tree for nearly sorted insert streams. The leaves are the
  lazily sorted log leaves of `LasLeafNode`; the internal nodes, the descent
  and `internal_insert` are the ones of `NodeStore`.

  On top of the tree the class keeps a "fast path": one leaf and a key
  range `[fast_path_min_key, fast_path_max_key)` whose keys go straight to
  that leaf without a descent. Each regular insert either moves the fast
  path to the leaf it used (when its key continues the range, or after three
  misses in a row) or counts a miss. A leaf the fast path leaves behind is
  queued, once, for a background thread that sorts it.

  The fast-path bounds are `int` keys: the two `±1` that `LasTree::insert` applies to
  them are wrapped to 32 bits. The hit and miss counters are `size_t` and
  are `nat` here.
 */
module LasTree {
  import opened Base
  import opened Sorting
  import opened LogRecords
  import InternalNode
  import LogLeaf
  import LasLeafNode
  import opened NodeStore

  // ---------------------------------------------------------------------
  // The fast path

  /** `MAX_SOFT_FAILS`: misses in a row before the fast path is moved. */
  const MAX_SOFT_FAILS: nat := 3

  /** `fast_path_leaf_id`, `fast_path_min_key`, `fast_path_max_key`,
      `soft_update_failures` and `fast_path_hits`. */
  datatype FastPath = FastPath(leafId: uint32, minKey: int, maxKey: int, misses: nat, hits: nat)

  /** `can_use_fast_path`: the key lies in the half-open range. */
  predicate CanUse(fp: FastPath, key: int) {
    fp.minKey <= key < fp.maxKey
  }

  /** The fast path `init` sets up: the head leaf, the whole key range but
      `INT_MAX`, no hit and no miss. */
  function InitFastPath(headId: uint32): (r: FastPath)
    ensures r.leafId == headId && r.misses == 0 && r.hits == 0
    ensures forall k :: INT_MIN <= k <= INT_MAX ==> (CanUse(r, k) <==> k != INT_MAX)
  {
    FastPath(headId, INT_MIN, INT_MAX, 0, 0)
  }

  /** Moving the fast path to a leaf after a regular insert: the range starts
      at the leaf's least key and ends one below the separator on the
      leaf's right, or at `INT_MAX` for the last leaf of the chain. */
  function Aim(fp: FastPath, leafId: uint32, leafMin: int, nextId: uint32, leafMax: int): (r: FastPath)
    ensures r.leafId == leafId && r.minKey == leafMin && r.misses == fp.misses && r.hits == fp.hits
    ensures nextId == INVALID_NODE_ID ==> r.maxKey == INT_MAX
    ensures nextId != INVALID_NODE_ID && INT_MIN < leafMax <= INT_MAX + 1 ==> r.maxKey == leafMax - 1
  {
    fp.(leafId := leafId, minKey := leafMin,
        maxKey := if nextId == INVALID_NODE_ID then INT_MAX else Wrap32(leafMax - 1))
  }

  /** The fast path after a regular insert, and whether it moved. */
  datatype Retarget = Retarget(fp: FastPath, moved: bool)

  /** The fast-path update after an insert that took the regular path into
      leaf `leafId`: a key one past the range moves the fast path there (the
      miss count stays); any other key is a miss, and the third miss in a
      row moves the fast path there and clears the count. */
  function AfterInsert(fp: FastPath, key: int, leafId: uint32, leafMin: int, nextId: uint32, leafMax: int): (r: Retarget)
    ensures r.fp.hits == fp.hits
    ensures r.moved ==> r.fp == Aim(fp, leafId, leafMin, nextId, leafMax).(misses := r.fp.misses)
    ensures !r.moved ==> r.fp == fp.(misses := fp.misses + 1) && fp.misses + 1 < MAX_SOFT_FAILS
    ensures key == Wrap32(fp.maxKey + 1) ==> r.moved && r.fp.misses == fp.misses
    ensures key != Wrap32(fp.maxKey + 1) ==>
      (r.moved <==> fp.misses + 1 >= MAX_SOFT_FAILS) && (r.moved ==> r.fp.misses == 0)
  {
    if key == Wrap32(fp.maxKey + 1) then Retarget(Aim(fp, leafId, leafMin, nextId, leafMax), true)
    else if fp.misses + 1 >= MAX_SOFT_FAILS then Retarget(Aim(fp, leafId, leafMin, nextId, leafMax).(misses := 0), true)
    else Retarget(fp.(misses := fp.misses + 1), false)
  }

  /** The miss count never reaches `MAX_SOFT_FAILS` once an insert has
      passed: three misses in a row always move the fast path. */
  lemma MissesStayBelow(fp: FastPath, key: int, leafId: uint32, leafMin: int, nextId: uint32, leafMax: int)
    requires fp.misses < MAX_SOFT_FAILS
    ensures AfterInsert(fp, key, leafId, leafMin, nextId, leafMax).fp.misses < MAX_SOFT_FAILS
  {
  }

  /** Three misses in a row from a fresh count move the fast path to the
      leaf of the third insert. */
  lemma ThirdMissMoves(fp: FastPath, keys: seq<int>, leafId: uint32, leafMin: int, nextId: uint32, leafMax: int)
    requires fp.misses == 0 && |keys| == 3
    requires forall i :: 0 <= i < 3 ==> keys[i] != Wrap32(fp.maxKey + 1)
    ensures var r1 := AfterInsert(fp, keys[0], leafId, leafMin, nextId, leafMax);
      var r2 := AfterInsert(r1.fp, keys[1], leafId, leafMin, nextId, leafMax);
      var r3 := AfterInsert(r2.fp, keys[2], leafId, leafMin, nextId, leafMax);
      && !r1.moved && !r2.moved && r3.moved
      && r3.fp.leafId == leafId && r3.fp.misses == 0
  {
    var r1 := AfterInsert(fp, keys[0], leafId, leafMin, nextId, leafMax);
    assert r1.fp.maxKey == fp.maxKey;
    var r2 := AfterInsert(r1.fp, keys[1], leafId, leafMin, nextId, leafMax);
    assert r2.fp.maxKey == fp.maxKey;
  }

  /** The fast-path update after a split in `insert_into_leaf`: when the key
      went back into the old leaf, the old leaf with the range from its
      least key to one below the split key; otherwise the new leaf from the
      split key, up to one below the separator on its right when it has a
      right neighbour, and with the old upper bound when it is the last
      leaf. The key was sent to this leaf, so it lies below that
      separator. */
  function AfterSplit(fp: FastPath, key: int, splitKey: int, oldId: uint32, oldMin: int,
                      newId: uint32, newNext: uint32, leafMax: int): (r: FastPath)
    ensures r.misses == fp.misses && r.hits == fp.hits
    ensures key < splitKey ==> r.leafId == oldId && r.minKey == oldMin
    ensures key < splitKey && INT_MIN <= key && splitKey <= INT_MAX ==> r.maxKey == splitKey - 1
    ensures key >= splitKey ==> r.leafId == newId && r.minKey == splitKey
    ensures key >= splitKey && newNext == INVALID_NODE_ID ==> r.maxKey == fp.maxKey
  {
    if key < splitKey then fp.(leafId := oldId, minKey := oldMin, maxKey := Wrap32(splitKey - 1))
    else
      var f := fp.(leafId := newId, minKey := splitKey);
      if newNext != INVALID_NODE_ID then f.(maxKey := Wrap32(leafMax - 1)) else f
  }

  /** After a split the fast path stays on the side of the split key its
      leaf holds: with the old leaf it accepts only keys below the split
      key, with the new leaf only keys at or above it; on the new side with
      a right neighbour it stops below the separator there. */
  lemma AfterSplitSide(fp: FastPath, key: int, splitKey: int, oldId: uint32, oldMin: int,
                       newId: uint32, newNext: uint32, leafMax: int, k: int)
    requires INT_MIN <= key <= INT_MAX && INT_MIN <= splitKey <= INT_MAX
    requires key >= splitKey && newNext != INVALID_NODE_ID ==> key < leafMax <= INT_MAX
    ensures var r := AfterSplit(fp, key, splitKey, oldId, oldMin, newId, newNext, leafMax);
      CanUse(r, k) ==>
        && (key < splitKey ==> k < splitKey)
        && (key >= splitKey ==> splitKey <= k)
        && (key >= splitKey && newNext != INVALID_NODE_ID ==> k < leafMax)
  {
  }

  // ---------------------------------------------------------------------
  // The cold-leaf queue

  /** `cold_nodes_queue` and `cold_node_set`: the leaves waiting for the
      background sort, and the leaves known to be cold. */
  datatype Cold = Cold(queue: seq<uint32>, members: set<uint32>)

  /** Every queued leaf is queued once and is a member of the set. */
  predicate QueueInv(c: Cold) {
    && (forall i, j :: 0 <= i < j < |c.queue| ==> c.queue[i] != c.queue[j])
    && (forall i :: 0 <= i < |c.queue| ==> c.queue[i] in c.members)
  }

  /** Queue a leaf the fast path left, unless the set already has it. */
  function Enqueue(c: Cold, id: uint32): (r: Cold)
    ensures id in c.members ==> r == c
    ensures id !in c.members ==> r.queue == c.queue + [id] && r.members == c.members + {id}
    ensures QueueInv(c) ==> QueueInv(r)
  {
    if id in c.members then c else Cold(c.queue + [id], c.members + {id})
  }

  /** The bookkeeping of one step of `background_sort_worker`: take the
      front of the queue; the leaf leaves the set only when it still needed
      sorting. The worker waits until the queue has a leaf. */
  function SortStepCold(c: Cold, wasSorted: bool): (r: Cold)
    requires |c.queue| > 0
    ensures r.queue == c.queue[1..]
    ensures wasSorted ==> r.members == c.members
    ensures !wasSorted ==> r.members == c.members - {c.queue[0]}
    ensures QueueInv(c) ==> QueueInv(r)
  {
    Cold(c.queue[1..], if wasSorted then c.members else c.members - {c.queue[0]})
  }

  /** As written, a leaf that was already sorted when the worker took it
      stays in the set: nothing queues it again, however often the fast
      path leaves it. */
  lemma SortedLeafStaysCold(c: Cold, id: uint32)
    requires c.queue == [id] && c.members == {id}
    ensures var after := SortStepCold(c, true);
      && after.queue == [] && id in after.members
      && Enqueue(after, id) == after
  {
  }

  /** The worker step with the leaf leaving the set whichever way it was
      found: then the set is exactly the queued leaves. */
  function SortStepColdFixed(c: Cold): (r: Cold)
    requires |c.queue| > 0
    ensures r.queue == c.queue[1..]
    ensures r.members == c.members - {c.queue[0]}
  {
    Cold(c.queue[1..], c.members - {c.queue[0]})
  }

  /** The set holds exactly the queued leaves, each queued once. */
  predicate QueueExact(c: Cold) {
    && QueueInv(c)
    && (forall x :: x in c.members ==> x in c.queue)
  }

  /** With the corrected step the set is exactly the queue, so a leaf the
      worker has taken is queued again the next time the fast path leaves
      it. */
  lemma SortStepFixedRequeues(c: Cold, id: uint32)
    requires QueueExact(c) && |c.queue| > 0
    ensures QueueExact(SortStepColdFixed(c))
    ensures QueueExact(Enqueue(c, id))
    ensures c.queue[0] !in SortStepColdFixed(c).members
    ensures Enqueue(SortStepColdFixed(c), c.queue[0]).queue == c.queue[1..] + [c.queue[0]]
  {
    var r := SortStepColdFixed(c);
    forall x | x in r.members
      ensures x in r.queue
    {
      var i :| 0 <= i < |c.queue| && c.queue[i] == x;
      assert i != 0;
      assert r.queue[i - 1] == x;
    }
  }

  // ---------------------------------------------------------------------
  // The tree

  type Leaf<T> = LogLeaf.Node<T>

  /** The tree's pages and counters, the fast path and the cold queue. */
  datatype LTree<T> = LTree(tree: Tree<Leaf<T>>, fp: FastPath, cold: Cold)

  /** `init`: the head leaf takes page 0 and the root page 1, the root's only
      child is the head, and the fast path covers the head with every key
      but `INT_MAX`. */
  function Init<T(==)>(): (r: LTree<T>)
  {
    var head := LogLeaf.Init<T>(0, INVALID_NODE_ID, false);
    var root := InternalNode.Init(1, 0);
    LTree(Tree(map[0 := LeafPage(head), 1 := Inner(root)], 1, 0, 2, 1, 0), InitFastPath(0), Cold([], {}))
  }

  lemma InitShape<T>()
    ensures var r := Init<T>();
      && r.tree.headId == 0 && r.tree.rootId == 1 && r.tree.numPages == 2 && r.tree.size == 0
      && r.fp == InitFastPath(0) && r.cold == Cold([], {})
      && InnerAt(r.tree.store, 1) == Some(InternalNode.Node(1, [], [0]))
      && IsLeaf(r.tree.store, 0) && r.tree.store[0].leaf == LogLeaf.Init(0, INVALID_NODE_ID, false)
  {
  }

  /** After `init` every key but `INT_MAX` takes the fast path, and the
      fast path leaf is the leaf every key descends to. */
  lemma InitFastPathRoutes<T>(k: int)
    requires INT_MIN <= k <= INT_MAX
    ensures var t := Init<T>();
      && (CanUse(t.fp, k) <==> k != INT_MAX)
      && FindPath(t.tree, k) == Ok(Descent([1], 0, INT_MAX, INT_MIN, NO_HIGH))
      && FindPath(t.tree, k).value.leafId == t.fp.leafId
  {
    var t := Init<T>();
    var n := InnerAt(t.tree.store, 1).value;
    assert InternalNode.ChildSlot(n, k) == 0 && n.children[0] == 0;
    var below := Descend(t.tree.store, 0, k, INT_MAX, INT_MIN, NO_HIGH, 1);
    assert below == Ok(Descent([], 0, INT_MAX, INT_MIN, NO_HIGH));
    DescendStep(t.tree.store, 1, k, INT_MAX, INT_MIN, NO_HIGH, 2);
    assert [1] + below.value.path == [1];
  }

  /** `get`: the leaf the descent reaches answers. */
  function Get<T(==)>(t: LTree<T>, key: int): (r: Result<Option<T>>)
    ensures r.Ok? <==> FindPath(t.tree, key).Ok?
    ensures r.Ok? && r.value.Some? ==> key in KeysOf(t.tree.store[FindPath(t.tree, key).value.leafId].leaf.log)
  {
    match FindPath(t.tree, key)
    case Err(e) => Err(e)
    case Ok(d) => Ok(LogLeaf.Get(t.tree.store[d.leafId].leaf, key))
  }

  /** `contains`: whether `get` finds the key. */
  function Contains<T(==)>(t: LTree<T>, key: int): (r: Result<bool>)
    ensures r.Ok? <==> FindPath(t.tree, key).Ok?
    ensures r.Ok? ==> (r.value <==> Get(t, key).value.Some?)
    ensures r.Ok? && r.value ==> key in KeysOf(t.tree.store[FindPath(t.tree, key).value.leafId].leaf.log)
  {
    match Get(t, key)
    case Err(e) => Err(e)
    case Ok(o) => Ok(o.Some?)
  }

  /** `update`: the leaf the key descends to looks the key up and, when it
      has it, takes the edited tuple through its own `update`, which appends
      it under the key `keyOf` extracts from the EDITED tuple; the answer is
      whether the leaf took it. `edit` stands for the list of field updates,
      `keyOf` for `extract_key` and `tupleLen` for the serialized length of
      the edited tuple. When an edit changes the key column the new record
      lands in the leaf of the old key, under the new key, and the old
      record stays. */
  function Update<T(==)>(t: LTree<T>, key: int, edit: T -> T, keyOf: T -> int, tupleLen: nat): (r: Result<(bool, LTree<T>)>)
    ensures r.Ok? <==> FindPath(t.tree, key).Ok?
    ensures r.Ok? && !r.value.0 ==> r.value.1 == t
    ensures r.Ok? && r.value.0 ==> Get(t, key).value.Some?
    ensures r.Ok? ==> r.value.1.fp == t.fp && r.value.1.cold == t.cold && r.value.1.tree.size == t.tree.size
  {
    match FindPath(t.tree, key)
    case Err(e) => Err(e)
    case Ok(d) =>
      var leaf := t.tree.store[d.leafId].leaf;
      match LogLeaf.Get(leaf, key)
      case None => Ok((false, t))
      case Some(cur) =>
        var u := LogLeaf.Update(leaf, LasLeafNode.HEADER_END, keyOf(edit(cur)), edit(cur), tupleLen);
        if u.0 then Ok((true, t.(tree := WithLeaf(t.tree, d.leafId, u.1)))) else Ok((false, t))
  }

  /** On a valid leaf an accepted update makes the leaf of `key` read the
      edited tuple under the edited tuple's own key, so `get` returns it for
      every key that descends to that leaf, `key` itself when the key column
      was not edited; every key other than the edited tuple's reads as
      before, so an edit of the key column leaves `get(key)` with the old
      tuple. */
  lemma UpdateOverwrites<T>(t: LTree<T>, key: int, edit: T -> T, keyOf: T -> int, tupleLen: nat, k: int)
    requires FindPath(t.tree, key).Ok?
    requires t.tree.store[FindPath(t.tree, key).value.leafId].leaf.Valid(LasLeafNode.HEADER_END)
    requires Update(t, key, edit, keyOf, tupleLen).value.0
    ensures var u := edit(Get(t, key).value.value);
      FindPath(t.tree, k).Ok? && FindPath(t.tree, k).value.leafId == FindPath(t.tree, key).value.leafId && k == keyOf(u) ==>
        Get(Update(t, key, edit, keyOf, tupleLen).value.1, k) == Ok(Some(u))
    ensures var u := edit(Get(t, key).value.value);
      keyOf(u) == key ==> Get(Update(t, key, edit, keyOf, tupleLen).value.1, key) == Ok(Some(u))
    ensures k != keyOf(edit(Get(t, key).value.value)) ==> Get(Update(t, key, edit, keyOf, tupleLen).value.1, k) == Get(t, k)
  {
    var d := FindPath(t.tree, key).value;
    var leaf := t.tree.store[d.leafId].leaf;
    var cur := LogLeaf.Get(leaf, key).value;
    var nk := keyOf(edit(cur));
    var u := LogLeaf.Update(leaf, LasLeafNode.HEADER_END, nk, edit(cur), tupleLen);
    var r := Update(t, key, edit, keyOf, tupleLen).value.1;
    assert r.tree == WithLeaf(t.tree, d.leafId, u.1);
    LeafWriteKeepsPaths(t.tree, d.leafId, u.1, key);
    LeafWriteKeepsPaths(t.tree, d.leafId, u.1, k);
  }

  function NextOf<T>(leaf: Leaf<T>): uint32 {
    leaf.nextId
  }

  function RangePart<T(==)>(lo: int, hi: int): Leaf<T> -> seq<Record<T>> {
    (leaf: Leaf<T>) => LasLeafNode.GetRange(leaf, lo, hi)
  }

  /** `range`: the leaves' `get_range` along the chain from the leaf of
      `lo`, up to the first empty answer or the end of the chain. */
  function Range<T(==)>(t: LTree<T>, lo: int, hi: int): (r: Result<seq<Record<T>>>)
    ensures FindPath(t.tree, lo).Err? ==> r.Err?
  {
    match FindPath(t.tree, lo)
    case Err(e) => Err(e)
    case Ok(d) => ScanChain(t.tree.store, d.leafId, NextOf, RangePart(lo, hi), |t.tree.store|)
  }

  /** Every record `range` returns is a live record of a valid leaf of the
      tree with its key in `[lo, hi]`. */
  lemma RangeBounds<T>(t: LTree<T>, lo: int, hi: int)
    requires forall x :: IsLeaf(t.tree.store, x) ==> t.tree.store[x].leaf.Valid(LasLeafNode.HEADER_END)
    ensures var r := Range(t, lo, hi);
      r.Ok? ==> forall i :: 0 <= i < |r.value| ==>
        && lo <= r.value[i].0 <= hi
        && exists x :: IsLeaf(t.tree.store, x) && r.value[i] in Compact(t.tree.store[x].leaf.log)
  {
    if FindPath(t.tree, lo).Ok? {
      var d := FindPath(t.tree, lo).value;
      var part := RangePart<T>(lo, hi);
      ScanChainFrom(t.tree.store, d.leafId, NextOf, part, |t.tree.store|);
      var r := Range(t, lo, hi);
      if r.Ok? {
        forall i | 0 <= i < |r.value|
          ensures lo <= r.value[i].0 <= hi
          ensures exists x :: IsLeaf(t.tree.store, x) && r.value[i] in Compact(t.tree.store[x].leaf.log)
        {
          var x :| IsLeaf(t.tree.store, x) && r.value[i] in part(t.tree.store[x].leaf);
          RangePartBounds(t.tree.store[x].leaf, lo, hi, r.value[i]);
        }
      }
    }
  }

  /** A record of one leaf's part of `range` is a live record of the leaf
      with its key in `[lo, hi]`. */
  lemma RangePartBounds<T>(leaf: Leaf<T>, lo: int, hi: int, rec: Record<T>)
    requires leaf.Valid(LasLeafNode.HEADER_END)
    requires rec in RangePart<T>(lo, hi)(leaf)
    ensures lo <= rec.0 <= hi && rec in Compact(leaf.log)
  {
    LasLeafNode.GetRangeIsCompactInRange(leaf, lo, hi);
    var s := InRange(Compact(leaf.log), lo, hi);
    var j :| 0 <= j < |s| && s[j] == rec;
  }

  // ---------------------------------------------------------------------
  // Insert

  /** The tree with one more tuple counted, when there is one. */
  function Counted<T>(r: Result<LTree<T>>): (c: Result<LTree<T>>)
    ensures c.Ok? <==> r.Ok?
    ensures c.Ok? ==> c.value == r.value.(tree := r.value.tree.(size := r.value.tree.size + 1))
  {
    if r.Err? then r else Ok(r.value.(tree := r.value.tree.(size := r.value.tree.size + 1)))
  }

  /** `insert`: a key in the fast-path range goes to the fast-path leaf,
      any other key descends. Either way the tuple count grows by one. */
  function Insert<T(==)>(t: LTree<T>, key: int, item: T, tupleLen: nat): (r: Result<LTree<T>>)
    ensures r.Ok? ==> r.value.tree.size == t.tree.size + 1
    ensures r.Ok? ==> r.value.tree.rootId == t.tree.rootId && r.value.tree.headId == t.tree.headId
  {
    if CanUse(t.fp, key) then InsertFastPath(t, key, item, tupleLen)
    else
      match FindPath(t.tree, key)
      case Err(e) => Err(e)
      case Ok(d) => InsertAt(t, d, key, item, tupleLen)
  }

  /** `insert_fast_path`: the fast-path leaf takes the tuple and a hit is
      counted; when it is full, the path of the key is found and the
      fast-path leaf is split. */
  function InsertFastPath<T(==)>(t: LTree<T>, key: int, item: T, tupleLen: nat): (r: Result<LTree<T>>)
    ensures r.Ok? ==> r.value.tree.size == t.tree.size + 1
    ensures r.Ok? ==> r.value.tree.rootId == t.tree.rootId && r.value.tree.headId == t.tree.headId
  {
    var id := t.fp.leafId;
    if !IsLeaf(t.tree.store, id) then Err(RuntimeError("page is not a leaf"))
    else
      var ins := LogLeaf.Insert(t.tree.store[id].leaf, LasLeafNode.HEADER_END, key, item, tupleLen);
      if ins.0 then
        Ok(t.(tree := WithLeaf(t.tree, id, ins.1).(size := t.tree.size + 1), fp := t.fp.(hits := t.fp.hits + 1)))
      else
        match FindPath(t.tree, key)
        case Err(e) => Err(e)
        case Ok(d) => Counted(InsertIntoLeaf(t, id, d, key, item, tupleLen))
  }

  /** The regular path of `insert` once the descent has found the leaf: the
      leaf takes the tuple and the fast path is moved or a miss counted (a
      moved fast path queues the leaf it left); when the leaf is full it is
      split. */
  function InsertAt<T(==)>(t: LTree<T>, d: Descent, key: int, item: T, tupleLen: nat): (r: Result<LTree<T>>)
    requires IsLeaf(t.tree.store, d.leafId)
    ensures r.Ok? ==> r.value.tree.size == t.tree.size + 1
    ensures r.Ok? ==> r.value.tree.rootId == t.tree.rootId && r.value.tree.headId == t.tree.headId
  {
    var ins := LogLeaf.Insert(t.tree.store[d.leafId].leaf, LasLeafNode.HEADER_END, key, item, tupleLen);
    if ins.0 then
      var re := AfterInsert(t.fp, key, d.leafId, ins.1.minKey, ins.1.nextId, d.leafMax);
      var cold := if re.moved then Enqueue(t.cold, t.fp.leafId) else t.cold;
      Ok(LTree(WithLeaf(t.tree, d.leafId, ins.1).(size := t.tree.size + 1), re.fp, cold))
    else Counted(InsertIntoLeaf(t, d.leafId, d, key, item, tupleLen))
  }

  /** The leaf half of `insert_into_leaf`: the split key and the two leaves
      after the tuple went back in on its side. */
  datatype Halves<T> = Halves(key: int, left: Leaf<T>, right: Leaf<T>)

  /** `split_into` of the leaf into a fresh leaf `newId`, then the insert
      of the tuple into the old leaf iff its key is below the split key and
      into the new leaf otherwise (`insert_into_leaf` ignores the
      result). */
  function SplitLeaf<T(==)>(leaf: Leaf<T>, newId: uint32, key: int, item: T, tupleLen: nat): (r: Result<Halves<T>>)
    ensures r.Ok? ==> r.value.left.id == leaf.id && r.value.left.nextId == newId
    ensures r.Ok? ==> r.value.right.id == newId && r.value.right.nextId == leaf.nextId
  {
    var blank := LogLeaf.Init<T>(newId, INVALID_NODE_ID, false);
    var split := LogLeaf.SplitQuick(leaf, LasLeafNode.HEADER_END, blank);
    if split.0.Err? then Err(split.0.error)
    else
      var splitKey := split.0.value;
      if key < splitKey then
        Ok(Halves(splitKey, LogLeaf.Insert(split.1, LasLeafNode.HEADER_END, key, item, tupleLen).1, split.2))
      else
        Ok(Halves(splitKey, split.1, LogLeaf.Insert(split.2, LasLeafNode.HEADER_END, key, item, tupleLen).1))
  }

  /** The split of a valid leaf with a live record is a map update of the
      old leaf spread over the two halves: a key other than the new one
      reads in the half on its side of the split key what it read before,
      and nothing in the other half; the new key reads the new tuple in
      the half on its side whenever that half took it. */
  lemma SplitLeafPlaces<T>(leaf: Leaf<T>, newId: uint32, key: int, item: T, tupleLen: nat)
    requires leaf.Valid(LasLeafNode.HEADER_END)
    requires |Compact(leaf.log)| > 0
    ensures SplitLeaf(leaf, newId, key, item, tupleLen).Ok?
    ensures var s := LogLeaf.SplitQuick(leaf, LasLeafNode.HEADER_END, LogLeaf.Init<T>(newId, INVALID_NODE_ID, false));
      var h := SplitLeaf(leaf, newId, key, item, tupleLen).value;
      && s.0 == Ok(h.key)
      && (key < h.key && LogLeaf.CanInsert(s.1, LasLeafNode.HEADER_END, tupleLen + OP_SIZE) ==> LogLeaf.Get(h.left, key) == Some(item))
      && (h.key <= key && LogLeaf.CanInsert(s.2, LasLeafNode.HEADER_END, tupleLen + OP_SIZE) ==> LogLeaf.Get(h.right, key) == Some(item))
      && (forall k :: k != key ==> LogLeaf.Get(h.left, k) == if k < h.key then LogLookup(leaf.log, k) else None)
      && (forall k :: k != key ==> LogLeaf.Get(h.right, k) == if h.key <= k then LogLookup(leaf.log, k) else None)
  {
    SplitLeafReads(leaf, newId, key, item, tupleLen, key);
    forall k | k != key
      ensures var h := SplitLeaf(leaf, newId, key, item, tupleLen).value;
        && LogLeaf.Get(h.left, k) == (if k < h.key then LogLookup(leaf.log, k) else None)
        && LogLeaf.Get(h.right, k) == (if h.key <= k then LogLookup(leaf.log, k) else None)
    {
      SplitLeafReads(leaf, newId, key, item, tupleLen, k);
    }
  }

  /** One key's reads in the two halves of a split. */
  lemma SplitLeafReads<T>(leaf: Leaf<T>, newId: uint32, key: int, item: T, tupleLen: nat, k: int)
    requires leaf.Valid(LasLeafNode.HEADER_END)
    requires |Compact(leaf.log)| > 0
    ensures SplitLeaf(leaf, newId, key, item, tupleLen).Ok?
    ensures var s := LogLeaf.SplitQuick(leaf, LasLeafNode.HEADER_END, LogLeaf.Init<T>(newId, INVALID_NODE_ID, false));
      var h := SplitLeaf(leaf, newId, key, item, tupleLen).value;
      var ins := if key < h.key then LogLeaf.CanInsert(s.1, LasLeafNode.HEADER_END, tupleLen + OP_SIZE)
                 else LogLeaf.CanInsert(s.2, LasLeafNode.HEADER_END, tupleLen + OP_SIZE);
      && s.0 == Ok(h.key)
      && LogLeaf.Get(h.left, k) == (if k == key && key < h.key && ins then Some(item) else if k < h.key then LogLookup(leaf.log, k) else None)
      && LogLeaf.Get(h.right, k) == (if k == key && h.key <= key && ins then Some(item) else if h.key <= k then LogLookup(leaf.log, k) else None)
  {
    var blank := LogLeaf.Init<T>(newId, INVALID_NODE_ID, false);
    LogLeaf.InitIsEmpty<T>(newId, INVALID_NODE_ID, false);
    var s := LogLeaf.SplitQuick(leaf, LasLeafNode.HEADER_END, blank);
    LogLeaf.SplitQuickKeeps(leaf, LasLeafNode.HEADER_END, blank, k);
    var sk := s.0.value;
    var kept := s.1;
    var moved := s.2;
    assert LogLeaf.Get(kept, k) == LogLookup(kept.log, k);
    assert LogLeaf.Get(moved, k) == LogLookup(moved.log, k);
    if key < sk {
      var ins := LogLeaf.Insert(kept, LasLeafNode.HEADER_END, key, item, tupleLen);
      assert SplitLeaf(leaf, newId, key, item, tupleLen) == Ok(Halves(sk, ins.1, moved));
    } else {
      var ins := LogLeaf.Insert(moved, LasLeafNode.HEADER_END, key, item, tupleLen);
      assert SplitLeaf(leaf, newId, key, item, tupleLen) == Ok(Halves(sk, kept, ins.1));
    }
  }

  /** `insert_into_leaf`: split leaf `leafId` into a new leaf at the next
      page id, re-insert the tuple on its side of the split key, move the
      fast path to that side, queue the leaf the fast path left, and carry
      the split key up the path. */
  function InsertIntoLeaf<T(==)>(t: LTree<T>, leafId: uint32, d: Descent, key: int, item: T, tupleLen: nat)
    : (r: Result<LTree<T>>)
    requires IsLeaf(t.tree.store, leafId)
    ensures r.Ok? ==> r.value.tree.size == t.tree.size
    ensures r.Ok? ==> r.value.tree.rootId == t.tree.rootId && r.value.tree.headId == t.tree.headId
  {
    var newId := NextId(t.tree);
    match SplitLeaf(t.tree.store[leafId].leaf, newId, key, item, tupleLen)
    case Err(e) => Err(e)
    case Ok(h) =>
      match CarryUp(PlaceHalves(t.tree, leafId, newId, h), d.path, h.key, newId)
      case Err(e) => Err(e)
      case Ok(w) => Ok(Rehome(t, w, key, h, leafId, newId, d.leafMax))
  }

  /** The two halves of a split written to their pages, one page more. */
  function PlaceHalves<T>(t: Tree<Leaf<T>>, leafId: uint32, newId: uint32, h: Halves<T>): (r: Tree<Leaf<T>>)
    ensures r.rootId == t.rootId && r.headId == t.headId && r.size == t.size
    ensures r.numPages == t.numPages + 1
    ensures r.store == t.store[leafId := LeafPage(h.left)][newId := LeafPage(h.right)]
  {
    t.(store := t.store[leafId := LeafPage(h.left)][newId := LeafPage(h.right)], numPages := t.numPages + 1)
  }

  /** The tree after a split: the fast path follows the half the key went
      to, and the leaf it left is queued for the background sort. */
  function Rehome<T>(t: LTree<T>, w: Tree<Leaf<T>>, key: int, h: Halves<T>,
                     leafId: uint32, newId: uint32, leafMax: int): (r: LTree<T>)
    ensures r.tree == w
    ensures r.fp == AfterSplit(t.fp, key, h.key, leafId, h.left.minKey, newId, h.right.nextId, leafMax)
    ensures r.fp.leafId == t.fp.leafId ==> r.cold == t.cold
  {
    var fp := AfterSplit(t.fp, key, h.key, leafId, h.left.minKey, newId, h.right.nextId, leafMax);
    LTree(w, fp, if t.fp.leafId != fp.leafId then Enqueue(t.cold, t.fp.leafId) else t.cold)
  }

  // ---------------------------------------------------------------------
  // The fast path and the descent

  /** The fast path is sound: every key it accepts is one the descent
      sends to the fast-path leaf. */
  ghost predicate FastSound<T>(t: LTree<T>) {
    forall k :: INT_MIN <= k <= INT_MAX && CanUse(t.fp, k) ==>
      FindPath(t.tree, k).Ok? && FindPath(t.tree, k).value.leafId == t.fp.leafId
  }

  /** The fast path of a fresh tree is sound. */
  lemma InitSound<T>()
    ensures FastSound(Init<T>())
  {
    forall k | INT_MIN <= k <= INT_MAX && CanUse(Init<T>().fp, k)
      ensures FindPath(Init<T>().tree, k).Ok? && FindPath(Init<T>().tree, k).value.leafId == Init<T>().fp.leafId
    {
      InitFastPathRoutes<T>(k);
    }
  }

  /** A fast-path insert that fits: one more hit and one more tuple, the
      same range, the same cold queue; the fast-path leaf reads the new
      tuple for the key and what it read before for every other key; the
      fast path stays sound; and when the descent agrees with the fast path
      on the key, `get` reads the new tuple back. */
  lemma FastHit<T>(t: LTree<T>, key: int, item: T, tupleLen: nat)
    requires CanUse(t.fp, key) && IsLeaf(t.tree.store, t.fp.leafId)
    requires LogLeaf.CanInsert(t.tree.store[t.fp.leafId].leaf, LasLeafNode.HEADER_END, tupleLen + OP_SIZE)
    ensures Insert(t, key, item, tupleLen).Ok?
    ensures var r := Insert(t, key, item, tupleLen).value;
      var id := t.fp.leafId;
      && r.fp == t.fp.(hits := t.fp.hits + 1) && r.cold == t.cold
      && r.tree.size == t.tree.size + 1 && r.tree.numPages == t.tree.numPages
      && IsLeaf(r.tree.store, id)
      && (forall j :: LogLookup(r.tree.store[id].leaf.log, j)
            == if j == key then Some(item) else LogLookup(t.tree.store[id].leaf.log, j))
      && (forall x :: x in t.tree.store && x != id ==> x in r.tree.store && r.tree.store[x] == t.tree.store[x])
      && (FastSound(t) ==> FastSound(r))
      && (FindPath(t.tree, key).Ok? && FindPath(t.tree, key).value.leafId == id ==> Get(r, key) == Ok(Some(item)))
  {
    var id := t.fp.leafId;
    var ins := LogLeaf.Insert(t.tree.store[id].leaf, LasLeafNode.HEADER_END, key, item, tupleLen);
    var r := Insert(t, key, item, tupleLen).value;
    assert r.tree == WithLeaf(t.tree, id, ins.1).(size := t.tree.size + 1);
    forall k
      ensures FindPath(r.tree, k) == FindPath(t.tree, k)
    {
      LeafWriteKeepsPaths(t.tree, id, ins.1, k);
    }
  }
  /** A regular insert that fits its leaf: one more tuple in the leaf the
      descent reached, the fast path moved or a miss counted as
      `AfterInsert` says, the leaf it left queued when it moved; no descent
      changes, no other page changes, and `get` reads the new tuple back. */
  lemma RegularFits<T>(t: LTree<T>, key: int, item: T, tupleLen: nat)
    requires !CanUse(t.fp, key) && FindPath(t.tree, key).Ok?
    requires LogLeaf.CanInsert(t.tree.store[FindPath(t.tree, key).value.leafId].leaf,
                               LasLeafNode.HEADER_END, tupleLen + OP_SIZE)
    ensures Insert(t, key, item, tupleLen).Ok?
    ensures var d := FindPath(t.tree, key).value;
      var leaf := t.tree.store[d.leafId].leaf;
      var re := AfterInsert(t.fp, key, d.leafId, Min(leaf.minKey, key), leaf.nextId, d.leafMax);
      var r := Insert(t, key, item, tupleLen).value;
      && r.fp == re.fp
      && r.cold == (if re.moved then Enqueue(t.cold, t.fp.leafId) else t.cold)
      && r.tree.size == t.tree.size + 1 && r.tree.numPages == t.tree.numPages
      && IsLeaf(r.tree.store, d.leafId)
      && (forall j :: LogLookup(r.tree.store[d.leafId].leaf.log, j)
            == if j == key then Some(item) else LogLookup(leaf.log, j))
      && (forall x :: x in t.tree.store && x != d.leafId ==> x in r.tree.store && r.tree.store[x] == t.tree.store[x])
      && (forall k :: FindPath(r.tree, k) == FindPath(t.tree, k))
      && Get(r, key) == Ok(Some(item))
  {
    var d := FindPath(t.tree, key).value;
    var ins := LogLeaf.Insert(t.tree.store[d.leafId].leaf, LasLeafNode.HEADER_END, key, item, tupleLen);
    var r := Insert(t, key, item, tupleLen).value;
    assert r.tree == WithLeaf(t.tree, d.leafId, ins.1).(size := t.tree.size + 1);
    forall k
      ensures FindPath(r.tree, k) == FindPath(t.tree, k)
    {
      LeafWriteKeepsPaths(t.tree, d.leafId, ins.1, k);
    }
  }

  /** A regular insert that fits keeps the fast path sound. A miss leaves
      its range and leaf alone. A move needs the leaf to sit in the window
      of its descent: its keys are not below the separator on its left, the
      last leaf of the chain is the rightmost leaf, and a leaf with a right
      neighbour reports the separator on its right as `leaf_max`. */
  lemma RegularSound<T>(t: LTree<T>, key: int, item: T, tupleLen: nat)
    requires INT_MIN <= key <= INT_MAX && AllSorted(t.tree.store) && FastSound(t)
    requires !CanUse(t.fp, key) && FindPath(t.tree, key).Ok?
    requires var d := FindPath(t.tree, key).value;
      var leaf := t.tree.store[d.leafId].leaf;
      && LogLeaf.CanInsert(leaf, LasLeafNode.HEADER_END, tupleLen + OP_SIZE)
      && d.low <= leaf.minKey
      && (leaf.nextId == INVALID_NODE_ID ==> d.high == NO_HIGH)
      && (d.high == NO_HIGH || d.leafMax == d.high)
    ensures FastSound(Insert(t, key, item, tupleLen).value)
  {
    var d := FindPath(t.tree, key).value;
    var leaf := t.tree.store[d.leafId].leaf;
    var re := AfterInsert(t.fp, key, d.leafId, Min(leaf.minKey, key), leaf.nextId, d.leafMax);
    RegularFits(t, key, item, tupleLen);
    var r := Insert(t, key, item, tupleLen).value;
    FindPathWindow(t.tree, key, key);
    forall k | INT_MIN <= k <= INT_MAX && CanUse(r.fp, k)
      ensures FindPath(r.tree, k).Ok? && FindPath(r.tree, k).value.leafId == r.fp.leafId
    {
      if re.moved {
        assert d.low <= k;
        if d.high != NO_HIGH {
          assert d.high <= NO_HIGH;
          assert r.fp.maxKey == d.high - 1;
        }
        FindPathWindow(t.tree, key, k);
      }
    }
  }

  // ---------------------------------------------------------------------
  // The background sort

  /** One round of `background_sort_worker`: take the leaf at the front of
      the cold queue and sort it unless it is already sorted. The worker
      waits until the queue has a leaf. */
  function SortStep<T(==)>(t: LTree<T>): (r: Result<LTree<T>>)
    requires |t.cold.queue| > 0
    ensures r.Err? <==> !IsLeaf(t.tree.store, t.cold.queue[0])
    ensures r.Ok? ==> var id := t.cold.queue[0];
      && r.value.fp == t.fp && r.value.tree.size == t.tree.size && r.value.tree.rootId == t.tree.rootId
      && IsLeaf(r.value.tree.store, id) && r.value.tree.store[id].leaf.isSorted
      && r.value.cold.queue == t.cold.queue[1..]
      && (forall x :: x in t.tree.store && x != id ==> x in r.value.tree.store && r.value.tree.store[x] == t.tree.store[x])
  {
    var id := t.cold.queue[0];
    if !IsLeaf(t.tree.store, id) then Err(RuntimeError("page is not a leaf"))
    else
      var leaf := t.tree.store[id].leaf;
      var tree := if leaf.isSorted then t.tree else WithLeaf(t.tree, id, LasLeafNode.Sort(leaf));
      Ok(LTree(tree, t.fp, SortStepCold(t.cold, leaf.isSorted)))
  }

  /** The background sort changes no read: on a tree of valid leaves `get`
      answers every key as before, and the fast path stays sound. */
  lemma SortStepKeepsReads<T>(t: LTree<T>, k: int)
    requires |t.cold.queue| > 0 && IsLeaf(t.tree.store, t.cold.queue[0])
    requires t.tree.store[t.cold.queue[0]].leaf.Valid(LasLeafNode.HEADER_END)
    ensures Get(SortStep(t).value, k) == Get(t, k)
    ensures FastSound(t) ==> FastSound(SortStep(t).value)
  {
    var id := t.cold.queue[0];
    var leaf := t.tree.store[id].leaf;
    var r := SortStep(t).value;
    if !leaf.isSorted {
      assert r.tree == WithLeaf(t.tree, id, LasLeafNode.Sort(leaf));
      forall j
        ensures FindPath(r.tree, j) == FindPath(t.tree, j)
      {
        LeafWriteKeepsPaths(t.tree, id, LasLeafNode.Sort(leaf), j);
      }
      LasLeafNode.SortKeepsGet(leaf, k);
    }
  }
}

=== FILE: leaf_node.dfy ===
/**
  `LeafNode`: the slotted-page leaf of `SimpleBPlusTree`. A page starts with
  the 2-byte type word and the page header; the slot directory grows up from
  there and the tuple heap grows down from the end of the block. A slot
  records where its tuple lies on the heap, its length and whether it is
  still valid; `update` invalidates a slot rather than removing it.

  The heap bytes are not modelled: a slot carries the key of its tuple and
  the tuple as the codec returns it (`item`), and the byte accounting is
  kept exactly (`heapEnd`, slot offsets and lengths). The leaf is generic in
  the item so that it does not depend on the tuple encoding.
 */
module LeafNode {
  import opened Base
  import opened Keys

  /** `BaseHeader`: the type word. */
  const BASE_HEADER_SIZE: nat := 2
  /** `PageHeader`: id (4), size (2), `leaf_info` (next id and two flags, 8,
      aligned to offset 8), then `slot_count` and `heap_end` (8 each). */
  const PAGE_HEADER_SIZE: nat := 32
  /** `Slot`: offset and length (2 each) and the valid flag. */
  const SLOT_SIZE: nat := 6
  const HEADER_END: nat := BASE_HEADER_SIZE + PAGE_HEADER_SIZE
  /** `size_t` arithmetic wraps modulo 2^64. */
  const SIZE_T_MODULUS: int := 0x1_0000_0000_0000_0000

  datatype Slot<T> = Slot(offset: nat, length: nat, valid: bool, key: int, item: T)

  datatype Leaf<T> = Leaf(
    id: uint32,
    nextId: uint32,
    isSorted: bool,
    isCold: bool,
    size: uint16,
    slots: seq<Slot<T>>,
    heapEnd: nat)
  {
    /** What every operation keeps: slot keys ascending (valid or not), the
        sorted flag set, `size` counting the valid slots, the directory and
        the heap not overlapping, and the heap holding at least the bytes of
        the slots' tuples. */
    ghost predicate Valid() {
      && Sorted(SlotKeys(slots))
      && isSorted
      && size == CountValid(slots)
      && DirectoryEnd(|slots|) <= heapEnd <= BLOCK_SIZE
      && TotalLength(slots) <= BLOCK_SIZE - heapEnd
    }
  }

  function SlotKeys<T>(slots: seq<Slot<T>>): (r: seq<int>)
    ensures |r| == |slots|
    ensures forall i :: 0 <= i < |slots| ==> r[i] == slots[i].key
  {
    seq(|slots|, i requires 0 <= i < |slots| => slots[i].key)
  }

  function CountValid<T>(slots: seq<Slot<T>>): (r: nat)
    ensures r <= |slots|
  {
    if |slots| == 0 then 0
    else (if slots[0].valid then 1 else 0) + CountValid(slots[1..])
  }

  function TotalLength<T>(slots: seq<Slot<T>>): nat {
    if |slots| == 0 then 0 else slots[0].length + TotalLength(slots[1..])
  }

  /** The bytes of the valid slots' tuples: what a rewrite of the slots
      into a fresh page puts on its heap. */
  function ValidLength<T>(slots: seq<Slot<T>>): (r: nat)
    ensures r <= TotalLength(slots)
  {
    if |slots| == 0 then 0 else (if slots[0].valid then slots[0].length else 0) + ValidLength(slots[1..])
  }

  /** The first byte after a slot directory of `count` entries. */
  function DirectoryEnd(count: nat): nat {
    HEADER_END + SLOT_SIZE * count
  }

  /** The (key, item) pairs of the valid slots, in slot order. */
  function ValidEntries<T>(slots: seq<Slot<T>>): (r: seq<(int, T)>)
    ensures |r| == CountValid(slots)
  {
    if |slots| == 0 then []
    else if slots[0].valid then [(slots[0].key, slots[0].item)] + ValidEntries(slots[1..])
    else ValidEntries(slots[1..])
  }

  lemma {:induction false} ValidEntriesAppend<T>(a: seq<Slot<T>>, b: seq<Slot<T>>)
    ensures ValidEntries(a + b) == ValidEntries(a) + ValidEntries(b)
    ensures CountValid(a + b) == CountValid(a) + CountValid(b)
    ensures TotalLength(a + b) == TotalLength(a) + TotalLength(b)
    decreases |a|
  {
    if |a| > 0 {
      assert (a + b)[1..] == a[1..] + b;
      ValidEntriesAppend(a[1..], b);
    } else {
      assert a + b == b;
    }
  }

  /** The index of the first slot carrying `k`, valid or not. */
  function FirstWith<T>(slots: seq<Slot<T>>, k: int): (r: Option<nat>)
    ensures r.None? <==> forall i :: 0 <= i < |slots| ==> slots[i].key != k
    ensures r.Some? ==> r.value < |slots| && slots[r.value].key == k
    ensures r.Some? ==> forall i :: 0 <= i < r.value ==> slots[i].key != k
  {
    if |slots| == 0 then None
    else if slots[0].key == k then Some(0)
    else match FirstWith(slots[1..], k)
      case None => None
      case Some(i) => Some(i + 1)
  }

  /** What the leaf holds for `k`: the tuple of the first slot carrying `k`,
      unless that slot has been invalidated. */
  function Lookup<T>(slots: seq<Slot<T>>, k: int): (r: Option<T>)
    ensures r.Some? ==> exists i :: 0 <= i < |slots| && slots[i].valid && slots[i].key == k
  {
    match FirstWith(slots, k)
    case None => None
    case Some(i) => if slots[i].valid then Some(slots[i].item) else None
  }

  /** The initialising constructor: empty, sorted, heap at the block end. */
  function Init<T>(id: uint32, nextId: uint32, isCold: bool): (r: Leaf<T>)
  {
    Leaf.Leaf(id, nextId, true, isCold, 0, [], BLOCK_SIZE)
  }

  lemma InitIsEmpty<T>(id: uint32, nextId: uint32, isCold: bool)
    ensures var r := Init<T>(id, nextId, isCold);
      && r.Valid()
      && r.id == id && r.nextId == nextId && r.isCold == isCold
      && (forall k :: Get(r, k).None?)
      && MinKey(r).Err? && MaxKey(r).Err?
      && r.heapEnd == BLOCK_SIZE && |r.slots| == 0
  {
  }

  // ---------------------------------------------------------------------
  // Search

  /** The sorted branch of `value_slot` as written: on an invalid middle slot
      it only moves `left` up by one, so it can stop to the right of a
      smaller valid key. */
  function SearchAsWritten<T>(slots: seq<Slot<T>>, k: int, left: nat, right: nat): (r: nat)
    requires left <= right <= |slots|
    ensures left <= r <= right
    decreases right - left
  {
    if left >= right then left
    else
      var mid := (left + right) / 2;
      if !slots[mid].valid then SearchAsWritten(slots, k, left + 1, right)
      else if slots[mid].key < k then SearchAsWritten(slots, k, mid + 1, right)
      else SearchAsWritten(slots, k, left, mid)
  }

  /** The unsorted branch of `value_slot`: the first valid slot whose key is
      not below `k`, or the slot count. */
  function ScanValid<T>(slots: seq<Slot<T>>, k: int): (r: nat)
    ensures r <= |slots|
    ensures r < |slots| ==> slots[r].valid && slots[r].key >= k
    ensures forall i :: 0 <= i < r ==> !slots[i].valid || slots[i].key < k
  {
    if |slots| == 0 then 0
    else if slots[0].valid && slots[0].key >= k then 0
    else 1 + ScanValid(slots[1..], k)
  }

  /** `value_slot`, with the sorted branch comparing every slot's key. */
  function ValueSlot<T>(leaf: Leaf<T>, k: int): (r: nat)
    ensures r <= |leaf.slots|
    ensures leaf.isSorted && Sorted(SlotKeys(leaf.slots)) ==> r == LowerBound(SlotKeys(leaf.slots), k)
  {
    if !leaf.isSorted then ScanValid(leaf.slots, k)
    else
      var keys := SlotKeys(leaf.slots);
      var r := MidpointSearch(keys, k, 0, |keys|);
      if Sorted(keys) then LowerBoundBetween(keys, k, r); r else r
  }

  /** `get`: the tuple at the value slot when that slot is valid and holds
      the key. */
  function Get<T>(leaf: Leaf<T>, k: int): (r: Option<T>)
    ensures r.Some? ==> exists i :: 0 <= i < |leaf.slots| && leaf.slots[i].valid && leaf.slots[i].key == k
  {
    var i := ValueSlot(leaf, k);
    if i < |leaf.slots| && leaf.slots[i].valid && leaf.slots[i].key == k then Some(leaf.slots[i].item)
    else None
  }

  /** On a sorted leaf the search lands on the first slot carrying the key,
      so `get` answers exactly what the leaf holds. */
  lemma GetIsLookup<T>(leaf: Leaf<T>, k: int)
    requires leaf.isSorted && Sorted(SlotKeys(leaf.slots))
    ensures Get(leaf, k) == Lookup(leaf.slots, k)
  {
    var keys := SlotKeys(leaf.slots);
    var i := LowerBound(keys, k);
    match FirstWith(leaf.slots, k)
    case None =>
    case Some(j) =>
      assert keys[j] == k;
      assert i <= j;
  }

  // ---------------------------------------------------------------------
  // Space accounting

  /** `can_insert` as written: `heap_end - len` is a `size_t`, so a tuple
      longer than `heap_end` wraps around to a huge offset and passes. */
  function CanInsertAsWritten<T>(leaf: Leaf<T>, len: nat): bool {
    (leaf.heapEnd - len) % SIZE_T_MODULUS >= DirectoryEnd(|leaf.slots| + 1)
  }

  /** `can_insert` without the wrap: the tuple and one more slot fit between
      the directory and the heap. */
  function CanInsert<T>(leaf: Leaf<T>, len: nat): (r: bool)
    ensures r ==> len <= leaf.heapEnd
  {
    len <= leaf.heapEnd && leaf.heapEnd - len >= DirectoryEnd(|leaf.slots| + 1)
  }

  /** The two agree on every tuple no longer than the space above the
      directory. */
  lemma CanInsertAgrees<T>(leaf: Leaf<T>, len: nat)
    requires leaf.heapEnd <= BLOCK_SIZE
    requires len <= leaf.heapEnd
    ensures CanInsertAsWritten(leaf, len) == CanInsert(leaf, len)
  {
  }

  /** A 5002-byte tuple (a VARCHAR of 5000 bytes) passes the written check
      on an empty leaf although the whole page has 4096 bytes. */
  lemma CanInsertWrapExample()
    ensures var leaf: Leaf<int> := Init(0, INVALID_NODE_ID, false);
      CanInsertAsWritten(leaf, 5002) && !CanInsert(leaf, 5002)
  {
  }

  /** `free_space` as written: the page header size is added rather than
      subtracted, and the heap is not counted. */
  function FreeSpaceAsWritten<T>(leaf: Leaf<T>): int {
    BLOCK_SIZE - BASE_HEADER_SIZE + PAGE_HEADER_SIZE - SLOT_SIZE * (|leaf.slots| + 1)
  }

  /** On an empty leaf the written formula reports more free bytes than the
      whole block. */
  lemma FreeSpaceExample()
    ensures FreeSpaceAsWritten(Init<int>(0, INVALID_NODE_ID, false)) == 4120
    ensures FreeSpaceAsWritten(Init<int>(0, INVALID_NODE_ID, false)) > BLOCK_SIZE
  {
  }

  /** The bytes left between the directory (with room for one more slot) and
      the heap: what `is_full` needs to agree with `can_insert`. */
  function FreeSpace<T>(leaf: Leaf<T>): (r: int)
    ensures leaf.Valid() ==> r <= BLOCK_SIZE - HEADER_END - SLOT_SIZE
  {
    leaf.heapEnd - DirectoryEnd(|leaf.slots| + 1)
  }

  /** `is_full(t)`: fewer free bytes than the tuple and one slot. */
  predicate IsFull<T>(leaf: Leaf<T>, len: nat) {
    FreeSpace(leaf) < len + SLOT_SIZE
  }

  /** `is_nearly_full`: less than a tenth of the block free (`free_space() <
      0.1 * block_size` on whole bytes). */
  predicate IsNearlyFull<T>(leaf: Leaf<T>) {
    10 * FreeSpace(leaf) < BLOCK_SIZE
  }

  /** `is_nearly_full` over the written `free_space`. */
  predicate IsNearlyFullAsWritten<T>(leaf: Leaf<T>) {
    10 * FreeSpaceAsWritten(leaf) < BLOCK_SIZE
  }

  /** The written `is_nearly_full` depends on the slot count alone: it
      holds from 619 slots on, whatever the heap holds. A valid leaf whose
      one tuple fills the heap is nearly full with the corrected free space
      and not as written. */
  lemma NearlyFullIgnoresHeap<T>(leaf: Leaf<T>, item: T)
    ensures IsNearlyFullAsWritten(leaf) <==> |leaf.slots| >= 619
    ensures var full: Leaf<T> := Leaf.Leaf(0, INVALID_NODE_ID, true, false, 1, [Slot(46, 4050, true, 1, item)], 46);
      && full.Valid() && IsNearlyFull(full) && !IsNearlyFullAsWritten(full)
  {
    var full: Leaf<T> := Leaf.Leaf(0, INVALID_NODE_ID, true, false, 1, [Slot(46, 4050, true, 1, item)], 46);
    assert SlotKeys(full.slots) == [1];
    assert CountValid(full.slots) == 1 by {
      assert full.slots[1..] == [];
    }
    assert TotalLength(full.slots) == 4050 by {
      assert full.slots[1..] == [];
    }
  }

  /** With the corrected free space, a leaf is full for a tuple exactly when
      `can_insert` refuses the tuple together with its slot: `is_full`
      reserves the next slot twice over, once in `free_space` and once in
      its own `sizeof(Slot)`, so a leaf that is not full also takes the bare
      tuple. */
  lemma IsFullIffCannotInsert<T>(leaf: Leaf<T>, len: nat)
    ensures IsFull(leaf, len) <==> !CanInsert(leaf, len + SLOT_SIZE)
    ensures !IsFull(leaf, len) ==> CanInsert(leaf, len)
  {
  }

  // ---------------------------------------------------------------------
  // Insert and update

  /** `insert`: refuse when the tuple does not fit; otherwise put the tuple
      at the top of the heap and a valid slot for it at the value slot,
      shifting later slots right. */
  function Insert<T>(leaf: Leaf<T>, k: int, len: nat, item: T): (r: (bool, Leaf<T>))
    ensures r.0 <==> CanInsert(leaf, len)
    ensures !r.0 ==> r.1 == leaf
    ensures r.0 ==> |r.1.slots| == |leaf.slots| + 1 && r.1.heapEnd == leaf.heapEnd - len
    ensures r.1.id == leaf.id && r.1.nextId == leaf.nextId && r.1.isCold == leaf.isCold
    ensures r.1.isSorted == leaf.isSorted
  {
    if !CanInsert(leaf, len) then (false, leaf)
    else
      var pos := ValueSlot(leaf, k);
      var heapEnd := leaf.heapEnd - len;
      var slot := Slot(heapEnd, len, true, k, item);
      (true, leaf.(slots := InsertAt(leaf.slots, pos, slot), heapEnd := heapEnd, size := Inc16(leaf.size)))
  }

  /** Inserting into a valid leaf keeps it valid. */
  lemma InsertKeepsValid<T>(leaf: Leaf<T>, k: int, len: nat, item: T)
    requires leaf.Valid()
    ensures Insert(leaf, k, len, item).1.Valid()
  {
    if CanInsert(leaf, len) {
      var keys := SlotKeys(leaf.slots);
      var pos := LowerBound(keys, k);
      var slot := Slot(leaf.heapEnd - len, len, true, k, item);
      assert Insert(leaf, k, len, item).1.slots == InsertAt(leaf.slots, pos, slot);
      SlotKeysInsertAt(leaf.slots, pos, slot);
      InsertAtLowerBoundSortedWeak(keys, k);
      InsertAtCounts(leaf.slots, pos, slot);
      assert CountValid(leaf.slots) < 0xFFFF by {
        assert DirectoryEnd(|leaf.slots| + 1) <= BLOCK_SIZE;
      }
    }
  }

  /** Inserting acts as a map update: the key now reads back the new tuple
      and no other key changes. */
  lemma InsertIsMapUpdate<T>(leaf: Leaf<T>, k: int, len: nat, item: T)
    requires leaf.isSorted && Sorted(SlotKeys(leaf.slots))
    requires CanInsert(leaf, len)
    ensures var m := Insert(leaf, k, len, item).1;
      && Lookup(m.slots, k) == Some(item)
      && (forall k' :: k' != k ==> Lookup(m.slots, k') == Lookup(leaf.slots, k'))
  {
    InsertReads(leaf, k, len, item, k);
    forall k' | k' != k
      ensures Lookup(Insert(leaf, k, len, item).1.slots, k') == Lookup(leaf.slots, k')
    {
      InsertReads(leaf, k, len, item, k');
    }
  }

  /** What one key reads after an accepted insert. */
  lemma InsertReads<T>(leaf: Leaf<T>, k: int, len: nat, item: T, k': int)
    requires leaf.isSorted && Sorted(SlotKeys(leaf.slots))
    requires CanInsert(leaf, len)
    ensures Lookup(Insert(leaf, k, len, item).1.slots, k') == if k' == k then Some(item) else Lookup(leaf.slots, k')
  {
    var keys := SlotKeys(leaf.slots);
    var pos := LowerBound(keys, k);
    var slot := Slot(leaf.heapEnd - len, len, true, k, item);
    assert Insert(leaf, k, len, item).1.slots == InsertAt(leaf.slots, pos, slot);
    if k' == k {
      FirstWithInsertAtSame(leaf.slots, pos, slot);
    } else {
      FirstWithInsertAtOther(leaf.slots, pos, slot, k');
    }
  }

  /** An accepted insert adds exactly its (key, tuple) pair to the valid
      entries: nothing else appears or disappears. */
  lemma InsertEntries<T>(leaf: Leaf<T>, k: int, len: nat, item: T)
    requires CanInsert(leaf, len)
    ensures var m := Insert(leaf, k, len, item).1;
      multiset(ValidEntries(m.slots)) == multiset(ValidEntries(leaf.slots)) + multiset{(k, item)}
  {
    var pos := ValueSlot(leaf, k);
    var slot := Slot(leaf.heapEnd - len, len, true, k, item);
    assert Insert(leaf, k, len, item).1.slots == InsertAt(leaf.slots, pos, slot);
    InsertAtEntries(leaf.slots, pos, slot);
  }

  lemma SlotKeysInsertAt<T>(slots: seq<Slot<T>>, pos: nat, slot: Slot<T>)
    requires pos <= |slots|
    ensures SlotKeys(InsertAt(slots, pos, slot)) == InsertAt(SlotKeys(slots), pos, slot.key)
  {
  }

  /** Inserting a slot adds its validity and its length to the counts. */
  lemma InsertAtCounts<T>(slots: seq<Slot<T>>, pos: nat, slot: Slot<T>)
    requires pos <= |slots|
    ensures CountValid(InsertAt(slots, pos, slot)) == CountValid(slots) + (if slot.valid then 1 else 0)
    ensures TotalLength(InsertAt(slots, pos, slot)) == TotalLength(slots) + slot.length
  {
    InsertAtConcat(slots, pos, slot);
    CountsAround(slots[..pos], slot, slots[pos..]);
  }

  /** A slot placed between `a` and `b` adds its own count and length. */
  lemma CountsAround<T>(a: seq<Slot<T>>, slot: Slot<T>, b: seq<Slot<T>>)
    ensures CountValid(a + ([slot] + b)) == CountValid(a + b) + (if slot.valid then 1 else 0)
    ensures TotalLength(a + ([slot] + b)) == TotalLength(a + b) + slot.length
  {
    assert ([slot] + b)[1..] == b;
    ValidEntriesAppend(a, b);
    ValidEntriesAppend(a, [slot] + b);
  }

  lemma InsertAtEntries<T>(slots: seq<Slot<T>>, pos: nat, slot: Slot<T>)
    requires pos <= |slots|
    ensures multiset(ValidEntries(InsertAt(slots, pos, slot)))
         == multiset(ValidEntries(slots)) + (if slot.valid then multiset{(slot.key, slot.item)} else multiset{})
  {
    InsertAtConcat(slots, pos, slot);
    EntriesAround(slots[..pos], slot, slots[pos..]);
  }

  /** A slot placed between `a` and `b` adds its own entry. */
  lemma EntriesAround<T>(a: seq<Slot<T>>, slot: Slot<T>, b: seq<Slot<T>>)
    ensures multiset(ValidEntries(a + ([slot] + b)))
         == multiset(ValidEntries(a + b)) + (if slot.valid then multiset{(slot.key, slot.item)} else multiset{})
  {
    assert ([slot] + b)[1..] == b;
    ValidEntriesAppend(a, b);
    ValidEntriesAppend(a, [slot] + b);
  }

  /** The characterisation of `FirstWith` read backwards. */
  lemma FirstWithUnique<T>(s: seq<Slot<T>>, k: int, j: nat)
    requires j < |s| && s[j].key == k
    requires forall i :: 0 <= i < j ==> s[i].key != k
    ensures FirstWith(s, k) == Some(j)
  {
  }

  /** A slot inserted where no earlier slot carries its key becomes the
      first slot carrying it. */
  lemma FirstWithInsertAtSame<T>(slots: seq<Slot<T>>, pos: nat, slot: Slot<T>)
    requires pos <= |slots|
    requires forall i :: 0 <= i < pos ==> slots[i].key < slot.key
    ensures Lookup(InsertAt(slots, pos, slot), slot.key) == if slot.valid then Some(slot.item) else None
  {
    FirstWithUnique(InsertAt(slots, pos, slot), slot.key, pos);
  }

  /** Wherever a slot is inserted, every other key keeps its first slot
      (moved right when at or after the insertion point). */
  lemma FirstWithInsertAtOther<T>(slots: seq<Slot<T>>, pos: nat, slot: Slot<T>, k: int)
    requires pos <= |slots|
    requires k != slot.key
    ensures Lookup(InsertAt(slots, pos, slot), k) == Lookup(slots, k)
  {
    match FirstWith(slots, k)
    case None => FirstWithInsertAtNone(slots, pos, slot, k);
    case Some(j) => FirstWithInsertAtSome(slots, pos, slot, k, j);
  }

  lemma FirstWithInsertAtNone<T>(slots: seq<Slot<T>>, pos: nat, slot: Slot<T>, k: int)
    requires pos <= |slots| && k != slot.key && FirstWith(slots, k).None?
    ensures FirstWith(InsertAt(slots, pos, slot), k).None?
  {
    var s := InsertAt(slots, pos, slot);
    forall i | 0 <= i < |s| ensures s[i].key != k {
      if i > pos { assert s[i] == slots[i - 1]; }
    }
  }

  lemma FirstWithInsertAtSome<T>(slots: seq<Slot<T>>, pos: nat, slot: Slot<T>, k: int, j: nat)
    requires pos <= |slots| && k != slot.key && FirstWith(slots, k) == Some(j)
    ensures var j' := if j < pos then j else j + 1;
      FirstWith(InsertAt(slots, pos, slot), k) == Some(j') && InsertAt(slots, pos, slot)[j'] == slots[j]
  {
    var s := InsertAt(slots, pos, slot);
    var j' := if j < pos then j else j + 1;
    forall i | 0 <= i < j' ensures s[i].key != k {
      if i > pos { assert s[i] == slots[i - 1]; }
    }
    FirstWithUnique(s, k, j');
  }

  /** `update`: when the value slot holds the key in a valid slot, that slot
      is invalidated and `size` drops before the tuple is inserted again;
      otherwise it is a plain insert. */
  function Update<T>(leaf: Leaf<T>, k: int, len: nat, item: T): (r: (bool, Leaf<T>))
    ensures r.0 <==> CanInsert(leaf, len)
    ensures r.1.id == leaf.id && r.1.nextId == leaf.nextId && r.1.isCold == leaf.isCold
  {
    var i := ValueSlot(leaf, k);
    if i < |leaf.slots| && leaf.slots[i].valid && leaf.slots[i].key == k then
      Insert(Invalidate(leaf, i), k, len, item)
    else Insert(leaf, k, len, item)
  }

  /** Marking slot `i` invalid and dropping `size`. */
  function Invalidate<T>(leaf: Leaf<T>, i: nat): (r: Leaf<T>)
    requires i < |leaf.slots|
    ensures SlotKeys(r.slots) == SlotKeys(leaf.slots)
    ensures |r.slots| == |leaf.slots| && !r.slots[i].valid
    ensures r.heapEnd == leaf.heapEnd && r.isSorted == leaf.isSorted
  {
    leaf.(slots := leaf.slots[i := leaf.slots[i].(valid := false)], size := Dec16(leaf.size))
  }

  /** An update keeps a valid leaf valid, whether or not it succeeds. */
  lemma UpdateKeepsValid<T>(leaf: Leaf<T>, k: int, len: nat, item: T)
    requires leaf.Valid()
    ensures Update(leaf, k, len, item).1.Valid()
  {
    var i := ValueSlot(leaf, k);
    if i < |leaf.slots| && leaf.slots[i].valid && leaf.slots[i].key == k {
      InvalidateKeepsValid(leaf, i);
      InsertKeepsValid(Invalidate(leaf, i), k, len, item);
    } else {
      InsertKeepsValid(leaf, k, len, item);
    }
  }

  /** A successful update is a map update. A failed update of a present key
      still loses it: the old slot stays invalid, so the key reads back
      nothing; a failed update of an absent key changes nothing. */
  lemma UpdateIsMapUpdate<T>(leaf: Leaf<T>, k: int, len: nat, item: T)
    requires leaf.Valid()
    ensures var (ok, m) := Update(leaf, k, len, item);
      && (ok ==> Lookup(m.slots, k) == Some(item))
      && (!ok ==> Lookup(m.slots, k) == None)
      && (forall k' :: k' != k ==> Lookup(m.slots, k') == Lookup(leaf.slots, k'))
  {
    GetIsLookup(leaf, k);
    var i := ValueSlot(leaf, k);
    if i < |leaf.slots| && leaf.slots[i].valid && leaf.slots[i].key == k {
      UpdatePresent(leaf, k, len, item, i);
    } else if CanInsert(leaf, len) {
      InsertIsMapUpdate(leaf, k, len, item);
    }
  }

  lemma UpdatePresent<T>(leaf: Leaf<T>, k: int, len: nat, item: T, i: nat)
    requires leaf.isSorted && Sorted(SlotKeys(leaf.slots))
    requires i == LowerBound(SlotKeys(leaf.slots), k)
    requires i < |leaf.slots| && leaf.slots[i].valid && leaf.slots[i].key == k
    ensures var m := Insert(Invalidate(leaf, i), k, len, item).1;
      && (CanInsert(leaf, len) ==> Lookup(m.slots, k) == Some(item))
      && (!CanInsert(leaf, len) ==> Lookup(m.slots, k) == None)
      && (forall k' :: k' != k ==> Lookup(m.slots, k') == Lookup(leaf.slots, k'))
  {
    FirstWithUnique(leaf.slots, k, i);
    InvalidateLookup(leaf, i);
    if CanInsert(leaf, len) {
      InsertIsMapUpdate(Invalidate(leaf, i), k, len, item);
    }
  }

  /** Invalidating a valid slot keeps the leaf valid. */
  lemma InvalidateKeepsValid<T>(leaf: Leaf<T>, i: nat)
    requires leaf.Valid()
    requires i < |leaf.slots| && leaf.slots[i].valid
    ensures Invalidate(leaf, i).Valid()
  {
    CountsInvalidate(leaf.slots, i);
    assert Invalidate(leaf, i).slots == leaf.slots[i := leaf.slots[i].(valid := false)];
  }

  /** Clearing the valid bit of a valid slot counts one valid slot less
      and keeps the heap bytes. */
  lemma CountsInvalidate<T>(s: seq<Slot<T>>, i: nat)
    requires i < |s| && s[i].valid
    ensures CountValid(s[i := s[i].(valid := false)]) == CountValid(s) - 1
    ensures TotalLength(s[i := s[i].(valid := false)]) == TotalLength(s)
  {
    var s' := s[i := s[i].(valid := false)];
    var a, b := s[..i], s[i + 1..];
    assert s == a + ([s[i]] + b);
    assert s' == a + ([s'[i]] + b);
    CountsAround(a, s[i], b);
    CountsAround(a, s'[i], b);
  }

  /** Invalidating the first slot of a key hides that key and leaves every
      other key alone. */
  lemma InvalidateLookup<T>(leaf: Leaf<T>, i: nat)
    requires i < |leaf.slots|
    requires FirstWith(leaf.slots, leaf.slots[i].key) == Some(i)
    ensures Lookup(Invalidate(leaf, i).slots, leaf.slots[i].key) == None
    ensures forall k :: k != leaf.slots[i].key ==> Lookup(Invalidate(leaf, i).slots, k) == Lookup(leaf.slots, k)
  {
    var s' := Invalidate(leaf, i).slots;
    forall k ensures FirstWith(s', k) == FirstWith(leaf.slots, k) {
      FirstWithSameKeys(leaf.slots, s', k);
    }
  }

  /** The first slot carrying a key depends only on the slot keys. */
  lemma FirstWithSameKeys<T>(a: seq<Slot<T>>, b: seq<Slot<T>>, k: int)
    requires SlotKeys(a) == SlotKeys(b)
    ensures FirstWith(a, k) == FirstWith(b, k)
  {
    match FirstWith(a, k)
    case None =>
      assert forall i :: 0 <= i < |b| ==> b[i].key == SlotKeys(a)[i];
    case Some(i) =>
      assert forall j :: 0 <= j < |b| ==> b[j].key == SlotKeys(a)[j];
      FirstWithUnique(b, k, i);
  }

  // ---------------------------------------------------------------------
  // Minimum and maximum

  /** `min_key`: the key of the first valid slot; "Empty node" when none. */
  function MinKey<T>(leaf: Leaf<T>): (r: Result<int>)
    ensures r.Ok? <==> CountValid(leaf.slots) > 0
    ensures r.Err? ==> r.error == RuntimeError("Empty node")
    ensures r.Ok? ==> exists i :: 0 <= i < |leaf.slots| && leaf.slots[i].valid && leaf.slots[i].key == r.value
                                  && forall j :: 0 <= j < i ==> !leaf.slots[j].valid
  {
    match FirstValid(leaf.slots)
    case None => Err(RuntimeError("Empty node"))
    case Some(i) => Ok(leaf.slots[i].key)
  }

  /** `max_key`: the key of the last valid slot; "Empty node" when none. */
  function MaxKey<T>(leaf: Leaf<T>): (r: Result<int>)
    ensures r.Ok? <==> CountValid(leaf.slots) > 0
    ensures r.Err? ==> r.error == RuntimeError("Empty node")
    ensures r.Ok? ==> exists i :: 0 <= i < |leaf.slots| && leaf.slots[i].valid && leaf.slots[i].key == r.value
                                  && forall j :: i < j < |leaf.slots| ==> !leaf.slots[j].valid
  {
    match LastValid(leaf.slots)
    case None => Err(RuntimeError("Empty node"))
    case Some(i) => Ok(leaf.slots[i].key)
  }

  function FirstValid<T>(slots: seq<Slot<T>>): (r: Option<nat>)
    ensures r.None? <==> CountValid(slots) == 0
    ensures r.Some? ==> r.value < |slots| && slots[r.value].valid
    ensures r.Some? ==> forall i :: 0 <= i < r.value ==> !slots[i].valid
  {
    if |slots| == 0 then None
    else if slots[0].valid then Some(0)
    else match FirstValid(slots[1..])
      case None => None
      case Some(i) => Some(i + 1)
  }

  function LastValid<T>(slots: seq<Slot<T>>): (r: Option<nat>)
    ensures r.None? <==> CountValid(slots) == 0
    ensures r.Some? ==> r.value < |slots| && slots[r.value].valid
    ensures r.Some? ==> forall i :: r.value < i < |slots| ==> !slots[i].valid
  {
    if |slots| == 0 then None
    else
      var last := |slots| - 1;
      assert slots == slots[..last] + [slots[last]];
      ValidEntriesAppend(slots[..last], [slots[last]]);
      if slots[last].valid then Some(last)
      else LastValid(slots[..last])
  }

  /** On a valid leaf `min_key` and `max_key` bound every valid key: the
      keys ascend over all slots, so the first valid slot carries the least
      valid key and the last valid slot the greatest. */
  lemma MinMaxBound<T>(leaf: Leaf<T>, i: nat)
    requires leaf.Valid() && i < |leaf.slots| && leaf.slots[i].valid
    ensures MinKey(leaf).Ok? && MinKey(leaf).value <= leaf.slots[i].key
    ensures MaxKey(leaf).Ok? && leaf.slots[i].key <= MaxKey(leaf).value
  {
    assert CountValid(leaf.slots) > 0 by { CountValidPositive(leaf.slots, i); }
    var f := FirstValid(leaf.slots).value;
    var l := LastValid(leaf.slots).value;
    assert f <= i && i <= l;
    assert SlotKeys(leaf.slots)[f] <= SlotKeys(leaf.slots)[i] <= SlotKeys(leaf.slots)[l];
  }

  lemma {:induction false} CountValidPositive<T>(slots: seq<Slot<T>>, i: nat)
    requires i < |slots| && slots[i].valid
    ensures CountValid(slots) > 0
    decreases |slots|
  {
    if i > 0 && !slots[0].valid {
      CountValidPositive(slots[1..], i - 1);
    }
  }


  // ---------------------------------------------------------------------
  // Split

  /** The backward scan of `split_into`: from slot `i` down, add up the
      lengths of the valid slots and stop at the slot that brings the sum to
      the threshold; -1 when it is never reached. */
  function ScanBack<T>(slots: seq<Slot<T>>, i: int, moved: nat, threshold: nat): (r: int)
    requires -1 <= i < |slots|
    ensures -1 <= r <= i
    ensures r >= 0 ==> slots[r].valid
    decreases i + 1
  {
    if i < 0 then -1
    else if !slots[i].valid then ScanBack(slots, i - 1, moved, threshold)
    else if moved + slots[i].length >= threshold then i
    else ScanBack(slots, i - 1, moved + slots[i].length, threshold)
  }

  /** The slot the scan stops at: a quarter of the bytes below the block end
      (`total_bytes / 4`, in `size_t`). Slots after it move. */
  function SplitCut<T>(leaf: Leaf<T>): (r: int)
    ensures -1 <= r < |leaf.slots|
  {
    ScanBack(leaf.slots, |leaf.slots| - 1, 0, ((BLOCK_SIZE - leaf.heapEnd) % SIZE_T_MODULUS) / 4)
  }

  /** `new_leaf.insert(t)` for every valid slot of `tail`, in order; the
      results of the inserts are ignored, as `split_into` ignores them. */
  function Fill<T>(target: Leaf<T>, tail: seq<Slot<T>>): (r: Leaf<T>)
    ensures r.id == target.id && r.nextId == target.nextId && r.isCold == target.isCold
    ensures r.isSorted == target.isSorted
    decreases |tail|
  {
    if |tail| == 0 then target
    else if !tail[0].valid then Fill(target, tail[1..])
    else Fill(Insert(target, tail[0].key, tail[0].length, tail[0].item).1, tail[1..])
  }

  predicate AllValid<T>(slots: seq<Slot<T>>) {
    forall i :: 0 <= i < |slots| ==> slots[i].valid
  }

  /** When the tail's tuples and slots fit below the heap, every insert of
      the fill is accepted: the filled leaf holds the entries it held plus
      exactly the valid entries of the tail, and stays valid. */
  lemma {:induction false} FillAccepts<T>(target: Leaf<T>, tail: seq<Slot<T>>)
    requires target.Valid() && AllValid(target.slots)
    requires DirectoryEnd(|target.slots| + |tail|) + TotalLength(tail) <= target.heapEnd
    ensures FillOutcome(target, tail)
    decreases |tail|
  {
    if |tail| > 0 {
      if tail[0].valid {
        var next := FillValidStep(target, tail);
        FillAccepts(next, tail[1..]);
      } else {
        FillAccepts(target, tail[1..]);
        FillSkipStep(target, tail);
      }
    }
  }

  /** What `FillAccepts` promises about the fill of `tail` into `target`. */
  ghost predicate FillOutcome<T>(target: Leaf<T>, tail: seq<Slot<T>>) {
    FillResult(target, tail, Fill(target, tail))
  }

  /** `r` is a valid leaf holding `target`'s entries and `tail`'s valid ones. */
  ghost predicate FillResult<T>(target: Leaf<T>, tail: seq<Slot<T>>, r: Leaf<T>) {
    && r.Valid() && AllValid(r.slots)
    && |r.slots| == |target.slots| + CountValid(tail)
    && r.heapEnd == target.heapEnd - ValidLength(tail)
    && multiset(ValidEntries(r.slots)) == multiset(ValidEntries(target.slots)) + multiset(ValidEntries(tail))
  }

  /** A valid head of the tail is inserted; the rest fits into the result. */
  lemma FillValidStep<T>(target: Leaf<T>, tail: seq<Slot<T>>) returns (next: Leaf<T>)
    requires target.Valid() && AllValid(target.slots)
    requires DirectoryEnd(|target.slots| + |tail|) + TotalLength(tail) <= target.heapEnd
    requires |tail| > 0 && tail[0].valid
    ensures next.Valid() && AllValid(next.slots)
    ensures DirectoryEnd(|next.slots| + |tail[1..]|) + TotalLength(tail[1..]) <= next.heapEnd
    ensures FillOutcome(next, tail[1..]) ==> FillOutcome(target, tail)
  {
    var s := tail[0];
    next := Insert(target, s.key, s.length, s.item).1;
    FillStep(target, s, |tail| - 1, TotalLength(tail[1..]));
    assert Fill(target, tail) == Fill(next, tail[1..]);
    if FillOutcome(next, tail[1..]) {
      FillOutcomeCons(target, tail, next, Fill(next, tail[1..]));
    }
  }

  /** The outcome of a fill whose valid head went into `next`. */
  lemma FillOutcomeCons<T>(target: Leaf<T>, tail: seq<Slot<T>>, next: Leaf<T>, r: Leaf<T>)
    requires |tail| > 0 && tail[0].valid
    requires |next.slots| == |target.slots| + 1 && next.heapEnd == target.heapEnd - tail[0].length
    requires multiset(ValidEntries(next.slots)) == multiset(ValidEntries(target.slots)) + multiset{(tail[0].key, tail[0].item)}
    requires FillResult(next, tail[1..], r)
    ensures FillResult(target, tail, r)
  {
    assert ValidEntries(tail) == [(tail[0].key, tail[0].item)] + ValidEntries(tail[1..]);
  }

  /** An invalid head of the tail is skipped. */
  lemma FillSkipStep<T>(target: Leaf<T>, tail: seq<Slot<T>>)
    requires |tail| > 0 && !tail[0].valid
    requires FillOutcome(target, tail[1..])
    ensures FillOutcome(target, tail)
  {
  }

  /** One accepted insert of the fill, and what it leaves for the rest. */
  lemma FillStep<T>(target: Leaf<T>, s: Slot<T>, restCount: nat, restLength: nat)
    requires target.Valid() && AllValid(target.slots) && s.valid
    requires DirectoryEnd(|target.slots| + 1 + restCount) + s.length + restLength <= target.heapEnd
    ensures var next := Insert(target, s.key, s.length, s.item);
      && next.0
      && next.1.Valid() && AllValid(next.1.slots)
      && |next.1.slots| == |target.slots| + 1
      && DirectoryEnd(|next.1.slots| + restCount) + restLength <= next.1.heapEnd
      && multiset(ValidEntries(next.1.slots)) == multiset(ValidEntries(target.slots)) + multiset{(s.key, s.item)}
  {
    InsertKeepsValid(target, s.key, s.length, s.item);
    InsertEntries(target, s.key, s.length, s.item);
    InsertKeepsAllValid(target, s.key, s.length, s.item);
  }

  lemma InsertKeepsAllValid<T>(leaf: Leaf<T>, k: int, len: nat, item: T)
    requires AllValid(leaf.slots)
    ensures AllValid(Insert(leaf, k, len, item).1.slots)
  {
  }

  /** `split_into` with the move loop bounded by the slot count as it was
      before the loop: every valid slot after the cut moves to `target`, the
      old leaf keeps the slots up to the cut, and the leaf chain is relinked
      through the new leaf. The result is the new leaf's minimum key (an
      error when nothing moved) and its id. */
  function SplitInto<T>(leaf: Leaf<T>, target: Leaf<T>): (r: (Result<(int, uint32)>, Leaf<T>, Leaf<T>))
    ensures r.1.id == leaf.id && r.2.id == target.id
    ensures r.1.nextId == target.id && r.2.nextId == leaf.nextId
    ensures r.0.Ok? <==> CountValid(r.2.slots) > 0
    ensures r.0.Ok? ==> r.0.value == (MinKey(r.2).value, target.id)
    ensures r.0.Err? ==> r.0.error == RuntimeError("Empty node")
  {
    var cut := SplitCut(leaf);
    var tail := leaf.slots[cut + 1..];
    var filled := Fill(target, tail).(nextId := leaf.nextId);
    var kept := leaf.(slots := leaf.slots[..cut + 1], size := (leaf.size - CountValid(tail)) % 0x1_0000, nextId := target.id);
    var least := MinKey(filled);
    (if least.Ok? then Ok((least.value, filled.id)) else Err(least.error), kept, filled)
  }

  /** The split of a valid leaf into an empty one loses nothing: the kept
      entries followed by the moved ones are the leaf's entries, the new
      leaf holds exactly the moved entries, both leaves are valid, and every
      kept key is at most every moved key. */
  lemma SplitIntoKeepsEntries<T>(leaf: Leaf<T>, target: Leaf<T>)
    requires leaf.Valid() && target.Valid() && |target.slots| == 0 && target.heapEnd == BLOCK_SIZE
    ensures var kept := SplitInto(leaf, target).1;
      var filled := SplitInto(leaf, target).2;
      var tail := leaf.slots[SplitCut(leaf) + 1..];
      && kept.Valid() && filled.Valid()
      && ValidEntries(leaf.slots) == ValidEntries(kept.slots) + ValidEntries(tail)
      && multiset(ValidEntries(filled.slots)) == multiset(ValidEntries(tail))
      && (forall a, b :: 0 <= a < |kept.slots| && 0 <= b < |filled.slots| ==> kept.slots[a].key <= filled.slots[b].key)
  {
    var cut := SplitCut(leaf);
    SplitKept(leaf, cut + 1);
    var tail := leaf.slots[cut + 1..];
    SplitFilled(leaf, target, cut + 1);
    FillAccepts(target, tail);
    SplitOrdered(leaf.slots, cut + 1, Fill(target, tail).slots);
  }

  /** The separator `split_into` returns, `(new_leaf.min_key(), new_leaf.id)`,
      lies between the two leaves: it exists exactly when a valid slot
      moved, no valid key kept is above it, and no valid key moved is below
      it. */
  lemma SplitIntoSeparator<T>(leaf: Leaf<T>, target: Leaf<T>)
    requires leaf.Valid() && target.Valid() && |target.slots| == 0 && target.heapEnd == BLOCK_SIZE
    ensures var (sep, kept, filled) := SplitInto(leaf, target);
      && (sep.Ok? <==> CountValid(leaf.slots[SplitCut(leaf) + 1..]) > 0)
      && (sep.Ok? ==> sep.value.1 == target.id)
      && (sep.Ok? ==> forall a :: 0 <= a < |kept.slots| && kept.slots[a].valid ==> kept.slots[a].key <= sep.value.0)
      && (sep.Ok? ==> forall b :: 0 <= b < |filled.slots| && filled.slots[b].valid ==> sep.value.0 <= filled.slots[b].key)
  {
    SplitIntoKeepsEntries(leaf, target);
    var (sep, kept, filled) := SplitInto(leaf, target);
    var tail := leaf.slots[SplitCut(leaf) + 1..];
    assert CountValid(filled.slots) == CountValid(tail) by {
      assert |multiset(ValidEntries(filled.slots))| == |multiset(ValidEntries(tail))|;
    }
    if sep.Ok? {
      var f :| 0 <= f < |filled.slots| && filled.slots[f].valid && filled.slots[f].key == sep.value.0
               && forall j :: 0 <= j < f ==> !filled.slots[j].valid;
      forall b | 0 <= b < |filled.slots| && filled.slots[b].valid
        ensures sep.value.0 <= filled.slots[b].key
      {
        MinMaxBound(filled, b);
      }
    }
  }


  /** Slots that hold exactly the valid entries of a sorted tail carry no key
      below a key of the part before it. */
  lemma SplitOrdered<T>(slots: seq<Slot<T>>, n: nat, moved: seq<Slot<T>>)
    requires Sorted(SlotKeys(slots)) && n <= |slots|
    requires AllValid(moved)
    requires multiset(ValidEntries(moved)) == multiset(ValidEntries(slots[n..]))
    ensures forall a, b :: 0 <= a < n && 0 <= b < |moved| ==> slots[a].key <= moved[b].key
  {
    var tail := slots[n..];
    forall a, b | 0 <= a < n && 0 <= b < |moved|
      ensures slots[a].key <= moved[b].key
    {
      EntryOfValidSlot(moved, b);
      assert (moved[b].key, moved[b].item) in multiset(ValidEntries(tail));
      var j := ValidEntryHasSlot(tail, (moved[b].key, moved[b].item));
      assert tail[j] == slots[n + j];
      assert SlotKeys(slots)[a] <= SlotKeys(slots)[n + j];
    }
  }

  /** Keeping a prefix of a valid leaf's slots, with `size` dropped by the
      valid slots cut off, leaves a valid leaf whose entries are the
      prefix's. */
  lemma SplitKept<T>(leaf: Leaf<T>, n: nat)
    requires leaf.Valid() && n <= |leaf.slots|
    ensures var tail := leaf.slots[n..];
      var kept := leaf.(slots := leaf.slots[..n], size := (leaf.size - CountValid(tail)) % 0x1_0000);
      && kept.Valid()
      && ValidEntries(leaf.slots) == ValidEntries(kept.slots) + ValidEntries(tail)
      && DirectoryEnd(|tail|) + TotalLength(tail) <= BLOCK_SIZE
  {
    assert leaf.slots == leaf.slots[..n] + leaf.slots[n..];
    ValidEntriesAppend(leaf.slots[..n], leaf.slots[n..]);
    SplitKeptValid(leaf, n);
  }

  lemma SplitKeptValid<T>(leaf: Leaf<T>, n: nat)
    requires leaf.Valid() && n <= |leaf.slots|
    ensures leaf.(slots := leaf.slots[..n], size := (leaf.size - CountValid(leaf.slots[n..])) % 0x1_0000).Valid()
  {
    assert leaf.slots == leaf.slots[..n] + leaf.slots[n..];
    ValidEntriesAppend(leaf.slots[..n], leaf.slots[n..]);
    assert SlotKeys(leaf.slots[..n]) == SlotKeys(leaf.slots)[..n];
    assert |leaf.slots| <= DirectoryEnd(|leaf.slots|) <= BLOCK_SIZE;
    SmallMod(leaf.size - CountValid(leaf.slots[n..]), 0x1_0000);
  }

  /** Filling an empty leaf with a valid leaf's tail accepts every insert. */
  lemma SplitFilled<T>(leaf: Leaf<T>, target: Leaf<T>, n: nat)
    requires leaf.Valid() && n <= |leaf.slots|
    requires target.Valid() && |target.slots| == 0 && target.heapEnd == BLOCK_SIZE
    ensures var filled := Fill(target, leaf.slots[n..]);
      && filled.Valid() && filled.(nextId := leaf.nextId).Valid()
      && multiset(ValidEntries(filled.slots)) == multiset(ValidEntries(leaf.slots[n..]))
  {
    SplitKept(leaf, n);
    FillAccepts(target, leaf.slots[n..]);
  }

  lemma {:induction false} EntryOfValidSlot<T>(s: seq<Slot<T>>, i: nat)
    requires i < |s| && s[i].valid
    ensures (s[i].key, s[i].item) in ValidEntries(s)
    decreases i
  {
    if i > 0 {
      EntryOfValidSlot(s[1..], i - 1);
    }
  }

  lemma {:induction false} ValidEntryHasSlot<T>(s: seq<Slot<T>>, e: (int, T)) returns (j: nat)
    requires e in ValidEntries(s)
    ensures j < |s| && s[j].valid && (s[j].key, s[j].item) == e
  {
    if s[0].valid && e == (s[0].key, s[0].item) {
      j := 0;
    } else {
      var i := ValidEntryHasSlot(s[1..], e);
      j := i + 1;
    }
  }

  // ---------------------------------------------------------------------
  // The search and the split as written

  /** `value_slot` as written. */
  function ValueSlotAsWritten<T>(leaf: Leaf<T>, k: int): (r: nat)
    ensures r <= |leaf.slots|
  {
    if !leaf.isSorted then ScanValid(leaf.slots, k)
    else SearchAsWritten(leaf.slots, k, 0, |leaf.slots|)
  }

  /** On slots that are all valid the written search is the corrected one:
      the two differ only when they meet an invalidated slot. */
  lemma {:induction false} SearchAsWrittenAgrees<T>(slots: seq<Slot<T>>, k: int, left: nat, right: nat)
    requires left <= right <= |slots|
    requires AllValid(slots)
    ensures SearchAsWritten(slots, k, left, right) == MidpointSearch(SlotKeys(slots), k, left, right)
    decreases right - left
  {
    if left < right {
      var mid := (left + right) / 2;
      if slots[mid].key < k {
        SearchAsWrittenAgrees(slots, k, mid + 1, right);
      } else {
        SearchAsWrittenAgrees(slots, k, left, mid);
      }
    }
  }

  /** `insert` as written: the wrapping space check and the written search. */
  function InsertAsWritten<T>(leaf: Leaf<T>, k: int, len: nat, item: T): (r: (bool, Leaf<T>))
    ensures r.0 <==> CanInsertAsWritten(leaf, len)
  {
    if !CanInsertAsWritten(leaf, len) then (false, leaf)
    else
      var pos := ValueSlotAsWritten(leaf, k);
      var heapEnd := (leaf.heapEnd - len) % SIZE_T_MODULUS;
      var slot := Slot(heapEnd % 0x1_0000, len % 0x1_0000, true, k, item);
      (true, leaf.(slots := InsertAt(leaf.slots, pos, slot), heapEnd := heapEnd, size := Inc16(leaf.size)))
  }

  /** `get` as written. */
  function GetAsWritten<T>(leaf: Leaf<T>, k: int): Option<T> {
    var i := ValueSlotAsWritten(leaf, k);
    if i < |leaf.slots| && leaf.slots[i].valid && leaf.slots[i].key == k then Some(leaf.slots[i].item)
    else None
  }

  /** `update` as written. */
  function UpdateAsWritten<T>(leaf: Leaf<T>, k: int, len: nat, item: T): (r: (bool, Leaf<T>))
    ensures r.0 <==> CanInsertAsWritten(leaf, len)
  {
    var i := ValueSlotAsWritten(leaf, k);
    if i < |leaf.slots| && leaf.slots[i].valid && leaf.slots[i].key == k then
      InvalidateKeepsRoomAsWritten(leaf, i, len);
      InsertAsWritten(Invalidate(leaf, i), k, len, item)
    else InsertAsWritten(leaf, k, len, item)
  }

  /** Invalidating a slot frees neither heap nor directory space. */
  lemma InvalidateKeepsRoomAsWritten<T>(leaf: Leaf<T>, i: nat, len: nat)
    requires i < |leaf.slots|
    ensures CanInsertAsWritten(Invalidate(leaf, i), len) == CanInsertAsWritten(leaf, len)
  {
    var d := Invalidate(leaf, i);
    assert d.heapEnd == leaf.heapEnd && |d.slots| == |leaf.slots|;
  }

  /** The key and validity of every slot: all the searches look at. */
  function Shape<T>(slots: seq<Slot<T>>): (r: seq<(int, bool)>)
    ensures |r| == |slots|
    ensures forall i :: 0 <= i < |slots| ==> r[i] == (slots[i].key, slots[i].valid)
  {
    seq(|slots|, i requires 0 <= i < |slots| => (slots[i].key, slots[i].valid))
  }

  lemma ShapeInsertAt<T>(slots: seq<Slot<T>>, pos: nat, slot: Slot<T>)
    requires pos <= |slots|
    ensures Shape(InsertAt(slots, pos, slot)) == InsertAt(Shape(slots), pos, (slot.key, slot.valid))
  {
  }

  /** One written insert into a sorted leaf with room, landing at `pos`. */
  lemma InsertAsWrittenShape<T>(leaf: Leaf<T>, k: int, len: nat, item: T, pos: nat)
    requires leaf.isSorted && leaf.heapEnd <= BLOCK_SIZE
    requires len <= leaf.heapEnd && leaf.heapEnd - len >= DirectoryEnd(|leaf.slots| + 1)
    requires SearchAsWritten(leaf.slots, k, 0, |leaf.slots|) == pos
    ensures var r := InsertAsWritten(leaf, k, len, item).1;
      && r.isSorted && r.heapEnd == leaf.heapEnd - len
      && Shape(r.slots) == InsertAt(Shape(leaf.slots), pos, (k, true))
  {
    var heapEnd := leaf.heapEnd - len;
    SmallMod(heapEnd, SIZE_T_MODULUS);
    var slot := InsertAsWrittenSlots(leaf, k, len, item, pos);
    ShapeInsertAt(leaf.slots, pos, slot);
  }

  /** The slots and heap top a written insert with room leaves. */
  lemma InsertAsWrittenSlots<T>(leaf: Leaf<T>, k: int, len: nat, item: T, pos: nat) returns (slot: Slot<T>)
    requires leaf.isSorted && CanInsertAsWritten(leaf, len)
    requires SearchAsWritten(leaf.slots, k, 0, |leaf.slots|) == pos
    ensures slot.key == k && slot.valid
    ensures var r := InsertAsWritten(leaf, k, len, item).1;
      && r.isSorted && r.heapEnd == (leaf.heapEnd - len) % SIZE_T_MODULUS
      && r.slots == InsertAt(leaf.slots, pos, slot)
  {
    slot := Slot(((leaf.heapEnd - len) % SIZE_T_MODULUS) % 0x1_0000, len % 0x1_0000, true, k, item);
  }

  lemma SmallMod(x: int, m: int)
    requires 0 <= x < m
    ensures x % m == x
  {
  }

  /** Insert 5 and 7 into an empty leaf, update 7, insert 3 (4-byte tuples):
      the written search puts the new 7 behind the invalidated one and then
      3 behind that, so `get(5)` is sent to the slot of 7 and misses a key
      that was inserted and never removed. */
  lemma ValueSlotAsWrittenLosesKey<T>(l0: Leaf<T>, x5: T, x7: T, y7: T, x3: T)
    requires l0.isSorted && |l0.slots| == 0 && l0.heapEnd == BLOCK_SIZE
    ensures
      var l1 := InsertAsWritten(l0, 5, 4, x5).1;
      var l2 := InsertAsWritten(l1, 7, 4, x7).1;
      var l3 := UpdateAsWritten(l2, 7, 4, y7).1;
      var l4 := InsertAsWritten(l3, 3, 4, x3).1;
      && Shape(l4.slots) == [(5, true), (7, false), (3, true), (7, true)]
      && GetAsWritten(l4, 5) == None
  {
    var l2 := InsertFiveSeven(l0, x5, x7);
    var l3 := UpdateAsWrittenStep(l2, y7);
    InsertBehindInvalid(l3, x3);
    GetAsWrittenMisses(InsertAsWritten(l3, 3, 4, x3).1);
  }

  lemma InsertFiveSeven<T>(l0: Leaf<T>, x5: T, x7: T) returns (l2: Leaf<T>)
    requires l0.isSorted && |l0.slots| == 0 && l0.heapEnd == BLOCK_SIZE
    ensures l2 == InsertAsWritten(InsertAsWritten(l0, 5, 4, x5).1, 7, 4, x7).1
    ensures l2.isSorted && l2.heapEnd == 4088 && Shape(l2.slots) == [(5, true), (7, true)]
  {
    var l1 := InsertFive(l0, x5);
    l2 := InsertSevenAfterFive(l1, x7);
  }

  lemma InsertFive<T>(l0: Leaf<T>, x5: T) returns (l1: Leaf<T>)
    requires l0.isSorted && |l0.slots| == 0 && l0.heapEnd == BLOCK_SIZE
    ensures l1 == InsertAsWritten(l0, 5, 4, x5).1
    ensures l1.isSorted && l1.heapEnd == 4092 && Shape(l1.slots) == [(5, true)]
  {
    l1 := InsertAsWritten(l0, 5, 4, x5).1;
    InsertAsWrittenShape(l0, 5, 4, x5, 0);
  }

  lemma InsertSevenAfterFive<T>(l1: Leaf<T>, x7: T) returns (l2: Leaf<T>)
    requires l1.isSorted && l1.heapEnd == 4092 && Shape(l1.slots) == [(5, true)]
    ensures l2 == InsertAsWritten(l1, 7, 4, x7).1
    ensures l2.isSorted && l2.heapEnd == 4088 && Shape(l2.slots) == [(5, true), (7, true)]
  {
    assert SearchAsWritten(l1.slots, 7, 0, 1) == 1 by {
      assert Shape(l1.slots)[0] == (5, true);
    }
    InsertAsWrittenShape(l1, 7, 4, x7, 1);
    l2 := InsertAsWritten(l1, 7, 4, x7).1;
  }

  /** Updating 7 in a leaf holding 5 and 7: the written search skips the
      slot it has just invalidated and lands after it. */
  lemma UpdateAsWrittenStep<T>(l2: Leaf<T>, y7: T) returns (l3: Leaf<T>)
    requires l2.isSorted && l2.heapEnd == 4088 && Shape(l2.slots) == [(5, true), (7, true)]
    ensures l3 == UpdateAsWritten(l2, 7, 4, y7).1
    ensures l3.isSorted && l3.heapEnd == 4084 && Shape(l3.slots) == [(5, true), (7, false), (7, true)]
  {
    assert Shape(l2.slots)[0] == (5, true) && Shape(l2.slots)[1] == (7, true);
    assert SearchAsWritten(l2.slots, 7, 0, 2) == 1;
    var d := Invalidate(l2, 1);
    assert Shape(d.slots) == [(5, true), (7, false)] by {
      assert Shape(d.slots)[0] == Shape(l2.slots)[0];
    }
    assert SearchAsWritten(d.slots, 7, 0, 2) == 2 by {
      assert Shape(d.slots)[1] == (7, false);
    }
    InsertAsWrittenShape(d, 7, 4, y7, 2);
    l3 := UpdateAsWritten(l2, 7, 4, y7).1;
  }

  lemma InsertBehindInvalid<T>(l3: Leaf<T>, x3: T)
    requires l3.isSorted && l3.heapEnd == 4084 && Shape(l3.slots) == [(5, true), (7, false), (7, true)]
    ensures var l4 := InsertAsWritten(l3, 3, 4, x3).1;
      l4.isSorted && Shape(l4.slots) == [(5, true), (7, false), (3, true), (7, true)]
  {
    assert Shape(l3.slots)[1] == (7, false) && Shape(l3.slots)[2] == (7, true);
    assert SearchAsWritten(l3.slots, 3, 0, 3) == 2;
    InsertAsWrittenShape(l3, 3, 4, x3, 2);
  }

  lemma GetAsWrittenMisses<T>(l4: Leaf<T>)
    requires l4.isSorted && Shape(l4.slots) == [(5, true), (7, false), (3, true), (7, true)]
    ensures GetAsWritten(l4, 5) == None
  {
    assert Shape(l4.slots)[2] == (3, true) && Shape(l4.slots)[3] == (7, true);
    assert SearchAsWritten(l4.slots, 5, 0, 4) == 3;
  }

  /** The same operations on the corrected leaf keep 5 readable. */
  lemma CorrectedKeepsKey<T>(l0: Leaf<T>, x5: T, x7: T, y7: T, x3: T)
    requires l0.Valid() && |l0.slots| == 0 && l0.heapEnd == BLOCK_SIZE
    ensures
      var l1 := Insert(l0, 5, 4, x5).1;
      var l2 := Insert(l1, 7, 4, x7).1;
      var l3 := Update(l2, 7, 4, y7).1;
      var l4 := Insert(l3, 3, 4, x3).1;
      Get(l4, 5) == Some(x5)
  {
    var l1 := Insert(l0, 5, 4, x5).1;
    InsertKeepsValid(l0, 5, 4, x5);
    InsertIsMapUpdate(l0, 5, 4, x5);
    var l2 := Insert(l1, 7, 4, x7).1;
    InsertKeepsValid(l1, 7, 4, x7);
    InsertOtherKeys(l1, 7, 4, x7);
    var l3 := Update(l2, 7, 4, y7).1;
    UpdateKeepsValid(l2, 7, 4, y7);
    UpdateIsMapUpdate(l2, 7, 4, y7);
    var l4 := Insert(l3, 3, 4, x3).1;
    InsertKeepsValid(l3, 3, 4, x3);
    InsertOtherKeys(l3, 3, 4, x3);
    GetIsLookup(l4, 5);
  }

  /** Accepted or refused, an insert leaves every other key alone. */
  lemma InsertOtherKeys<T>(leaf: Leaf<T>, k: int, len: nat, item: T)
    requires leaf.Valid()
    ensures forall k' :: k' != k ==> Lookup(Insert(leaf, k, len, item).1.slots, k') == Lookup(leaf.slots, k')
  {
    if CanInsert(leaf, len) {
      InsertIsMapUpdate(leaf, k, len, item);
    }
  }

  /** The move loop of `split_into` as written: it runs while `j` is below
      the slot count, and lowers the count (and `size`) for every tuple it
      moves, so it stops about half-way through the tail. Returns the final
      slot count, the filled leaf and the final size. */
  function MoveAsWritten<T>(slots: seq<Slot<T>>, j: nat, count: nat, target: Leaf<T>, size: uint16): (r: (nat, Leaf<T>, uint16))
    requires count <= |slots|
    ensures r.0 <= count
    decreases count - j
  {
    if j >= count then (count, target, size)
    else if !slots[j].valid then MoveAsWritten(slots, j + 1, count, target, size)
    else MoveAsWritten(slots, j + 1, count - 1, Insert(target, slots[j].key, slots[j].length, slots[j].item).1, Dec16(size))
  }

  /** `split_into` as written: the old leaf keeps the first `count` slots,
      where `count` is what the move loop left. */
  function SplitIntoAsWritten<T>(leaf: Leaf<T>, target: Leaf<T>): (r: (Result<(int, uint32)>, Leaf<T>, Leaf<T>))
    ensures r.1.nextId == target.id && r.2.nextId == leaf.nextId
  {
    var cut := SplitCut(leaf);
    var moved := MoveAsWritten(leaf.slots, cut + 1, |leaf.slots|, target, leaf.size);
    var filled := moved.1.(nextId := leaf.nextId);
    var kept := leaf.(slots := leaf.slots[..moved.0], size := moved.2, nextId := target.id);
    var least := MinKey(filled);
    (if least.Ok? then Ok((least.value, filled.id)) else Err(least.error), kept, filled)
  }

  /** A leaf holding keys 1, 2 and 3 in tuples of 100, 6 and 6 bytes (an INT
      key and a VARCHAR): the scan stops at key 1, the written loop moves
      only key 2 and the old leaf keeps keys 1 and 2. Key 3 ends up in
      neither leaf and key 2 in both. */
  lemma SplitIntoAsWrittenLosesKey<T>(leaf: Leaf<T>, target: Leaf<T>)
    requires leaf.Valid() && target.Valid() && |target.slots| == 0 && target.heapEnd == BLOCK_SIZE
    requires Shape(leaf.slots) == [(1, true), (2, true), (3, true)] && leaf.heapEnd == 3984
    requires leaf.slots[0].length == 100 && leaf.slots[1].length == 6 && leaf.slots[2].length == 6
    ensures var r := SplitIntoAsWritten(leaf, target);
      && Lookup(leaf.slots, 3).Some?
      && Lookup(r.1.slots, 3) == None && Lookup(r.2.slots, 3) == None
      && Lookup(r.1.slots, 2).Some? && Lookup(r.2.slots, 2).Some?
  {
    var s := leaf.slots;
    assert Shape(s)[0] == (1, true) && Shape(s)[1] == (2, true) && Shape(s)[2] == (3, true);
    assert SplitCut(leaf) == 0 by {
      assert ((BLOCK_SIZE - leaf.heapEnd) % SIZE_T_MODULUS) / 4 == 28;
    }
    var one := Insert(target, 2, 6, s[1].item).1;
    InsertKeepsValid(target, 2, 6, s[1].item);
    InsertIsMapUpdate(target, 2, 6, s[1].item);
    assert MoveAsWritten(s, 1, 3, target, leaf.size) == (2, one, Dec16(leaf.size));
    var r := SplitIntoAsWritten(leaf, target);
    assert r.1.slots == s[..2];
    FirstWithUnique(s, 3, 2);
    FirstWithUnique(r.1.slots, 2, 1);
    FirstWithUnique(s, 2, 1);
    assert |one.slots| == 1 && one.slots[0].key == 2 by {
      assert FirstWith(one.slots, 2) == Some(0);
    }
  }

  /** The corrected split of the same leaf keeps key 1 and moves 2 and 3,
      and reports 2 as the new leaf's minimum. */
  lemma SplitIntoMovesTail<T>(leaf: Leaf<T>, target: Leaf<T>)
    requires leaf.Valid() && target.Valid() && |target.slots| == 0 && target.heapEnd == BLOCK_SIZE
    requires Shape(leaf.slots) == [(1, true), (2, true), (3, true)] && leaf.heapEnd == 3984
    requires leaf.slots[0].length == 100 && leaf.slots[1].length == 6 && leaf.slots[2].length == 6
    ensures var r := SplitInto(leaf, target);
      && r.1.slots == leaf.slots[..1]
      && multiset(ValidEntries(r.2.slots)) == multiset{(2, leaf.slots[1].item), (3, leaf.slots[2].item)}
  {
    var s := leaf.slots;
    assert Shape(s)[0] == (1, true) && Shape(s)[1] == (2, true) && Shape(s)[2] == (3, true);
    assert SplitCut(leaf) == 0 by {
      assert ((BLOCK_SIZE - leaf.heapEnd) % SIZE_T_MODULUS) / 4 == 28;
    }
    SplitIntoKeepsEntries(leaf, target);
    assert s[1..] == [s[1], s[2]];
    assert ValidEntries(s[1..]) == [(2, s[1].item), (3, s[2].item)] by {
      assert s[1..][1..] == [s[2]];
    }
  }
}

=== FILE: leaf_node_lsm.dfy ===
/**
  `LeafNodeLSM`, a record-log leaf without key bounds or a sorted flag:
  reads always scan newest first, and the least and greatest key are
  computed from the insert records on demand. Its page is `BaseHeader` (2
  bytes), a 24-byte `PageHeader` (id, size, `leaf_info`, `slot_count`) and
  the slot directory, and its free space counts one more machine word for
  the heap end.

  The leaf's state is a `LogLeaf.Node` placed with its slot directory at
  `META_END`: the log, heap end, count, id and next id are the page's. The
  node's key bounds and sorted flag have no counterpart on this page and
  nothing here reads them.
 */
module LeafNodeLSM {
  import opened Base
  import opened Keys
  import opened Sorting
  import opened Tuples
  import opened LogRecords
  import opened LogLeaf
  import opened SortedLogs
  import opened SortedSplit
  import opened LeafTuples

  /** `metadata_end_offset(0)`: the two headers and the heap-end word. */
  const META_END: nat := 2 + 24 + 8

  /** The constructor as written: it sets the next id and the cold flag,
      then overwrites the whole `leaf_info` with `{0, false, false}`. */
  function InitAsWritten<T(==)>(id: uint32, nextId: uint32, isCold: bool): (r: Node<T>)
  {
    Init(id, 0, false)
  }

  lemma InitAsWrittenDropsLink<T>(id: uint32, nextId: uint32, isCold: bool)
    ensures var r := InitAsWritten<T>(id, nextId, isCold);
      && r.id == id && r.nextId == 0 && !r.isCold
      && r.size == 0 && r.log == [] && r.heapEnd == BLOCK_SIZE
  {
  }

  /** A leaf constructed with next id 7 and the cold flag set forgets
      both. */
  lemma InitForgetsLink<T>()
    ensures InitAsWritten<T>(1, 7, true).nextId != 7
    ensures !InitAsWritten<T>(1, 7, true).isCold
  {
  }

  /** The constructor keeping the next id and cold flag it is given. */
  function InitLinked<T(==)>(id: uint32, nextId: uint32, isCold: bool): (r: Node<T>)
  {
    Init(id, nextId, isCold)
  }

  lemma InitLinkedIsEmpty<T>(id: uint32, nextId: uint32, isCold: bool)
    ensures var r := InitLinked<T>(id, nextId, isCold);
      && r.id == id && r.nextId == nextId && r.isCold == isCold
      && r.size == 0 && r.log == [] && r.heapEnd == BLOCK_SIZE
      && r.Valid(META_END)
      && (forall k :: LogLookup(r.log, k) == None)
  {
  }

  /** `free_space`: from the end of the metadata up to the heap end. On a
      leaf within its page budget it is never negative, and a record of
      `len` bytes fits exactly when it and its slot fit in it. */
  function FreeSpace<T>(n: Node<T>): (r: int)
    ensures InBudget(n.log, n.heapEnd, META_END) ==> r >= 0
    ensures forall len: nat :: r >= len + SLOT_SIZE <==> Fits(n.log, n.heapEnd, META_END, len)
  {
    n.heapEnd - (META_END + SLOT_SIZE * |n.log|)
  }

  /** `insert`: refuse when the free space is below the record and its
      slot; otherwise append the insert record and count it. */
  function Insert<T(==)>(n: Node<T>, k: int, item: T, tupleLen: nat): (r: (bool, Node<T>))
    ensures r.0 <==> FreeSpace(n) >= tupleLen + OP_SIZE + SLOT_SIZE
    ensures !r.0 ==> r.1 == n
    ensures r.0 ==> r.1.log == n.log + [(k, Put(item, tupleLen))] && r.1.size == Inc16(n.size)
    ensures r.0 ==> r.1.heapEnd == n.heapEnd - tupleLen - OP_SIZE
    ensures r.0 ==> forall j :: LogLookup(r.1.log, j) == if j == k then Some(item) else LogLookup(n.log, j)
    ensures r.1.id == n.id && r.1.nextId == n.nextId
    ensures n.Valid(META_END) ==> r.1.Valid(META_END)
  {
    var r := LogLeaf.Insert(n, META_END, k, item, tupleLen);
    assert r.0 ==> r.1.log == n.log + [(k, Put(item, tupleLen))] by {
      if r.0 {
        assert r.1.log[..|r.1.log| - 1] == n.log;
      }
    }
    r
  }

  /** `update`: a new version is appended exactly as `insert` appends it,
      and it is counted like a new tuple. */
  function Update<T(==)>(n: Node<T>, k: int, item: T, tupleLen: nat): (r: (bool, Node<T>))
    ensures r.0 <==> FreeSpace(n) >= tupleLen + OP_SIZE + SLOT_SIZE
    ensures !r.0 ==> r.1 == n
    ensures r.0 ==> r.1.size == Inc16(n.size)
    ensures r.0 ==> forall j :: LogLookup(r.1.log, j) == if j == k then Some(item) else LogLookup(n.log, j)
  {
    Insert(n, k, item, tupleLen)
  }

  /** Append a delete marker of `tombLen` bytes and count it, as `erase`
      does with `++size`. The node's sorted flag, which this page does not
      have, stays cleared. */
  function AppendTombstone<T(==)>(n: Node<T>, k: int, tombLen: nat): (r: (bool, Node<T>))
    ensures r.0 <==> FreeSpace(n) >= tombLen + OP_SIZE + SLOT_SIZE
    ensures !r.0 ==> r.1 == n
    ensures r.0 ==> r.1.log == n.log + [(k, Tomb(tombLen))] && r.1.size == Inc16(n.size)
    ensures r.0 ==> forall j :: LogLookup(r.1.log, j) == if j == k then None else LogLookup(n.log, j)
    ensures r.1.id == n.id && r.1.nextId == n.nextId
    ensures n.Valid(META_END) ==> r.1.Valid(META_END)
  {
    var len := tombLen + OP_SIZE;
    if FreeSpace(n) < len + SLOT_SIZE then (false, n)
    else
      var rec := (k, Tomb(tombLen));
      var log := n.log + [rec];
      forall j
        ensures LogLookup(log, j) == if j == k then None else LogLookup(n.log, j)
      {
        LogLookupAppend(n.log, rec, j);
      }
      assert log[..|log| - 1] == n.log;
      (true, n.(log := log, heapEnd := n.heapEnd - len, size := Inc16(n.size), isSorted := false))
  }

  /** `erase` as written: build the marker as
      `LeafTuples.TombstoneAsWritten` does, take its `length`, refuse when
      it does not fit, `serialize` it, then append it and count it. */
  function EraseAsWritten<T(==)>(n: Node<T>, d: Desc, keyIndex: nat, k: int32): (r: Result<(bool, Node<T>)>)
    ensures keyIndex >= |d.types| ==> r.Err? && r.error.OutOfRange?
    ensures r.Ok? && !r.value.0 ==> r.value.1 == n
    ensures r.Ok? && r.value.0 ==> Serialize(d, TombstoneAsWritten(d, keyIndex, k).value).Ok?
    ensures r.Ok? && r.value.0 ==> r.value.1.size == Inc16(n.size)
    ensures r.Ok? && r.value.0 ==> forall j ::
      LogLookup(r.value.1.log, j) == if j == k then None else LogLookup(n.log, j)
  {
    match TombstoneAsWritten(d, keyIndex, k)
    case Err(e) => Err(e)
    case Ok(t) =>
      match Length(d, t)
      case Err(e) => Err(e)
      case Ok(len) =>
        if FreeSpace(n) < len + OP_SIZE + SLOT_SIZE then Ok((false, n))
        else if Serialize(d, t).Err? then Err(Serialize(d, t).error)
        else Ok(AppendTombstone(n, k, len))
  }

  /** Under the benchmark schema `erase` never appends a marker: it
      returns false when the 69-byte record does not fit and throws
      `bad_variant_access` otherwise. */
  lemma BenchmarkEraseNeverErases<T>(n: Node<T>, k: int32)
    ensures var r := EraseAsWritten(n, BenchmarkSchema(), 0, k);
      && (r.Ok? <==> FreeSpace(n) < 68 + OP_SIZE + SLOT_SIZE)
      && (r.Ok? ==> r.value == (false, n))
      && (r.Err? ==> r.error == BadVariantAccess)
  {
    var d := BenchmarkSchema();
    BenchmarkTombstoneThrows(k);
    var t := TombstoneAsWritten(d, 0, k).value;
    assert d.types[1..] == [CHAR];
    assert Length(d, t) == Ok(68);
  }

  /** `erase` with the typed marker of `LeafTuples.Tombstone`, counted as
      `LeafNodeLSM::erase` counts it. */
  function Erase<T(==)>(n: Node<T>, d: Desc, keyIndex: nat, k: int32): (r: Result<(bool, Node<T>)>)
    ensures r.Ok? <==> keyIndex < |d.types| && d.types[keyIndex] == INT
    ensures r.Ok? && !r.value.0 ==> r.value.1 == n
    ensures r.Ok? && r.value.0 ==> r.value.1.size == Inc16(n.size)
    ensures r.Ok? && r.value.0 ==> forall j ::
      LogLookup(r.value.1.log, j) == if j == k then None else LogLookup(n.log, j)
    ensures r.Ok? && n.Valid(META_END) ==> r.value.1.Valid(META_END)
  {
    match Tombstone(d, keyIndex, k)
    case Err(e) => Err(e)
    case Ok(t) =>
      TombstoneRoundTrip(d, keyIndex, k);
      Ok(AppendTombstone(n, k, Length(d, t).value))
  }

  // ---------------------------------------------------------------------
  // Reading

  /** `get`: the newest record of the key decides, a delete marker or no
      record reading as nothing. It reads what the compacted log holds. */
  function Get<T(==)>(n: Node<T>, k: int): (r: Option<T>)
    ensures r == LogLookup(Compact(n.log), k)
    ensures r.Some? <==> k in KeysOf(Compact(n.log))
  {
    CompactLookup(n.log, k);
    CompactKeysLive(n.log, k);
    LogLookup(n.log, k)
  }

  /** `is_nearly_full`: the free space is below a tenth of the block. */
  function IsNearlyFull<T>(n: Node<T>): (r: bool)
    ensures r <==> FreeSpace(n) <= 409
  {
    10 * FreeSpace(n) < BLOCK_SIZE
  }

  /** `min_key`: the least key of any insert record, deleted or not;
      "Empty node" when the log holds no insert record. */
  function MinKey<T>(n: Node<T>): (r: Result<int>)
    ensures r.Ok? <==> exists i :: 0 <= i < |n.log| && n.log[i].1.Put?
    ensures r.Err? ==> r.error == RuntimeError("Empty node")
    ensures r.Ok? ==> exists i :: 0 <= i < |n.log| && n.log[i].1.Put? && n.log[i].0 == r.value
    ensures r.Ok? ==> forall i :: 0 <= i < |n.log| && n.log[i].1.Put? ==> r.value <= n.log[i].0
  {
    var ks := PutKeys(n.log);
    if |ks| == 0 then
      Err(RuntimeError("Empty node"))
    else
      assert ks[0] in ks;
      var m := MinOf(ks, ks[0]);
      assert m in ks;
      forall i | 0 <= i < |n.log| && n.log[i].1.Put?
        ensures m <= n.log[i].0
      {
        var x := n.log[i].0;
        assert x in ks;
        var j :| 0 <= j < |ks| && ks[j] == x;
      }
      Ok(m)
  }

  /** `max_key`: the greatest key of any insert record, deleted or not;
      "Empty node" when the log holds no insert record. */
  function MaxKey<T>(n: Node<T>): (r: Result<int>)
    ensures r.Ok? <==> exists i :: 0 <= i < |n.log| && n.log[i].1.Put?
    ensures r.Err? ==> r.error == RuntimeError("Empty node")
    ensures r.Ok? ==> exists i :: 0 <= i < |n.log| && n.log[i].1.Put? && n.log[i].0 == r.value
    ensures r.Ok? ==> forall i :: 0 <= i < |n.log| && n.log[i].1.Put? ==> n.log[i].0 <= r.value
  {
    var ks := PutKeys(n.log);
    if |ks| == 0 then
      Err(RuntimeError("Empty node"))
    else
      assert ks[0] in ks;
      var m := MaxOf(ks, ks[0]);
      assert m in ks;
      forall i | 0 <= i < |n.log| && n.log[i].1.Put?
        ensures n.log[i].0 <= m
      {
        var x := n.log[i].0;
        assert x in ks;
        var j :| 0 <= j < |ks| && ks[j] == x;
      }
      Ok(m)
  }

  /** A key that was erased still bounds `min_key`: the bounds range over
      every insert record, not over the live keys. */
  lemma MinKeyCountsErased<T>(a: T)
    ensures var n := Node(0, 0, false, false, 2, [(1, Put(a, 4)), (1, Tomb(4))], INT_MAX, INT_MIN, BLOCK_SIZE - 10);
      MinKey(n) == Ok(1) && Get(n, 1) == None
  {
    var n := Node(0, 0, false, false, 2, [(1, Put(a, 4)), (1, Tomb(4))], INT_MAX, INT_MIN, BLOCK_SIZE - 10);
    assert n.log[1].1.Put? == false;
    assert n.log[0].1.Put?;
  }

  // ---------------------------------------------------------------------
  // Splitting

  /** `choose_split_key`: the key of rank `3n/4` among the records' keys;
      `LeafNodeLSM` indexes an empty vector when there are none, an error
      here. */
  function ChooseSplitKey<T>(c: seq<Record<T>>): (r: Result<int>)
    ensures r.Ok? <==> |c| > 0
    ensures r.Ok? ==> r.value in KeysOf(c) && |Below(KeysOf(c), r.value)| <= |c| * 3 / 4
  {
    if |c| == 0 then Err(OutOfRange("keys[mid]"))
    else
      BelowNthElementBound(KeysOf(c), |c| * 3 / 4);
      Ok(NthElement(KeysOf(c), |c| * 3 / 4))
  }

  /** On records with distinct keys, such as a compaction, exactly `3n/4`
      keys lie below the chosen split key. */
  lemma ChooseSplitKeyRank<T>(c: seq<Record<T>>)
    requires |c| > 0 && DistinctKeys(c)
    ensures |Below(KeysOf(c), ChooseSplitKey(c).value)| == |c| * 3 / 4
  {
    NthElementRankDistinct(KeysOf(c), |c| * 3 / 4);
  }

  /** The two record runs `split_into` fills the leaves with: below and
      from the chosen split key (quick partition), or the sorted records cut
      at three quarters; nothing when a quick partition has no key. */
  function Halves<T(==)>(c: seq<Record<T>>, policy: SplitPolicy): Option<(seq<Record<T>>, seq<Record<T>>)> {
    match policy
    case QuickPartition =>
      (match ChooseSplitKey(c)
       case Err(_) => None
       case Ok(sk) => Some((KeysBelow(c, sk), KeysAtLeast(c, sk))))
    case SortOnSplit =>
      var s := SortByKey(c);
      Some((s[..|s| * 3 / 4], s[|s| * 3 / 4..]))
  }

  /** Clear the leaf, re-insert `below` here and `above` into `target`,
      link `target` after this leaf and read `target`'s least key. */
  function Fill<T(==)>(n: Node<T>, target: Node<T>, below: seq<Record<T>>, above: seq<Record<T>>): (r: (Result<(int, uint32)>, Node<T>, Node<T>))
    ensures r.0.Ok? ==> r.0.value.1 == target.id && MinKey(r.2) == Ok(r.0.value.0)
    ensures r.0.Err? ==> MinKey(r.2).Err?
    ensures r.1.nextId == target.id && r.2.nextId == n.nextId
    ensures r.1.log == Reinsert(Reset(n), META_END, below).log
    ensures r.2.log == Reinsert(target, META_END, above).log
  {
    var kept := Reinsert(Reset(n), META_END, below).(nextId := target.id);
    var moved := Reinsert(target, META_END, above).(nextId := n.nextId);
    match MinKey(moved)
    case Err(e) => (Err(e), kept, moved)
    case Ok(key) => (Ok((key, target.id)), kept, moved)
  }

  /** `split_into`: compact, clear the leaf, and either re-insert the
      records below the chosen split key here and the others into `target`
      (quick partition) or sort them by key and cut at three quarters;
      then link `target` after this leaf and return `target`'s least key
      and id. Reading the least key of an empty `target` throws. */
  function SplitInto<T(==)>(n: Node<T>, target: Node<T>, policy: SplitPolicy): (r: (Result<(int, uint32)>, Node<T>, Node<T>))
    ensures r.0.Ok? ==> r.0.value.1 == target.id && MinKey(r.2) == Ok(r.0.value.0)
    ensures r.0.Ok? ==> r.1.nextId == target.id && r.2.nextId == n.nextId
    ensures r.1.id == n.id && r.2.id == target.id
  {
    match Halves(Compact(n.log), policy)
    case None => (Err(OutOfRange("keys[mid]")), n, target)
    case Some((below, above)) => Fill(n, target, below, above)
  }

  /** Relinking the refilled leaves keeps them valid. */
  lemma FillValid<T>(n: Node<T>, target: Node<T>, below: seq<Record<T>>, above: seq<Record<T>>)
    requires Reinsert(Reset(n), META_END, below).Valid(META_END)
    requires Reinsert(target, META_END, above).Valid(META_END)
    ensures Fill(n, target, below, above).1.Valid(META_END)
    ensures Fill(n, target, below, above).2.Valid(META_END)
  {
    Relinked(Reinsert(Reset(n), META_END, below), META_END, target.id);
    Relinked(Reinsert(target, META_END, above), META_END, n.nextId);
  }

  /** When `above` holds an insert of `x` and no key below it, the refill
      reports `x` and `target`'s id. */
  lemma FillOk<T>(n: Node<T>, target: Node<T>, below: seq<Record<T>>, above: seq<Record<T>>, x: int)
    requires Reinsert(target, META_END, above).log == above
    requires exists i :: 0 <= i < |above| && above[i].1.Put? && above[i].0 == x
    requires forall i :: 0 <= i < |above| ==> above[i].0 >= x
    ensures Fill(n, target, below, above).0 == Ok((x, target.id))
  {
    var r := Fill(n, target, below, above);
    var moved := r.2;
    assert moved.log == above;
    var m := MinKey(moved);
    assert m.Ok?;
    var i :| 0 <= i < |above| && above[i].1.Put? && above[i].0 == x;
    assert m.value <= x;
  }

  /** An empty `above` makes the refill report the empty-node error. */
  lemma FillEmpty<T>(n: Node<T>, target: Node<T>, below: seq<Record<T>>)
    requires Reinsert(target, META_END, []).log == []
    ensures Fill(n, target, below, []).0.Err?
  {
  }

  /** The quick-partition split of a valid leaf into an empty one fails
      exactly when nothing is live; otherwise it returns the chosen split
      key and target id, both leaves are valid, and they hold the compacted
      records below and from that key. */
  lemma SplitQuickShape<T>(n: Node<T>, target: Node<T>)
    requires n.Valid(META_END) && target.Valid(META_END) && target.log == []
    ensures var c := Compact(n.log);
      var r := SplitInto(n, target, QuickPartition);
      && (r.0.Ok? <==> |c| > 0)
      && (|c| > 0 ==> var sk := ChooseSplitKey(c).value;
            && r.0 == Ok((sk, target.id))
            && r.1.Valid(META_END) && r.2.Valid(META_END)
            && r.1.log == KeysBelow(c, sk) && r.2.log == KeysAtLeast(c, sk))
  {
    var c := Compact(n.log);
    if |c| > 0 {
      var sk := ChooseSplitKey(c).value;
      var below, above := KeysBelow(c, sk), KeysAtLeast(c, sk);
      assert Halves(c, QuickPartition) == Some((below, above));
      assert SplitInto(n, target, QuickPartition) == Fill(n, target, below, above);
      SplitKeepsLeaves(n, META_END, target, sk);
      FillValid(n, target, below, above);
      MovedLeastIsSplitKey(c, sk);
      FillOk(n, target, below, above, sk);
    }
  }

  /** After a quick-partition split the keys below the returned split key
      read in the old leaf what they read before, and the others in the new
      leaf. */
  lemma SplitQuickKeeps<T>(n: Node<T>, target: Node<T>, k: int)
    requires n.Valid(META_END) && target.Valid(META_END) && target.log == []
    ensures var r := SplitInto(n, target, QuickPartition);
      && (r.0.Ok? <==> |Compact(n.log)| > 0)
      && (r.0.Ok? ==> r.0.value.0 == ChooseSplitKey(Compact(n.log)).value)
      && (r.0.Ok? ==> r.1.Valid(META_END) && r.2.Valid(META_END))
      && (r.0.Ok? ==> LogLookup(r.1.log, k) == if k < r.0.value.0 then LogLookup(n.log, k) else None)
      && (r.0.Ok? ==> LogLookup(r.2.log, k) == if k >= r.0.value.0 then LogLookup(n.log, k) else None)
  {
    var c := Compact(n.log);
    SplitQuickShape(n, target);
    if |c| > 0 {
      var sk := ChooseSplitKey(c).value;
      SplitLookup(c, sk, k);
      CompactLookup(n.log, k);
    }
  }

  /** The records of a compaction at or above one of its keys have that
      key as their least insert key. */
  lemma MovedLeastIsSplitKey<T>(c: seq<Record<T>>, sk: int)
    requires Compacted(c) && sk in KeysOf(c)
    ensures var above := KeysAtLeast(c, sk);
      && (exists i :: 0 <= i < |above| && above[i].1.Put? && above[i].0 == sk)
      && (forall i :: 0 <= i < |above| ==> above[i].0 >= sk)
  {
    var j :| 0 <= j < |c| && KeysOf(c)[j] == sk;
    SplitLookup(c, sk, sk);
    CompactedLookup(c, sk);
    var above := KeysAtLeast(c, sk);
    assert LogLookup(above, sk).Some?;
  }

  /** The sorting split of a valid leaf into an empty one leaves both
      leaves valid, holding the sorted compacted records before and from
      three quarters. */
  lemma SplitSortedLeaves<T>(n: Node<T>, target: Node<T>)
    requires n.Valid(META_END)
    requires target.Valid(META_END) && target.log == [] && target.size == 0
    ensures var s := SortByKey(Compact(n.log));
      var r := SplitInto(n, target, SortOnSplit);
      && r.1.Valid(META_END) && r.2.Valid(META_END)
      && r.1.log == s[..|s| * 3 / 4] && r.2.log == s[|s| * 3 / 4..]
  {
    var c := Compact(n.log);
    var s := SortByKey(c);
    var half := |s| * 3 / 4;
    SortedCompaction(n.log);
    assert Halves(c, SortOnSplit) == Some((s[..half], s[half..]));
    assert SplitInto(n, target, SortOnSplit) == Fill(n, target, s[..half], s[half..]);
    assert Reset(n).Valid(META_END);
    RefillSlice(n, META_END, Reset(n), s, 0, half);
    RefillSlice(n, META_END, target, s, half, |s|);
    FillValid(n, target, s[..half], s[half..]);
  }

  /** Refilling from a compacted, strictly key-sorted run cut at three
      quarters reports the key at the cut, or the empty-node error when the
      run is empty. */
  lemma SortedFillKey<T>(n: Node<T>, target: Node<T>, s: seq<Record<T>>)
    requires n.Valid(META_END)
    requires target.Valid(META_END) && target.log == [] && target.size == 0
    requires Compacted(s) && StrictlySorted(KeysOf(s))
    requires |s| <= |n.log| && HeapBytes(s) <= HeapBytes(n.log)
    ensures var r := Fill(n, target, s[..|s| * 3 / 4], s[|s| * 3 / 4..]);
      && (r.0.Ok? <==> |s| > 0)
      && (r.0.Ok? ==> r.0 == Ok((s[|s| * 3 / 4].0, target.id)))
  {
    var half := |s| * 3 / 4;
    RefillSlice(n, META_END, target, s, half, |s|);
    if |s| > 0 {
      SortedHalfLeast(s, half);
      FillOk(n, target, s[..half], s[half..], s[half].0);
    } else {
      assert s[half..] == [];
      FillEmpty(n, target, s[..half]);
    }
  }

  /** The sorting split fails exactly when nothing is live; otherwise it
      returns the key at three quarters of the sorted compacted records and
      `target`'s id. */
  lemma SplitSortedKey<T>(n: Node<T>, target: Node<T>)
    requires n.Valid(META_END)
    requires target.Valid(META_END) && target.log == [] && target.size == 0
    ensures var s := SortByKey(Compact(n.log));
      var r := SplitInto(n, target, SortOnSplit);
      && (r.0.Ok? <==> |s| > 0)
      && (r.0.Ok? ==> r.0 == Ok((s[|s| * 3 / 4].0, target.id)))
  {
    var c := Compact(n.log);
    var s := SortByKey(c);
    var half := |s| * 3 / 4;
    assert Halves(c, SortOnSplit) == Some((s[..half], s[half..]));
    assert SplitInto(n, target, SortOnSplit) == Fill(n, target, s[..half], s[half..]);
    SortedCompaction(n.log);
    SortedFillKey(n, target, s);
  }

  /** After a sorting split every key reads in exactly one of the two
      leaves what it read before: below the returned key in the old leaf,
      from it on in the new one. */
  lemma SplitSortedKeeps<T>(n: Node<T>, target: Node<T>, k: int)
    requires n.Valid(META_END)
    requires target.Valid(META_END) && target.log == [] && target.size == 0
    ensures var s := SortByKey(Compact(n.log));
      var r := SplitInto(n, target, SortOnSplit);
      && (r.0.Ok? <==> |s| > 0)
      && (r.0.Ok? ==> r.0.value.0 == s[|s| * 3 / 4].0)
      && r.1.Valid(META_END) && r.2.Valid(META_END)
      && (r.0.Ok? ==> LogLookup(r.1.log, k) == if k < r.0.value.0 then LogLookup(n.log, k) else None)
      && (r.0.Ok? ==> LogLookup(r.2.log, k) == if k >= r.0.value.0 then LogLookup(n.log, k) else None)
  {
    var c := Compact(n.log);
    var s := SortByKey(c);
    SplitSortedLeaves(n, target);
    SplitSortedKey(n, target);
    SortedCompaction(n.log);
    if |s| > 0 {
      CompactLookup(n.log, k);
      CompactedPermutationLookup(s, c, k);
      SortedCutLookup(s, |s| * 3 / 4, k);
    }
  }

  /** The back part of a compacted, strictly key-sorted run has its first
      key as its least insert key. */
  lemma SortedHalfLeast<T>(s: seq<Record<T>>, h: nat)
    requires Compacted(s) && StrictlySorted(KeysOf(s)) && h < |s|
    ensures var above := s[h..];
      && above[0].1.Put? && above[0].0 == s[h].0
      && (forall i :: 0 <= i < |above| ==> above[i].0 >= s[h].0)
  {
    var above := s[h..];
    forall i | 0 <= i < |above|
      ensures above[i].0 >= s[h].0
    {
      assert above[i] == s[h + i];
      if i > 0 {
        assert KeysOf(s)[h] < KeysOf(s)[h + i];
      }
    }
  }
}

=== FILE: leaf_tuples.dfy ===
/**
  How the tuple-carrying leaves turn a `Tuple` into a record: its key (the
  INT field at the key index), its encoded length, and the delete markers
  `AppendOnlyLeafNode` and `LeafNodeLSM` write: a whole
  tuple of the leaf's schema whose key field holds the erased key. Both
  build it as `Tuple tombstone(td.size())` and set only the key field, so
  every other field is the int 0 declared INT; `length` and `serialize` then
  read those fields under the schema's own column types.
 */
module LeafTuples {
  import opened Base
  import opened Tuples
  import opened LogRecords
  import opened LogLeaf

  /** `extract_key`: the key field read as an int; `vector::at` throws
      `out_of_range` past the fields and `std::get` throws
      `bad_variant_access` on a non-int. */
  function KeyOf(t: Tuple, keyIndex: nat): (r: Result<int32>)
    ensures r.Ok? <==> keyIndex < |t.fields| && t.fields[keyIndex].IntF?
    ensures r.Ok? ==> t.fields[keyIndex] == IntF(r.value)
    ensures r.Err? && keyIndex >= |t.fields| ==> r.error.OutOfRange?
    ensures r.Err? && keyIndex < |t.fields| ==> r.error == BadVariantAccess
  {
    if keyIndex >= |t.fields| then Err(OutOfRange("vector::_M_range_check"))
    else match t.fields[keyIndex]
      case IntF(k) => Ok(k)
      case _ => Err(BadVariantAccess)
  }

  /** `insert(t)` of a leaf whose slot directory starts at `dirStart`:
      `length` may throw; a record that does not fit is refused; otherwise
      `serialize` and then `extract_key` may throw, and when neither does
      the record is appended under the tuple's key. */
  function InsertTuple(n: Node<Tuple>, dirStart: nat, d: Desc, keyIndex: nat, t: Tuple): (r: Result<(bool, Node<Tuple>)>)
    ensures r.Ok? <==> (Length(d, t).Ok? &&
      (CanInsert(n, dirStart, Length(d, t).value + OP_SIZE) ==> Serialize(d, t).Ok? && KeyOf(t, keyIndex).Ok?))
    ensures r.Ok? ==> (r.value.0 <==> CanInsert(n, dirStart, Length(d, t).value + OP_SIZE))
    ensures r.Ok? && !r.value.0 ==> r.value.1 == n
    ensures r.Ok? && r.value.0 ==> forall j ::
      LogLookup(r.value.1.log, j) == if j == KeyOf(t, keyIndex).value then Some(t) else LogLookup(n.log, j)
    ensures r.Ok? && r.value.0 ==> r.value.1.log == n.log + [(KeyOf(t, keyIndex).value as int, Put(t, Length(d, t).value))]
    ensures r.Ok? && n.Valid(dirStart) ==> r.value.1.Valid(dirStart)
  {
    match Length(d, t)
    case Err(e) => Err(e)
    case Ok(len) =>
      if !CanInsert(n, dirStart, len + OP_SIZE) then Ok((false, n))
      else if Serialize(d, t).Err? then Err(Serialize(d, t).error)
      else match KeyOf(t, keyIndex)
        case Err(e) => Err(e)
        case Ok(k) =>
          var (ok, m) := Insert(n, dirStart, k, t, len);
          assert m.log == n.log + [(k as int, Put(t, len))];
          Ok((ok, m))
  }

  /** A tuple of the schema with an INT key is always stored when it fits,
      and the leaf then reads it under its key, and its record holds the
      bytes `serialize` writes. */
  lemma InsertTupleReads(n: Node<Tuple>, dirStart: nat, d: Desc, keyIndex: nat, t: Tuple)
    requires n.Valid(dirStart) && !n.isSorted
    requires Encodable(d.types, t.fields) && keyIndex < |d.types| && d.types[keyIndex] == INT
    ensures Length(d, t).Ok? && Serialize(d, t).Ok? && |Serialize(d, t).value| == Length(d, t).value
    ensures var r := InsertTuple(n, dirStart, d, keyIndex, t);
      && r.Ok?
      && (r.value.0 <==> CanInsert(n, dirStart, Length(d, t).value + OP_SIZE))
      && (r.value.0 ==> Get(r.value.1, t.fields[keyIndex].i) == Some(t))
  {
    SerializeRoundTrip(d, t);
    SerializeLengthAgrees(d.types, t.fields);
    assert FieldMatches(d.types[keyIndex], t.fields[keyIndex]);
  }

  /** The marker as `erase` builds it. Setting a key field past the end
      of the schema throws `out_of_range`. */
  function TombstoneAsWritten(d: Desc, keyIndex: nat, key: int32): (r: Result<Tuple>)
    ensures r.Ok? <==> keyIndex < |d.types|
    ensures r.Err? ==> r.error.OutOfRange?
    ensures r.Ok? ==> |r.value.fields| == |d.types|
    ensures r.Ok? ==> forall i :: 0 <= i < |d.types| ==>
      r.value.fields[i] == if i == keyIndex then IntF(key) else IntF(0)
  {
    SetField(EmptyTuple(|d.types|), keyIndex, IntF(key))
  }

  /** Serialising that marker succeeds exactly when every column of the
      schema is INT: any other column finds the int 0 where `serialize`
      asks for a double or a string, and `std::get` throws
      `bad_variant_access`. */
  lemma TombstoneAsWrittenSerializes(d: Desc, keyIndex: nat, key: int32)
    requires keyIndex < |d.types|
    ensures var t := TombstoneAsWritten(d, keyIndex, key).value;
      Serialize(d, t).Ok? <==> forall i :: 0 <= i < |d.types| ==> d.types[i] == INT
  {
    var t := TombstoneAsWritten(d, keyIndex, key).value;
    if Serialize(d, t).Ok? {
      forall i | 0 <= i < |d.types|
        ensures d.types[i] == INT
      {
        assert FieldMatches(d.types[i], t.fields[i]);
      }
    } else {
      var i :| 0 <= i < |d.types| && !FieldMatches(d.types[i], t.fields[i]);
    }
  }

  /** The schema of the benchmark and of the tests: an INT key and a CHAR
      value. */
  function BenchmarkSchema(): (d: Desc)
    ensures d.Valid()
  {
    Desc([INT, CHAR], ["key", "val"])
  }

  /** Under the benchmark schema the marker of every key throws when it is
      serialised. */
  lemma BenchmarkTombstoneThrows(key: int32)
    ensures TombstoneAsWritten(BenchmarkSchema(), 0, key).Ok?
    ensures Serialize(BenchmarkSchema(), TombstoneAsWritten(BenchmarkSchema(), 0, key).value)
      == Err(BadVariantAccess)
  {
    var d := BenchmarkSchema();
    var t := TombstoneAsWritten(d, 0, key).value;
    assert t.fields[1] == IntF(0);
    assert d.types[1..] == [CHAR];
    assert EncodeField(d.types[0], t.fields[0]).Ok?;
    assert EncodeFields(d.types[1..], t.fields[1..]).Err?;
  }

  /** A value of the column's own type, what a marker can carry in a field
      nobody reads. */
  function DefaultField(ty: Type): (r: Field)
    ensures FieldMatches(ty, r)
    ensures ty == VARCHAR ==> |r.s| == 0
  {
    match ty
    case INT => IntF(0)
    case DOUBLE => DoubleF(0)
    case CHAR => StrF([])
    case VARCHAR => StrF([])
  }

  /** The marker with every non-key field a default of its column's type
      and declared with the schema's types. A key index past the schema
      throws `out_of_range` and a key column that is not INT throws
      `bad_variant_access`, as extracting the key of any tuple would. */
  function Tombstone(d: Desc, keyIndex: nat, key: int32): (r: Result<Tuple>)
    ensures r.Ok? <==> keyIndex < |d.types| && d.types[keyIndex] == INT
    ensures r.Ok? ==> r.value.types == d.types && |r.value.fields| == |d.types|
    ensures r.Ok? ==> r.value.fields[keyIndex] == IntF(key)
    ensures r.Ok? ==> Encodable(d.types, r.value.fields)
  {
    if keyIndex >= |d.types| then Err(OutOfRange("Tuple: index out of range in set_field"))
    else if d.types[keyIndex] != INT then Err(BadVariantAccess)
    else
      var fields := seq(|d.types|, i requires 0 <= i < |d.types| =>
        if i == keyIndex then IntF(key) else DefaultField(d.types[i]));
      Ok(Tuple(fields, d.types))
  }

  /** The typed marker always serialises, into exactly `length` bytes, and
      reading those bytes back gives the erased key in the key field. */
  lemma TombstoneRoundTrip(d: Desc, keyIndex: nat, key: int32)
    requires keyIndex < |d.types| && d.types[keyIndex] == INT
    ensures var t := Tombstone(d, keyIndex, key).value;
      && Serialize(d, t).Ok? && Length(d, t).Ok?
      && |Serialize(d, t).value| == Length(d, t).value
      && Deserialize(d, Serialize(d, t).value).Some?
      && Deserialize(d, Serialize(d, t).value).value.fields[keyIndex] == IntF(key)
  {
    var t := Tombstone(d, keyIndex, key).value;
    SerializeRoundTrip(d, t);
    SerializeLengthAgrees(d.types, t.fields);
    assert StoredFields(d.types, t.fields)[keyIndex] == Stored(INT, IntF(key));
  }

  /** Under the benchmark schema the typed marker of every key serialises. */
  lemma BenchmarkTombstoneSerializes(key: int32)
    ensures Tombstone(BenchmarkSchema(), 0, key).Ok?
    ensures Serialize(BenchmarkSchema(), Tombstone(BenchmarkSchema(), 0, key).value).Ok?
  {
    TombstoneRoundTrip(BenchmarkSchema(), 0, key);
  }
}

=== FILE: log_leaf.dfy ===
/**
  The leaf that `LasLeafNode` and `AppendOnlyLeafNode` share: a page header
  (id, tuple count, next id, sorted and cold flags, slot count, the least
  and greatest key, heap end) followed by a slot directory, with the record
  heap growing down from the end of the block. Both classes carry the same
  code for inserting, erasing, reading, compacting and splitting; only the
  header size differs (`AppendOnlyLeafNode` also stores its split policy),
  so the operations here take `dirStart`, the offset where the slot
  directory begins.

  The heap bytes themselves are not modelled: the leaf holds its record log
  (see `LogRecords`) and the byte accounting of the heap exactly.
 */
module LogLeaf {
  import opened Base
  import opened Keys
  import opened Sorting
  import opened LogRecords

  datatype Node<T> = Node(
    id: uint32,
    nextId: uint32,
    isSorted: bool,
    isCold: bool,
    size: uint16,
    log: seq<Record<T>>,
    minKey: int,
    maxKey: int,
    heapEnd: nat)
  {
    /** What every operation keeps: the page budget, a sorted leaf holding
        one insert per key in ascending key order (what the binary search
        of `get` relies on), and `min_key`/`max_key` bounding every key the
        leaf holds. */
    ghost predicate Valid(dirStart: nat) {
      && InBudget(log, heapEnd, dirStart)
      && (isSorted ==> Compacted(log) && StrictlySorted(KeysOf(log)))
      && (forall k :: LogLookup(log, k).Some? ==> minKey <= k <= maxKey)
    }
  }

  /** The initialising constructor: no records, unsorted, the heap empty and
      the sentinels `INT_MAX`/`INT_MIN` as least and greatest key. */
  function Init<T(==)>(id: uint32, nextId: uint32, isCold: bool): (r: Node<T>)
  {
    Node(id, nextId, false, isCold, 0, [], INT_MAX, INT_MIN, BLOCK_SIZE)
  }

  lemma InitIsEmpty<T>(id: uint32, nextId: uint32, isCold: bool)
    ensures var r := Init<T>(id, nextId, isCold);
      && r.id == id && r.nextId == nextId && r.isCold == isCold
      && !r.isSorted && r.size == 0 && |r.log| == 0
      && r.minKey == INT_MAX && r.maxKey == INT_MIN
      && (forall d: nat :: d <= BLOCK_SIZE ==> r.Valid(d))
      && (forall k :: Get(r, k) == None)
  {
  }

  /** Clearing the records before a sort or split re-inserts them: no
      records, empty heap, sentinel bounds. The flags and ids stay. */
  function Reset<T>(n: Node<T>): (r: Node<T>)
    ensures forall d: nat :: d <= BLOCK_SIZE ==> r.Valid(d)
    ensures r.id == n.id && r.nextId == n.nextId && r.isCold == n.isCold && r.isSorted == n.isSorted
    ensures r.log == [] && r.heapEnd == BLOCK_SIZE && r.size == 0
  {
    n.(log := [], heapEnd := BLOCK_SIZE, size := 0, minKey := INT_MAX, maxKey := INT_MIN)
  }

  // ---------------------------------------------------------------------
  // Space accounting

  /** `can_insert(len)`, without the `size_t` wrap of `heap_end - len` (see
      `LeafNode.CanInsertAsWritten`). */
  predicate CanInsert<T>(n: Node<T>, dirStart: nat, len: nat) {
    Fits(n.log, n.heapEnd, dirStart, len)
  }

  /** `used_space`: the heap bytes in use plus the slot directory. Within
      the page budget it counts exactly the records' bytes and slots, and a
      record fits exactly when it and its slot fit in what the header and
      the used space leave of the block. */
  function UsedSpace<T>(n: Node<T>): (r: int)
    ensures n.heapEnd + HeapBytes(n.log) == BLOCK_SIZE ==> r == HeapBytes(n.log) + SLOT_SIZE * |n.log|
    ensures forall d: nat, len: nat :: InBudget(n.log, n.heapEnd, d) ==>
      (Fits(n.log, n.heapEnd, d, len) <==> d + r + SLOT_SIZE + len <= BLOCK_SIZE)
  {
    BLOCK_SIZE - n.heapEnd + SLOT_SIZE * |n.log|
  }

  // ---------------------------------------------------------------------
  // Appending records

  /** `insert`: refuse when the record does not fit; otherwise append an
      insert record of the tuple's length plus the operation byte, count
      the tuple, widen the key bounds to the key and clear the sorted flag.
      The key now reads the new tuple and every other key reads as before. */
  function Insert<T(==)>(n: Node<T>, dirStart: nat, k: int, item: T, tupleLen: nat): (r: (bool, Node<T>))
    ensures r.0 <==> CanInsert(n, dirStart, tupleLen + OP_SIZE)
    ensures !r.0 ==> r.1 == n
    ensures r.0 ==> forall j :: LogLookup(r.1.log, j) == if j == k then Some(item) else LogLookup(n.log, j)
    ensures r.0 ==> |r.1.log| == |n.log| + 1 && r.1.heapEnd == n.heapEnd - tupleLen - OP_SIZE
    ensures r.0 ==> r.1.size == Inc16(n.size) && !r.1.isSorted
    ensures r.0 ==> r.1.minKey == Min(n.minKey, k) && r.1.maxKey == Max(n.maxKey, k)
    ensures r.1.id == n.id && r.1.nextId == n.nextId && r.1.isCold == n.isCold
    ensures n.Valid(dirStart) ==> r.1.Valid(dirStart)
  {
    var len := tupleLen + OP_SIZE;
    if !CanInsert(n, dirStart, len) then (false, n)
    else
      var rec := (k, Put(item, tupleLen));
      var log := n.log + [rec];
      forall j
        ensures LogLookup(log, j) == if j == k then Some(item) else LogLookup(n.log, j)
      {
        LogLookupAppend(n.log, rec, j);
      }
      assert log[..|log| - 1] == n.log;
      (true, n.(log := log, heapEnd := n.heapEnd - len, size := Inc16(n.size),
                minKey := Min(n.minKey, k), maxKey := Max(n.maxKey, k), isSorted := false))
  }

  /** `update`: append the new version as `insert` does, then take back the
      count, since a new version is not a new tuple. The key reads the new
      tuple, every other key reads as before, and the count is unchanged. */
  function Update<T(==)>(n: Node<T>, dirStart: nat, k: int, item: T, tupleLen: nat): (r: (bool, Node<T>))
    ensures r.0 <==> CanInsert(n, dirStart, tupleLen + OP_SIZE)
    ensures !r.0 ==> r.1 == n
    ensures r.0 ==> forall j :: LogLookup(r.1.log, j) == if j == k then Some(item) else LogLookup(n.log, j)
    ensures r.0 ==> r.1.size == n.size && |r.1.log| == |n.log| + 1
    ensures n.Valid(dirStart) ==> r.1.Valid(dirStart)
  {
    var (ok, m) := Insert(n, dirStart, k, item, tupleLen);
    if ok then (true, m.(size := Dec16(m.size))) else (false, n)
  }

  /** `erase` as written: refuse when the delete marker does not fit;
      otherwise append it, count one tuple less and recompute the key
      bounds when the key was one of them. The sorted flag is left as it
      was, so a sorted leaf stays marked sorted with a delete marker at its
      end. */
  function EraseAsWritten<T(==)>(n: Node<T>, dirStart: nat, k: int, tombLen: nat): (r: (bool, Node<T>))
    ensures r.0 <==> CanInsert(n, dirStart, tombLen + OP_SIZE)
    ensures !r.0 ==> r.1 == n
    ensures r.0 ==> forall j :: LogLookup(r.1.log, j) == if j == k then None else LogLookup(n.log, j)
    ensures r.0 ==> |r.1.log| == |n.log| + 1 && r.1.heapEnd == n.heapEnd - tombLen - OP_SIZE
    ensures r.0 ==> r.1.size == Dec16(n.size)
    ensures r.1.id == n.id && r.1.nextId == n.nextId && r.1.isCold == n.isCold
    ensures r.1.isSorted == n.isSorted
    ensures n.Valid(dirStart) && !n.isSorted ==> r.1.Valid(dirStart)
  {
    var len := tombLen + OP_SIZE;
    if !CanInsert(n, dirStart, len) then (false, n)
    else
      var rec := (k, Tomb(tombLen));
      var log := n.log + [rec];
      forall j
        ensures LogLookup(log, j) == if j == k then None else LogLookup(n.log, j)
      {
        LogLookupAppend(n.log, rec, j);
      }
      assert log[..|log| - 1] == n.log;
      var m := n.(log := log, heapEnd := n.heapEnd - len, size := Dec16(n.size));
      (true, if k == n.minKey || k == n.maxKey then ComputeMinMax(m) else m)
  }

  /** `erase` with the sorted flag cleared: the key reads nothing afterwards
      and every other key reads as before, also through `get`. */
  function Erase<T(==)>(n: Node<T>, dirStart: nat, k: int, tombLen: nat): (r: (bool, Node<T>))
    ensures r.0 <==> CanInsert(n, dirStart, tombLen + OP_SIZE)
    ensures !r.0 ==> r.1 == n
    ensures r.0 ==> forall j :: LogLookup(r.1.log, j) == if j == k then None else LogLookup(n.log, j)
    ensures r.0 ==> !r.1.isSorted && r.1.size == Dec16(n.size)
    ensures r.1.id == n.id && r.1.nextId == n.nextId && r.1.isCold == n.isCold
    ensures n.Valid(dirStart) ==> r.1.Valid(dirStart)
    ensures n.Valid(dirStart) && r.0 ==> forall j :: Get(r.1, j) == if j == k then None else Get(n, j)
  {
    var (ok, m) := EraseAsWritten(n, dirStart, k, tombLen);
    if !ok then (false, n)
    else
      var e := m.(isSorted := false);
      forall j | n.Valid(dirStart)
        ensures Get(e, j) == if j == k then None else Get(n, j)
      {
      }
      (true, e)
  }

  // ---------------------------------------------------------------------
  // Reading

  /** `get`: a sorted leaf is searched by halving over the record keys,
      otherwise the newest record of the key decides. When the sorted flag
      holds what it promises, both read what the log holds for the key. */
  function Get<T(==)>(n: Node<T>, k: int): (r: Option<T>)
    ensures (n.isSorted ==> Compacted(n.log) && StrictlySorted(KeysOf(n.log))) ==> r == LogLookup(n.log, k)
    ensures r.Some? ==> k in KeysOf(n.log)
  {
    if n.isSorted then
      assert Compacted(n.log) && StrictlySorted(KeysOf(n.log)) ==> SortedFind(n.log, k) == LogLookup(n.log, k) by {
        if Compacted(n.log) && StrictlySorted(KeysOf(n.log)) {
          SortedFindIsLookup(n.log, k);
        }
      }
      SortedFind(n.log, k)
    else
      var r := LogLookup(n.log, k);
      assert r.Some? ==> k in KeysOf(n.log) by {
        if r.Some? {
          var i :| 0 <= i < |n.log| && n.log[i].0 == k && n.log[i].1 == Put(r.value, n.log[i].1.len);
          assert KeysOf(n.log)[i] == k;
        }
      }
      r
  }

  /** A leaf whose sorted flag holds what it promises has no delete marker,
      so the binary search of `get` never lands on one. */
  lemma SortedLeafHasNoMarker<T>(n: Node<T>, dirStart: nat)
    requires n.Valid(dirStart) && n.isSorted
    ensures forall i :: 0 <= i < |n.log| ==> n.log[i].1.Put?
    ensures forall k :: Get(n, k) == LogLookup(n.log, k)
  {
  }

  /** `compute_min_max`: the least and greatest key whose newest record is
      an insert, scanning newest first and collecting deleted keys;
      `INT_MAX`/`INT_MIN` when nothing is live. `LasLeafNode` also skips keys
      it has already met, which cannot change a least or greatest value. */
  function ComputeMinMax<T(==)>(n: Node<T>): (r: Node<T>)
    ensures r.minKey == LiveMin(n.log) && r.maxKey == LiveMax(n.log)
    ensures r == n.(minKey := r.minKey, maxKey := r.maxKey)
  {
    var live := UndeletedKeys(n.log, {});
    var ks := KeysOf(Compact(n.log));
    forall x
      ensures x in live <==> x in ks
    {
      UndeletedKeysLive(n.log, {}, x);
      CompactKeysLive(n.log, x);
    }
    MinMaxSameElements(live, ks, INT_MAX);
    MinMaxSameElements(live, ks, INT_MIN);
    n.(minKey := MinOf(live, INT_MAX), maxKey := MaxOf(live, INT_MIN))
  }

  // ---------------------------------------------------------------------
  // Re-inserting compacted records

  /** `insert` for every insert record of `recs`, in order, ignoring the
      results, as `sort` and `split_into` do with the compacted tuples. */
  function Reinsert<T(==)>(n: Node<T>, dirStart: nat, recs: seq<Record<T>>): (r: Node<T>)
    ensures r.id == n.id && r.nextId == n.nextId && r.isCold == n.isCold
    decreases |recs|
  {
    if |recs| == 0 then n
    else
      var prev := Reinsert(n, dirStart, recs[..|recs| - 1]);
      var last := recs[|recs| - 1];
      if last.1.Put? then Insert(prev, dirStart, last.0, last.1.item, last.1.len).1 else prev
  }

  /** When the records and their slots fit, every insert is accepted: the
      log grows by exactly the records, the heap by their bytes, the count
      by their number, and the key bounds widen to their keys. */
  lemma {:induction false} ReinsertAccepts<T>(n: Node<T>, dirStart: nat, recs: seq<Record<T>>)
    requires n.Valid(dirStart)
    requires forall i :: 0 <= i < |recs| ==> recs[i].1.Put?
    requires dirStart + SLOT_SIZE * (|n.log| + |recs|) + HeapBytes(recs) <= n.heapEnd
    ensures Reinserted(n, dirStart, recs)
    decreases |recs|
  {
    if |recs| == 0 {
      assert n.log + recs == n.log;
    } else {
      var init := recs[..|recs| - 1];
      var last := recs[|recs| - 1];
      assert recs == init + [last];
      HeapBytesAppend(init, [last]);
      assert HeapBytes([last]) == SlotLength(last.1) by { assert [last][..0] == []; }
      ReinsertAccepts(n, dirStart, init);
      ReinsertStep(n, dirStart, init, last);
    }
  }

  /** What re-inserting `recs` into `n` gives when every insert is
      accepted. */
  ghost predicate Reinserted<T>(n: Node<T>, dirStart: nat, recs: seq<Record<T>>) {
    var r := Reinsert(n, dirStart, recs);
    && r.Valid(dirStart)
    && r.log == n.log + recs
    && r.heapEnd == n.heapEnd - HeapBytes(recs)
    && r.isSorted == (n.isSorted && |recs| == 0)
  }

  /** One accepted insert of the re-insertion. */
  lemma ReinsertStep<T>(n: Node<T>, dirStart: nat, init: seq<Record<T>>, last: Record<T>)
    requires Reinserted(n, dirStart, init)
    requires last.1.Put?
    requires dirStart + SLOT_SIZE * (|n.log| + |init| + 1) + HeapBytes(init) + SlotLength(last.1) <= n.heapEnd
    ensures Reinserted(n, dirStart, init + [last])
  {
    var recs := init + [last];
    assert recs[..|recs| - 1] == init;
    var prev := Reinsert(n, dirStart, init);
    var next := Insert(prev, dirStart, last.0, last.1.item, last.1.len);
    assert Reinsert(n, dirStart, recs) == next.1;
    assert next.0 by {
      assert |prev.log| == |n.log| + |init|;
      assert prev.heapEnd == n.heapEnd - HeapBytes(init);
    }
    assert HeapBytes(recs) == HeapBytes(init) + SlotLength(last.1) by {
      HeapBytesAppend(init, [last]);
      assert [last][..0] == [];
    }
    assert next.1.log == n.log + recs by {
      assert (n.log + init) + [last] == n.log + recs;
    }
    assert next.1.Valid(dirStart);
    assert next.1.heapEnd == n.heapEnd - HeapBytes(recs);
    assert !next.1.isSorted;
  }

  /** The re-inserted records are counted one by one in the 16-bit size. */
  lemma {:induction false} ReinsertSize<T>(n: Node<T>, dirStart: nat, recs: seq<Record<T>>)
    requires n.Valid(dirStart)
    requires forall i :: 0 <= i < |recs| ==> recs[i].1.Put?
    requires dirStart + SLOT_SIZE * (|n.log| + |recs|) + HeapBytes(recs) <= n.heapEnd
    ensures Reinsert(n, dirStart, recs).size == (n.size + |recs|) % 0x1_0000
    decreases |recs|
  {
    if |recs| > 0 {
      var init := recs[..|recs| - 1];
      var last := recs[|recs| - 1];
      assert recs == init + [last];
      HeapBytesAppend(init, [last]);
      assert HeapBytes([last]) == SlotLength(last.1) by { assert [last][..0] == []; }
      ReinsertAccepts(n, dirStart, init);
      ReinsertSize(n, dirStart, init);
      var prev := Reinsert(n, dirStart, init);
      assert CanInsert(prev, dirStart, last.1.len + OP_SIZE);
      Inc16Mod(n.size + |init|);
    }
  }

  /** The least key after re-inserting is the least of the records' keys
      and the bound the leaf had. */
  lemma {:induction false} ReinsertMin<T>(n: Node<T>, dirStart: nat, recs: seq<Record<T>>)
    requires n.Valid(dirStart)
    requires forall i :: 0 <= i < |recs| ==> recs[i].1.Put?
    requires dirStart + SLOT_SIZE * (|n.log| + |recs|) + HeapBytes(recs) <= n.heapEnd
    ensures Reinsert(n, dirStart, recs).minKey == MinOf(KeysOf(recs), n.minKey)
    decreases |recs|
  {
    if |recs| > 0 {
      var init := recs[..|recs| - 1];
      var last := recs[|recs| - 1];
      assert recs == init + [last];
      HeapBytesAppend(init, [last]);
      assert HeapBytes([last]) == SlotLength(last.1) by { assert [last][..0] == []; }
      ReinsertAccepts(n, dirStart, init);
      ReinsertMin(n, dirStart, init);
      var prev := Reinsert(n, dirStart, init);
      assert CanInsert(prev, dirStart, last.1.len + OP_SIZE);
      assert KeysOf(recs)[..|recs| - 1] == KeysOf(init);
    }
  }

  /** Counting one more on a `uint16_t` that holds `x` modulo 2^16. */
  lemma Inc16Mod(x: nat)
    ensures Inc16(x % 0x1_0000) == (x + 1) % 0x1_0000
  {
    var q := x / 0x1_0000;
    assert x == q * 0x1_0000 + x % 0x1_0000;
    assert x + 1 == q * 0x1_0000 + (x % 0x1_0000 + 1);
  }

  /** The least key of a non-empty run in ascending order is its first key
      when the keys are 32-bit. */
  lemma MinOfSortedRun(s: seq<int>)
    requires |s| > 0 && Sorted(s) && s[0] <= INT_MAX
    ensures MinOf(s, INT_MAX) == s[0]
  {
  }

  // ---------------------------------------------------------------------
  // Splitting

  /** The quick-partition `split_into`: compact, clear the leaf, take the
      key at index `3n/4` of the compacted records (in log order) as split
      key, re-insert the records below it here and the others into
      `target`, and link `target` after this leaf. With nothing live the
      source indexes an empty vector; that is an error here. */
  function SplitQuick<T(==)>(n: Node<T>, dirStart: nat, target: Node<T>): (r: (Result<int>, Node<T>, Node<T>))
    ensures r.0.Err? <==> |Compact(n.log)| == 0
    ensures r.0.Err? ==> r.1 == n && r.2 == target
    ensures r.0.Ok? ==> r.1.nextId == target.id && r.2.nextId == n.nextId
    ensures r.1.id == n.id && r.2.id == target.id && r.1.isCold == n.isCold && r.2.isCold == target.isCold
  {
    var c := Compact(n.log);
    if |c| == 0 then (Err(OutOfRange("compacted")), n, target)
    else
      var splitKey := c[|c| * 3 / 4].0;
      var kept := Reinsert(Reset(n), dirStart, KeysBelow(c, splitKey));
      var moved := Reinsert(target, dirStart, KeysAtLeast(c, splitKey));
      (Ok(splitKey), kept.(nextId := target.id), moved.(nextId := n.nextId))
  }

  /** Splitting a valid leaf with a live record into an empty one loses
      nothing and invents nothing: the split key is live, every key below
      it reads in the old leaf what it read before and nothing in the new
      one, every other key the reverse, and both leaves are valid. A key
      that read nothing before reads nothing in either leaf. */
  lemma SplitQuickKeeps<T>(n: Node<T>, dirStart: nat, target: Node<T>, k: int)
    requires n.Valid(dirStart) && target.Valid(dirStart) && target.log == []
    requires |Compact(n.log)| > 0
    ensures var (res, kept, moved) := SplitQuick(n, dirStart, target);
      && res.Ok? && |Compact(n.log)| > 0 && res.value == Compact(n.log)[|Compact(n.log)| * 3 / 4].0
      && LogLookup(n.log, res.value).Some?
      && kept.Valid(dirStart) && moved.Valid(dirStart)
      && Get(kept, k) == (if k < res.value then LogLookup(n.log, k) else None)
      && Get(moved, k) == (if k >= res.value then LogLookup(n.log, k) else None)
  {
    var c := Compact(n.log);
    var sk := c[|c| * 3 / 4].0;
    assert KeysOf(c)[|c| * 3 / 4] == sk;
    CompactKeysLive(n.log, sk);
    SplitKeepsLeaves(n, dirStart, target, sk);
    SplitLookup(c, sk, k);
    CompactLookup(n.log, k);
  }

  /** The two re-inserted halves of a split at `x`. */
  lemma SplitKeepsLeaves<T>(n: Node<T>, dirStart: nat, target: Node<T>, x: int)
    requires n.Valid(dirStart) && target.Valid(dirStart) && target.log == []
    ensures var c := Compact(n.log);
      var kept := Reinsert(Reset(n), dirStart, KeysBelow(c, x));
      var moved := Reinsert(target, dirStart, KeysAtLeast(c, x));
      && kept.Valid(dirStart) && kept.log == KeysBelow(c, x)
      && moved.Valid(dirStart) && moved.log == KeysAtLeast(c, x)
  {
    var c := Compact(n.log);
    var below := KeysBelow(c, x);
    var above := KeysAtLeast(c, x);
    assert Reset(n).Valid(dirStart);
    ReinsertIntoEmpty(n, dirStart, Reset(n), c, below);
    ReinsertIntoEmpty(n, dirStart, target, c, above);
  }

  /** Records drawn from the compaction of a valid leaf all go back into an
      empty leaf with the same header. */
  lemma ReinsertIntoEmpty<T>(n: Node<T>, dirStart: nat, base: Node<T>, c: seq<Record<T>>, recs: seq<Record<T>>)
    requires n.Valid(dirStart) && base.Valid(dirStart) && base.log == []
    requires Compacted(c) && |c| <= |n.log| && HeapBytes(c) <= HeapBytes(n.log)
    requires |recs| <= |c| && HeapBytes(recs) <= HeapBytes(c)
    requires forall i :: 0 <= i < |recs| ==> recs[i] in c
    ensures Reinserted(base, dirStart, recs)
    ensures Reinsert(base, dirStart, recs).log == recs
  {
    forall i | 0 <= i < |recs|
      ensures recs[i].1.Put?
    {
      var j := IndexOf(c, recs[i]);
    }
    ReinsertAccepts(base, dirStart, recs);
    assert [] + recs == recs;
  }

  /** A compacted run in strictly ascending key order, no larger than a
      valid leaf's log, fills an empty leaf as a sorted leaf: it is valid,
      its log is the run, and its count is the run's length. */
  lemma RefillSorted<T>(n: Node<T>, dirStart: nat, base: Node<T>, s: seq<Record<T>>)
    requires n.Valid(dirStart) && base.Valid(dirStart) && base.log == [] && base.size == 0
    requires Compacted(s) && StrictlySorted(KeysOf(s))
    requires |s| <= |n.log| && HeapBytes(s) <= HeapBytes(n.log)
    ensures Reinsert(base, dirStart, s).Valid(dirStart)
    ensures var r := Reinsert(base, dirStart, s).(isSorted := true);
      r.Valid(dirStart) && r.log == s && r.size == |s|
  {
    forall i | 0 <= i < |s|
      ensures s[i] in s
    {
    }
    ReinsertIntoEmpty(n, dirStart, base, s, s);
    MarkSorted(Reinsert(base, dirStart, s), dirStart);
    RefillSize(n, dirStart, base, s);
  }

  /** A valid leaf whose log is compacted and in ascending key order stays
      valid when marked sorted. */
  lemma MarkSorted<T>(m: Node<T>, dirStart: nat)
    requires m.Valid(dirStart) && Compacted(m.log) && StrictlySorted(KeysOf(m.log))
    ensures m.(isSorted := true).Valid(dirStart)
  {
    var r := m.(isSorted := true);
    assert r.log == m.log && r.minKey == m.minKey && r.maxKey == m.maxKey;
  }

  /** Re-inserting a run no longer than a valid leaf's log into an empty
      leaf counts exactly the run: the 16-bit count cannot wrap. */
  lemma RefillSize<T>(n: Node<T>, dirStart: nat, base: Node<T>, s: seq<Record<T>>)
    requires n.Valid(dirStart) && base.Valid(dirStart) && base.log == [] && base.size == 0
    requires forall i :: 0 <= i < |s| ==> s[i].1.Put?
    requires |s| <= |n.log| && HeapBytes(s) <= HeapBytes(n.log)
    ensures Reinsert(base, dirStart, s).size == |s|
  {
    assert SLOT_SIZE * |n.log| <= n.heapEnd <= BLOCK_SIZE;
    assert dirStart + SLOT_SIZE * |s| + HeapBytes(s) <= base.heapEnd;
    ReinsertSize(base, dirStart, s);
  }
}

=== FILE: log_records.dfy ===
/**
  The record log of the append-only leaves (`LasLeafNode`,
  `AppendOnlyLeafNode`, `LeafNodeLSM`). Every change is appended as a record:
  an insert carrying a tuple or a delete marker carrying a key. The records
  are read newest first, so the newest record of a key decides what the leaf
  holds for it. `compact` keeps, for every key whose newest record is an
  insert, that insert, and drops everything else.

  A record is the pair of its key and its operation, so the pair orderings
  of `Sorting` apply to logs directly.
 */
module LogRecords {
  import opened Base
  import opened Keys
  import opened Sorting

  /** The operation byte (`OpType`) that opens every record on the heap. */
  const OP_SIZE: nat := 1

  /** What follows the key: an insert of `item` or a delete marker. `len` is
      the bytes stored after the operation byte. */
  datatype Op<T> = Put(item: T, len: nat) | Tomb(len: nat)

  type Record<T> = (int, Op<T>)

  /** The heap bytes a record takes: operation byte and payload. */
  function SlotLength<T>(op: Op<T>): (r: nat)
    ensures r >= OP_SIZE
  {
    op.len + OP_SIZE
  }

  /** The heap bytes of a whole log. */
  function HeapBytes<T>(log: seq<Record<T>>): (r: nat)
    ensures |log| > 0 ==> r >= |log|
  {
    if |log| == 0 then 0 else HeapBytes(log[..|log| - 1]) + SlotLength(log[|log| - 1].1)
  }

  lemma {:induction false} HeapBytesAppend<T>(a: seq<Record<T>>, b: seq<Record<T>>)
    ensures HeapBytes(a + b) == HeapBytes(a) + HeapBytes(b)
    decreases |b|
  {
    if |b| == 0 {
      assert a + b == a;
    } else {
      assert (a + b)[..|a + b| - 1] == a + b[..|b| - 1];
      HeapBytesAppend(a, b[..|b| - 1]);
    }
  }

  /** The heap bytes do not depend on the order of the records. */
  lemma {:induction false} HeapBytesPermutation<T>(s: seq<Record<T>>, t: seq<Record<T>>)
    requires multiset(s) == multiset(t)
    ensures HeapBytes(s) == HeapBytes(t)
    decreases |s|
  {
    assert |s| == |multiset(s)| == |t|;
    if |s| > 0 {
      var x := s[|s| - 1];
      var s' := s[..|s| - 1];
      assert s == s' + [x];
      assert x in multiset(t);
      var j := IndexOf(t, x);
      var t' := t[..j] + t[j + 1..];
      assert t == t[..j] + [x] + t[j + 1..];
      assert multiset(t') == multiset(t) - multiset{x};
      assert multiset(s') == multiset(s) - multiset{x};
      HeapBytesPermutation(s', t');
      HeapBytesAppend(t[..j] + [x], t[j + 1..]);
      HeapBytesAppend(t[..j], [x]);
      HeapBytesAppend(t[..j], t[j + 1..]);
      assert HeapBytes([x]) == SlotLength(x.1) by { assert [x][..0] == []; }
    }
  }

  /** A prefix of a log takes no more heap than the log. */
  lemma HeapBytesPrefix<T>(s: seq<Record<T>>, n: nat)
    requires n <= |s|
    ensures HeapBytes(s[..n]) + HeapBytes(s[n..]) == HeapBytes(s)
  {
    assert s == s[..n] + s[n..];
    HeapBytesAppend(s[..n], s[n..]);
  }

  // ---------------------------------------------------------------------
  // The page budget

  /** A slot directory entry: offset and length, two bytes each. */
  const SLOT_SIZE: nat := 4

  /** The space test before an append: `len` heap bytes and one more slot
      fit between the end of the slot directory (which starts at `dirStart`)
      and the top of the heap. */
  predicate Fits<T>(log: seq<Record<T>>, heapEnd: nat, dirStart: nat, len: nat) {
    len <= heapEnd && heapEnd - len >= dirStart + SLOT_SIZE * (|log| + 1)
  }

  /** The slot directory ends below the heap, and the heap holds exactly
      the bytes of the records. */
  ghost predicate InBudget<T>(log: seq<Record<T>>, heapEnd: nat, dirStart: nat) {
    dirStart + SLOT_SIZE * |log| <= heapEnd && heapEnd + HeapBytes(log) == BLOCK_SIZE
  }

  /** Every key is a 32-bit `int`, the key type of every tree. */
  ghost predicate Int32Keys<T>(log: seq<Record<T>>) {
    forall i :: 0 <= i < |log| ==> INT_MIN <= log[i].0 <= INT_MAX
  }

  // ---------------------------------------------------------------------
  // Reading a log

  /** The newest record of `k` decides: an insert yields its tuple, a delete
      marker or no record at all yields nothing. */
  function LogLookup<T(==)>(log: seq<Record<T>>, k: int): (r: Option<T>)
    ensures r.Some? ==> exists i :: 0 <= i < |log| && log[i].0 == k && log[i].1 == Put(r.value, log[i].1.len)
  {
    if |log| == 0 then None
    else
      var last := log[|log| - 1];
      if last.0 == k then (if last.1.Put? then Some(last.1.item) else None)
      else
        var r := LogLookup(log[..|log| - 1], k);
        if r.Some? then
          var i :| 0 <= i < |log| - 1 && log[..|log| - 1][i].0 == k && log[..|log| - 1][i].1 == Put(r.value, log[..|log| - 1][i].1.len);
          assert log[i] == log[..|log| - 1][i];
          r
        else r
  }

  /** Appending a record changes what its own key reads and nothing else. */
  lemma LogLookupAppend<T>(log: seq<Record<T>>, rec: Record<T>, k: int)
    ensures LogLookup(log + [rec], k) ==
      if rec.0 == k then (if rec.1.Put? then Some(rec.1.item) else None) else LogLookup(log, k)
  {
    assert (log + [rec])[..|log|] == log;
  }

  /** Every record is an insert and no two records share a key: the shape of
      a compacted log. */
  ghost predicate Compacted<T>(s: seq<Record<T>>) {
    (forall i :: 0 <= i < |s| ==> s[i].1.Put?) && DistinctKeys(s)
  }

  /** On a compacted log a key reads the one insert it has, if any. */
  lemma {:induction false} CompactedLookup<T>(s: seq<Record<T>>, k: int)
    requires Compacted(s)
    ensures LogLookup(s, k).Some? <==> k in KeysOf(s)
    ensures forall i :: 0 <= i < |s| && s[i].0 == k ==> LogLookup(s, k) == Some(s[i].1.item)
    decreases |s|
  {
    if |s| > 0 {
      var s' := s[..|s| - 1];
      assert Compacted(s');
      CompactedLookup(s', k);
      assert KeysOf(s) == KeysOf(s') + [s[|s| - 1].0];
    }
  }

  /** Two compacted logs holding the same records read alike. */
  lemma CompactedPermutationLookup<T>(s: seq<Record<T>>, t: seq<Record<T>>, k: int)
    requires Compacted(s) && Compacted(t)
    requires multiset(s) == multiset(t)
    ensures LogLookup(s, k) == LogLookup(t, k)
  {
    CompactedLookup(s, k);
    CompactedLookup(t, k);
    if k in KeysOf(t) {
      KeyOfPermutation(s, t, k);
    }
    if k in KeysOf(s) {
      var i :| 0 <= i < |s| && KeysOf(s)[i] == k;
      assert s[i] in multiset(t);
      var j := IndexOf(t, s[i]);
    }
  }

  lemma KeyOfPermutation<T>(s: seq<Record<T>>, t: seq<Record<T>>, k: int)
    requires multiset(s) == multiset(t)
    requires k in KeysOf(t)
    ensures k in KeysOf(s)
  {
    var j :| 0 <= j < |t| && KeysOf(t)[j] == k;
    assert t[j] in multiset(s);
    var i := IndexOf(s, t[j]);
    assert KeysOf(s)[i] == k;
  }

  // ---------------------------------------------------------------------
  // Compaction

  /** The newest-first scan of `compact`: `dead` holds the keys already
      decided by a newer record. An insert of an undecided key is kept; the
      kept records come out in log order. */
  function CompactFrom<T(==)>(log: seq<Record<T>>, dead: set<int>): (r: seq<Record<T>>)
    ensures |r| <= |log| && HeapBytes(r) <= HeapBytes(log)
    ensures forall i :: 0 <= i < |r| ==> r[i].1.Put? && r[i].0 !in dead && r[i] in log
    ensures Compacted(r)
    decreases |log|
  {
    if |log| == 0 then []
    else
      var last := log[|log| - 1];
      var rest := log[..|log| - 1];
      if last.1.Tomb? then CompactFrom(rest, dead + {last.0})
      else if last.0 in dead then CompactFrom(rest, dead)
      else
        var kept := CompactFrom(rest, dead + {last.0});
        HeapBytesAppend(kept, [last]);
        assert HeapBytes([last]) == SlotLength(last.1) by { assert [last][..0] == []; }
        kept + [last]
  }

  /** `compact`. */
  function Compact<T(==)>(log: seq<Record<T>>): (r: seq<Record<T>>)
    ensures Compacted(r)
    ensures |r| <= |log| && HeapBytes(r) <= HeapBytes(log)
    ensures forall i :: 0 <= i < |r| ==> r[i] in log
  {
    CompactFrom(log, {})
  }

  /** Compaction keeps what every undecided key reads. */
  lemma {:induction false} CompactFromLookup<T>(log: seq<Record<T>>, dead: set<int>, k: int)
    ensures LogLookup(CompactFrom(log, dead), k) == if k in dead then None else LogLookup(log, k)
    decreases |log|
  {
    if |log| > 0 {
      var last := log[|log| - 1];
      var rest := log[..|log| - 1];
      assert log == rest + [last];
      LogLookupAppend(rest, last, k);
      if last.1.Tomb? {
        CompactFromLookup(rest, dead + {last.0}, k);
      } else if last.0 in dead {
        CompactFromLookup(rest, dead, k);
      } else {
        CompactFromLookup(rest, dead + {last.0}, k);
        LogLookupAppend(CompactFrom(rest, dead + {last.0}), last, k);
      }
    }
  }

  /** Compaction loses nothing: the compacted log reads exactly as the log. */
  lemma CompactLookup<T>(log: seq<Record<T>>, k: int)
    ensures LogLookup(Compact(log), k) == LogLookup(log, k)
  {
    CompactFromLookup(log, {}, k);
  }

  /** The keys left after compaction are the live keys of the log. */
  lemma CompactKeysLive<T>(log: seq<Record<T>>, k: int)
    ensures k in KeysOf(Compact(log)) <==> LogLookup(log, k).Some?
  {
    CompactLookup(log, k);
    CompactedLookup(Compact(log), k);
  }

  /** A compacted log compacts to itself. */
  lemma {:induction false} CompactFromCompacted<T>(s: seq<Record<T>>, dead: set<int>)
    requires Compacted(s)
    requires forall i :: 0 <= i < |s| ==> s[i].0 !in dead
    ensures CompactFrom(s, dead) == s
    decreases |s|
  {
    if |s| > 0 {
      var rest := s[..|s| - 1];
      var last := s[|s| - 1];
      CompactedInit(s);
      CompactFromCompacted(rest, dead + {last.0});
      CompactFromKeeps(s, dead);
      assert s == rest + [last];
    }
  }

  /** Dropping the newest record of a compacted log leaves a compacted log
      without its key. */
  lemma CompactedInit<T>(s: seq<Record<T>>)
    requires Compacted(s) && |s| > 0
    ensures Compacted(s[..|s| - 1])
    ensures forall i :: 0 <= i < |s| - 1 ==> s[i].0 != s[|s| - 1].0
  {
  }

  /** One step of the scan over a newest insert of an undecided key. */
  lemma CompactFromKeeps<T>(s: seq<Record<T>>, dead: set<int>)
    requires |s| > 0 && s[|s| - 1].1.Put? && s[|s| - 1].0 !in dead
    ensures CompactFrom(s, dead) == CompactFrom(s[..|s| - 1], dead + {s[|s| - 1].0}) + [s[|s| - 1]]
  {
  }

  // ---------------------------------------------------------------------
  // Key filters (in log order)

  /** The records whose key is below `x`. */
  function KeysBelow<T(==)>(s: seq<Record<T>>, x: int): (r: seq<Record<T>>)
    ensures |r| <= |s| && HeapBytes(r) <= HeapBytes(s)
    ensures forall i :: 0 <= i < |r| ==> r[i].0 < x && r[i] in s
  {
    if |s| == 0 then []
    else
      var rest := KeysBelow(s[..|s| - 1], x);
      var last := s[|s| - 1];
      if last.0 < x then
        HeapBytesAppend(rest, [last]);
        assert HeapBytes([last]) == SlotLength(last.1) by { assert [last][..0] == []; }
        rest + [last]
      else rest
  }

  /** The records whose key is at least `x`. */
  function KeysAtLeast<T(==)>(s: seq<Record<T>>, x: int): (r: seq<Record<T>>)
    ensures |r| <= |s| && HeapBytes(r) <= HeapBytes(s)
    ensures forall i :: 0 <= i < |r| ==> r[i].0 >= x && r[i] in s
  {
    if |s| == 0 then []
    else
      var rest := KeysAtLeast(s[..|s| - 1], x);
      var last := s[|s| - 1];
      if last.0 >= x then
        HeapBytesAppend(rest, [last]);
        assert HeapBytes([last]) == SlotLength(last.1) by { assert [last][..0] == []; }
        rest + [last]
      else rest
  }

  /** The records whose key lies in `[lo, hi]`. */
  function InRange<T(==)>(s: seq<Record<T>>, lo: int, hi: int): (r: seq<Record<T>>)
    ensures |r| <= |s|
    ensures forall i :: 0 <= i < |r| ==> lo <= r[i].0 <= hi && r[i] in s
  {
    if |s| == 0 then []
    else
      var rest := InRange(s[..|s| - 1], lo, hi);
      var last := s[|s| - 1];
      if lo <= last.0 <= hi then rest + [last] else rest
  }

  /** Splitting a compacted log at `x` sends every key to exactly one side,
      where it reads as before. */
  lemma {:induction false} SplitLookup<T>(s: seq<Record<T>>, x: int, k: int)
    ensures LogLookup(KeysBelow(s, x), k) == if k < x then LogLookup(s, k) else None
    ensures LogLookup(KeysAtLeast(s, x), k) == if k >= x then LogLookup(s, k) else None
    decreases |s|
  {
    if |s| > 0 {
      var rest := s[..|s| - 1];
      var last := s[|s| - 1];
      assert s == rest + [last];
      SplitLookup(rest, x, k);
      LogLookupAppend(rest, last, k);
      LogLookupAppend(KeysBelow(rest, x), last, k);
      LogLookupAppend(KeysAtLeast(rest, x), last, k);
    }
  }

  /** The two sides of a split are compacted when the log is. */
  lemma {:induction false} SplitCompacted<T>(s: seq<Record<T>>, x: int)
    requires Compacted(s)
    ensures Compacted(KeysBelow(s, x)) && Compacted(KeysAtLeast(s, x))
    decreases |s|
  {
    if |s| > 0 {
      var rest := s[..|s| - 1];
      var last := s[|s| - 1];
      assert Compacted(rest);
      SplitCompacted(rest, x);
      NotInPrefix(s, KeysBelow(rest, x));
      NotInPrefix(s, KeysAtLeast(rest, x));
    }
  }

  /** Records drawn from all but the last record of a compacted log do not
      share its key. */
  lemma NotInPrefix<T>(s: seq<Record<T>>, r: seq<Record<T>>)
    requires Compacted(s) && |s| > 0 && Compacted(r)
    requires forall i :: 0 <= i < |r| ==> r[i] in s[..|s| - 1]
    ensures Compacted(r + [s[|s| - 1]])
  {
    forall i | 0 <= i < |r|
      ensures r[i].0 != s[|s| - 1].0
    {
      var j := IndexOf(s[..|s| - 1], r[i]);
      assert s[j] == r[i];
    }
  }

  /** A log whose keys are all below `x` lies wholly on the lower side. */
  lemma {:induction false} AllBelow<T>(s: seq<Record<T>>, x: int)
    requires forall i :: 0 <= i < |s| ==> s[i].0 < x
    ensures KeysBelow(s, x) == s && KeysAtLeast(s, x) == []
    decreases |s|
  {
    if |s| > 0 {
      AllBelow(s[..|s| - 1], x);
      assert s[..|s| - 1] + [s[|s| - 1]] == s;
    }
  }

  lemma SnocSuffix<X>(s: seq<X>, h: nat)
    requires h < |s|
    ensures s[..|s| - 1][h..] + [s[|s| - 1]] == s[h..]
  {
  }

  // ---------------------------------------------------------------------
  // Sorted logs

  /** The sorted branch of `get`: the midpoint search over the record keys
      and the record it lands on, read when it holds the key. A delete
      marker met there reads as nothing. */
  function SortedFind<T(==)>(log: seq<Record<T>>, k: int): (r: Option<T>)
    ensures r.Some? ==> k in KeysOf(log)
  {
    var keys := KeysOf(log);
    var i := MidpointSearch(keys, k, 0, |keys|);
    if i < |log| && log[i].0 == k && log[i].1.Put? then
      assert keys[i] == k;
      Some(log[i].1.item)
    else None
  }

  /** On a compacted log in ascending key order the binary search reads what
      the newest-first scan reads. */
  lemma SortedFindIsLookup<T>(log: seq<Record<T>>, k: int)
    requires Compacted(log) && StrictlySorted(KeysOf(log))
    ensures SortedFind(log, k) == LogLookup(log, k)
  {
    var keys := KeysOf(log);
    MidpointSearchSorted(keys, k);
    LowerBoundFinds(keys, k);
    CompactedLookup(log, k);
  }

  /** The sorted branch of `get_range`: skip keys below `lo`, stop at the
      first key above `hi`. */
  function SortedRange<T(==)>(s: seq<Record<T>>, lo: int, hi: int): (r: seq<Record<T>>)
    ensures |r| <= |s|
  {
    if |s| == 0 then []
    else if s[0].0 < lo then SortedRange(s[1..], lo, hi)
    else if s[0].0 > hi then []
    else [s[0]] + SortedRange(s[1..], lo, hi)
  }

  lemma InRangeSnoc<T>(s: seq<Record<T>>, x: Record<T>, lo: int, hi: int)
    ensures InRange(s + [x], lo, hi) == InRange(s, lo, hi) + if lo <= x.0 <= hi then [x] else []
  {
    assert (s + [x])[..|s|] == s;
  }

  lemma {:induction false} InRangeConcat<T>(a: seq<Record<T>>, b: seq<Record<T>>, lo: int, hi: int)
    ensures InRange(a + b, lo, hi) == InRange(a, lo, hi) + InRange(b, lo, hi)
    decreases |b|
  {
    if |b| == 0 {
      assert a + b == a;
    } else {
      var b' := b[..|b| - 1];
      var x := b[|b| - 1];
      assert a + b == (a + b') + [x] && b == b' + [x];
      InRangeConcat(a, b', lo, hi);
      InRangeSnoc(a + b', x, lo, hi);
      InRangeSnoc(b', x, lo, hi);
    }
  }

  lemma {:induction false} InRangeAbove<T>(s: seq<Record<T>>, lo: int, hi: int)
    requires forall i :: 0 <= i < |s| ==> s[i].0 > hi
    ensures InRange(s, lo, hi) == []
    decreases |s|
  {
    if |s| > 0 {
      InRangeAbove(s[..|s| - 1], lo, hi);
    }
  }

  lemma InRangeCons<T>(s: seq<Record<T>>, lo: int, hi: int)
    requires |s| > 0
    ensures InRange(s, lo, hi) == (if lo <= s[0].0 <= hi then [s[0]] else []) + InRange(s[1..], lo, hi)
  {
    assert s == [s[0]] + s[1..];
    InRangeConcat([s[0]], s[1..], lo, hi);
    InRangeSnoc([], s[0], lo, hi);
    assert [] + [s[0]] == [s[0]];
  }

  /** On a log in ascending key order the early-stopping scan returns every
      record in the range. */
  lemma {:induction false} SortedRangeIsInRange<T>(s: seq<Record<T>>, lo: int, hi: int)
    requires Sorted(KeysOf(s))
    ensures SortedRange(s, lo, hi) == InRange(s, lo, hi)
    decreases |s|
  {
    if |s| > 0 {
      var t := s[1..];
      SortedTail(s);
      SortedRangeIsInRange(t, lo, hi);
      assert InRange(s, lo, hi) == (if lo <= s[0].0 <= hi then [s[0]] else []) + InRange(t, lo, hi) by {
        InRangeCons(s, lo, hi);
      }
      if s[0].0 > hi {
        InRangeAbove(t, lo, hi);
      }
    }
  }

  /** The tail of a log in ascending key order is in order, and its keys are
      not below the head's. */
  lemma SortedTail<T>(s: seq<Record<T>>)
    requires Sorted(KeysOf(s)) && |s| > 0
    ensures Sorted(KeysOf(s[1..]))
    ensures forall i :: 0 <= i < |s[1..]| ==> s[1..][i].0 >= s[0].0
  {
    assert KeysOf(s[1..]) == KeysOf(s)[1..];
    assert forall i :: 0 <= i < |s| - 1 ==> s[1..][i].0 == KeysOf(s)[i + 1] >= KeysOf(s)[0];
  }

  // ---------------------------------------------------------------------
  // Range scan of an unsorted log

  /** The unsorted branch of `get_range`, newest first: a delete marker hides
      its key; an insert outside the range is passed over without marking its
      key; an insert in the range is kept unless its key was already seen or
      deleted. The kept records come out in log order. */
  function RangeScan<T(==)>(log: seq<Record<T>>, lo: int, hi: int, seen: set<int>, tombs: set<int>): (r: seq<Record<T>>)
    ensures |r| <= |log|
    decreases |log|
  {
    if |log| == 0 then []
    else
      var last := log[|log| - 1];
      var rest := log[..|log| - 1];
      if last.1.Tomb? then RangeScan(rest, lo, hi, seen, tombs + {last.0})
      else if last.0 < lo || last.0 > hi then RangeScan(rest, lo, hi, seen, tombs)
      else if last.0 in seen || last.0 in tombs then RangeScan(rest, lo, hi, seen, tombs)
      else RangeScan(rest, lo, hi, seen + {last.0}, tombs) + [last]
  }

  /** The range scan returns the compacted log cut to the range, whatever it
      records for keys outside the range. */
  lemma {:induction false} RangeScanIsCompactInRange<T>(log: seq<Record<T>>, lo: int, hi: int,
                                                        seen: set<int>, tombs: set<int>, dead: set<int>)
    requires forall k :: lo <= k <= hi ==> (k in dead <==> k in seen || k in tombs)
    ensures RangeScan(log, lo, hi, seen, tombs) == InRange(CompactFrom(log, dead), lo, hi)
    decreases |log|
  {
    if |log| > 0 {
      var last := log[|log| - 1];
      var rest := log[..|log| - 1];
      if last.1.Tomb? {
        RangeScanIsCompactInRange(rest, lo, hi, seen, tombs + {last.0}, dead + {last.0});
      } else if last.0 < lo || last.0 > hi {
        if last.0 in dead {
          RangeScanIsCompactInRange(rest, lo, hi, seen, tombs, dead);
        } else {
          RangeScanIsCompactInRange(rest, lo, hi, seen, tombs, dead + {last.0});
          CompactFromKeeps(log, dead);
          InRangeSnoc(CompactFrom(rest, dead + {last.0}), last, lo, hi);
        }
      } else if last.0 in seen || last.0 in tombs {
        RangeScanIsCompactInRange(rest, lo, hi, seen, tombs, dead);
      } else {
        RangeScanIsCompactInRange(rest, lo, hi, seen + {last.0}, tombs, dead + {last.0});
        CompactFromKeeps(log, dead);
        InRangeSnoc(CompactFrom(rest, dead + {last.0}), last, lo, hi);
      }
    }
  }

  // ---------------------------------------------------------------------
  // Live keys

  /** The newest-first key scan of `compute_min_max` in `AppendOnlyLeafNode`:
      the key of every insert that no newer delete marker covers. */
  function UndeletedKeys<T>(log: seq<Record<T>>, deleted: set<int>): (r: seq<int>)
    decreases |log|
  {
    if |log| == 0 then []
    else
      var last := log[|log| - 1];
      var rest := log[..|log| - 1];
      if last.1.Tomb? then UndeletedKeys(rest, deleted + {last.0})
      else if last.0 in deleted then UndeletedKeys(rest, deleted)
      else UndeletedKeys(rest, deleted) + [last.0]
  }

  /** A key is left by that scan exactly when it is live. */
  lemma {:induction false} UndeletedKeysLive<T>(log: seq<Record<T>>, deleted: set<int>, x: int)
    ensures x in UndeletedKeys(log, deleted) <==> x !in deleted && LogLookup(log, x).Some?
    decreases |log|
  {
    if |log| > 0 {
      var last := log[|log| - 1];
      var rest := log[..|log| - 1];
      assert log == rest + [last];
      LogLookupAppend(rest, last, x);
      if last.1.Tomb? {
        UndeletedKeysLive(rest, deleted + {last.0}, x);
      } else {
        UndeletedKeysLive(rest, deleted, x);
      }
    }
  }

  /** Every key of an insert record, deleted or not: the scan of `min_key`
      and `max_key` in `LeafNodeLSM`. */
  function PutKeys<T>(log: seq<Record<T>>): (r: seq<int>)
    ensures forall x :: x in r <==> exists i :: 0 <= i < |log| && log[i].1.Put? && log[i].0 == x
    ensures |r| == 0 <==> forall i :: 0 <= i < |log| ==> !log[i].1.Put?
  {
    if |log| == 0 then []
    else
      var rest := PutKeys(log[..|log| - 1]);
      var last := log[|log| - 1];
      assert forall i :: 0 <= i < |log| - 1 ==> log[..|log| - 1][i] == log[i];
      if last.1.Put? then rest + [last.0] else rest
  }

  /** The least and greatest live key, or `INT_MAX` and `INT_MIN` when no key
      is live: what `compute_min_max` stores in the header. */
  function LiveMin<T(==)>(log: seq<Record<T>>): (r: int)
    ensures forall k :: LogLookup(log, k).Some? ==> r <= k
    ensures r == INT_MAX || LogLookup(log, r).Some?
  {
    var ks := KeysOf(Compact(log));
    forall k | LogLookup(log, k).Some?
      ensures MinOf(ks, INT_MAX) <= k
    {
      CompactKeysLive(log, k);
    }
    CompactKeysLive(log, MinOf(ks, INT_MAX));
    MinOf(ks, INT_MAX)
  }

  function LiveMax<T(==)>(log: seq<Record<T>>): (r: int)
    ensures forall k :: LogLookup(log, k).Some? ==> r >= k
    ensures r == INT_MIN || LogLookup(log, r).Some?
  {
    var ks := KeysOf(Compact(log));
    forall k | LogLookup(log, k).Some?
      ensures MaxOf(ks, INT_MIN) >= k
    {
      CompactKeysLive(log, k);
    }
    CompactKeysLive(log, MaxOf(ks, INT_MIN));
    MaxOf(ks, INT_MIN)
  }
}

=== FILE: node_store.dfy ===
/**
  The pages of `SimpleBPlusTree` and `LasTree` and the tree code the two
  classes share line for line: the descent from the root that collects the
  internal nodes on the way (`find_leaf`, and `find_path_to_node`, which
  also reports the separator right of the leaf), `internal_insert`, which
  carries a split's separator up that path, and `create_new_root`.

  The buffer pool hands pages out by id; here the pages are a map from id to
  page, and pinning and dirty marks are left to `BufferPool`. A page is an
  internal node or a leaf of the tree's own leaf format `L`. The page's
  `type` word is the page's tag.

  Ids come from the tree's page counter with `fetch_add(1)`, cut to the
  32-bit node id, so the counter is a `nat` and the id it hands out is the
  counter modulo `2^32`.
 */
module NodeStore {
  import opened Base
  import opened Keys
  import InternalNode
  import TreeIndex

  /** `uint8_t`, the type of the height counter. */
  type uint8 = x: int | 0 <= x < 0x100

  datatype Page<L> = Inner(node: InternalNode.Node) | LeafPage(leaf: L)

  /** The tree's fields: its pages, the root and first leaf, the page
      counter, the height and the tuple count. */
  datatype Tree<L> = Tree(
    store: map<uint32, Page<L>>,
    rootId: uint32,
    headId: uint32,
    numPages: nat,
    height: uint8,
    size: nat)

  /** The id the next `fetch_add` on the page counter hands out. */
  function NextId<L>(t: Tree<L>): (r: uint32)
    ensures (r - t.numPages) % 0x1_0000_0000 == 0
    ensures t.numPages < 0x1_0000_0000 ==> r == t.numPages
  {
    t.numPages % 0x1_0000_0000
  }

  /** An internal node whose arrays are as long as its size says: one child
      more than keys, and no more keys than fit in a page. */
  predicate Shaped(n: InternalNode.Node) {
    |n.children| == |n.keys| + 1 && |n.keys| <= InternalNode.INTERNAL_CAPACITY
  }

  /** The internal node stored at `id`; a missing page or a leaf is `None`. */
  function InnerAt<L>(store: map<uint32, Page<L>>, id: uint32): (r: Option<InternalNode.Node>)
    ensures r.Some? ==> id in store && store[id] == Inner(r.value) && Shaped(r.value)
    ensures r.None? ==> id !in store || store[id].LeafPage? || !Shaped(store[id].node)
  {
    if id in store && store[id].Inner? && Shaped(store[id].node) then Some(store[id].node) else None
  }

  predicate IsLeaf<L>(store: map<uint32, Page<L>>, id: uint32) {
    id in store && store[id].LeafPage?
  }

  /** Every internal node keeps its keys ascending. */
  ghost predicate AllSorted<L>(store: map<uint32, Page<L>>) {
    forall id :: id in store && store[id].Inner? ==> Sorted(store[id].node.keys)
  }

  /** The child an internal node sends `key` to. */
  function Step<L>(store: map<uint32, Page<L>>, id: uint32, key: int): (r: uint32)
    requires InnerAt(store, id).Some?
  {
    var n := InnerAt(store, id).value;
    n.children[InternalNode.ChildSlot(n, key)]
  }

  /** `path` followed by `leafId` is the route `key` takes: each page of
      the path is an internal node that sends `key` to the next page. */
  predicate Chain<L>(store: map<uint32, Page<L>>, key: int, path: seq<uint32>, leafId: uint32)
    decreases |path|
  {
    |path| == 0 ||
    (&& InnerAt(store, path[0]).Some?
     && Step(store, path[0], key) == (if |path| == 1 then leafId else path[1])
     && Chain(store, key, path[1..], leafId))
  }

  // ---------------------------------------------------------------------
  // Descent

  /** What a descent finds: the internal nodes passed, root first; the leaf
      reached; and the separator right of the deepest slot that had one
      (`leaf_max`, `INT_MAX` when every slot taken was the last). `low` and
      `high` are not kept by the C++ trees: they are the tightest separators
      passed on either side, which is the key range that takes this path. */
  datatype Descent = Descent(path: seq<uint32>, leafId: uint32, leafMax: int, low: int, high: int)

  /** The loop of `find_path_to_node` from page `id`: a leaf ends it;
      otherwise the node is on the path and the child at `child_slot(key)`
      is next, and when that slot has a key on its right, that key is the
      new `leaf_max`. `find_path_to_node` loops until it meets a leaf; `fuel` bounds
      the steps, and a missing page or a malformed node is an error. */
  function Descend<L>(store: map<uint32, Page<L>>, id: uint32, key: int, leafMax: int, low: int, high: int, fuel: nat)
    : (r: Result<Descent>)
    ensures r.Ok? ==> IsLeaf(store, r.value.leafId) && |r.value.path| <= fuel
    ensures r.Ok? ==> if |r.value.path| == 0 then r.value.leafId == id else r.value.path[0] == id
    ensures r.Ok? ==> Chain(store, key, r.value.path, r.value.leafId)
    ensures r.Ok? ==> low <= r.value.low && r.value.high <= high
    ensures IsLeaf(store, id) ==> r == Ok(Descent([], id, leafMax, low, high))
    ensures !IsLeaf(store, id) && (fuel == 0 || InnerAt(store, id).None?) ==> r.Err?
    decreases fuel
  {
    if IsLeaf(store, id) then Ok(Descent([], id, leafMax, low, high))
    else if fuel == 0 then Err(RuntimeError("descent does not reach a leaf"))
    else match InnerAt(store, id)
      case None => Err(RuntimeError("page is not a node"))
      case Some(n) =>
        var slot := InternalNode.ChildSlot(n, key);
        var leafMax' := if slot < |n.keys| then n.keys[slot] else leafMax;
        var low' := if slot > 0 then Max(low, n.keys[slot - 1]) else low;
        var high' := if slot < |n.keys| then Min(high, n.keys[slot]) else high;
        var below := Descend(store, n.children[slot], key, leafMax', low', high', fuel - 1);
        if below.Err? then below
        else
          var d := below.value;
          assert ([id] + d.path)[1..] == d.path;
          Ok(d.(path := [id] + d.path))
  }

  /** The whole key range of `int`: every key lies in `[INT_MIN, INT_MAX + 1)`. */
  const NO_HIGH: int := INT_MAX + 1

  /** `find_path_to_node` (and `find_leaf`, which ignores `leaf_max`) from
      the root. A descent through distinct pages meets at most every page
      once, so the number of pages is enough fuel. */
  function FindPath<L>(t: Tree<L>, key: int): (r: Result<Descent>)
    ensures r.Ok? ==> IsLeaf(t.store, r.value.leafId)
    ensures r.Ok? && |r.value.path| > 0 ==> r.value.path[0] == t.rootId
  {
    Descend(t.store, t.rootId, key, INT_MAX, INT_MIN, NO_HIGH, |t.store|)
  }

  /** Every key between the separators a descent passed takes the same path
      to the same leaf and reports the same `leaf_max`: a descent is decided
      by the window of its key alone. */
  lemma {:induction false} DescendWindow<L>(store: map<uint32, Page<L>>, id: uint32, key: int, other: int,
                                            leafMax: int, low: int, high: int, fuel: nat)
    requires AllSorted(store)
    requires Descend(store, id, key, leafMax, low, high, fuel).Ok?
    requires var d := Descend(store, id, key, leafMax, low, high, fuel).value; d.low <= other < d.high
    ensures Descend(store, id, other, leafMax, low, high, fuel) == Descend(store, id, key, leafMax, low, high, fuel)
    decreases fuel
  {
    if !IsLeaf(store, id) {
      var child, leafMax', low', high' := WindowStep(store, id, key, other, leafMax, low, high, fuel);
      DescendWindow(store, child, key, other, leafMax', low', high', fuel - 1);
    }
  }

  /** With sorted nodes, a key lies inside the window of its own descent. */
  lemma {:induction false} DescendInWindow<L>(store: map<uint32, Page<L>>, id: uint32, key: int,
                                              leafMax: int, low: int, high: int, fuel: nat)
    requires AllSorted(store) && low <= key < high
    requires Descend(store, id, key, leafMax, low, high, fuel).Ok?
    ensures var d := Descend(store, id, key, leafMax, low, high, fuel).value; d.low <= key < d.high
    decreases fuel
  {
    if !IsLeaf(store, id) {
      var n := InnerAt(store, id).value;
      var slot := InternalNode.ChildSlot(n, key);
      assert Sorted(n.keys);
      var leafMax' := if slot < |n.keys| then n.keys[slot] else leafMax;
      var low' := if slot > 0 then Max(low, n.keys[slot - 1]) else low;
      var high' := if slot < |n.keys| then Min(high, n.keys[slot]) else high;
      DescendInWindow(store, n.children[slot], key, leafMax', low', high', fuel - 1);
      DescendStep(store, id, key, leafMax, low, high, fuel);
    }
  }

  /** A descent from the root is decided by the window around the key: the
      key lies in it, and every key of the window finds the same path, leaf
      and `leaf_max`. */
  lemma FindPathWindow<L>(t: Tree<L>, key: int, other: int)
    requires AllSorted(t.store) && INT_MIN <= key <= INT_MAX
    requires FindPath(t, key).Ok?
    ensures FindPath(t, key).value.low <= key < FindPath(t, key).value.high
    ensures FindPath(t, key).value.low <= other < FindPath(t, key).value.high ==> FindPath(t, other) == FindPath(t, key)
  {
    DescendInWindow(t.store, t.rootId, key, INT_MAX, INT_MIN, NO_HIGH, |t.store|);
    if FindPath(t, key).value.low <= other < FindPath(t, key).value.high {
      DescendWindow(t.store, t.rootId, key, other, INT_MAX, INT_MIN, NO_HIGH, |t.store|);
    }
  }

  /** One level of a descent through an internal node. */
  lemma DescendStep<L>(store: map<uint32, Page<L>>, id: uint32, key: int, leafMax: int, low: int, high: int, fuel: nat)
    requires !IsLeaf(store, id) && fuel > 0 && InnerAt(store, id).Some?
    ensures var n := InnerAt(store, id).value;
      var slot := InternalNode.ChildSlot(n, key);
      var below := Descend(store, n.children[slot], key,
                           if slot < |n.keys| then n.keys[slot] else leafMax,
                           if slot > 0 then Max(low, n.keys[slot - 1]) else low,
                           if slot < |n.keys| then Min(high, n.keys[slot]) else high,
                           fuel - 1);
      Descend(store, id, key, leafMax, low, high, fuel)
        == if below.Err? then below else Ok(below.value.(path := [id] + below.value.path))
  {
  }

  /** One level of `DescendWindow`: a key inside the window of a descent
      through a node takes the same slot, lies inside the window of the
      descent below the node, and takes the same descent from the node as
      soon as it takes the same one below. */
  lemma WindowStep<L>(store: map<uint32, Page<L>>, id: uint32, key: int, other: int,
                      leafMax: int, low: int, high: int, fuel: nat)
    returns (child: uint32, leafMax': int, low': int, high': int)
    requires AllSorted(store) && !IsLeaf(store, id)
    requires Descend(store, id, key, leafMax, low, high, fuel).Ok?
    requires var d := Descend(store, id, key, leafMax, low, high, fuel).value; d.low <= other < d.high
    ensures fuel > 0
    ensures Descend(store, child, key, leafMax', low', high', fuel - 1).Ok?
    ensures var d := Descend(store, child, key, leafMax', low', high', fuel - 1).value; d.low <= other < d.high
    ensures Descend(store, child, other, leafMax', low', high', fuel - 1) == Descend(store, child, key, leafMax', low', high', fuel - 1)
      ==> Descend(store, id, other, leafMax, low, high, fuel) == Descend(store, id, key, leafMax, low, high, fuel)
  {
    var n := InnerAt(store, id).value;
    var slot := InternalNode.ChildSlot(n, key);
    child := n.children[slot];
    leafMax' := if slot < |n.keys| then n.keys[slot] else leafMax;
    low' := if slot > 0 then Max(low, n.keys[slot - 1]) else low;
    high' := if slot < |n.keys| then Min(high, n.keys[slot]) else high;
    assert Descend(store, id, key, leafMax, low, high, fuel) == ThroughNode(id, Descend(store, child, key, leafMax', low', high', fuel - 1)) by {
      DescendStep(store, id, key, leafMax, low, high, fuel);
    }
    assert InternalNode.ChildSlot(n, other) == slot by {
      assert Sorted(n.keys);
      SameSlot(n, key, other);
    }
    assert Descend(store, id, other, leafMax, low, high, fuel) == ThroughNode(id, Descend(store, child, other, leafMax', low', high', fuel - 1)) by {
      DescendStep(store, id, other, leafMax, low, high, fuel);
    }
  }

  /** A descent from a node, given the descent from the child it picked. */
  function ThroughNode(id: uint32, below: Result<Descent>): Result<Descent> {
    if below.Err? then below else Ok(below.value.(path := [id] + below.value.path))
  }

  /** On sorted keys, a key between the separators around another key's
      slot has the same slot. */
  lemma SameSlot(n: InternalNode.Node, key: int, other: int)
    requires Sorted(n.keys)
    requires var s := InternalNode.ChildSlot(n, key);
      (s > 0 ==> n.keys[s - 1] <= other) && (s < |n.keys| ==> other < n.keys[s])
    ensures InternalNode.ChildSlot(n, other) == InternalNode.ChildSlot(n, key)
  {
    StdUpperBoundSorted(n.keys, other);
    UpperBoundBetween(n.keys, other, InternalNode.ChildSlot(n, key));
  }

  // ---------------------------------------------------------------------
  // Growing the tree

  /** `SPLIT_INTERNAL_POS`, `internal_capacity / 2`. */
  const SPLIT_INTERNAL_POS: nat := InternalNode.INTERNAL_CAPACITY / 2

  /** The capacity of a 4096-byte internal node and its split position. */
  lemma SplitPosValue()
    ensures InternalNode.INTERNAL_CAPACITY == 510 && SPLIT_INTERNAL_POS == 255
  {
  }

  /** `create_new_root`: the root keeps its id so that `root_id` never
      changes; its keys and children move to a new node (the next id), and
      the root becomes one separator between that copy and `rightId`. The
      height is a `uint8_t` and wraps. */
  function CreateNewRoot<L>(t: Tree<L>, key: int, rightId: uint32): (r: Result<Tree<L>>)
    ensures r.Ok? <==> InnerAt(t.store, t.rootId).Some?
    ensures r.Ok? ==> var top := InnerAt(t.store, t.rootId).value;
      var leftId := NextId(t);
      && r.value.rootId == t.rootId && r.value.headId == t.headId && r.value.size == t.size
      && r.value.numPages == t.numPages + 1
      && r.value.height == (t.height + 1) % 0x100
      && r.value.store.Keys == t.store.Keys + {leftId}
      && r.value.store[t.rootId] == Inner(InternalNode.Node(top.id, [key], [leftId, rightId]))
      && (leftId != t.rootId ==> r.value.store[leftId] == Inner(InternalNode.Node(leftId, top.keys, top.children)))
      && (forall id :: id in t.store && id != t.rootId && id != leftId ==> r.value.store[id] == t.store[id])
  {
    match InnerAt(t.store, t.rootId)
    case None => Err(RuntimeError("root is not a node"))
    case Some(top) =>
      var leftId := NextId(t);
      var left := InternalNode.Node(leftId, top.keys, top.children);
      var root := InternalNode.Node(top.id, [key], [leftId, rightId]);
      Ok(t.(store := t.store[leftId := Inner(left)][t.rootId := Inner(root)],
            numPages := t.numPages + 1,
            height := (t.height + 1) % 0x100))
  }

  /** After a new root, keys below the separator go to the copy of the old
      root and the others to the right node, and the copy routes every key
      as the old root did. */
  lemma CreateNewRootRoutes<L>(t: Tree<L>, key: int, rightId: uint32, k: int)
    requires CreateNewRoot(t, key, rightId).Ok?
    requires NextId(t) != t.rootId
    ensures var u := CreateNewRoot(t, key, rightId).value;
      && InnerAt(u.store, u.rootId).Some? && InnerAt(u.store, NextId(t)).Some?
      && Step(u.store, u.rootId, k) == (if k < key then NextId(t) else rightId)
      && Step(u.store, NextId(t), k) == Step(t.store, t.rootId, k)
  {
    var u := CreateNewRoot(t, key, rightId).value;
    var root := InnerAt(u.store, u.rootId).value;
    assert Sorted(root.keys);
    StdUpperBoundSorted(root.keys, k);
    assert k < key ==> UpperBound(root.keys, k) == 0;
    assert k >= key ==> UpperBound(root.keys, k) == 1 by {
      if k >= key {
        assert root.keys[1..] == [];
      }
    }
  }

  /** The body of `internal_insert`'s loop for the node at `id`: a node
      with room takes `key` at `child_slot(key)` and `child` right of it,
      and nothing goes further up. A full node keeps its left part, its
      right part goes to a new node with the next id, and the promoted key
      with the new node's id is what goes up. */
  function InsertIntoNode<L>(t: Tree<L>, id: uint32, key: int, child: uint32): (r: Result<(Tree<L>, Option<(int, uint32)>)>)
    ensures r.Ok? <==> InnerAt(t.store, id).Some?
    ensures r.Ok? ==> var (u, up) := r.value;
      && u.rootId == t.rootId && u.headId == t.headId && u.size == t.size && u.height == t.height
      && (up.None? <==> |InnerAt(t.store, id).value.keys| < InternalNode.INTERNAL_CAPACITY)
      && u.numPages == (if up.None? then t.numPages else t.numPages + 1)
      && (up.Some? ==> up.value.1 == NextId(t))
      && u.store.Keys == t.store.Keys + (if up.None? then {} else {NextId(t)})
      && (forall x :: x in t.store && x != id && (up.None? || x != NextId(t)) ==> u.store[x] == t.store[x])
  {
    match InnerAt(t.store, id)
    case None => Err(RuntimeError("page on the path is not a node"))
    case Some(n) =>
      var index := InternalNode.ChildSlot(n, key);
      if |n.keys| < InternalNode.INTERNAL_CAPACITY then
        var (ks, cs) := TreeIndex.InsertEntry(n.keys, n.children, index, key, child);
        Ok((WithInner(t, id, n.(keys := ks, children := cs)), None))
      else
        var newId := NextId(t);
        var sp := TreeIndex.SplitEntry(n.keys, n.children, index, key, child, SPLIT_INTERNAL_POS);
        var kept := WithInner(t, id, n.(keys := sp.leftKeys, children := sp.leftChildren));
        var u := WithInner(kept, newId, InternalNode.Node(newId, sp.rightKeys, sp.rightChildren));
        Ok((u.(numPages := t.numPages + 1), Some((sp.promoted, newId))))
  }

  /** The tree with the internal node `node` written at `id`. */
  function WithInner<L>(t: Tree<L>, id: uint32, node: InternalNode.Node): (u: Tree<L>)
    ensures u.rootId == t.rootId && u.headId == t.headId && u.size == t.size
    ensures u.height == t.height && u.numPages == t.numPages
    ensures u.store.Keys == t.store.Keys + {id} && u.store[id] == Inner(node)
    ensures forall x :: x in t.store && x != id ==> u.store[x] == t.store[x]
  {
    t.(store := t.store[id := Inner(node)])
  }

  /** A node with room and sorted keys takes the separator in order, and
      its routing changes only for the keys from the new separator up to
      the next one: those now go to the new child. */
  lemma InsertIntoNodeRoom<L>(t: Tree<L>, id: uint32, key: int, child: uint32, k: int)
    requires InnerAt(t.store, id).Some? && Sorted(InnerAt(t.store, id).value.keys)
    requires |InnerAt(t.store, id).value.keys| < InternalNode.INTERNAL_CAPACITY
    ensures InsertIntoNode(t, id, key, child).Ok?
    ensures var n := InnerAt(t.store, id).value;
      var (u, up) := InsertIntoNode(t, id, key, child).value;
      && up.None?
      && InnerAt(u.store, id).Some?
      && Sorted(InnerAt(u.store, id).value.keys)
      && multiset(InnerAt(u.store, id).value.keys) == multiset(n.keys) + multiset{key}
      && Step(u.store, id, k) ==
           if key <= k && InternalNode.ChildSlot(n, k) == InternalNode.ChildSlot(n, key) then child
           else Step(t.store, id, k)
  {
    var n := InnerAt(t.store, id).value;
    StdUpperBoundSorted(n.keys, key);
    StdUpperBoundSorted(n.keys, k);
    var index := InternalNode.ChildSlot(n, key);
    var e := TreeIndex.InsertEntry(n.keys, n.children, index, key, child);
    var m := n.(keys := e.0, children := e.1);
    var u := t.(store := t.store[id := Inner(m)]);
    assert InsertIntoNode(t, id, key, child) == Ok((u, None));
    assert InnerAt(u.store, id) == Some(m);
    TreeIndex.InsertEntryRoutes(n.keys, n.children, key, child, k);
    StdUpperBoundSorted(m.keys, k);
    InsertAtMultiset(n.keys, index, key);
  }

  /** Inserting into a sequence adds exactly the one element. */
  lemma InsertAtMultiset(s: seq<int>, i: nat, x: int)
    requires i <= |s|
    ensures multiset(InsertAt(s, i, x)) == multiset(s) + multiset{x}
  {
    assert s == s[..i] + s[i..];
    assert InsertAt(s, i, x) == s[..i] + [x] + s[i..];
  }

  /** A full node with sorted keys splits into two sorted halves of
      `SPLIT_INTERNAL_POS` and `internal_capacity - SPLIT_INTERNAL_POS` keys
      around the promoted key. Together with the promoted key they are the
      grown node exactly, and they route every key as the grown node would:
      the keys below the promoted key through the left half, the rest
      through the new right node. */
  lemma InsertIntoNodeSplit<L>(t: Tree<L>, id: uint32, key: int, child: uint32, k: int)
    requires InnerAt(t.store, id).Some? && Sorted(InnerAt(t.store, id).value.keys)
    requires |InnerAt(t.store, id).value.keys| == InternalNode.INTERNAL_CAPACITY
    requires NextId(t) != id
    ensures InsertIntoNode(t, id, key, child).Ok?
    ensures var n := InnerAt(t.store, id).value;
      var (u, up) := InsertIntoNode(t, id, key, child).value;
      var (ks, cs) := TreeIndex.InsertEntry(n.keys, n.children, UpperBound(n.keys, key), key, child);
      && up.Some?
      && InnerAt(u.store, id).Some? && InnerAt(u.store, up.value.1).Some?
      && Grown(InnerAt(u.store, id).value, up.value.0, InnerAt(u.store, up.value.1).value, ks, cs)
      && TreeIndex.Route(ks, cs, k) == if k < up.value.0 then Step(u.store, id, k) else Step(u.store, up.value.1, k)
  {
    var n := InnerAt(t.store, id).value;
    StdUpperBoundSorted(n.keys, key);
    var index := UpperBound(n.keys, key);
    var sp := TreeIndex.SplitEntry(n.keys, n.children, index, key, child, SPLIT_INTERNAL_POS);
    var newId := NextId(t);
    var left := n.(keys := sp.leftKeys, children := sp.leftChildren);
    var right := InternalNode.Node(newId, sp.rightKeys, sp.rightChildren);
    var u := t.(store := t.store[id := Inner(left)][newId := Inner(right)], numPages := t.numPages + 1);
    assert InsertIntoNode(t, id, key, child) == Ok((u, Some((sp.promoted, newId))));
    SplitNodeGrown(n, key, child, newId);
    assert InnerAt(u.store, id) == Some(left);
    assert InnerAt(u.store, newId) == Some(right);
    SplitNodeRoutes(n, key, child, newId, k);
  }

  /** The halves of a full sorted node, as `InsertIntoNode` builds them. */
  lemma SplitNodeGrown(n: InternalNode.Node, key: int, child: uint32, newId: uint32)
    requires Shaped(n) && Sorted(n.keys) && |n.keys| == InternalNode.INTERNAL_CAPACITY
    ensures var index := UpperBound(n.keys, key);
      var (ks, cs) := TreeIndex.InsertEntry(n.keys, n.children, index, key, child);
      var sp := TreeIndex.SplitEntry(n.keys, n.children, index, key, child, SPLIT_INTERNAL_POS);
      && Shaped(n.(keys := sp.leftKeys, children := sp.leftChildren))
      && Shaped(InternalNode.Node(newId, sp.rightKeys, sp.rightChildren))
      && Grown(n.(keys := sp.leftKeys, children := sp.leftChildren), sp.promoted,
               InternalNode.Node(newId, sp.rightKeys, sp.rightChildren), ks, cs)
  {
    SplitPosValue();
    var index := UpperBound(n.keys, key);
    var e := TreeIndex.InsertEntry(n.keys, n.children, index, key, child);
    var sp := TreeIndex.SplitEntry(n.keys, n.children, index, key, child, SPLIT_INTERNAL_POS);
    TreeIndex.SplitEntryIsInsertThenCut(n.keys, n.children, index, key, child, SPLIT_INTERNAL_POS);
    InsertAtUpperBoundSorted(n.keys, key);
    CutIsGrown(n.(keys := sp.leftKeys, children := sp.leftChildren), sp.promoted,
               InternalNode.Node(newId, sp.rightKeys, sp.rightChildren), e.0, e.1);
  }

  /** Grown arrays cut at `SPLIT_INTERNAL_POS` are two well-formed halves
      around the promoted key. */
  lemma CutIsGrown(left: InternalNode.Node, promoted: int, right: InternalNode.Node, ks: seq<int>, cs: seq<uint32>)
    requires Sorted(ks) && |ks| == InternalNode.INTERNAL_CAPACITY + 1 && |cs| == |ks| + 1
    requires left.keys == ks[..SPLIT_INTERNAL_POS] && promoted == ks[SPLIT_INTERNAL_POS] && right.keys == ks[SPLIT_INTERNAL_POS + 1..]
    requires left.children == cs[..SPLIT_INTERNAL_POS + 1] && right.children == cs[SPLIT_INTERNAL_POS + 1..]
    ensures Shaped(left) && Shaped(right) && Grown(left, promoted, right, ks, cs)
  {
    SplitPosValue();
    SortedAround(ks, SPLIT_INTERNAL_POS);
    assert cs == cs[..SPLIT_INTERNAL_POS + 1] + cs[SPLIT_INTERNAL_POS + 1..];
  }

  /** The halves of a full sorted node route every key as the grown node. */
  lemma SplitNodeRoutes(n: InternalNode.Node, key: int, child: uint32, newId: uint32, k: int)
    requires Shaped(n) && Sorted(n.keys) && |n.keys| == InternalNode.INTERNAL_CAPACITY
    ensures var index := UpperBound(n.keys, key);
      var (ks, cs) := TreeIndex.InsertEntry(n.keys, n.children, index, key, child);
      var sp := TreeIndex.SplitEntry(n.keys, n.children, index, key, child, SPLIT_INTERNAL_POS);
      var left := n.(keys := sp.leftKeys, children := sp.leftChildren);
      var right := InternalNode.Node(newId, sp.rightKeys, sp.rightChildren);
      && |left.children| == |left.keys| + 1 && |right.children| == |right.keys| + 1
      && TreeIndex.Route(ks, cs, k) == if k < sp.promoted then left.children[InternalNode.ChildSlot(left, k)]
                                       else right.children[InternalNode.ChildSlot(right, k)]
  {
    SplitPosValue();
    var index := UpperBound(n.keys, key);
    var sp := TreeIndex.SplitEntry(n.keys, n.children, index, key, child, SPLIT_INTERNAL_POS);
    TreeIndex.SplitEntryRoutes(n.keys, n.children, key, child, SPLIT_INTERNAL_POS, k);
    StdUpperBoundSorted(sp.leftKeys, k);
    StdUpperBoundSorted(sp.rightKeys, k);
  }

  /** `left`, `promoted` and `right` are the grown arrays `ks`/`cs` cut at
      `SPLIT_INTERNAL_POS`: both halves sorted and of the sizes the split
      gives them, nothing lost and nothing added. */
  predicate Grown(left: InternalNode.Node, promoted: int, right: InternalNode.Node, ks: seq<int>, cs: seq<uint32>) {
    && |ks| == InternalNode.INTERNAL_CAPACITY + 1
    && left.keys + [promoted] + right.keys == ks
    && left.children + right.children == cs
    && |left.keys| == SPLIT_INTERNAL_POS && |right.keys| == InternalNode.INTERNAL_CAPACITY - SPLIT_INTERNAL_POS
    && Sorted(left.keys) && Sorted(right.keys)
  }

  /** `internal_insert`: from the leaf's parent upward, run the loop body on
      each node of the path until one has room. When the whole path has
      split, `create_new_root` grows the tree. */
  function InternalInsert<L>(t: Tree<L>, path: seq<uint32>, key: int, child: uint32): (r: Result<Tree<L>>)
    ensures r.Ok? ==> r.value.rootId == t.rootId && r.value.headId == t.headId && r.value.size == t.size
    ensures r.Ok? ==> t.numPages <= r.value.numPages <= t.numPages + |path| + 1
    ensures r.Ok? ==> t.store.Keys <= r.value.store.Keys
    ensures r.Ok? && r.value.numPages <= 0x1_0000_0000 ==>
      forall x :: x in t.store && x < t.numPages && x !in path && x != t.rootId ==> r.value.store[x] == t.store[x]
    ensures r.Ok? && r.value.numPages <= 0x1_0000_0000 ==>
      forall x :: x in r.value.store && x !in t.store ==> t.numPages <= x < r.value.numPages
    decreases |path|
  {
    if |path| == 0 then CreateNewRoot(t, key, child)
    else
      var id := path[|path| - 1];
      match InsertIntoNode(t, id, key, child)
      case Err(e) => Err(e)
      case Ok((u, None)) => Ok(u)
      case Ok((u, Some((promoted, newId)))) => InternalInsert(u, path[..|path| - 1], promoted, newId)
  }

  /** `internal_insert` seen from the tree's fields only: the root, the
      head and the tuple count stay. */
  function CarryUp<L>(t: Tree<L>, path: seq<uint32>, key: int, child: uint32): (r: Result<Tree<L>>)
    ensures r.Ok? ==> r.value.rootId == t.rootId && r.value.headId == t.headId && r.value.size == t.size
    ensures r.Ok? <==> InternalInsert(t, path, key, child).Ok?
  {
    InternalInsert(t, path, key, child)
  }

  /** Every operation of the walk keeps each internal node's keys sorted
      and its arrays in shape. */
  lemma {:induction false} InternalInsertKeepsSorted<L>(t: Tree<L>, path: seq<uint32>, key: int, child: uint32)
    requires AllSorted(t.store)
    requires InternalInsert(t, path, key, child).Ok?
    ensures AllSorted(InternalInsert(t, path, key, child).value.store)
    decreases |path|
  {
    if |path| == 0 {
      var u := CreateNewRoot(t, key, child).value;
      assert Sorted([key]);
      forall x | x in u.store && u.store[x].Inner?
        ensures Sorted(u.store[x].node.keys)
      {
      }
    } else {
      var id := path[|path| - 1];
      var (u, up) := InsertIntoNode(t, id, key, child).value;
      InsertIntoNodeKeepsSorted(t, id, key, child);
      if up.Some? {
        InternalInsertKeepsSorted(u, path[..|path| - 1], up.value.0, up.value.1);
      }
    }
  }

  /** One step of the walk keeps every node sorted. */
  lemma InsertIntoNodeKeepsSorted<L>(t: Tree<L>, id: uint32, key: int, child: uint32)
    requires AllSorted(t.store)
    requires InsertIntoNode(t, id, key, child).Ok?
    ensures AllSorted(InsertIntoNode(t, id, key, child).value.0.store)
  {
    var n := InnerAt(t.store, id).value;
    assert Sorted(n.keys);
    var u := InsertIntoNode(t, id, key, child).value.0;
    if |n.keys| < InternalNode.INTERNAL_CAPACITY {
      InsertIntoNodeRoom(t, id, key, child, key);
      assert u.store == t.store[id := u.store[id]];
      UpdateKeepsSorted(t.store, id, u.store[id]);
    } else {
      SplitKeepsSorted(t, id, key, child);
    }
  }

  /** Storing a page with sorted keys keeps every node sorted. */
  lemma UpdateKeepsSorted<L>(store: map<uint32, Page<L>>, id: uint32, p: Page<L>)
    requires AllSorted(store)
    requires p.Inner? ==> Sorted(p.node.keys)
    ensures AllSorted(store[id := p])
  {
  }

  lemma SplitKeepsSorted<L>(t: Tree<L>, id: uint32, key: int, child: uint32)
    requires AllSorted(t.store)
    requires InnerAt(t.store, id).Some?
    requires |InnerAt(t.store, id).value.keys| == InternalNode.INTERNAL_CAPACITY
    ensures InsertIntoNode(t, id, key, child).Ok?
    ensures AllSorted(InsertIntoNode(t, id, key, child).value.0.store)
  {
    var n := InnerAt(t.store, id).value;
    var index := UpperBound(n.keys, key);
    var sp := TreeIndex.SplitEntry(n.keys, n.children, index, key, child, SPLIT_INTERNAL_POS);
    var left := n.(keys := sp.leftKeys, children := sp.leftChildren);
    var right := InternalNode.Node(NextId(t), sp.rightKeys, sp.rightChildren);
    assert InternalNode.ChildSlot(n, key) == index && Sorted(left.keys) && Sorted(right.keys) by {
      assert Sorted(n.keys);
      StdUpperBoundSorted(n.keys, key);
      SplitNodeGrown(n, key, child, NextId(t));
    }
    var u := t.(store := t.store[id := Inner(left)][NextId(t) := Inner(right)], numPages := t.numPages + 1);
    assert InsertIntoNode(t, id, key, child) == Ok((u, Some((sp.promoted, NextId(t)))));
    assert AllSorted(u.store) by {
      UpdateKeepsSorted(t.store, id, Inner(left));
      UpdateKeepsSorted(t.store[id := Inner(left)], NextId(t), Inner(right));
    }
  }

  // ---------------------------------------------------------------------
  // What leaf writes leave alone

  /** Two stores with the same pages in the same places, internal nodes
      equal and leaves possibly different: the descent only reads internal
      nodes, so it cannot tell them apart. */
  ghost predicate SameIndex<L>(s1: map<uint32, Page<L>>, s2: map<uint32, Page<L>>) {
    && s1.Keys == s2.Keys
    && forall x :: x in s1 ==> s1[x].Inner? == s2[x].Inner? && (s1[x].Inner? ==> s1[x] == s2[x])
  }

  /** Writing a leaf over a leaf keeps the index. */
  lemma LeafWriteSameIndex<L>(store: map<uint32, Page<L>>, id: uint32, leaf: L)
    requires IsLeaf(store, id)
    ensures SameIndex(store, store[id := LeafPage(leaf)])
  {
  }

  /** Stores with the same index give every key the same descent. */
  lemma {:induction false} DescendSameIndex<L>(s1: map<uint32, Page<L>>, s2: map<uint32, Page<L>>, id: uint32, key: int,
                                               leafMax: int, low: int, high: int, fuel: nat)
    requires SameIndex(s1, s2)
    ensures Descend(s1, id, key, leafMax, low, high, fuel) == Descend(s2, id, key, leafMax, low, high, fuel)
    decreases fuel
  {
    assert IsLeaf(s1, id) == IsLeaf(s2, id);
    assert InnerAt(s1, id) == InnerAt(s2, id);
    if !IsLeaf(s1, id) && fuel > 0 && InnerAt(s1, id).Some? {
      var n := InnerAt(s1, id).value;
      var slot := InternalNode.ChildSlot(n, key);
      var leafMax' := if slot < |n.keys| then n.keys[slot] else leafMax;
      var low' := if slot > 0 then Max(low, n.keys[slot - 1]) else low;
      var high' := if slot < |n.keys| then Min(high, n.keys[slot]) else high;
      DescendSameIndex(s1, s2, n.children[slot], key, leafMax', low', high', fuel - 1);
      DescendStep(s1, id, key, leafMax, low, high, fuel);
      DescendStep(s2, id, key, leafMax, low, high, fuel);
    }
  }

  /** The tree after the leaf at `id` is overwritten. */
  function WithLeaf<L>(t: Tree<L>, id: uint32, leaf: L): Tree<L> {
    t.(store := t.store[id := LeafPage(leaf)])
  }

  /** Overwriting a leaf changes no descent. */
  lemma LeafWriteKeepsPaths<L>(t: Tree<L>, id: uint32, leaf: L, k: int)
    requires IsLeaf(t.store, id)
    ensures FindPath(WithLeaf(t, id, leaf), k) == FindPath(t, k)
  {
    LeafWriteSameIndex(t.store, id, leaf);
    DescendSameIndex(t.store, t.store[id := LeafPage(leaf)], t.rootId, k, INT_MAX, INT_MIN, NO_HIGH, |t.store|);
  }

  /** With sorted nodes, the `leaf_max` a descent reports is above the key
      unless it is still the starting `INT_MAX`: each separator it takes is
      the first key above the key in its node. */
  lemma {:induction false} DescendLeafMax<L>(store: map<uint32, Page<L>>, id: uint32, key: int,
                                             leafMax: int, low: int, high: int, fuel: nat)
    requires AllSorted(store) && (key < leafMax || leafMax == INT_MAX)
    requires Descend(store, id, key, leafMax, low, high, fuel).Ok?
    ensures var d := Descend(store, id, key, leafMax, low, high, fuel).value; key < d.leafMax || d.leafMax == INT_MAX
    decreases fuel
  {
    if !IsLeaf(store, id) {
      var n := InnerAt(store, id).value;
      var slot := InternalNode.ChildSlot(n, key);
      assert Sorted(n.keys);
      var leafMax' := if slot < |n.keys| then n.keys[slot] else leafMax;
      var low' := if slot > 0 then Max(low, n.keys[slot - 1]) else low;
      var high' := if slot < |n.keys| then Min(high, n.keys[slot]) else high;
      DescendLeafMax(store, n.children[slot], key, leafMax', low', high', fuel - 1);
      DescendStep(store, id, key, leafMax, low, high, fuel);
    }
  }

  /** From the root: the separator right of the leaf a key reaches is above
      the key, or `INT_MAX` when the key took the last slot all the way. */
  lemma FindPathLeafMax<L>(t: Tree<L>, key: int)
    requires AllSorted(t.store) && FindPath(t, key).Ok?
    ensures key < FindPath(t, key).value.leafMax || FindPath(t, key).value.leafMax == INT_MAX
  {
    DescendLeafMax(t.store, t.rootId, key, INT_MAX, INT_MIN, NO_HIGH, |t.store|);
  }

  /** Every leaf after `internal_insert` was there before, unchanged: the
      walk writes internal nodes only. */
  lemma {:induction false} InternalInsertKeepsLeaves<L>(t: Tree<L>, path: seq<uint32>, key: int, child: uint32)
    requires InternalInsert(t, path, key, child).Ok?
    ensures var u := InternalInsert(t, path, key, child).value;
      forall x :: x in u.store && u.store[x].LeafPage? ==> x in t.store && t.store[x] == u.store[x]
    decreases |path|
  {
    if |path| > 0 {
      var id := path[|path| - 1];
      var (u, up) := InsertIntoNode(t, id, key, child).value;
      InsertIntoNodeKeepsLeaves(t, id, key, child);
      if up.Some? {
        InternalInsertKeepsLeaves(u, path[..|path| - 1], up.value.0, up.value.1);
      }
    }
  }

  lemma InsertIntoNodeKeepsLeaves<L>(t: Tree<L>, id: uint32, key: int, child: uint32)
    requires InsertIntoNode(t, id, key, child).Ok?
    ensures var u := InsertIntoNode(t, id, key, child).value.0;
      forall x :: x in u.store && u.store[x].LeafPage? ==> x in t.store && t.store[x] == u.store[x]
  {
    var n := InnerAt(t.store, id).value;
    var (u, up) := InsertIntoNode(t, id, key, child).value;
    assert id in u.store && u.store[id].Inner?;
    assert up.Some? ==> u.store[NextId(t)].Inner?;
    WritesOfInnerKeepLeaves(t.store, u.store, id, NextId(t), up.Some?);
  }

  /** A store that differs from another only by internal nodes at `id` and,
      when `grew`, at `newId` has the same leaves. */
  lemma WritesOfInnerKeepLeaves<L>(ts: map<uint32, Page<L>>, us: map<uint32, Page<L>>, id: uint32, newId: uint32, grew: bool)
    requires us.Keys == ts.Keys + (if grew then {newId} else {})
    requires id in us && us[id].Inner?
    requires grew ==> us[newId].Inner?
    requires forall x :: x in ts && x != id && (!grew || x != newId) ==> us[x] == ts[x]
    ensures forall x :: x in us && us[x].LeafPage? ==> x in ts && ts[x] == us[x]
  {
  }

  // ---------------------------------------------------------------------
  // When the walk succeeds

  /** Every page of a route is an internal node. */
  lemma {:induction false} ChainInner<L>(store: map<uint32, Page<L>>, key: int, path: seq<uint32>, leafId: uint32)
    requires Chain(store, key, path, leafId)
    ensures forall i :: 0 <= i < |path| ==> InnerAt(store, path[i]).Some?
    decreases |path|
  {
    if |path| > 0 {
      ChainInner(store, key, path[1..], leafId);
      forall i | 0 < i < |path|
        ensures InnerAt(store, path[i]).Some?
      {
        assert path[i] == path[1..][i - 1];
      }
    }
  }

  /** A step of the walk writes only well-formed internal nodes, so a page
      that was an internal node still is one. */
  lemma InsertIntoNodeKeepsInner<L>(t: Tree<L>, id: uint32, key: int, child: uint32, x: uint32)
    requires InsertIntoNode(t, id, key, child).Ok?
    requires InnerAt(t.store, x).Some?
    ensures InnerAt(InsertIntoNode(t, id, key, child).value.0.store, x).Some?
  {
    var n := InnerAt(t.store, id).value;
    var index := InternalNode.ChildSlot(n, key);
    var (u, up) := InsertIntoNode(t, id, key, child).value;
    if x != id && (up.None? || x != NextId(t)) {
      assert u.store[x] == t.store[x];
    } else if |n.keys| < InternalNode.INTERNAL_CAPACITY {
      var (ks, cs) := TreeIndex.InsertEntry(n.keys, n.children, index, key, child);
      assert u.store[x] == Inner(n.(keys := ks, children := cs));
    } else {
      SplitPosValue();
      var sp := TreeIndex.SplitEntry(n.keys, n.children, index, key, child, SPLIT_INTERNAL_POS);
      if x == NextId(t) {
        assert u.store[x] == Inner(InternalNode.Node(NextId(t), sp.rightKeys, sp.rightChildren));
      } else {
        assert u.store[x] == Inner(n.(keys := sp.leftKeys, children := sp.leftChildren));
      }
    }
  }

  /** `internal_insert` cannot fail on a path of internal nodes below an
      internal root: each step finds a node, and the root is there for a
      new root when the whole path splits. */
  lemma {:induction false} InternalInsertOk<L>(t: Tree<L>, path: seq<uint32>, key: int, child: uint32)
    requires forall i :: 0 <= i < |path| ==> InnerAt(t.store, path[i]).Some?
    requires InnerAt(t.store, t.rootId).Some?
    ensures InternalInsert(t, path, key, child).Ok?
    ensures InnerAt(InternalInsert(t, path, key, child).value.store, t.rootId).Some?
    decreases |path|
  {
    if |path| == 0 {
      var u := CreateNewRoot(t, key, child).value;
      assert InnerAt(u.store, t.rootId).Some?;
    } else {
      var id := path[|path| - 1];
      var (u, up) := InsertIntoNode(t, id, key, child).value;
      InsertIntoNodeKeepsInner(t, id, key, child, t.rootId);
      if up.Some? {
        var rest := path[..|path| - 1];
        forall i | 0 <= i < |rest|
          ensures InnerAt(u.store, rest[i]).Some?
        {
          InsertIntoNodeKeepsInner(t, id, key, child, rest[i]);
        }
        InternalInsertOk(u, rest, up.value.0, up.value.1);
      }
    }
  }

  // ---------------------------------------------------------------------
  // The leaf chain

  /** The loop of `range` from leaf `id`: take the leaf's part of the
      result, stop at an empty part or at the end of the chain, and go on
      at the leaf's `next_id` otherwise. `range` follows the chain as
      long as it goes on; `fuel` bounds the steps, and an id that is no
      leaf of the store is an error. */
  function ScanChain<L, E>(store: map<uint32, Page<L>>, id: uint32, nextOf: L -> uint32, part: L -> seq<E>, fuel: nat)
    : (r: Result<seq<E>>)
    ensures id == INVALID_NODE_ID ==> r == Ok([])
    ensures id != INVALID_NODE_ID && !IsLeaf(store, id) ==> r.Err?
    ensures r.Ok? && id != INVALID_NODE_ID ==> |part(store[id].leaf)| <= |r.value|
    decreases fuel
  {
    if id == INVALID_NODE_ID then Ok([])
    else if !IsLeaf(store, id) then Err(RuntimeError("page is not a leaf"))
    else if fuel == 0 then Err(RuntimeError("leaf chain does not end"))
    else
      var got := part(store[id].leaf);
      if |got| == 0 then Ok([])
      else match ScanChain(store, nextOf(store[id].leaf), nextOf, part, fuel - 1)
        case Err(e) => Err(e)
        case Ok(rest) => Ok(got + rest)
  }

  /** Every element the chain scan returns is in the part of some leaf of
      the store, and the first leaf's part comes first. */
  lemma {:induction false} ScanChainFrom<L, E>(store: map<uint32, Page<L>>, id: uint32, nextOf: L -> uint32, part: L -> seq<E>, fuel: nat)
    ensures var r := ScanChain(store, id, nextOf, part, fuel);
      r.Ok? ==> forall i :: 0 <= i < |r.value| ==> exists x :: IsLeaf(store, x) && r.value[i] in part(store[x].leaf)
    ensures var r := ScanChain(store, id, nextOf, part, fuel);
      r.Ok? && id != INVALID_NODE_ID ==> r.value[..|part(store[id].leaf)|] == part(store[id].leaf)
    decreases fuel
  {
    var r := ScanChain(store, id, nextOf, part, fuel);
    if id != INVALID_NODE_ID && IsLeaf(store, id) && fuel > 0 && |part(store[id].leaf)| > 0 {
      var got := part(store[id].leaf);
      var next := nextOf(store[id].leaf);
      ScanChainFrom(store, next, nextOf, part, fuel - 1);
      var rest := ScanChain(store, next, nextOf, part, fuel - 1);
      if rest.Ok? {
        assert r.value == got + rest.value;
        forall i | 0 <= i < |r.value|
          ensures exists x :: IsLeaf(store, x) && r.value[i] in part(store[x].leaf)
        {
          if i < |got| {
            assert r.value[i] == got[i];
            assert IsLeaf(store, id) && r.value[i] in part(store[id].leaf);
          } else {
            assert r.value[i] == rest.value[i - |got|];
          }
        }
      }
    }
  }

  /** The last leaf of the chain with a non-empty part: the scan returns
      exactly that part. */
  lemma ScanChainLast<L, E>(store: map<uint32, Page<L>>, id: uint32, nextOf: L -> uint32, part: L -> seq<E>, fuel: nat)
    requires IsLeaf(store, id) && id != INVALID_NODE_ID && fuel > 0
    requires nextOf(store[id].leaf) == INVALID_NODE_ID
    ensures ScanChain(store, id, nextOf, part, fuel) == Ok(part(store[id].leaf))
  {
    var got := part(store[id].leaf);
    if |got| > 0 {
      assert got + [] == got;
    }
  }
}

=== FILE: optimized_btree.dfy ===
/**
  `OptimizedBTree`: a B+-tree of `BTreeNode` leaves for nearly sorted
  inserts. Like `LasTree` it keeps a fast path, a leaf and a key range
  `[fast_path_min_key, fast_path_max_key)` whose keys skip the descent; here
  every regular insert moves the fast path to the leaf it used, and a split
  moves the range onto the half that took the new key.

  The constructor ignores the policy it is given and always keeps the
  leaves sorted (`ALWAYS_SORTED`), so only that branch of `insert`,
  `insert_fast_path` and `split_leaf` is ever taken; it is the one modelled.
  Blocks come from an `InMemoryBlockManager` whose counter starts at zero,
  so the root gets block 0, the head leaf block 1, and each further block
  the next id of the tree's page counter.

  The internal pages, the descent and `internal_insert` are those of
  `NodeStore`; the internal split this class writes differs and is
  modelled on its own in `TreeIndex.SplitEntryAsWritten`.
 */
module OptimizedBTree {
  import opened Base
  import opened Keys
  import opened KeyValues
  import BTreeNode
  import InternalNode
  import opened NodeStore

  type Node<V> = BTreeNode.Node<V>

  /** `SPLIT_LEAF_POS`, `leaf_capacity * 9 / 10`: the keys the old leaf
      keeps in a split. */
  const SPLIT_LEAF_POS: nat := BTreeNode.LEAF_CAPACITY * 9 / 10

  /** `fast_path_leaf_id`, `fast_path_min_key`, `fast_path_max_key` and
      `fast_path_hits`. */
  datatype FastPath = FastPath(leafId: uint32, minKey: int, maxKey: int, hits: nat)

  /** The tree's pages and counters and its fast path. */
  datatype OTree<V> = OTree(tree: Tree<Node<V>>, fp: FastPath)

  /** A leaf whose key and value arrays have the header's size and fit in
      the block. */
  predicate Fits<V>(n: Node<V>) {
    |n.keys| == |n.values| <= BTreeNode.LEAF_CAPACITY
  }

  /** The constructor: block 0 is the root, an internal node whose only
      child is the head leaf in block 1; the fast path covers the head leaf
      with every key but `INT_MAX`. */
  function Init<V>(): (r: OTree<V>)
  {
    var head := BTreeNode.Init<V>(1, INVALID_NODE_ID, Leaf);
    var root := InternalNode.Init(0, 1);
    OTree(Tree(map[0 := Inner(root), 1 := LeafPage(head)], 0, 1, 2, 1, 0),
          FastPath(1, INT_MIN, INT_MAX, 0))
  }

  lemma InitShape<V>()
    ensures var r := Init<V>();
      && r.tree.rootId == 0 && r.tree.headId == 1 && r.tree.numPages == 2
      && r.tree.height == 1 && r.tree.size == 0
      && r.fp.leafId == 1 && r.fp.hits == 0
      && IsLeaf(r.tree.store, 1) && |r.tree.store[1].leaf.keys| == 0
  {
  }

  /** `can_use_fast_path`: never with the invalid leaf id, otherwise the
      key lies in the half-open range. */
  predicate CanUse(fp: FastPath, key: int) {
    fp.leafId != INVALID_NODE_ID && fp.minKey <= key < fp.maxKey
  }

  /** After the constructor every key but `INT_MAX` takes the fast path,
      and every key descends to the head leaf the fast path names. */
  lemma InitRoutes<V>(k: int)
    requires INT_MIN <= k <= INT_MAX
    ensures var t := Init<V>();
      && (CanUse(t.fp, k) <==> k != INT_MAX)
      && FindPath(t.tree, k) == Ok(Descent([0], 1, INT_MAX, INT_MIN, NO_HIGH))
      && FindPath(t.tree, k).value.leafId == t.fp.leafId
  {
    var t := Init<V>();
    var n := InnerAt(t.tree.store, 0).value;
    assert InternalNode.ChildSlot(n, k) == 0 && n.children[0] == 1;
    var below := Descend(t.tree.store, 1, k, INT_MAX, INT_MIN, NO_HIGH, 1);
    assert below == Ok(Descent([], 1, INT_MAX, INT_MIN, NO_HIGH));
    DescendStep(t.tree.store, 0, k, INT_MAX, INT_MIN, NO_HIGH, 2);
    assert [0] + below.value.path == [0];
  }

  // ---------------------------------------------------------------------
  // Reads

  /** `value_slot` followed by the check that the slot holds the key: the
      value stored for the key in this leaf, if any. On a leaf with
      strictly ascending keys it is the leaf's mapping. */
  function Probe<V>(n: Node<V>, key: int): (r: Option<V>)
    requires |n.keys| == |n.values|
    ensures r.Some? ==> key in n.keys
    ensures StrictlySorted(n.keys) ==> r == Lookup(n.keys, n.values, key)
  {
    var index := BTreeNode.ValueSlot(n, key);
    var found := index < |n.keys| && n.keys[index] == key;
    assert StrictlySorted(n.keys) ==> (if found then Some(n.values[index]) else None) == Lookup(n.keys, n.values, key) by {
      if StrictlySorted(n.keys) {
        LowerBoundFinds(n.keys, key);
        if found {
          LookupAt(n.keys, n.values, index);
        }
      }
    }
    if found then Some(n.values[index]) else None
  }

  /** `get`: the leaf the descent reaches answers. A leaf whose arrays are
      out of shape is an error. */
  function Get<V>(t: OTree<V>, key: int): (r: Result<Option<V>>)
    ensures r.Ok? <==> FindPath(t.tree, key).Ok? && Fits(t.tree.store[FindPath(t.tree, key).value.leafId].leaf)
    ensures r.Ok? ==> var leaf := t.tree.store[FindPath(t.tree, key).value.leafId].leaf;
      (r.value.Some? ==> key in leaf.keys) && (StrictlySorted(leaf.keys) ==> r.value == Lookup(leaf.keys, leaf.values, key))
  {
    match FindPath(t.tree, key)
    case Err(e) => Err(e)
    case Ok(d) =>
      var leaf := t.tree.store[d.leafId].leaf;
      if !Fits(leaf) then Err(RuntimeError("leaf arrays out of shape"))
      else Ok(Probe(leaf, key))
  }

  /** `contains`: the same descent and slot test as `get`, reporting only
      whether the slot holds the key. It agrees with `get`. */
  function Contains<V>(t: OTree<V>, key: int): (r: Result<bool>)
    ensures r.Ok? <==> Get(t, key).Ok?
    ensures r.Ok? ==> (r.value <==> Get(t, key).value.Some?)
  {
    match FindPath(t.tree, key)
    case Err(e) => Err(e)
    case Ok(d) =>
      var leaf := t.tree.store[d.leafId].leaf;
      if !Fits(leaf) then Err(RuntimeError("leaf arrays out of shape"))
      else
        var index := BTreeNode.ValueSlot(leaf, key);
        Ok(index < |leaf.keys| && leaf.keys[index] == key)
  }

  // ---------------------------------------------------------------------
  // Update

  /** What `update` returns and the tree after it. */
  datatype Updated<V> = Updated(found: bool, tree: OTree<V>)

  /** `update`: when the leaf of the key holds it, overwrite its value in
      place; otherwise report `false` and change nothing. */
  function Update<V>(t: OTree<V>, key: int, value: V): (r: Result<Updated<V>>)
    ensures r.Ok? <==> Get(t, key).Ok?
    ensures r.Ok? ==> (r.value.found <==> Get(t, key).value.Some?)
    ensures r.Ok? && !r.value.found ==> r.value.tree == t
    ensures r.Ok? ==> r.value.tree.fp == t.fp && r.value.tree.tree.size == t.tree.size
  {
    match FindPath(t.tree, key)
    case Err(e) => Err(e)
    case Ok(d) =>
      var leaf := t.tree.store[d.leafId].leaf;
      if !Fits(leaf) then Err(RuntimeError("leaf arrays out of shape"))
      else
        var index := BTreeNode.ValueSlot(leaf, key);
        if index >= |leaf.keys| || leaf.keys[index] != key then Ok(Updated(false, t))
        else Ok(Updated(true, t.(tree := WithLeaf(t.tree, d.leafId, leaf.(values := leaf.values[index := value])))))
  }

  /** On a leaf with strictly ascending keys, a successful `update` is a
      map update: the key reads the new value and every other key reads
      what it read before. */
  lemma UpdateOverwrites<V>(t: OTree<V>, key: int, value: V, k: int)
    requires Update(t, key, value).Ok? && Update(t, key, value).value.found
    requires StrictlySorted(t.tree.store[FindPath(t.tree, key).value.leafId].leaf.keys)
    ensures Get(Update(t, key, value).value.tree, key) == Ok(Some(value))
    ensures k != key ==> Get(Update(t, key, value).value.tree, k) == Get(t, k)
  {
    UpdateReads(t, key, value, key);
    UpdateReads(t, key, value, k);
  }

  /** What one key reads after a successful `update`. */
  lemma UpdateReads<V>(t: OTree<V>, key: int, value: V, k: int)
    requires Update(t, key, value).Ok? && Update(t, key, value).value.found
    requires StrictlySorted(t.tree.store[FindPath(t.tree, key).value.leafId].leaf.keys)
    ensures Get(Update(t, key, value).value.tree, k) == if k == key then Ok(Some(value)) else Get(t, k)
  {
    var d := FindPath(t.tree, key).value;
    var leaf := t.tree.store[d.leafId].leaf;
    var index := BTreeNode.ValueSlot(leaf, key);
    var m := leaf.(values := leaf.values[index := value]);
    var u := Update(t, key, value).value.tree;
    assert u.tree == WithLeaf(t.tree, d.leafId, m);
    LeafWriteKeepsPaths(t.tree, d.leafId, m, k);
    LookupOverwrite(leaf.keys, leaf.values, index, value);
  }

  // ---------------------------------------------------------------------
  // Split

  /** The two leaves of a split and the new leaf's first key, which goes up
      to the parent. */
  datatype Halves<V> = Halves(left: Node<V>, right: Node<V>, newKey: int)

  /** A full leaf holds 510 pairs; a split keeps 459 of them. */
  lemma LeafSplitPosValue()
    ensures BTreeNode.LEAF_CAPACITY == 510 && SPLIT_LEAF_POS == 459
  {
  }

  /** `split_leaf` (`ALWAYS_SORTED`) of a leaf whose key and value arrays
      are the whole block, with the new pair at `index`: the old leaf keeps
      `SPLIT_LEAF_POS` pairs and links to the new leaf, which takes the other
      `leaf_capacity + 1 - SPLIT_LEAF_POS` and the old leaf's link. The pairs
      come out in order, the new one in place. */
  function SplitLeaf<V>(n: Node<V>, index: nat, key: int, value: V, newId: uint32): (r: Halves<V>)
    requires |n.keys| == |n.values| == BTreeNode.LEAF_CAPACITY && index <= BTreeNode.LEAF_CAPACITY
    ensures r.left.id == n.id && r.left.nextId == newId && r.left.isSorted == n.isSorted
    ensures r.right.id == newId && r.right.nextId == n.nextId && r.right.kind == Leaf
    ensures |r.left.keys| == |r.left.values| == SPLIT_LEAF_POS
    ensures |r.right.keys| == |r.right.values| == BTreeNode.LEAF_CAPACITY + 1 - SPLIT_LEAF_POS
    ensures r.left.keys + r.right.keys == InsertAt(n.keys, index, key)
    ensures r.left.values + r.right.values == InsertAt(n.values, index, value)
    ensures r.newKey == r.right.keys[0]
  {
    LeafSplitPosValue();
    var pos := SPLIT_LEAF_POS;
    var blank := BTreeNode.Init<V>(newId, n.nextId, Leaf);
    if index < pos then
      var rk := n.keys[pos - 1..];
      InsertAtCutLeft(n.keys, index, key, pos);
      InsertAtCutLeft(n.values, index, value, pos);
      Halves(n.(nextId := newId, keys := n.keys[..index] + [key] + n.keys[index..pos - 1],
                values := n.values[..index] + [value] + n.values[index..pos - 1]),
             blank.(keys := rk, values := n.values[pos - 1..]), rk[0])
    else
      var rk := n.keys[pos..index] + [key] + n.keys[index..];
      InsertAtCutRight(n.keys, index, key, pos);
      InsertAtCutRight(n.values, index, value, pos);
      Halves(n.(nextId := newId, keys := n.keys[..pos], values := n.values[..pos]),
             blank.(keys := rk, values := n.values[pos..index] + [value] + n.values[index..]), rk[0])
  }

  /** A cut of strictly ascending keys: both sides strictly ascending, the
      left side below the first key of the right side, and a key left of
      the cut exactly when it is below that first key. */
  lemma CutStrictlySorted(ks: seq<int>, pos: nat, index: nat)
    requires StrictlySorted(ks) && pos < |ks| && index < |ks|
    ensures StrictlySorted(ks[..pos]) && StrictlySorted(ks[pos..])
    ensures forall i :: 0 <= i < pos ==> ks[..pos][i] < ks[pos]
    ensures index < pos <==> ks[index] < ks[pos]
  {
  }

  /** The split of a full leaf with strictly ascending keys at the key's
      lower bound loses no pair and invents none: both halves are strictly
      ascending, every key of the old leaf is below the new leaf's first
      key, the new leaf's first key is not below the inserted key, and
      together they map the new key to its value and every other key as the
      full leaf did. */
  lemma SplitLeafKeepsPairs<V>(n: Node<V>, key: int, value: V, newId: uint32, k: int)
    requires |n.keys| == |n.values| == BTreeNode.LEAF_CAPACITY
    requires StrictlySorted(n.keys) && key !in n.keys
    ensures var index := LowerBound(n.keys, key);
      var h := SplitLeaf(n, index, key, value, newId);
      && StrictlySorted(h.left.keys) && StrictlySorted(h.right.keys)
      && (forall i :: 0 <= i < |h.left.keys| ==> h.left.keys[i] < h.newKey)
      && (index < SPLIT_LEAF_POS <==> key < h.newKey)
      && (index >= SPLIT_LEAF_POS ==> h.newKey <= key)
      && Lookup(h.left.keys + h.right.keys, h.left.values + h.right.values, k)
           == if k == key then Some(value) else Lookup(n.keys, n.values, k)
  {
    var index := LowerBound(n.keys, key);
    var h := SplitLeaf(n, index, key, value, newId);
    var ks := InsertAt(n.keys, index, key);
    LookupInsertAt(n.keys, n.values, index, key, value);
    assert h.left.keys == ks[..SPLIT_LEAF_POS] && h.right.keys == ks[SPLIT_LEAF_POS..];
    CutStrictlySorted(ks, SPLIT_LEAF_POS, index);
  }

  // ---------------------------------------------------------------------
  // Insert

  /** The two halves of a split written to their pages, one page more. */
  function PlaceHalves<V>(t: Tree<Node<V>>, leafId: uint32, newId: uint32, h: Halves<V>): (r: Tree<Node<V>>)
    ensures r.rootId == t.rootId && r.headId == t.headId && r.size == t.size
    ensures r.numPages == t.numPages + 1
    ensures r.store == t.store[leafId := LeafPage(h.left)][newId := LeafPage(h.right)]
  {
    t.(store := t.store[leafId := LeafPage(h.left)][newId := LeafPage(h.right)], numPages := t.numPages + 1)
  }

  /** The fast path after a split: it stays on the old leaf and ends at the
      new leaf's first key when the new pair went left, and moves to the new
      leaf from its first key, keeping its upper bound, otherwise. */
  function SplitRetarget(fp: FastPath, index: nat, newKey: int, newId: uint32): (r: FastPath)
    ensures r.hits == fp.hits
    ensures index < SPLIT_LEAF_POS ==> r.leafId == fp.leafId && r.minKey == fp.minKey && r.maxKey == newKey
    ensures index >= SPLIT_LEAF_POS ==> r.leafId == newId && r.minKey == newKey && r.maxKey == fp.maxKey
  {
    if index < SPLIT_LEAF_POS then fp.(maxKey := newKey) else fp.(leafId := newId, minKey := newKey)
  }

  /** The split that follows a refused `insert_sorted`: split the full leaf
      at the key's slot into a leaf at the next page id, move the fast path
      onto the half that took the pair, and carry the new leaf's first key
      up the path. */
  function SplitInsert<V>(t: OTree<V>, leafId: uint32, n: Node<V>, path: seq<uint32>, key: int, value: V)
    : (r: Result<OTree<V>>)
    requires |n.keys| == |n.values| == BTreeNode.LEAF_CAPACITY
    ensures r.Ok? ==> r.value.tree.size == t.tree.size && r.value.fp.hits == t.fp.hits
    ensures r.Ok? ==> r.value.tree.rootId == t.tree.rootId && r.value.tree.headId == t.tree.headId
  {
    var newId := NextId(t.tree);
    var index := BTreeNode.ValueSlot(n, key);
    var h := SplitLeaf(n, index, key, value, newId);
    match CarryUp(PlaceHalves(t.tree, leafId, newId, h), path, h.newKey, newId)
    case Err(e) => Err(e)
    case Ok(w) => Ok(OTree(w, SplitRetarget(t.fp, index, h.newKey, newId)))
  }

  /** The fast path after a regular insert: the leaf the descent reached,
      from its first key (the new key when the leaf is empty) up to the
      descent's `leaf_max`. */
  function Retarget<V>(fp: FastPath, leafId: uint32, n: Node<V>, key: int, leafMax: int): (r: FastPath)
    ensures r.leafId == leafId && r.maxKey == leafMax && r.hits == fp.hits
    ensures r.minKey == if |n.keys| > 0 then n.keys[0] else key
  {
    FastPath(leafId, if |n.keys| > 0 then n.keys[0] else key, leafMax, fp.hits)
  }

  /** `insert`: a key the fast path accepts goes to the fast-path leaf;
      any other key descends, the fast path moves to the leaf reached, and
      the leaf takes the pair with `insert_sorted`, splitting when it
      refuses. The tuple count grows by one either way. */
  function Insert<V>(t: OTree<V>, key: int, value: V): (r: Result<OTree<V>>)
    ensures r.Ok? ==> r.value.tree.size == t.tree.size + 1
    ensures r.Ok? ==> r.value.tree.rootId == t.tree.rootId && r.value.tree.headId == t.tree.headId
  {
    if CanUse(t.fp, key) then InsertFastPath(t, key, value)
    else
      match FindPath(t.tree, key)
      case Err(e) => Err(e)
      case Ok(d) => InsertRegular(t, d, key, value)
  }

  /** The regular path of `insert` once the descent has found the leaf. */
  function InsertRegular<V>(t: OTree<V>, d: Descent, key: int, value: V): (r: Result<OTree<V>>)
    requires IsLeaf(t.tree.store, d.leafId)
    ensures r.Ok? ==> r.value.tree.size == t.tree.size + 1
    ensures r.Ok? ==> r.value.tree.rootId == t.tree.rootId && r.value.tree.headId == t.tree.headId
  {
    var n := t.tree.store[d.leafId].leaf;
    if !Fits(n) then Err(RuntimeError("leaf arrays out of shape"))
    else
      var moved := t.(fp := Retarget(t.fp, d.leafId, n, key, d.leafMax));
      var ins := BTreeNode.InsertSorted(n, key, value);
      if ins.0 then Ok(moved.(tree := WithLeaf(t.tree, d.leafId, ins.1).(size := t.tree.size + 1)))
      else Counted(SplitInsert(moved, d.leafId, n, d.path, key, value))
  }

  /** `insert_fast_path`: the fast-path leaf takes the pair with
      `insert_sorted` and a hit is counted; when it refuses, the path of the
      key is found and the fast-path leaf is split. */
  function InsertFastPath<V>(t: OTree<V>, key: int, value: V): (r: Result<OTree<V>>)
    ensures r.Ok? ==> r.value.tree.size == t.tree.size + 1
    ensures r.Ok? ==> r.value.tree.rootId == t.tree.rootId && r.value.tree.headId == t.tree.headId
  {
    var id := t.fp.leafId;
    if !IsLeaf(t.tree.store, id) then Err(RuntimeError("page is not a leaf"))
    else
      var n := t.tree.store[id].leaf;
      if !Fits(n) then Err(RuntimeError("leaf arrays out of shape"))
      else
        var ins := BTreeNode.InsertSorted(n, key, value);
        if ins.0 then
          Ok(OTree(WithLeaf(t.tree, id, ins.1).(size := t.tree.size + 1), t.fp.(hits := t.fp.hits + 1)))
        else FastMiss(t, n, key, value)
  }

  /** The fast-path leaf refused the pair: find the path of the key and
      split the fast-path leaf. */
  function FastMiss<V>(t: OTree<V>, n: Node<V>, key: int, value: V): (r: Result<OTree<V>>)
    requires |n.keys| == |n.values| == BTreeNode.LEAF_CAPACITY
    ensures r.Ok? ==> r.value.tree.size == t.tree.size + 1
    ensures r.Ok? ==> r.value.tree.rootId == t.tree.rootId && r.value.tree.headId == t.tree.headId
  {
    match FindPath(t.tree, key)
    case Err(e) => Err(e)
    case Ok(d) => Counted(SplitInsert(t, t.fp.leafId, n, d.path, key, value))
  }

  /** The tree with one more tuple counted, when there is one. */
  function Counted<V>(r: Result<OTree<V>>): (c: Result<OTree<V>>)
    ensures c.Ok? <==> r.Ok?
    ensures c.Ok? ==> c.value == r.value.(tree := r.value.tree.(size := r.value.tree.size + 1))
  {
    if r.Err? then r else Ok(r.value.(tree := r.value.tree.(size := r.value.tree.size + 1)))
  }

  // ---------------------------------------------------------------------
  // The fast path and the descent

  /** The fast path is sound: every key it accepts is one the descent
      sends to the fast-path leaf. */
  ghost predicate FastSound<V>(t: OTree<V>) {
    forall k :: INT_MIN <= k <= INT_MAX && CanUse(t.fp, k) ==>
      FindPath(t.tree, k).Ok? && FindPath(t.tree, k).value.leafId == t.fp.leafId
  }

  /** The fast path of a fresh tree is sound. */
  lemma InitSound<V>()
    ensures FastSound(Init<V>())
  {
    forall k | INT_MIN <= k <= INT_MAX && CanUse(Init<V>().fp, k)
      ensures FindPath(Init<V>().tree, k).Ok? && FindPath(Init<V>().tree, k).value.leafId == Init<V>().fp.leafId
    {
      InitRoutes<V>(k);
    }
  }

  /** The leaf of a fast-path hit takes the pair: `insert` is
      `insert_sorted` on the fast-path leaf, one more tuple and one more
      hit. */
  lemma FastHitStep<V>(t: OTree<V>, key: int, value: V) returns (m: Node<V>)
    requires CanUse(t.fp, key) && IsLeaf(t.tree.store, t.fp.leafId)
    requires var n := t.tree.store[t.fp.leafId].leaf;
      Fits(n) && n.isSorted && StrictlySorted(n.keys) && (key in n.keys || |n.keys| < BTreeNode.LEAF_CAPACITY)
    ensures BTreeNode.InsertSorted(t.tree.store[t.fp.leafId].leaf, key, value) == (true, m)
    ensures Insert(t, key, value)
      == Ok(OTree(WithLeaf(t.tree, t.fp.leafId, m).(size := t.tree.size + 1), t.fp.(hits := t.fp.hits + 1)))
  {
    var n := t.tree.store[t.fp.leafId].leaf;
    BTreeNode.InsertSortedAccepts(n, key, value);
    m := BTreeNode.InsertSorted(n, key, value).1;
  }

  /** A fast-path insert the leaf takes: one more hit and one more tuple,
      the same range and pages; the fast-path leaf maps the key to the new
      value and every other key as before, and every other page is as it
      was. */
  lemma FastHit<V>(t: OTree<V>, key: int, value: V)
    requires CanUse(t.fp, key) && IsLeaf(t.tree.store, t.fp.leafId)
    requires var n := t.tree.store[t.fp.leafId].leaf;
      Fits(n) && n.isSorted && StrictlySorted(n.keys) && (key in n.keys || |n.keys| < BTreeNode.LEAF_CAPACITY)
    ensures Insert(t, key, value).Ok?
    ensures var r := Insert(t, key, value).value;
      var id := t.fp.leafId;
      var n := t.tree.store[id].leaf;
      && r.fp == t.fp.(hits := t.fp.hits + 1)
      && r.tree.size == t.tree.size + 1 && r.tree.numPages == t.tree.numPages
      && IsLeaf(r.tree.store, id) && StrictlySorted(r.tree.store[id].leaf.keys)
      && (forall j :: Lookup(r.tree.store[id].leaf.keys, r.tree.store[id].leaf.values, j)
            == if j == key then Some(value) else Lookup(n.keys, n.values, j))
      && (forall x :: x in t.tree.store && x != id ==> x in r.tree.store && r.tree.store[x] == t.tree.store[x])
  {
    var m := FastHitStep(t, key, value);
    BTreeNode.InsertSortedIsMapUpdate(t.tree.store[t.fp.leafId].leaf, key, value);
  }

  /** A fast-path hit changes no descent, so the fast path stays sound. */
  lemma FastHitKeepsSound<V>(t: OTree<V>, key: int, value: V)
    requires CanUse(t.fp, key) && IsLeaf(t.tree.store, t.fp.leafId)
    requires var n := t.tree.store[t.fp.leafId].leaf;
      Fits(n) && n.isSorted && StrictlySorted(n.keys) && (key in n.keys || |n.keys| < BTreeNode.LEAF_CAPACITY)
    ensures Insert(t, key, value).Ok?
    ensures FastSound(t) ==> FastSound(Insert(t, key, value).value)
  {
    var id := t.fp.leafId;
    var m := FastHitStep(t, key, value);
    var r := Insert(t, key, value).value;
    forall k
      ensures FindPath(r.tree, k) == FindPath(t.tree, k)
    {
      LeafWriteKeepsPaths(t.tree, id, m, k);
    }
    assert r.fp.leafId == t.fp.leafId && r.fp.minKey == t.fp.minKey && r.fp.maxKey == t.fp.maxKey;
  }

  /** When the descent agrees with the fast path on the key, `get` reads
      back the value a fast-path hit wrote. */
  lemma FastHitReads<V>(t: OTree<V>, key: int, value: V)
    requires CanUse(t.fp, key) && IsLeaf(t.tree.store, t.fp.leafId)
    requires var n := t.tree.store[t.fp.leafId].leaf;
      Fits(n) && n.isSorted && StrictlySorted(n.keys) && (key in n.keys || |n.keys| < BTreeNode.LEAF_CAPACITY)
    ensures Insert(t, key, value).Ok?
    ensures FindPath(t.tree, key).Ok? && FindPath(t.tree, key).value.leafId == t.fp.leafId
      ==> Get(Insert(t, key, value).value, key) == Ok(Some(value))
  {
    var id := t.fp.leafId;
    var m := FastHitStep(t, key, value);
    if FindPath(t.tree, key).Ok? && FindPath(t.tree, key).value.leafId == id {
      LeafWriteKeepsPaths(t.tree, id, m, key);
      BTreeNode.InsertSortedIsMapUpdate(t.tree.store[id].leaf, key, value);
    }
  }

  /** The leaf of a regular insert takes the pair: `insert` is
      `insert_sorted` on the leaf the descent reached, with the fast path
      moved onto it, and one more tuple. */
  lemma RegularStep<V>(t: OTree<V>, key: int, value: V) returns (m: Node<V>)
    requires !CanUse(t.fp, key) && FindPath(t.tree, key).Ok?
    requires var n := t.tree.store[FindPath(t.tree, key).value.leafId].leaf;
      Fits(n) && n.isSorted && StrictlySorted(n.keys) && (key in n.keys || |n.keys| < BTreeNode.LEAF_CAPACITY)
    ensures var d := FindPath(t.tree, key).value;
      var n := t.tree.store[d.leafId].leaf;
      && BTreeNode.InsertSorted(n, key, value) == (true, m)
      && Insert(t, key, value)
         == Ok(OTree(WithLeaf(t.tree, d.leafId, m).(size := t.tree.size + 1), Retarget(t.fp, d.leafId, n, key, d.leafMax)))
  {
    var d := FindPath(t.tree, key).value;
    var n := t.tree.store[d.leafId].leaf;
    BTreeNode.InsertSortedAccepts(n, key, value);
    m := BTreeNode.InsertSorted(n, key, value).1;
  }

  /** A regular insert the leaf takes: the fast path moves to the leaf the
      descent reached, one more tuple and no new page, and `get` reads the
      new value back. */
  lemma RegularFits<V>(t: OTree<V>, key: int, value: V)
    requires !CanUse(t.fp, key) && FindPath(t.tree, key).Ok?
    requires var n := t.tree.store[FindPath(t.tree, key).value.leafId].leaf;
      Fits(n) && n.isSorted && StrictlySorted(n.keys) && (key in n.keys || |n.keys| < BTreeNode.LEAF_CAPACITY)
    ensures Insert(t, key, value).Ok?
    ensures var d := FindPath(t.tree, key).value;
      var n := t.tree.store[d.leafId].leaf;
      var r := Insert(t, key, value).value;
      && r.fp == Retarget(t.fp, d.leafId, n, key, d.leafMax)
      && r.tree.size == t.tree.size + 1 && r.tree.numPages == t.tree.numPages
      && Get(r, key) == Ok(Some(value))
  {
    var d := FindPath(t.tree, key).value;
    var m := RegularStep(t, key, value);
    BTreeNode.InsertSortedIsMapUpdate(t.tree.store[d.leafId].leaf, key, value);
    LeafWriteKeepsPaths(t.tree, d.leafId, m, key);
    var r := Insert(t, key, value).value;
    assert FindPath(r.tree, key) == Ok(d);
    assert r.tree.store[d.leafId].leaf == m;
  }

  /** A regular insert the leaf takes changes no descent, and every other
      key reads what it read before. */
  lemma RegularKeepsOthers<V>(t: OTree<V>, key: int, value: V, k: int)
    requires !CanUse(t.fp, key) && FindPath(t.tree, key).Ok?
    requires var n := t.tree.store[FindPath(t.tree, key).value.leafId].leaf;
      Fits(n) && n.isSorted && StrictlySorted(n.keys) && (key in n.keys || |n.keys| < BTreeNode.LEAF_CAPACITY)
    ensures Insert(t, key, value).Ok?
    ensures var r := Insert(t, key, value).value;
      && FindPath(r.tree, k) == FindPath(t.tree, k)
      && (k != key ==> Get(r, k) == Get(t, k))
  {
    var d := FindPath(t.tree, key).value;
    var n := t.tree.store[d.leafId].leaf;
    var m := RegularStep(t, key, value);
    BTreeNode.InsertSortedIsMapUpdate(n, key, value);
    var r := Insert(t, key, value).value;
    LeafWriteKeepsPaths(t.tree, d.leafId, m, k);
    if k != key {
      LeafWriteReads(t, r, d.leafId, m, k);
    }
  }

  /** Overwriting a leaf with one that maps `k` as before changes neither
      the descent of `k` nor what `get` reads for it. */
  lemma LeafWriteReads<V>(t: OTree<V>, u: OTree<V>, id: uint32, m: Node<V>, k: int)
    requires IsLeaf(t.tree.store, id)
    requires u.tree.store == t.tree.store[id := LeafPage(m)] && u.tree.rootId == t.tree.rootId
    requires var n := t.tree.store[id].leaf;
      && Fits(n) && Fits(m) && StrictlySorted(n.keys) && StrictlySorted(m.keys)
      && Lookup(m.keys, m.values, k) == Lookup(n.keys, n.values, k)
    ensures FindPath(u.tree, k) == FindPath(t.tree, k)
    ensures Get(u, k) == Get(t, k)
  {
    LeafWriteKeepsPaths(t.tree, id, m, k);
    assert FindPath(u.tree, k) == FindPath(WithLeaf(t.tree, id, m), k);
  }

  /** A regular insert the leaf takes leaves a sound fast path, provided the
      leaf sits in the window of its descent: its first key is not below
      the separator on its left, and its `leaf_max` is not above the
      separator on its right. */
  lemma RegularSound<V>(t: OTree<V>, key: int, value: V)
    requires INT_MIN <= key <= INT_MAX && AllSorted(t.tree.store)
    requires !CanUse(t.fp, key) && FindPath(t.tree, key).Ok?
    requires var d := FindPath(t.tree, key).value;
      var n := t.tree.store[d.leafId].leaf;
      && Fits(n) && n.isSorted && StrictlySorted(n.keys) && (key in n.keys || |n.keys| < BTreeNode.LEAF_CAPACITY)
      && (|n.keys| > 0 ==> d.low <= n.keys[0])
      && d.leafMax <= d.high
    ensures FastSound(Insert(t, key, value).value)
  {
    var d := FindPath(t.tree, key).value;
    var r := Insert(t, key, value).value;
    RegularFits(t, key, value);
    FindPathWindow(t.tree, key, key);
    forall k | INT_MIN <= k <= INT_MAX && CanUse(r.fp, k)
      ensures FindPath(r.tree, k).Ok? && FindPath(r.tree, k).value.leafId == r.fp.leafId
    {
      RegularKeepsOthers(t, key, value, k);
      FindPathWindow(t.tree, key, k);
    }
  }

  /** `find_leaf` reports as `leaf_max` a separator above the key, or
      `INT_MAX`; so after a regular insert the fast path accepts the key it
      just took unless the key is below the leaf's first key or the key is
      `INT_MAX` itself. */
  lemma RetargetCoversKey<V>(t: OTree<V>, key: int, value: V)
    requires INT_MIN <= key <= INT_MAX && AllSorted(t.tree.store)
    requires !CanUse(t.fp, key) && FindPath(t.tree, key).Ok?
    requires var n := t.tree.store[FindPath(t.tree, key).value.leafId].leaf;
      Fits(n) && n.isSorted && StrictlySorted(n.keys) && (key in n.keys || |n.keys| < BTreeNode.LEAF_CAPACITY)
    requires FindPath(t.tree, key).value.leafId != INVALID_NODE_ID
    ensures var n := t.tree.store[FindPath(t.tree, key).value.leafId].leaf;
      var fp := Insert(t, key, value).value.fp;
      && (CanUse(fp, key) ==> |n.keys| == 0 || n.keys[0] <= key)
      && ((|n.keys| == 0 || n.keys[0] <= key) && key != INT_MAX ==> CanUse(fp, key))
  {
    var d := FindPath(t.tree, key).value;
    var n := t.tree.store[d.leafId].leaf;
    var m := RegularStep(t, key, value);
    FindPathLeafMax(t.tree, key);
    assert Insert(t, key, value).value.fp == Retarget(t.fp, d.leafId, n, key, d.leafMax);
  }

  /** After a split the fast path is on the half that took the pair: on the
      old leaf it accepts only keys below the new leaf's first key, on the
      new leaf only keys from it on, and the key itself is on its side. */
  lemma SplitSides<V>(fp: FastPath, n: Node<V>, key: int, value: V, newId: uint32, k: int)
    requires |n.keys| == |n.values| == BTreeNode.LEAF_CAPACITY
    requires StrictlySorted(n.keys) && key !in n.keys && n.isSorted
    ensures var index := BTreeNode.ValueSlot(n, key);
      var h := SplitLeaf(n, index, key, value, newId);
      var r := SplitRetarget(fp, index, h.newKey, newId);
      && (r.leafId == newId || r.leafId == fp.leafId)
      && (index < SPLIT_LEAF_POS ==> key < h.newKey && (CanUse(r, k) ==> k < h.newKey))
      && (index >= SPLIT_LEAF_POS ==> r.leafId == newId && h.newKey <= key && (CanUse(r, k) ==> h.newKey <= k))
  {
    SplitLeafKeepsPairs(n, key, value, newId, k);
  }

  // ---------------------------------------------------------------------
  // The regular-path split as written

  /** The leaf step of the regular path of `insert` as written: the pair
      goes in with `insert_sorted` first, and when the leaf is then nearly
      full (`size >= leaf_capacity * 0.9`, that is at least 459 pairs),
      `split_leaf` runs on it with the pair once more. `split_leaf` sizes the
      halves as for a full leaf, so it reads the arrays past `size`: the
      block still holds `staleKeys` and `staleValues` there. */
  function RegularLeafAsWritten<V>(n: Node<V>, staleKeys: seq<int>, staleValues: seq<V>, key: int, value: V, newId: uint32)
    : (r: Option<Halves<V>>)
    requires |n.keys| == |n.values| && |staleKeys| == |staleValues|
    requires |n.keys| + |staleKeys| == BTreeNode.LEAF_CAPACITY
    ensures r.Some? <==> |BTreeNode.InsertSorted(n, key, value).1.keys| >= SPLIT_LEAF_POS
  {
    var m := BTreeNode.InsertSorted(n, key, value).1;
    if |m.keys| < SPLIT_LEAF_POS then None
    else
      var grew := |m.keys| - |n.keys|;
      var block := m.(keys := m.keys + staleKeys[grew..], values := m.values + staleValues[grew..]);
      Some(SplitLeaf(block, BTreeNode.ValueSlot(m, key), key, value, newId))
  }

  /** A regular insert of a new key into a sorted leaf one short of
      `SPLIT_LEAF_POS` splits it as written: the split sees the key twice,
      at its slot and right after it, so the two halves hold one entry
      more than the block, and the new leaf holds the leaf's last key
      followed by entries that were never inserted. */
  lemma RegularSplitDuplicatesKey<V>(n: Node<V>, staleKeys: seq<int>, staleValues: seq<V>, key: int, value: V, newId: uint32)
    requires |n.keys| == |n.values| == SPLIT_LEAF_POS - 1
    requires |staleKeys| == |staleValues| == BTreeNode.LEAF_CAPACITY - |n.keys|
    requires n.isSorted && StrictlySorted(n.keys) && key !in n.keys
    ensures var r := RegularLeafAsWritten(n, staleKeys, staleValues, key, value, newId);
      var i := LowerBound(n.keys, key);
      && r.Some?
      && |r.value.left.keys + r.value.right.keys| == |n.keys| + 1 + |staleKeys|
      && (r.value.left.keys + r.value.right.keys)[i] == key
      && (r.value.left.keys + r.value.right.keys)[i + 1] == key
      && r.value.right.keys[1..] == staleKeys[1..]
  {
    var m := RegularGrows(n, key, value);
    var i := LowerBound(n.keys, key);
    var block := m.(keys := m.keys + staleKeys[1..], values := m.values + staleValues[1..]);
    assert block.keys[i] == key;
    assert RegularLeafAsWritten(n, staleKeys, staleValues, key, value, newId) == Some(SplitLeaf(block, i, key, value, newId));
    SplitBlockDuplicates(block, i, key, value, newId);
    LastThenRest(m.keys, staleKeys[1..]);
  }

  /** The suffix of `a + b` from the last element of `a` on. */
  lemma LastThenRest<T>(a: seq<T>, b: seq<T>)
    requires |a| > 0
    ensures (a + b)[|a| - 1..] == [a[|a| - 1]] + b
  {
  }

  /** `insert_sorted` of a new key into a sorted leaf of
      `SPLIT_LEAF_POS - 1` pairs takes it at its lower bound, and
      `value_slot` then finds it there. */
  lemma RegularGrows<V>(n: Node<V>, key: int, value: V) returns (m: Node<V>)
    requires |n.keys| == |n.values| == SPLIT_LEAF_POS - 1
    requires n.isSorted && StrictlySorted(n.keys) && key !in n.keys
    ensures BTreeNode.InsertSorted(n, key, value) == (true, m)
    ensures m.keys == InsertAt(n.keys, LowerBound(n.keys, key), key)
    ensures |m.keys| == |m.values| == SPLIT_LEAF_POS
    ensures BTreeNode.ValueSlot(m, key) == LowerBound(n.keys, key)
  {
    LeafSplitPosValue();
    assert Sorted(n.keys);
    var i := LowerBound(n.keys, key);
    LowerBoundFinds(n.keys, key);
    assert BTreeNode.ValueSlot(n, key) == i;
    m := n.(keys := InsertAt(n.keys, i, key), values := InsertAt(n.values, i, value), isSorted := true);
    assert BTreeNode.InsertSorted(n, key, value) == (true, m);
    InsertAtLowerBoundSorted(n.keys, key);
    assert Sorted(m.keys);
    LowerBoundOfInsertAt(n.keys, key);
  }

  /** Splitting a block that already holds the key at the slot the key is
      inserted at: the split sees the key at the slot and right after it,
      and the new leaf is the block from `SPLIT_LEAF_POS - 1` on. */
  lemma SplitBlockDuplicates<V>(block: Node<V>, i: nat, key: int, value: V, newId: uint32)
    requires |block.keys| == |block.values| == BTreeNode.LEAF_CAPACITY
    requires i < SPLIT_LEAF_POS && block.keys[i] == key
    ensures var h := SplitLeaf(block, i, key, value, newId);
      && |h.left.keys + h.right.keys| == BTreeNode.LEAF_CAPACITY + 1
      && (h.left.keys + h.right.keys)[i] == key
      && (h.left.keys + h.right.keys)[i + 1] == key
      && h.right.keys == block.keys[SPLIT_LEAF_POS - 1..]
  {
    var h := SplitLeaf(block, i, key, value, newId);
    var ks := InsertAt(block.keys, i, key);
    assert h.left.keys + h.right.keys == ks;
    assert h.right.keys == ks[SPLIT_LEAF_POS..];
  }
}

=== FILE: simple_bplus_tree.dfy ===
/**
  `SimpleBPlusTree`: a B+-tree whose leaves are sorted slotted pages
  (`LeafNode`) and whose internal nodes live in the shared node store. An
  insert descends to the leaf, tries the leaf, and on refusal splits the
  leaf into a new page, re-inserts on the side of the split key, and
  carries the split key up the path.

  The page counter, the height and the tuple count are the tree's fields;
  the tuple count is a `size_t` and is a `nat` here.
 */
module SimpleBPlusTree {
  import opened Base
  import opened Keys
  import InternalNode
  import LeafNode
  import opened NodeStore

  type Leaf<T> = LeafNode.Leaf<T>
  type STree<T> = Tree<Leaf<T>>

  /** What every operation keeps: internal nodes sorted, every leaf a valid
      leaf, every page id below the page counter, an internal node at the
      root and a leaf at the head of the chain. */
  ghost predicate Inv<T>(t: STree<T>) {
    && AllSorted(t.store)
    && (forall x :: x in t.store && t.store[x].LeafPage? ==> t.store[x].leaf.Valid())
    && (forall x :: x in t.store ==> x < t.numPages)
    && InnerAt(t.store, t.rootId).Some?
    && IsLeaf(t.store, t.headId)
  }

  // ---------------------------------------------------------------------
  // Construction and lookup

  /** `init`: the head leaf takes the first page id (0) and the root the
      second (1); the root has no key and its only child is the head. */
  function Init<T>(): (r: STree<T>)
  {
    var head := LeafNode.Init<T>(0, INVALID_NODE_ID, false);
    var root := InternalNode.Init(1, 0);
    Tree(map[0 := LeafPage(head), 1 := Inner(root)], 1, 0, 2, 1, 0)
  }

  lemma InitShape<T>()
    ensures var r := Init<T>();
      && Inv(r)
      && r.headId == 0 && r.rootId == 1 && r.height == 1 && r.size == 0 && r.numPages == 2
      && r.store.Keys == {0, 1}
      && InnerAt(r.store, 1) == Some(InternalNode.Node(1, [], [0]))
      && IsLeaf(r.store, 0) && |r.store[0].leaf.slots| == 0 && r.store[0].leaf.nextId == INVALID_NODE_ID
  {
  }

  /** From a fresh tree every key is routed from the root straight to the
      head leaf and is absent. */
  lemma InitIsEmpty<T>(k: int)
    ensures FindPath(Init<T>(), k) == Ok(Descent([1], 0, INT_MAX, INT_MIN, NO_HIGH))
    ensures Get(Init<T>(), k) == Ok(None)
  {
    var t := Init<T>();
    var n := InnerAt(t.store, 1).value;
    assert n == InternalNode.Init(1, 0);
    assert InternalNode.ChildSlot(n, k) == 0 && n.children[0] == 0;
    var below := Descend(t.store, 0, k, INT_MAX, INT_MIN, NO_HIGH, 1);
    assert below == Ok(Descent([], 0, INT_MAX, INT_MIN, NO_HIGH));
    DescendStep(t.store, 1, k, INT_MAX, INT_MIN, NO_HIGH, 2);
    assert [1] + below.value.path == [1];
  }

  /** `get`: the leaf the descent reaches answers. */
  function Get<T>(t: STree<T>, key: int): (r: Result<Option<T>>)
    ensures r.Ok? <==> FindPath(t, key).Ok?
    ensures r.Ok? && r.value.Some? ==>
      var leaf := t.store[FindPath(t, key).value.leafId].leaf;
      exists i :: 0 <= i < |leaf.slots| && leaf.slots[i].valid && leaf.slots[i].key == key
  {
    match FindPath(t, key)
    case Err(e) => Err(e)
    case Ok(d) => Ok(LeafNode.Get(t.store[d.leafId].leaf, key))
  }

  // ---------------------------------------------------------------------
  // Range

  /** A leaf's part of `range`: its valid tuples with a key in `[lo, hi]`,
      in slot order. `LeafNode` has no `get_range` of its own; this is what
      the sorted branch of the log leaves' `get_range` computes. */
  function LeafRange<T>(slots: seq<LeafNode.Slot<T>>, lo: int, hi: int): (r: seq<(int, T)>)
    ensures forall i :: 0 <= i < |r| ==> r[i] in LeafNode.ValidEntries(slots) && lo <= r[i].0 <= hi
    ensures var entries := LeafNode.ValidEntries(slots);
      forall j :: 0 <= j < |entries| && lo <= entries[j].0 <= hi ==> entries[j] in r
    ensures |r| <= LeafNode.CountValid(slots)
  {
    if |slots| == 0 then []
    else
      var rest := LeafRange(slots[1..], lo, hi);
      if slots[0].valid && lo <= slots[0].key <= hi then [(slots[0].key, slots[0].item)] + rest else rest
  }

  function NextOf<T>(leaf: Leaf<T>): uint32 {
    leaf.nextId
  }

  function RangePart<T>(lo: int, hi: int): Leaf<T> -> seq<(int, T)> {
    (leaf: Leaf<T>) => LeafRange(leaf.slots, lo, hi)
  }

  /** `range`: from the leaf `min_key` descends to, the leaves' parts along
      the chain, up to the first leaf with an empty part or the end of the
      chain. */
  function Range<T>(t: STree<T>, lo: int, hi: int): (r: Result<seq<(int, T)>>)
    ensures FindPath(t, lo).Err? ==> r.Err?
  {
    match FindPath(t, lo)
    case Err(e) => Err(e)
    case Ok(d) => ScanChain(t.store, d.leafId, NextOf, RangePart(lo, hi), |t.store|)
  }

  /** What `range` returns is tuples of the tree's leaves with keys in
      `[lo, hi]`, the start leaf's part first; when the start leaf is the
      last of the chain, its part is the whole answer. */
  lemma RangeBounds<T>(t: STree<T>, lo: int, hi: int)
    ensures var r := Range(t, lo, hi);
      r.Ok? ==> forall i :: 0 <= i < |r.value| ==>
        && lo <= r.value[i].0 <= hi
        && exists x :: IsLeaf(t.store, x) && r.value[i] in LeafNode.ValidEntries(t.store[x].leaf.slots)
    ensures FindPath(t, lo).Ok? && FindPath(t, lo).value.leafId != INVALID_NODE_ID && Range(t, lo, hi).Ok? ==>
      var leaf := t.store[FindPath(t, lo).value.leafId].leaf;
      Range(t, lo, hi).value[..|LeafRange(leaf.slots, lo, hi)|] == LeafRange(leaf.slots, lo, hi)
    ensures (&& FindPath(t, lo).Ok? && FindPath(t, lo).value.leafId != INVALID_NODE_ID
             && t.store[FindPath(t, lo).value.leafId].leaf.nextId == INVALID_NODE_ID) ==>
      Range(t, lo, hi) == Ok(LeafRange(t.store[FindPath(t, lo).value.leafId].leaf.slots, lo, hi))
  {
    if FindPath(t, lo).Ok? {
      var d := FindPath(t, lo).value;
      var part := RangePart<T>(lo, hi);
      ScanChainFrom(t.store, d.leafId, NextOf, part, |t.store|);
      var r := Range(t, lo, hi);
      assert part(t.store[d.leafId].leaf) == LeafRange(t.store[d.leafId].leaf.slots, lo, hi);
      if r.Ok? {
        forall i | 0 <= i < |r.value|
          ensures lo <= r.value[i].0 <= hi
          ensures exists x :: IsLeaf(t.store, x) && r.value[i] in LeafNode.ValidEntries(t.store[x].leaf.slots)
        {
          var x :| IsLeaf(t.store, x) && r.value[i] in part(t.store[x].leaf);
          assert r.value[i] in LeafRange(t.store[x].leaf.slots, lo, hi);
        }
      }
      if d.leafId != INVALID_NODE_ID && t.store[d.leafId].leaf.nextId == INVALID_NODE_ID {
        assert d.leafId in t.store;
        ScanChainLast(t.store, d.leafId, NextOf, part, |t.store|);
      }
    }
  }

  /** A fresh tree has nothing in any range. */
  lemma RangeInit<T>(lo: int, hi: int)
    ensures Range(Init<T>(), lo, hi) == Ok([])
  {
    InitIsEmpty<T>(lo);
    RangeBounds(Init<T>(), lo, hi);
  }

  // ---------------------------------------------------------------------
  // Insert

  /** `insert`: a leaf with room takes the tuple; otherwise the leaf is
      split. Either way the tuple count grows by one. */
  function Insert<T>(t: STree<T>, key: int, len: nat, item: T): (r: Result<STree<T>>)
    ensures r.Ok? ==> r.value.size == t.size + 1 && r.value.rootId == t.rootId && r.value.headId == t.headId
    ensures FindPath(t, key).Err? ==> r.Err?
  {
    match FindPath(t, key)
    case Err(e) => Err(e)
    case Ok(d) => InsertAlong(t, d, key, len, item)
  }

  /** The body of `insert` once the descent has found the leaf. */
  function InsertAlong<T>(t: STree<T>, d: Descent, key: int, len: nat, item: T): (r: Result<STree<T>>)
    requires IsLeaf(t.store, d.leafId)
    ensures r.Ok? ==> r.value.size == t.size + 1 && r.value.rootId == t.rootId && r.value.headId == t.headId
  {
    var leaf := t.store[d.leafId].leaf;
    if LeafNode.CanInsert(leaf, len) then Ok(WithLeaf(t, d.leafId, LeafNode.Insert(leaf, key, len, item).1).(size := t.size + 1))
    else Counted(InsertIntoLeaf(t, d, key, len, item))
  }

  /** The tree with one more tuple counted, when there is one. */
  function Counted<T>(r: Result<STree<T>>): (c: Result<STree<T>>)
    ensures c.Ok? <==> r.Ok?
    ensures c.Ok? ==> c.value == r.value.(size := r.value.size + 1)
  {
    if r.Err? then r else Ok(r.value.(size := r.value.size + 1))
  }

  /** `insert_into_leaf`: a new leaf takes the next page id, the leaf is
      split into it and the tuple re-inserted, and the split key with the
      new leaf's id goes up the path. */
  function InsertIntoLeaf<T>(t: STree<T>, d: Descent, key: int, len: nat, item: T): (r: Result<STree<T>>)
    requires IsLeaf(t.store, d.leafId)
    ensures r.Ok? ==> r.value.size == t.size && r.value.rootId == t.rootId && r.value.headId == t.headId
  {
    var sp := SplitLeaf(t.store[d.leafId].leaf, NextId(t), key, len, item);
    if sp.Err? then Err(sp.error)
    else InternalInsert(WithSplit(t, d.leafId, sp.value.left, sp.value.right), d.path, sp.value.key, NextId(t))
  }

  /** The tree `insert_into_leaf` hands to `internal_insert`: both leaves
      written and the page counter advanced. */
  function WithSplit<T>(t: STree<T>, leafId: uint32, left: Leaf<T>, right: Leaf<T>): STree<T> {
    t.(store := t.store[leafId := LeafPage(left)][NextId(t) := LeafPage(right)], numPages := t.numPages + 1)
  }

  // ---------------------------------------------------------------------
  // The leaf split

  /** The old leaf's remaining tuples written into a fresh page: the heap
      then holds only the valid tuples. */
  function Compacted<T>(leaf: Leaf<T>): (r: Leaf<T>)
    ensures r.id == leaf.id && r.nextId == leaf.nextId && r.isCold == leaf.isCold
  {
    LeafNode.Fill(LeafNode.Init(leaf.id, leaf.nextId, leaf.isCold), leaf.slots)
  }

  /** Compaction keeps a valid leaf's tuples and never shrinks its free
      space: it needs no more slots and no lower heap. */
  lemma CompactedKeeps<T>(leaf: Leaf<T>)
    requires leaf.Valid()
    ensures var r := Compacted(leaf);
      && r.Valid() && LeafNode.AllValid(r.slots)
      && |r.slots| == LeafNode.CountValid(leaf.slots) <= |leaf.slots|
      && r.heapEnd == BLOCK_SIZE - LeafNode.ValidLength(leaf.slots) >= leaf.heapEnd
      && multiset(LeafNode.ValidEntries(r.slots)) == multiset(LeafNode.ValidEntries(leaf.slots))
  {
    var init := LeafNode.Init<T>(leaf.id, leaf.nextId, leaf.isCold);
    LeafNode.FillAccepts(init, leaf.slots);
  }

  /** What the leaf half of `insert_into_leaf` produces: the split key,
      the old and the new leaf, and whether the re-insert was accepted (the
      source ignores that result). */
  datatype Split<T> = Split(key: int, left: Leaf<T>, right: Leaf<T>, stored: bool)

  /** The re-insert after a split: into the old leaf iff the key is below
      the split key, into the new leaf otherwise. */
  function Place<T>(splitKey: int, kept: Leaf<T>, filled: Leaf<T>, key: int, len: nat, item: T): (r: Split<T>)
    ensures r.key == splitKey
    ensures key < splitKey ==> r.right == filled && r.stored == LeafNode.CanInsert(kept, len)
    ensures key >= splitKey ==> r.left == kept && r.stored == LeafNode.CanInsert(filled, len)
    ensures r.left.id == kept.id && r.left.nextId == kept.nextId
    ensures r.right.id == filled.id && r.right.nextId == filled.nextId
  {
    if key < splitKey then
      var ins := LeafNode.Insert(kept, key, len, item);
      Split(splitKey, ins.1, filled, ins.0)
    else
      var ins := LeafNode.Insert(filled, key, len, item);
      Split(splitKey, kept, ins.1, ins.0)
  }

  /** The leaf half of `insert_into_leaf`, with the old leaf compacted after
      the split so that the heap bytes of the moved tuples are free again. */
  function SplitLeaf<T>(leaf: Leaf<T>, newId: uint32, key: int, len: nat, item: T): (r: Result<Split<T>>)
    ensures r.Ok? ==> && r.value.left.id == leaf.id && r.value.left.nextId == newId
                      && r.value.right.id == newId && r.value.right.nextId == leaf.nextId
  {
    var split := LeafNode.SplitInto(leaf, LeafNode.Init<T>(newId, INVALID_NODE_ID, false));
    if split.0.Err? then Err(split.0.error)
    else Ok(Place(split.0.value.0, Compacted(split.1), split.2, key, len, item))
  }

  /** The split of a valid leaf keeps both halves valid and loses no tuple:
      the two leaves hold the old leaf's tuples, plus the new one exactly
      when the re-insert was accepted. */
  lemma SplitLeafKeepsEntries<T>(leaf: Leaf<T>, newId: uint32, key: int, len: nat, item: T)
    requires leaf.Valid()
    requires SplitLeaf(leaf, newId, key, len, item).Ok?
    ensures var sp := SplitLeaf(leaf, newId, key, len, item).value;
      && sp.left.Valid() && sp.right.Valid()
      && multiset(LeafNode.ValidEntries(sp.left.slots)) + multiset(LeafNode.ValidEntries(sp.right.slots))
         == multiset(LeafNode.ValidEntries(leaf.slots)) + (if sp.stored then multiset{(key, item)} else multiset{})
  {
    var blank := LeafNode.Init<T>(newId, INVALID_NODE_ID, false);
    var split := LeafNode.SplitInto(leaf, blank);
    LeafNode.SplitIntoKeepsEntries(leaf, blank);
    CompactedKeeps(split.1);
    PlaceKeepsEntries(split.0.value.0, Compacted(split.1), split.2, key, len, item);
  }

  /** The half the split key sends the new tuple to answers for it: below
      the split key the old leaf reads it back, otherwise the new leaf does,
      whenever the re-insert was accepted. */
  lemma SplitLeafPlaces<T>(leaf: Leaf<T>, newId: uint32, key: int, len: nat, item: T)
    requires leaf.Valid()
    requires SplitLeaf(leaf, newId, key, len, item).Ok?
    ensures var sp := SplitLeaf(leaf, newId, key, len, item).value;
      && (sp.stored && key < sp.key ==> LeafNode.Get(sp.left, key) == Some(item))
      && (sp.stored && sp.key <= key ==> LeafNode.Get(sp.right, key) == Some(item))
  {
    var blank := LeafNode.Init<T>(newId, INVALID_NODE_ID, false);
    var split := LeafNode.SplitInto(leaf, blank);
    LeafNode.SplitIntoKeepsEntries(leaf, blank);
    CompactedKeeps(split.1);
    var kept := Compacted(split.1);
    var filled := split.2;
    var sp := SplitLeaf(leaf, newId, key, len, item).value;
    if key < sp.key {
      if LeafNode.CanInsert(kept, len) {
        LeafNode.InsertKeepsValid(kept, key, len, item);
        LeafNode.InsertIsMapUpdate(kept, key, len, item);
        LeafNode.GetIsLookup(sp.left, key);
      }
    } else {
      if LeafNode.CanInsert(filled, len) {
        LeafNode.InsertKeepsValid(filled, key, len, item);
        LeafNode.InsertIsMapUpdate(filled, key, len, item);
        LeafNode.GetIsLookup(sp.right, key);
      }
    }
  }

  /** The re-insert keeps valid leaves valid and adds the tuple exactly
      when it is accepted. */
  lemma PlaceKeepsEntries<T>(splitKey: int, kept: Leaf<T>, filled: Leaf<T>, key: int, len: nat, item: T)
    requires kept.Valid() && filled.Valid()
    ensures var sp := Place(splitKey, kept, filled, key, len, item);
      && sp.left.Valid() && sp.right.Valid()
      && multiset(LeafNode.ValidEntries(sp.left.slots)) + multiset(LeafNode.ValidEntries(sp.right.slots))
         == multiset(LeafNode.ValidEntries(kept.slots)) + multiset(LeafNode.ValidEntries(filled.slots))
            + (if sp.stored then multiset{(key, item)} else multiset{})
  {
    if key < splitKey {
      LeafNode.InsertKeepsValid(kept, key, len, item);
      if LeafNode.CanInsert(kept, len) {
        LeafNode.InsertEntries(kept, key, len, item);
      }
    } else {
      LeafNode.InsertKeepsValid(filled, key, len, item);
      if LeafNode.CanInsert(filled, len) {
        LeafNode.InsertEntries(filled, key, len, item);
      }
    }
  }

  /** The leaf half of `insert_into_leaf` as written: `split_into` leaves the
      old leaf's heap where it was, and the re-insert goes into that leaf. */
  function SplitLeafAsWritten<T>(leaf: Leaf<T>, newId: uint32, key: int, len: nat, item: T): (r: Result<Split<T>>)
    ensures r.Ok? ==> && r.value.left.id == leaf.id && r.value.left.nextId == newId
                      && r.value.right.id == newId && r.value.right.nextId == leaf.nextId
  {
    var split := LeafNode.SplitInto(leaf, LeafNode.Init<T>(newId, INVALID_NODE_ID, false));
    if split.0.Err? then Err(split.0.error)
    else Ok(Place(split.0.value.0, split.1, split.2, key, len, item))
  }

  /** As written, a tuple longer than the old leaf's free heap whose key is
      below the split key is never stored: the split freed only slot
      directory entries, not heap bytes. */
  lemma SplitLeafAsWrittenDrops<T>(leaf: Leaf<T>, newId: uint32, key: int, len: nat, item: T)
    requires SplitLeafAsWritten(leaf, newId, key, len, item).Ok?
    requires key < SplitLeafAsWritten(leaf, newId, key, len, item).value.key
    requires len > leaf.heapEnd
    ensures !SplitLeafAsWritten(leaf, newId, key, len, item).value.stored
  {
  }

  /** Compaction only helps: the corrected split makes the same cut, and
      whenever the re-insert as written is accepted, the corrected one is
      accepted too. */
  lemma SplitLeafAcceptsMore<T>(leaf: Leaf<T>, newId: uint32, key: int, len: nat, item: T)
    requires leaf.Valid()
    requires SplitLeafAsWritten(leaf, newId, key, len, item).Ok?
    ensures SplitLeaf(leaf, newId, key, len, item).Ok?
    ensures SplitLeaf(leaf, newId, key, len, item).value.key == SplitLeafAsWritten(leaf, newId, key, len, item).value.key
    ensures SplitLeafAsWritten(leaf, newId, key, len, item).value.stored ==> SplitLeaf(leaf, newId, key, len, item).value.stored
  {
    var blank := LeafNode.Init<T>(newId, INVALID_NODE_ID, false);
    var split := LeafNode.SplitInto(leaf, blank);
    LeafNode.SplitIntoKeepsEntries(leaf, blank);
    CompactedKeeps(split.1);
  }

  /** A full leaf of four tuples (keys 1 to 4; 1000, 1000, 1000 and 500
      bytes). */
  function ExampleLeaf(): (r: Leaf<int>)
    ensures r.Valid() && r.heapEnd == 596 && |r.slots| == 4
  {
    LeafNode.Leaf(7, INVALID_NODE_ID, true, false, 4,
      [LeafNode.Slot(3096, 1000, true, 1, 10), LeafNode.Slot(2096, 1000, true, 2, 20),
       LeafNode.Slot(1096, 1000, true, 3, 30), LeafNode.Slot(596, 500, true, 4, 40)],
      596)
  }

  /** `split_into` on the example leaf: the backward scan reaches a quarter
      of the 3500 heap bytes at key 3, so only key 4 moves; the old leaf
      keeps three slots and its heap top at 596. */
  lemma ExampleSplitInto()
    ensures var blank := LeafNode.Init<int>(8, INVALID_NODE_ID, false);
      var leaf := ExampleLeaf();
      var split := LeafNode.SplitInto(leaf, blank);
      && split.0 == Ok((4, 8))
      && split.1 == leaf.(slots := leaf.slots[..3], size := 3, nextId := 8)
  {
    var leaf := ExampleLeaf();
    assert LeafNode.SplitCut(leaf) == 2;
    var blank := LeafNode.Init<int>(8, INVALID_NODE_ID, false);
    var filled := LeafNode.Fill(blank, leaf.slots[3..]);
    assert filled == LeafNode.Insert(blank, 4, 500, 40).1;
    assert LeafNode.MinKey(filled.(nextId := leaf.nextId)) == Ok(4);
  }

  /** Splitting the example leaf for a 700-byte tuple with key 0: the tuple
      goes back into the old leaf (0 is below the split key 4). As written
      that leaf still has 596 heap bytes and the tuple is dropped; compacted
      it has 1096 and the tuple is stored. */
  lemma LostTupleExample()
    ensures !LeafNode.CanInsert(ExampleLeaf(), 700)
    ensures SplitLeafAsWritten(ExampleLeaf(), 8, 0, 700, 0).Ok?
    ensures SplitLeafAsWritten(ExampleLeaf(), 8, 0, 700, 0).value.key == 4
    ensures !SplitLeafAsWritten(ExampleLeaf(), 8, 0, 700, 0).value.stored
    ensures SplitLeaf(ExampleLeaf(), 8, 0, 700, 0).Ok?
    ensures SplitLeaf(ExampleLeaf(), 8, 0, 700, 0).value.stored
  {
    ExampleSplitInto();
    ExampleAsWrittenDrops();
    ExampleCompactedStores();
  }

  lemma ExampleAsWrittenDrops()
    ensures !LeafNode.CanInsert(ExampleLeaf(), 700)
    ensures SplitLeafAsWritten(ExampleLeaf(), 8, 0, 700, 0).Ok?
    ensures SplitLeafAsWritten(ExampleLeaf(), 8, 0, 700, 0).value.key == 4
    ensures !SplitLeafAsWritten(ExampleLeaf(), 8, 0, 700, 0).value.stored
  {
    ExampleSplitInto();
  }

  lemma ExampleCompactedStores()
    ensures SplitLeaf(ExampleLeaf(), 8, 0, 700, 0).Ok?
    ensures SplitLeaf(ExampleLeaf(), 8, 0, 700, 0).value.stored
  {
    ExampleSplitInto();
    ExampleKeptHasRoom();
  }

  /** After compaction the leaf the example split keeps has room for the
      700-byte tuple that did not fit before. */
  lemma ExampleKeptHasRoom()
    ensures var leaf := ExampleLeaf();
      LeafNode.CanInsert(Compacted(leaf.(slots := leaf.slots[..3], size := 3, nextId := 8)), 700)
  {
    var leaf := ExampleLeaf();
    var kept := leaf.(slots := leaf.slots[..3], size := 3, nextId := 8);
    ExampleKeptValid();
    ExampleKeptLength();
    CompactedKeeps(kept);
  }

  /** The kept half is a valid leaf, since `split_into` keeps validity. */
  lemma ExampleKeptValid()
    ensures var leaf := ExampleLeaf();
      leaf.(slots := leaf.slots[..3], size := 3, nextId := 8).Valid()
  {
    ExampleSplitInto();
    LeafNode.SplitIntoKeepsEntries(ExampleLeaf(), LeafNode.Init<int>(8, INVALID_NODE_ID, false));
  }

  /** The kept half holds three live tuples of 1000 bytes each. */
  lemma ExampleKeptLength()
    ensures LeafNode.ValidLength(ExampleLeaf().slots[..3]) == 3000
  {
    var slots := ExampleLeaf().slots[..3];
    assert slots[1..][1..][1..] == [];
  }

  // ---------------------------------------------------------------------
  // The tree after an insert

  /** An insert into a leaf with room is a map update of the tree: the key
      reads back the new tuple, every other key reads what it read before,
      no page is added and the invariant holds. */
  lemma InsertWithRoom<T>(t: STree<T>, key: int, len: nat, item: T)
    requires Inv(t)
    requires FindPath(t, key).Ok?
    requires LeafNode.CanInsert(t.store[FindPath(t, key).value.leafId].leaf, len)
    ensures var r := Insert(t, key, len, item);
      && r.Ok? && Inv(r.value)
      && r.value.size == t.size + 1 && r.value.numPages == t.numPages && r.value.store.Keys == t.store.Keys
      && Get(r.value, key) == Ok(Some(item))
      && (forall k :: k != key ==> Get(r.value, k) == Get(t, k))
  {
    var d := FindPath(t, key).value;
    var leaf' := LeafNode.Insert(t.store[d.leafId].leaf, key, len, item).1;
    var u := WithLeaf(t, d.leafId, leaf').(size := t.size + 1);
    assert Insert(t, key, len, item) == InsertAlong(t, d, key, len, item);
    RoomAlong(t, d, key, len, item);
    RoomInv(t, d.leafId, key, len, item);
    forall k
      ensures Get(u, k) == if k == key then Ok(Some(item)) else Get(t, k)
    {
      RoomGet(t, key, len, item, k);
      assert Get(u, k) == Get(WithLeaf(t, d.leafId, leaf'), k);
    }
  }

  /** An insert into a leaf with room writes the leaf and counts the tuple. */
  lemma RoomAlong<T>(t: STree<T>, d: Descent, key: int, len: nat, item: T)
    requires IsLeaf(t.store, d.leafId)
    requires LeafNode.CanInsert(t.store[d.leafId].leaf, len)
    ensures var leaf' := LeafNode.Insert(t.store[d.leafId].leaf, key, len, item).1;
      InsertAlong(t, d, key, len, item) == Ok(WithLeaf(t, d.leafId, leaf').(size := t.size + 1))
  {
  }

  /** Writing the leaf after an accepted insert keeps the invariant. */
  lemma RoomInv<T>(t: STree<T>, leafId: uint32, key: int, len: nat, item: T)
    requires Inv(t)
    requires IsLeaf(t.store, leafId)
    ensures var leaf' := LeafNode.Insert(t.store[leafId].leaf, key, len, item).1;
      Inv(WithLeaf(t, leafId, leaf').(size := t.size + 1))
  {
    var leaf := t.store[leafId].leaf;
    var leaf' := LeafNode.Insert(leaf, key, len, item).1;
    LeafNode.InsertKeepsValid(leaf, key, len, item);
    LeafWriteKeepsInv(t, leafId, leaf');
  }

  /** Overwriting a leaf with a valid leaf keeps the invariant, whatever the
      tuple count. */
  lemma LeafWriteKeepsInv<T>(t: STree<T>, leafId: uint32, leaf: Leaf<T>)
    requires Inv(t) && IsLeaf(t.store, leafId) && leaf.Valid()
    ensures forall n :: Inv(WithLeaf(t, leafId, leaf).(size := n))
  {
    var u := WithLeaf(t, leafId, leaf);
    UpdateKeepsSorted(t.store, leafId, LeafPage(leaf));
    assert InnerAt(u.store, t.rootId) == InnerAt(t.store, t.rootId);
    assert Inv(u);
  }

  /** One key's lookup after an insert into a leaf with room. */
  lemma RoomGet<T>(t: STree<T>, key: int, len: nat, item: T, k: int)
    requires Inv(t)
    requires FindPath(t, key).Ok?
    requires LeafNode.CanInsert(t.store[FindPath(t, key).value.leafId].leaf, len)
    ensures var d := FindPath(t, key).value;
      var u := WithLeaf(t, d.leafId, LeafNode.Insert(t.store[d.leafId].leaf, key, len, item).1);
      Get(u, k) == if k == key then Ok(Some(item)) else Get(t, k)
  {
    var d := FindPath(t, key).value;
    var leaf := t.store[d.leafId].leaf;
    var leaf' := LeafNode.Insert(leaf, key, len, item).1;
    var u := WithLeaf(t, d.leafId, leaf');
    LeafNode.InsertKeepsValid(leaf, key, len, item);
    LeafNode.InsertIsMapUpdate(leaf, key, len, item);
    LeafWriteSameIndex(t.store, d.leafId, leaf');
    DescendSameIndex(t.store, u.store, t.rootId, k, INT_MAX, INT_MIN, NO_HIGH, |t.store|);
    assert FindPath(u, k) == FindPath(t, k);
    if FindPath(t, k).Ok? {
      var x := FindPath(t, k).value.leafId;
      if x == d.leafId {
        LeafNode.GetIsLookup(leaf, k);
        LeafNode.GetIsLookup(leaf', k);
      }
    }
  }

  /** An insert that splits the leaf: the invariant holds; the old leaf and
      the new one (at the next page id) are linked in the chain in that
      order and hold the old leaf's tuples, plus the new tuple when its
      re-insert was accepted; every other leaf is unchanged. Page ids must
      not wrap around for the new pages. */
  lemma InsertWithSplit<T>(t: STree<T>, key: int, len: nat, item: T)
    requires Inv(t)
    requires t.numPages + |t.store| + 2 <= 0x1_0000_0000
    requires FindPath(t, key).Ok?
    requires !LeafNode.CanInsert(t.store[FindPath(t, key).value.leafId].leaf, len)
    requires SplitLeaf(t.store[FindPath(t, key).value.leafId].leaf, NextId(t), key, len, item).Ok?
    ensures var r := Insert(t, key, len, item);
      var leafId := FindPath(t, key).value.leafId;
      var leaf := t.store[leafId].leaf;
      var sp := SplitLeaf(leaf, NextId(t), key, len, item).value;
      && r.Ok? && Inv(r.value)
      && r.value.size == t.size + 1
      && NextId(t) == t.numPages && NextId(t) !in t.store
      && r.value.store[leafId] == LeafPage(sp.left) && r.value.store[NextId(t)] == LeafPage(sp.right)
      && sp.left.nextId == NextId(t) && sp.right.nextId == leaf.nextId
      && multiset(LeafNode.ValidEntries(sp.left.slots)) + multiset(LeafNode.ValidEntries(sp.right.slots))
         == multiset(LeafNode.ValidEntries(leaf.slots)) + (if sp.stored then multiset{(key, item)} else multiset{})
      && (forall x :: x in t.store && x != leafId && t.store[x].LeafPage? ==> r.value.store[x] == t.store[x])
  {
    var d := FindPath(t, key).value;
    var leaf := t.store[d.leafId].leaf;
    var sp := SplitLeaf(leaf, NextId(t), key, len, item).value;
    SplitLeafKeepsEntries(leaf, NextId(t), key, len, item);
    var w := SplitTree(t, d, key, len, item, sp);
    SplitTreeLeaves(t, d, key, sp.left, sp.right, sp.key);
    assert Insert(t, key, len, item) == Ok(w.(size := w.size + 1));
  }

  /** The split case of `insert` once the leaf and the split are known:
      the result is the tree `internal_insert` makes, and it keeps the
      invariant. */
  lemma SplitTree<T>(t: STree<T>, d: Descent, key: int, len: nat, item: T, sp: Split<T>) returns (w: STree<T>)
    requires Inv(t)
    requires t.numPages + |t.store| + 2 <= 0x1_0000_0000
    requires FindPath(t, key) == Ok(d)
    requires !LeafNode.CanInsert(t.store[d.leafId].leaf, len)
    requires SplitLeaf(t.store[d.leafId].leaf, NextId(t), key, len, item) == Ok(sp)
    requires sp.left.Valid() && sp.right.Valid()
    ensures InternalInsert(WithSplit(t, d.leafId, sp.left, sp.right), d.path, sp.key, NextId(t)) == Ok(w)
    ensures InsertAlong(t, d, key, len, item) == Ok(w.(size := w.size + 1))
    ensures Inv(w)
  {
    var u := WithSplit(t, d.leafId, sp.left, sp.right);
    SplitTreeInv(t, d, sp.left, sp.right);
    SplitStage(t, d, key, sp.left, sp.right);
    InternalInsertKeepsInv(u, d.path, sp.key, NextId(t));
    w := InternalInsert(u, d.path, sp.key, NextId(t)).value;
    SplitIntoLeaf(t, d, key, len, item, sp, w);
    SplitAlong(t, d, key, len, item, w);
  }

  /** Where the leaves are after the split case: the two halves at the old
      leaf's id and the next id, every other leaf unchanged. */
  lemma SplitTreeLeaves<T>(t: STree<T>, d: Descent, key: int, left: Leaf<T>, right: Leaf<T>, splitKey: int)
    requires Inv(t)
    requires t.numPages + |t.store| + 2 <= 0x1_0000_0000
    requires FindPath(t, key) == Ok(d)
    requires left.Valid() && right.Valid()
    ensures NextId(t) == t.numPages && NextId(t) !in t.store
    ensures InternalInsert(WithSplit(t, d.leafId, left, right), d.path, splitKey, NextId(t)).Ok?
    ensures var w := InternalInsert(WithSplit(t, d.leafId, left, right), d.path, splitKey, NextId(t)).value;
      && w.store[d.leafId] == LeafPage(left) && w.store[NextId(t)] == LeafPage(right)
      && (forall x :: x in t.store && x != d.leafId && t.store[x].LeafPage? ==> w.store[x] == t.store[x])
  {
    var u := WithSplit(t, d.leafId, left, right);
    SplitTreeInv(t, d, left, right);
    SplitStage(t, d, key, left, right);
    InternalInsertKeepsInv(u, d.path, splitKey, NextId(t));
    var w := InternalInsert(u, d.path, splitKey, NextId(t)).value;
    assert u.store[d.leafId] == LeafPage(left) && u.store[NextId(t)] == LeafPage(right);
    forall x | x in t.store && x != d.leafId && t.store[x].LeafPage?
      ensures w.store[x] == t.store[x]
    {
      WithSplitKeeps(t, d.leafId, left, right, x);
    }
  }

  lemma WithSplitKeeps<T>(t: STree<T>, leafId: uint32, left: Leaf<T>, right: Leaf<T>, x: uint32)
    requires x in t.store && x != leafId && NextId(t) !in t.store
    ensures x in WithSplit(t, leafId, left, right).store
    ensures WithSplit(t, leafId, left, right).store[x] == t.store[x]
  {
  }

  /** The path handed to `internal_insert` is still made of internal nodes,
      and the page ids it may hand out do not wrap around. */
  lemma SplitStage<T>(t: STree<T>, d: Descent, key: int, left: Leaf<T>, right: Leaf<T>)
    requires Inv(t)
    requires t.numPages + |t.store| + 2 <= 0x1_0000_0000
    requires FindPath(t, key) == Ok(d)
    ensures var u := WithSplit(t, d.leafId, left, right);
      && (forall i :: 0 <= i < |d.path| ==> InnerAt(u.store, d.path[i]).Some?)
      && u.numPages + |d.path| + 1 <= 0x1_0000_0000
  {
    var u := WithSplit(t, d.leafId, left, right);
    ChainInner(t.store, key, d.path, d.leafId);
    forall i | 0 <= i < |d.path|
      ensures InnerAt(u.store, d.path[i]).Some?
    {
      LeafWritesKeepInner(t.store, d.leafId, NextId(t), left, right, d.path[i]);
    }
  }

  /** Writing two leaf pages, one over a leaf and one at an unused id,
      leaves every internal node in place. */
  lemma LeafWritesKeepInner<T>(store: map<uint32, Page<Leaf<T>>>, leafId: uint32, newId: uint32,
                                 left: Leaf<T>, right: Leaf<T>, x: uint32)
    requires IsLeaf(store, leafId) && newId !in store
    requires InnerAt(store, x).Some?
    ensures InnerAt(store[leafId := LeafPage(left)][newId := LeafPage(right)], x) == InnerAt(store, x)
  {
  }

  /** What an insert that splits the leaf does to the tree. */
  lemma SplitAlong<T>(t: STree<T>, d: Descent, key: int, len: nat, item: T, w: STree<T>)
    requires IsLeaf(t.store, d.leafId)
    requires !LeafNode.CanInsert(t.store[d.leafId].leaf, len)
    requires InsertIntoLeaf(t, d, key, len, item) == Ok(w)
    ensures InsertAlong(t, d, key, len, item) == Ok(w.(size := w.size + 1))
  {
    AlongFull(t, d, key, len, item);
    CountedOk(InsertIntoLeaf(t, d, key, len, item), w);
  }

  lemma CountedOk<T>(r: Result<STree<T>>, w: STree<T>)
    requires r == Ok(w)
    ensures Counted(r) == Ok(w.(size := w.size + 1))
  {
  }

  lemma SplitIntoLeaf<T>(t: STree<T>, d: Descent, key: int, len: nat, item: T, sp: Split<T>, w: STree<T>)
    requires IsLeaf(t.store, d.leafId)
    requires SplitLeaf(t.store[d.leafId].leaf, NextId(t), key, len, item) == Ok(sp)
    requires InternalInsert(WithSplit(t, d.leafId, sp.left, sp.right), d.path, sp.key, NextId(t)) == Ok(w)
    ensures InsertIntoLeaf(t, d, key, len, item) == Ok(w)
  {
  }

  lemma AlongFull<T>(t: STree<T>, d: Descent, key: int, len: nat, item: T)
    requires IsLeaf(t.store, d.leafId)
    requires !LeafNode.CanInsert(t.store[d.leafId].leaf, len)
    ensures InsertAlong(t, d, key, len, item) == Counted(InsertIntoLeaf(t, d, key, len, item))
  {
  }

  /** The tree before `internal_insert` keeps the invariant, with the path
      still made of internal nodes and the new page id unused before. */
  lemma SplitTreeInv<T>(t: STree<T>, d: Descent, left: Leaf<T>, right: Leaf<T>)
    requires Inv(t)
    requires t.numPages < 0x1_0000_0000
    requires IsLeaf(t.store, d.leafId)
    requires left.Valid() && right.Valid()
    ensures NextId(t) == t.numPages && NextId(t) !in t.store
    ensures Inv(WithSplit(t, d.leafId, left, right))
  {
    var u := WithSplit(t, d.leafId, left, right);
    UpdateKeepsSorted(t.store, d.leafId, LeafPage(left));
    UpdateKeepsSorted(t.store[d.leafId := LeafPage(left)], NextId(t), LeafPage(right));
  }

  /** `internal_insert` on a path of internal nodes succeeds, keeps the
      invariant and leaves every leaf alone, as long as the page ids it
      hands out do not wrap around. */
  lemma InternalInsertKeepsInv<T>(u: STree<T>, path: seq<uint32>, key: int, child: uint32)
    requires Inv(u)
    requires forall i :: 0 <= i < |path| ==> InnerAt(u.store, path[i]).Some?
    requires u.numPages + |path| + 1 <= 0x1_0000_0000
    ensures InternalInsert(u, path, key, child).Ok?
    ensures var w := InternalInsert(u, path, key, child).value;
      && Inv(w)
      && (forall x :: x in u.store && u.store[x].LeafPage? ==> w.store[x] == u.store[x])
  {
    InternalInsertOk(u, path, key, child);
    InternalInsertKeepsSorted(u, path, key, child);
    InternalInsertKeepsLeaves(u, path, key, child);
    var w := InternalInsert(u, path, key, child).value;
    forall x | x in u.store && u.store[x].LeafPage?
      ensures w.store[x] == u.store[x]
    {
      assert x !in path && x != u.rootId && x < u.numPages;
    }
  }
}

=== FILE: sorted_logs.dfy ===
/**
  Logs in ascending key order: what `sort` and the sorting `split_into`
  policy produce from a compacted log, and how such a log is cut in two.
 */
module SortedLogs {
  import opened Base
  import opened Keys
  import opened Sorting
  import opened LogRecords

  /** The records `sort` writes back: the compacted log in strictly
      ascending key order, still compacted, with the same heap footprint. */
  lemma SortedCompaction<T>(log: seq<Record<T>>)
    ensures var c := Compact(log);
      var s := SortByKey(c);
      && Compacted(s) && StrictlySorted(KeysOf(s))
      && HeapBytes(s) == HeapBytes(c) && |s| == |c|
      && (forall i :: 0 <= i < |s| ==> s[i] in c)
  {
    var c := Compact(log);
    var s := SortByKey(c);
    HeapBytesPermutation(s, c);
    forall i | 0 <= i < |s|
      ensures s[i] in c
    {
      assert s[i] in multiset(c);
    }
    SortByKeyStrict(c);
    SortedIsCompacted(c, s);
  }

  /** A key-sorted permutation of a compacted log is compacted. */
  lemma SortedIsCompacted<T>(c: seq<Record<T>>, s: seq<Record<T>>)
    requires Compacted(c) && multiset(s) == multiset(c)
    requires StrictlySorted(KeysOf(s))
    ensures Compacted(s)
  {
    forall i | 0 <= i < |s|
      ensures s[i].1.Put?
    {
      assert s[i] in multiset(c);
      var j := IndexOf(c, s[i]);
    }
    forall i, j | 0 <= i < j < |s|
      ensures s[i].0 != s[j].0
    {
      assert KeysOf(s)[i] < KeysOf(s)[j];
    }
  }

  /** On a log in strictly ascending key order, splitting at the key of
      position `h` is cutting the log at `h`. */
  lemma SortedCut<T>(s: seq<Record<T>>, h: nat)
    requires StrictlySorted(KeysOf(s)) && h < |s|
    ensures KeysBelow(s, s[h].0) == s[..h] && KeysAtLeast(s, s[h].0) == s[h..]
  {
    SortedSides(s, h);
    CutBelow(s, s[h].0, h);
    CutAtLeast(s, s[h].0, h);
  }

  /** In strictly ascending key order the keys before position `h` are
      below its key and the others are not. */
  lemma SortedSides<T>(s: seq<Record<T>>, h: nat)
    requires StrictlySorted(KeysOf(s)) && h < |s|
    ensures forall i :: 0 <= i < h ==> s[i].0 < s[h].0
    ensures forall i :: h <= i < |s| ==> s[i].0 >= s[h].0
  {
    forall i | 0 <= i < h
      ensures s[i].0 < s[h].0
    {
      assert KeysOf(s)[i] < KeysOf(s)[h];
    }
    forall i | h <= i < |s|
      ensures s[i].0 >= s[h].0
    {
      assert KeysOf(s)[h] <= KeysOf(s)[i];
    }
  }

  /** A log whose first `h` keys are below `x` and whose other keys are not
      keeps exactly its first `h` records below `x`. */
  lemma {:induction false} CutBelow<T>(s: seq<Record<T>>, x: int, h: nat)
    requires h <= |s|
    requires forall i :: 0 <= i < h ==> s[i].0 < x
    requires forall i :: h <= i < |s| ==> s[i].0 >= x
    ensures KeysBelow(s, x) == s[..h]
    decreases |s|
  {
    if |s| == h {
      AllBelow(s, x);
      assert s[..h] == s;
    } else {
      var rest := s[..|s| - 1];
      CutBelow(rest, x, h);
      assert rest[..h] == s[..h];
    }
  }

  /** The same log keeps exactly its records from position `h` on at or
      above `x`. */
  lemma {:induction false} CutAtLeast<T>(s: seq<Record<T>>, x: int, h: nat)
    requires h <= |s|
    requires forall i :: 0 <= i < h ==> s[i].0 < x
    requires forall i :: h <= i < |s| ==> s[i].0 >= x
    ensures KeysAtLeast(s, x) == s[h..]
    decreases |s|
  {
    if |s| == h {
      AllBelow(s, x);
    } else {
      var rest := s[..|s| - 1];
      CutAtLeast(rest, x, h);
      SnocSuffix(s, h);
    }
  }

  /** Every slice of a compacted log in strictly ascending key order is
      again compacted and in strictly ascending key order. */
  lemma SortedSlice<T>(s: seq<Record<T>>, a: nat, b: nat)
    requires Compacted(s) && StrictlySorted(KeysOf(s)) && a <= b <= |s|
    ensures Compacted(s[a..b]) && StrictlySorted(KeysOf(s[a..b]))
    ensures b == |s| ==> Compacted(s[a..]) && StrictlySorted(KeysOf(s[a..]))
  {
    var t := s[a..b];
    forall i, j | 0 <= i < j < |t|
      ensures KeysOf(t)[i] < KeysOf(t)[j]
    {
      assert KeysOf(s)[a + i] < KeysOf(s)[a + j];
    }
    assert b == |s| ==> t == s[a..];
  }

  /** Cutting a compacted, strictly key-sorted log at position `h` splits
      what every key reads at the key of `h`: the keys below it read from
      the front part, the others from the back part. */
  lemma SortedCutLookup<T>(s: seq<Record<T>>, h: nat, k: int)
    requires StrictlySorted(KeysOf(s)) && h < |s|
    ensures LogLookup(s[..h], k) == if k < s[h].0 then LogLookup(s, k) else None
    ensures LogLookup(s[h..], k) == if k >= s[h].0 then LogLookup(s, k) else None
  {
    SortedCut(s, h);
    SplitLookup(s, s[h].0, k);
  }
}

=== FILE: sorted_split.dfy ===
/**
  Filling empty leaves from a compacted run in ascending key order, as the
  sorting `split_into` of `AppendOnlyLeafNode` and of `LeafNodeLSM` do:
  any slice of the run goes back whole, and the least key of the part
  moved to a fresh leaf is the first key of that part.
 */
module SortedSplit {
  import opened Base
  import opened Keys
  import opened Sorting
  import opened LogRecords
  import opened LogLeaf
  import opened SortedLogs

  /** A slice of a compacted, strictly key-sorted run no larger than a
      valid leaf's log fills an empty leaf: the leaf is valid, also when
      marked sorted, holds the slice and counts it. */
  lemma RefillSlice<T>(n: Node<T>, dirStart: nat, base: Node<T>, s: seq<Record<T>>, a: nat, b: nat)
    requires n.Valid(dirStart) && base.Valid(dirStart) && base.log == [] && base.size == 0
    requires Compacted(s) && StrictlySorted(KeysOf(s))
    requires |s| <= |n.log| && HeapBytes(s) <= HeapBytes(n.log)
    requires a <= b <= |s|
    ensures a == 0 ==> s[a..b] == s[..b]
    ensures b == |s| ==> s[a..b] == s[a..]
    ensures var r := Reinsert(base, dirStart, s[a..b]);
      && r.Valid(dirStart) && r.log == s[a..b] && r.size == b - a
      && r.(isSorted := true).Valid(dirStart)
  {
    SortedSlice(s, a, b);
    HeapBytesPrefix(s, b);
    HeapBytesPrefix(s[..b], a);
    assert s[..b][a..] == s[a..b];
    RefillSorted(n, dirStart, base, s[a..b]);
  }

  /** Relinking a valid leaf keeps it valid. */
  lemma Relinked<T>(m: Node<T>, dirStart: nat, next: uint32)
    requires m.Valid(dirStart)
    ensures m.(nextId := next).Valid(dirStart)
  {
    var r := m.(nextId := next);
    assert r.log == m.log && r.heapEnd == m.heapEnd && r.isSorted == m.isSorted;
    assert r.minKey == m.minKey && r.maxKey == m.maxKey;
  }

  /** Re-inserting the part of a compacted, strictly key-sorted run of
      32-bit keys from position `h` on into an empty leaf with the
      `INT_MAX` sentinel leaves that leaf's least key at the first key of
      the part, or at the sentinel when the part is empty. */
  lemma MovedMin<T>(target: Node<T>, dirStart: nat, s: seq<Record<T>>, h: nat)
    requires target.Valid(dirStart) && target.log == [] && target.minKey == INT_MAX
    requires Compacted(s) && StrictlySorted(KeysOf(s)) && h <= |s|
    requires dirStart + SLOT_SIZE * |s| + HeapBytes(s) <= BLOCK_SIZE
    requires forall i :: 0 <= i < |s| ==> s[i].0 <= INT_MAX
    ensures Reinsert(target, dirStart, s[h..]).minKey == if h < |s| then s[h].0 else INT_MAX
  {
    var moved := s[h..];
    HeapBytesPrefix(s, h);
    SortedSlice(s, h, |s|);
    ReinsertMin(target, dirStart, moved);
    if h < |s| {
      assert KeysOf(moved)[0] == s[h].0;
      MinOfSortedRun(KeysOf(moved));
    }
  }
}

=== FILE: sorting.dfy ===
/**
  The orderings the nodes ask of the C++ standard library: `std::sort` of
  (key, payload) pairs by key, and `std::nth_element` on a key array.

  `std::sort` is not stable; the model sorts stably (insertion sort). Every
  caller either sorts pairs with distinct keys, where all ascending
  permutations coincide, or only relies on "ascending permutation", which
  every result of `std::sort` satisfies.
 */
module Sorting {
  import opened Keys

  ghost predicate SortedByKey<V>(s: seq<(int, V)>) {
    forall i, j :: 0 <= i < j < |s| ==> s[i].0 <= s[j].0
  }

  function KeysOf<V>(s: seq<(int, V)>): (r: seq<int>)
    ensures |r| == |s|
    ensures forall i :: 0 <= i < |s| ==> r[i] == s[i].0
  {
    seq(|s|, i requires 0 <= i < |s| => s[i].0)
  }

  lemma KeysOfAppend<V>(a: seq<(int, V)>, b: seq<(int, V)>)
    ensures KeysOf(a + b) == KeysOf(a) + KeysOf(b)
  {
  }

  /** Insert `x` after every pair whose key is not above its own. */
  function InsertByKey<V>(x: (int, V), s: seq<(int, V)>): (r: seq<(int, V)>)
    requires SortedByKey(s)
    ensures SortedByKey(r)
    ensures multiset(r) == multiset(s) + multiset{x}
    ensures |r| == |s| + 1
    ensures r[0].0 == if |s| == 0 || x.0 < s[0].0 then x.0 else s[0].0
  {
    if |s| == 0 then [x]
    else if x.0 < s[0].0 then [x] + s
    else
      var rest := InsertByKey(x, s[1..]);
      assert s == [s[0]] + s[1..];
      SortedByKeyCons(s[0], rest);
      [s[0]] + rest
  }

  lemma SortedByKeyCons<V>(x: (int, V), s: seq<(int, V)>)
    requires SortedByKey(s)
    requires |s| > 0 ==> x.0 <= s[0].0
    ensures SortedByKey([x] + s)
  {
  }

  /** An ascending permutation of `s` by key. */
  function SortByKey<V>(s: seq<(int, V)>): (r: seq<(int, V)>)
    ensures SortedByKey(r)
    ensures multiset(r) == multiset(s)
    ensures |r| == |s|
  {
    if |s| == 0 then []
    else
      assert s == [s[0]] + s[1..];
      InsertByKey(s[0], SortByKey(s[1..]))
  }

  /** No two pairs share a key. */
  ghost predicate DistinctKeys<V>(s: seq<(int, V)>) {
    forall i, j :: 0 <= i < j < |s| ==> s[i].0 != s[j].0
  }

  /** Inserting a pair whose key is new keeps the keys strictly ascending. */
  lemma {:induction false} InsertByKeyStrict<V>(x: (int, V), s: seq<(int, V)>)
    requires SortedByKey(s)
    requires StrictlySorted(KeysOf(s))
    requires x.0 !in KeysOf(s)
    ensures StrictlySorted(KeysOf(InsertByKey(x, s)))
    decreases |s|
  {
    if |s| > 0 && x.0 >= s[0].0 {
      var tail := s[1..];
      var rest := InsertByKey(x, tail);
      assert StrictlySorted(KeysOf(rest)) by {
        assert KeysOf(tail) == KeysOf(s)[1..];
        InsertByKeyStrict(x, tail);
      }
      assert rest[0].0 > s[0].0 by {
        assert KeysOf(s)[0] == s[0].0;
        assert |tail| > 0 ==> KeysOf(s)[0] < KeysOf(s)[1];
      }
      assert InsertByKey(x, s) == [s[0]] + rest;
      StrictHead(s[0], rest);
    } else {
      assert InsertByKey(x, s) == [x] + s;
      KeysOfCons(x, s);
      StrictlySortedCons(x.0, KeysOf(s));
    }
  }

  /** `[y] + rest` has strictly ascending keys when `rest` has and starts
      above `y`. */
  lemma StrictHead<V>(y: (int, V), rest: seq<(int, V)>)
    requires StrictlySorted(KeysOf(rest)) && |rest| > 0
    requires rest[0].0 > y.0
    ensures StrictlySorted(KeysOf([y] + rest))
  {
    KeysOfCons(y, rest);
    StrictlySortedCons(y.0, KeysOf(rest));
  }

  lemma KeysOfCons<V>(y: (int, V), rest: seq<(int, V)>)
    ensures KeysOf([y] + rest) == [y.0] + KeysOf(rest)
  {
  }

  lemma StrictlySortedCons(x: int, s: seq<int>)
    requires StrictlySorted(s)
    requires |s| > 0 ==> x < s[0]
    ensures StrictlySorted([x] + s)
  {
  }

  /** Sorting pairs with distinct keys leaves the keys strictly ascending. */
  lemma {:induction false} SortByKeyStrict<V>(s: seq<(int, V)>)
    requires DistinctKeys(s)
    ensures StrictlySorted(KeysOf(SortByKey(s)))
    decreases |s|
  {
    if |s| > 0 {
      var t := SortByKey(s[1..]);
      SortByKeyStrict(s[1..]);
      forall i | 0 <= i < |t|
        ensures t[i].0 != s[0].0
      {
        assert t[i] in multiset(s[1..]);
        var j := IndexOf(s[1..], t[i]);
        assert s[j + 1].0 == t[i].0;
      }
      InsertByKeyStrict(s[0], t);
    }
  }

  /** A position at which an element of a sequence occurs. */
  lemma IndexOf<X>(s: seq<X>, x: X) returns (j: nat)
    requires x in s
    ensures j < |s| && s[j] == x
  {
    j :| j < |s| && s[j] == x;
  }

  function InsertInt(x: int, s: seq<int>): (r: seq<int>)
    requires Sorted(s)
    ensures Sorted(r)
    ensures multiset(r) == multiset(s) + multiset{x}
    ensures |r| == |s| + 1
    ensures r[0] == if |s| == 0 || x < s[0] then x else s[0]
  {
    if |s| == 0 then [x]
    else if x < s[0] then [x] + s
    else
      var rest := InsertInt(x, s[1..]);
      assert s == [s[0]] + s[1..];
      SortedCons(s[0], rest);
      [s[0]] + rest
  }

  lemma SortedCons(x: int, s: seq<int>)
    requires Sorted(s)
    requires |s| > 0 ==> x <= s[0]
    ensures Sorted([x] + s)
  {
  }

  /** An ascending permutation of a key array. */
  function SortInts(s: seq<int>): (r: seq<int>)
    ensures Sorted(r)
    ensures multiset(r) == multiset(s)
    ensures |r| == |s|
  {
    if |s| == 0 then []
    else
      assert s == [s[0]] + s[1..];
      InsertInt(s[0], SortInts(s[1..]))
  }

  /** `std::nth_element(k.begin(), k.begin() + p, k.end()); k[p]`: the
      element of rank `p` in ascending order. */
  function NthElement(s: seq<int>, p: nat): (r: int)
    requires p < |s|
    ensures r in s
  {
    assert SortInts(s)[p] in multiset(s);
    SortInts(s)[p]
  }

  /** A range has exactly one ascending permutation. */
  lemma {:induction false} SortedPermutationUnique(a: seq<int>, b: seq<int>)
    requires Sorted(a) && Sorted(b)
    requires multiset(a) == multiset(b)
    ensures a == b
    decreases |a|
  {
    assert |a| == |b| by {
      assert |multiset(a)| == |a| && |multiset(b)| == |b|;
    }
    if |a| > 0 {
      SortedHeadsAgree(a, b);
      MultisetTail(a);
      MultisetTail(b);
      SortedPermutationUnique(a[1..], b[1..]);
      assert a == [a[0]] + a[1..] && b == [b[0]] + b[1..];
    }
  }

  /** Two ascending permutations of one range start with the same element:
      its minimum. */
  lemma SortedHeadsAgree(a: seq<int>, b: seq<int>)
    requires Sorted(a) && Sorted(b)
    requires multiset(a) == multiset(b)
    requires |a| > 0 && |b| > 0
    ensures a[0] == b[0]
  {
    assert a[0] in multiset(b) && b[0] in multiset(a);
    var i :| 0 <= i < |b| && b[i] == a[0];
    var j :| 0 <= j < |a| && a[j] == b[0];
    assert b[0] <= b[i] && a[0] <= a[j];
  }

  lemma MultisetTail(a: seq<int>)
    requires |a| > 0
    ensures multiset(a[1..]) == multiset(a) - multiset{a[0]}
  {
    assert a == [a[0]] + a[1..];
  }

  /** Sorting yields the one ascending permutation of its input. */
  lemma SortIntsIsSortedPermutation(s: seq<int>, t: seq<int>)
    requires Sorted(t) && multiset(t) == multiset(s)
    ensures SortInts(s) == t
  {
    SortedPermutationUnique(SortInts(s), t);
  }

  lemma BelowAppend(a: seq<int>, b: seq<int>, pivot: int)
    ensures Below(a + b, pivot) == Below(a, pivot) + Below(b, pivot)
  {
    if |a| == 0 {
      assert a + b == b;
    } else {
      assert (a + b)[1..] == a[1..] + b;
      BelowAppend(a[1..], b, pivot);
    }
  }

  /** How many elements lie below a pivot does not depend on their order. */
  lemma {:induction false} BelowCountPermutation(a: seq<int>, b: seq<int>, pivot: int)
    requires multiset(a) == multiset(b)
    ensures |Below(a, pivot)| == |Below(b, pivot)|
    decreases |a|
  {
    if |a| == 0 {
      assert |b| == 0;
    } else {
      var x := a[0];
      assert x in multiset(b);
      var j :| 0 <= j < |b| && b[j] == x;
      var b' := b[..j] + b[j + 1..];
      assert b == b[..j] + [x] + b[j + 1..];
      assert a == [x] + a[1..];
      assert multiset(b) == multiset(b[..j]) + multiset{x} + multiset(b[j + 1..]);
      assert multiset(b') == multiset(b[..j]) + multiset(b[j + 1..]);
      assert multiset(a) == multiset{x} + multiset(a[1..]);
      assert multiset(a[1..]) == multiset(a) - multiset{x};
      assert multiset(b') == multiset(b) - multiset{x};
      BelowCountPermutation(a[1..], b', pivot);
      BelowAppend(b[..j] + [x], b[j + 1..], pivot);
      BelowAppend(b[..j], [x], pivot);
      BelowAppend(b[..j], b[j + 1..], pivot);
    }
  }

  /** Fewer than `p` elements lie strictly below the element of rank `p`. */
  lemma BelowNthElementBound(s: seq<int>, p: nat)
    requires p < |s|
    ensures |Below(s, NthElement(s, p))| <= p
  {
    var t := SortInts(s);
    BelowCountPermutation(s, t, t[p]);
    BelowSortedBound(t, p);
  }

  lemma BelowSortedBound(t: seq<int>, p: nat)
    requires Sorted(t)
    requires p < |t|
    ensures |Below(t, t[p])| <= p
  {
    var pivot := t[p];
    var lo, hi := t[..p], t[p..];
    assert t == lo + hi;
    BelowAppend(lo, hi, pivot);
    assert forall i :: 0 <= i < |hi| ==> hi[i] == t[p + i];
    BelowNoneAtLeast(hi, pivot);
  }

  lemma BelowNoneAtLeast(s: seq<int>, pivot: int)
    requires forall i :: 0 <= i < |s| ==> s[i] >= pivot
    ensures Below(s, pivot) == []
  {
    if |s| > 0 {
      BelowNoneAtLeast(s[1..], pivot);
    }
  }

  /** With pairwise distinct elements exactly `p` elements lie below the
      element of rank `p`. */
  lemma NthElementRankDistinct(s: seq<int>, p: nat)
    requires p < |s|
    requires forall i, j :: 0 <= i < j < |s| ==> s[i] != s[j]
    ensures |Below(s, NthElement(s, p))| == p
  {
    var t := SortInts(s);
    SortedDistinctStrict(s, t);
    BelowCountPermutation(s, t, t[p]);
    StrictRank(t, p);
  }

  /** In a strictly ascending sequence exactly `p` elements lie below the
      one at `p`. */
  lemma StrictRank(t: seq<int>, p: nat)
    requires StrictlySorted(t) && p < |t|
    ensures |Below(t, t[p])| == p
  {
    assert t == t[..p] + t[p..];
    BelowAppend(t[..p], t[p..], t[p]);
    BelowAllBelow(t[..p], t[p]);
    assert forall i :: 0 <= i < |t[p..]| ==> t[p..][i] == t[p + i];
    BelowNoneAtLeast(t[p..], t[p]);
  }

  lemma BelowAllBelow(s: seq<int>, pivot: int)
    requires forall i :: 0 <= i < |s| ==> s[i] < pivot
    ensures Below(s, pivot) == s
  {
    if |s| > 0 {
      BelowAllBelow(s[1..], pivot);
      assert s == [s[0]] + s[1..];
    }
  }

  /** The ascending permutation of pairwise distinct elements ascends
      strictly. */
  lemma SortedDistinctStrict(s: seq<int>, t: seq<int>)
    requires Sorted(t) && multiset(t) == multiset(s)
    requires forall i, j :: 0 <= i < j < |s| ==> s[i] != s[j]
    ensures StrictlySorted(t)
  {
    forall i, j | 0 <= i < j < |t|
      ensures t[i] < t[j]
    {
      if t[i] == t[j] {
        CountTwo(t, i, j);
        DistinctCount(s, t[i]);
        assert false;
      }
    }
  }

  lemma CountTwo(t: seq<int>, i: nat, j: nat)
    requires i < j < |t| && t[i] == t[j]
    ensures multiset(t)[t[i]] >= 2
  {
    assert t == t[..i] + [t[i]] + t[i + 1..j] + [t[j]] + t[j + 1..];
  }

  lemma {:induction false} DistinctCount(s: seq<int>, x: int)
    requires forall i, j :: 0 <= i < j < |s| ==> s[i] != s[j]
    ensures multiset(s)[x] <= 1
  {
    if |s| > 0 {
      var tail := s[1..];
      assert forall i, j :: 0 <= i < j < |tail| ==> tail[i] == s[i + 1] && tail[j] == s[j + 1];
      DistinctCount(tail, x);
      assert s == [s[0]] + tail;
      if s[0] == x {
        assert x !in tail;
      }
    }
  }
}

=== FILE: tree_index.dfy ===
/**
  The internal-node arithmetic of `internal_insert`, on the key and child
  arrays alone. `SimpleBPlusTree` and `LasTree` share it word for word and
  `OptimizedBTree` repeats it with a different split: with room, the new
  separator goes to its upper-bound slot and the new child right of it;
  a full node is cut around `split_pos`, its left part stays, the right
  part goes to a new node and one key moves up to the parent.

  A node with `n` keys has `n + 1` children; child `i` holds the keys from
  `keys[i - 1]` (inclusive) to `keys[i]` (exclusive), so a key is routed to
  `children[UpperBound(keys, key)]`.
 */
module TreeIndex {
  import opened Base
  import opened Keys

  /** The three parts of a split node: the left node's arrays, the key that
      moves up and the right node's arrays. */
  datatype Split = Split(
    leftKeys: seq<int>,
    leftChildren: seq<uint32>,
    promoted: int,
    rightKeys: seq<int>,
    rightChildren: seq<uint32>)

  /** The child a key is routed to. */
  function Route(keys: seq<int>, children: seq<uint32>, k: int): (r: uint32)
    requires |children| == |keys| + 1
    ensures r in children
  {
    children[UpperBound(keys, k)]
  }

  /** Insertion into a node with room: both tails move right by one, the key
      lands at `index` and the child at `index + 1`. */
  function InsertEntry(keys: seq<int>, children: seq<uint32>, index: nat, key: int, child: uint32): (r: (seq<int>, seq<uint32>))
    requires index <= |keys| && |children| == |keys| + 1
    ensures |r.0| == |keys| + 1 && |r.1| == |r.0| + 1
    ensures r.0[index] == key && r.1[index + 1] == child
    ensures forall j :: 0 <= j < index ==> r.0[j] == keys[j]
    ensures forall j :: index < j < |r.0| ==> r.0[j] == keys[j - 1]
    ensures forall j :: 0 <= j <= index ==> r.1[j] == children[j]
    ensures forall j :: index + 1 < j < |r.1| ==> r.1[j] == children[j - 1]
  {
    (InsertAt(keys, index, key), InsertAt(children, index + 1, child))
  }

  /** Inserting at the upper-bound slot keeps the keys sorted, and routing in
      the grown node changes only for keys from the new separator up to the
      next one: those go to the new child, every other key to the child it
      went to before. */
  lemma InsertEntryRoutes(keys: seq<int>, children: seq<uint32>, key: int, child: uint32, k: int)
    requires Sorted(keys) && |children| == |keys| + 1
    ensures var index := UpperBound(keys, key);
      var (ks, cs) := InsertEntry(keys, children, index, key, child);
      && Sorted(ks)
      && Route(ks, cs, k) == if key <= k && UpperBound(keys, k) == index then child else Route(keys, children, k)
  {
    var index := UpperBound(keys, key);
    var e := InsertEntry(keys, children, index, key, child);
    InsertAtUpperBoundSorted(keys, key);
    assert Sorted(e.0);
    if k < key {
      RouteBelowNewKey(keys, children, key, child, k);
    } else {
      RouteFromNewKey(keys, children, key, child, k);
    }
  }

  lemma RouteBelowNewKey(keys: seq<int>, children: seq<uint32>, key: int, child: uint32, k: int)
    requires Sorted(keys) && |children| == |keys| + 1 && k < key
    ensures var e := InsertEntry(keys, children, UpperBound(keys, key), key, child);
      UpperBound(e.0, k) == UpperBound(keys, k) && e.1[UpperBound(keys, k)] == children[UpperBound(keys, k)]
  {
    var index := UpperBound(keys, key);
    var e := InsertEntry(keys, children, index, key, child);
    var u := UpperBound(keys, k);
    BoundsMonotone(keys, k, key);
    UpperBoundPartitions(keys, k);
    assert u < |e.0| ==> e.0[u] > k;
    UpperBoundUnique(e.0, k, u);
  }

  lemma RouteFromNewKey(keys: seq<int>, children: seq<uint32>, key: int, child: uint32, k: int)
    requires Sorted(keys) && |children| == |keys| + 1 && key <= k
    ensures var index := UpperBound(keys, key);
      var e := InsertEntry(keys, children, index, key, child);
      var u := UpperBound(keys, k);
      && UpperBound(e.0, k) == u + 1
      && e.1[u + 1] == if u == index then child else children[u]
  {
    var index := UpperBound(keys, key);
    var e := InsertEntry(keys, children, index, key, child);
    var u := UpperBound(keys, k);
    BoundsMonotone(keys, key, k);
    UpperBoundPartitions(keys, k);
    assert forall i :: 0 <= i < u + 1 ==> e.0[i] <= k by {
      forall i | 0 <= i < u + 1
        ensures e.0[i] <= k
      {
        if i < index {
          assert e.0[i] == keys[i];
        } else if i > index {
          assert e.0[i] == keys[i - 1];
        }
      }
    }
    UpperBoundUnique(e.0, k, u + 1);
  }

  /** The split of a full node as `SimpleBPlusTree` and `LasTree` write it,
      with `pos` the split position (`internal_capacity / 2`): the left node
      keeps `pos` keys; a new key left of `pos` pushes the left part's last
      key up, a new key at `pos` is itself pushed up with its child first in
      the right node, and a new key right of `pos` goes into the right node
      while `keys[pos]` moves up. */
  function SplitEntry(keys: seq<int>, children: seq<uint32>, index: nat, key: int, child: uint32, pos: nat): (r: Split)
    requires index <= |keys| && |children| == |keys| + 1
    requires 0 < pos < |keys|
    ensures |r.leftKeys| == pos && |r.leftChildren| == pos + 1
    ensures |r.rightKeys| == |keys| - pos && |r.rightChildren| == |r.rightKeys| + 1
  {
    if index < pos then
      Split(keys[..index] + [key] + keys[index..pos - 1],
            children[..index + 1] + [child] + children[index + 1..pos],
            keys[pos - 1],
            keys[pos..],
            children[pos..])
    else if index == pos then
      Split(keys[..pos], children[..pos + 1], key, keys[pos..], [child] + children[pos + 1..])
    else
      Split(keys[..pos], children[..pos + 1], keys[pos],
            keys[pos + 1..index] + [key] + keys[index..],
            children[pos + 1..index + 1] + [child] + children[index + 1..])
  }

  /** The split loses nothing and invents nothing: it is the insertion of
      the key and child followed by a cut of the grown arrays at `pos`, the
      key at `pos` moving up. */
  lemma SplitEntryIsInsertThenCut(keys: seq<int>, children: seq<uint32>, index: nat, key: int, child: uint32, pos: nat)
    requires index <= |keys| && |children| == |keys| + 1
    requires 0 < pos < |keys|
    ensures var (ks, cs) := InsertEntry(keys, children, index, key, child);
      var s := SplitEntry(keys, children, index, key, child, pos);
      && s.leftKeys == ks[..pos] && s.promoted == ks[pos] && s.rightKeys == ks[pos + 1..]
      && s.leftChildren == cs[..pos + 1] && s.rightChildren == cs[pos + 1..]
  {
    var (ks, cs) := InsertEntry(keys, children, index, key, child);
    var s := SplitEntry(keys, children, index, key, child, pos);
    assert s.leftKeys == ks[..pos];
    assert s.rightKeys == ks[pos + 1..];
    assert s.leftChildren == cs[..pos + 1];
    assert s.rightChildren == cs[pos + 1..];
  }

  /** A split at the upper-bound slot of sorted keys routes every key as the
      grown node would: the parent sends keys below the promoted key left
      and the rest right, and each half sends it on to the same child. The
      halves are sorted and lie on either side of the promoted key. */
  lemma SplitEntryRoutes(keys: seq<int>, children: seq<uint32>, key: int, child: uint32, pos: nat, k: int)
    requires Sorted(keys) && |children| == |keys| + 1
    requires 0 < pos < |keys|
    ensures var index := UpperBound(keys, key);
      var (ks, cs) := InsertEntry(keys, children, index, key, child);
      var s := SplitEntry(keys, children, index, key, child, pos);
      && Sorted(s.leftKeys) && Sorted(s.rightKeys)
      && (forall i :: 0 <= i < |s.leftKeys| ==> s.leftKeys[i] <= s.promoted)
      && (forall i :: 0 <= i < |s.rightKeys| ==> s.promoted <= s.rightKeys[i])
      && Route(ks, cs, k) == if k < s.promoted then Route(s.leftKeys, s.leftChildren, k)
                             else Route(s.rightKeys, s.rightChildren, k)
  {
    var index := UpperBound(keys, key);
    var (ks, cs) := InsertEntry(keys, children, index, key, child);
    var s := SplitEntry(keys, children, index, key, child, pos);
    assert Sorted(ks) by {
      InsertAtUpperBoundSorted(keys, key);
    }
    SplitEntryIsInsertThenCut(keys, children, index, key, child, pos);
    SplitRoutesByCut(s, ks, cs, pos, k);
  }

  /** `CutRoutes` stated for a split whose parts are the cut of the arrays. */
  lemma SplitRoutesByCut(s: Split, ks: seq<int>, cs: seq<uint32>, pos: nat, k: int)
    requires Sorted(ks) && |cs| == |ks| + 1 && pos < |ks|
    requires s.leftKeys == ks[..pos] && s.promoted == ks[pos] && s.rightKeys == ks[pos + 1..]
    requires s.leftChildren == cs[..pos + 1] && s.rightChildren == cs[pos + 1..]
    ensures Sorted(s.leftKeys) && Sorted(s.rightKeys)
    ensures forall i :: 0 <= i < |s.leftKeys| ==> s.leftKeys[i] <= s.promoted
    ensures forall i :: 0 <= i < |s.rightKeys| ==> s.promoted <= s.rightKeys[i]
    ensures Route(ks, cs, k) == if k < s.promoted then Route(s.leftKeys, s.leftChildren, k)
                                else Route(s.rightKeys, s.rightChildren, k)
  {
    CutRoutes(ks, cs, pos, k);
    assert forall i :: 0 <= i < |s.rightKeys| ==> s.rightKeys[i] == ks[pos + 1 + i];
  }

  /** Cutting sorted arrays at `pos` with `ks[pos]` moving up routes every
      key as before. */
  lemma CutRoutes(ks: seq<int>, cs: seq<uint32>, pos: nat, k: int)
    requires Sorted(ks) && |cs| == |ks| + 1 && pos < |ks|
    ensures Sorted(ks[..pos]) && Sorted(ks[pos + 1..])
    ensures forall i :: 0 <= i < pos ==> ks[i] <= ks[pos]
    ensures forall i :: pos < i < |ks| ==> ks[pos] <= ks[i]
    ensures Route(ks, cs, k) == if k < ks[pos] then Route(ks[..pos], cs[..pos + 1], k)
                                else Route(ks[pos + 1..], cs[pos + 1..], k)
  {
    UpperBoundPartitions(ks, k);
    var u := UpperBound(ks, k);
    if k < ks[pos] {
      assert u <= pos;
      UpperBoundUnique(ks[..pos], k, u);
    } else {
      assert u > pos;
      UpperBoundUnique(ks[pos + 1..], k, u - pos - 1);
    }
  }

  // ---------------------------------------------------------------------
  // The split as `OptimizedBTree` writes it

  /** `OptimizedBTree`'s split of a full node: the right node is sized
      `capacity - pos - 1` and filled from `pos + 1`. A new key left of `pos`
      then leaves `pos + 1` keys on the left, the last of which is also
      pushed up, and `keys[pos]` is dropped; a new key at `pos` drops
      `keys[pos]` and the last child; only a new key right of `pos` (where
      the size is incremented back) comes out right. */
  function SplitEntryAsWritten(keys: seq<int>, children: seq<uint32>, index: nat, key: int, child: uint32, pos: nat): (r: Split)
    requires index <= |keys| && |children| == |keys| + 1
    requires 0 < pos && pos + 1 < |keys|
    ensures index > pos ==> r == SplitEntry(keys, children, index, key, child, pos)
  {
    if index < pos then
      var lk := keys[..index] + [key] + keys[index..pos];
      Split(lk,
            children[..index + 1] + [child] + children[index + 1..pos + 1],
            lk[pos],
            keys[pos + 1..],
            children[pos + 1..])
    else if index == pos then
      Split(keys[..pos], children[..pos + 1], key, keys[pos + 1..], [child] + children[pos + 1..|keys|])
    else
      Split(keys[..pos], children[..pos + 1], keys[pos],
            keys[pos + 1..index] + [key] + keys[index..],
            children[pos + 1..index + 1] + [child] + children[index + 1..])
  }

  /** With the new key left of `pos`, the written split drops `keys[pos]`:
      it is in neither half and is not the promoted key. The child between
      the promoted key and `keys[pos]` is stranded at the end of the left
      node, so the promoted key itself is routed to the wrong child. */
  lemma SplitEntryAsWrittenDropsKey(keys: seq<int>, children: seq<uint32>, index: nat, key: int, child: uint32, pos: nat)
    requires StrictlySorted(keys) && |children| == |keys| + 1
    requires 0 < pos && pos + 1 < |keys|
    requires index == UpperBound(keys, key) && index < pos && key !in keys
    requires forall i, j :: 0 <= i < j < |children| ==> children[i] != children[j]
    ensures var s := SplitEntryAsWritten(keys, children, index, key, child, pos);
      && keys[pos] !in s.leftKeys && keys[pos] !in s.rightKeys && keys[pos] != s.promoted
      && s.promoted == keys[pos - 1]
      && Route(s.rightKeys, s.rightChildren, s.promoted) != Route(keys, children, s.promoted)
  {
    var s := SplitEntryAsWritten(keys, children, index, key, child, pos);
    assert s.leftKeys == keys[..index] + [key] + keys[index..pos];
    UpperBoundPartitions(keys, key);
    assert key < keys[pos];
    assert forall i :: 0 <= i < |s.leftKeys| ==> s.leftKeys[i] < keys[pos];
    assert forall i :: 0 <= i < |s.rightKeys| ==> s.rightKeys[i] > keys[pos];
    UpperBoundUnique(s.rightKeys, keys[pos - 1], 0);
    UpperBoundUnique(keys, keys[pos - 1], pos);
  }

  /** With the new key at `pos`, the written split drops the node's last
      child: it is in neither half. */
  lemma SplitEntryAsWrittenDropsChild(keys: seq<int>, children: seq<uint32>, key: int, child: uint32, pos: nat)
    requires |children| == |keys| + 1
    requires 0 < pos && pos + 1 < |keys|
    requires forall i, j :: 0 <= i < j < |children| ==> children[i] != children[j]
    requires child !in children
    ensures var s := SplitEntryAsWritten(keys, children, pos, key, child, pos);
      children[|keys|] !in s.leftChildren && children[|keys|] !in s.rightChildren
  {
    var s := SplitEntryAsWritten(keys, children, pos, key, child, pos);
    var last := children[|keys|];
    assert s.rightChildren == [child] + children[pos + 1..|keys|];
    forall j | 0 <= j < |s.rightChildren|
      ensures s.rightChildren[j] != last
    {
      if j > 0 {
        assert s.rightChildren[j] == children[pos + j];
      }
    }
  }

  /** The smallest instance: keys `[10, 20, 30, 40]`, split at 2, key 5 with
      child 9. The written split promotes 20, keeps it on the left too,
      and loses 30; a key of 25 then goes right, to the child that holds
      keys from 30 on, where the corrected split sends it to child 3. */
  lemma SplitEntryAsWrittenExample()
    ensures var s := SplitEntryAsWritten([10, 20, 30, 40], [1, 2, 3, 4, 5], 0, 5, 9, 2);
      && s == Split([5, 10, 20], [1, 9, 2, 3], 20, [40], [4, 5])
      && Route(s.rightKeys, s.rightChildren, 25) == 4
    ensures var s := SplitEntry([10, 20, 30, 40], [1, 2, 3, 4, 5], 0, 5, 9, 2);
      && s == Split([5, 10], [1, 9, 2], 20, [30, 40], [3, 4, 5])
      && Route(s.rightKeys, s.rightChildren, 25) == 3
  {
    var s := SplitEntryAsWritten([10, 20, 30, 40], [1, 2, 3, 4, 5], 0, 5, 9, 2);
    assert s.rightKeys == [40];
    assert UpperBound([40], 25) == 0;
    var t := SplitEntry([10, 20, 30, 40], [1, 2, 3, 4, 5], 0, 5, 9, 2);
    assert t.rightKeys == [30, 40];
    assert UpperBound([30, 40], 25) == 0;
  }
}

=== FILE: tuple.dfy ===
/**
  Tuples, schemas (`TupleDesc`) and the byte codec the leaves store tuples
  with.

  A field is `std::variant<int, double, std::string>`; a `double` is carried
  as its 64-bit pattern and a string as its bytes. Integers are written in
  the little-endian byte order of the platforms the trees run on.
 */
module Tuples {
  import opened Base

  /** `type_t`. */
  datatype Type = INT | CHAR | DOUBLE | VARCHAR

  const INT_SIZE: nat := 4
  const DOUBLE_SIZE: nat := 8
  const CHAR_SIZE: nat := 64
  /** A VARCHAR carries its length in a `uint16_t` prefix. */
  const VARCHAR_PREFIX: nat := 2

  type uint64 = x: int | 0 <= x < 0x1_0000_0000_0000_0000

  datatype Field = IntF(i: int32) | DoubleF(bits: uint64) | StrF(s: seq<byte>)

  /** A tuple: its field values and the types it declares for them. */
  datatype Tuple = Tuple(fields: seq<Field>, types: seq<Type>)

  /** A schema: field types and field names. */
  datatype Desc = Desc(types: seq<Type>, names: seq<string>)
  {
    /** What the constructor guarantees of every schema it lets through. */
    ghost predicate Valid() {
      |types| == |names| && Distinct(names)
    }
  }

  ghost predicate Distinct<T>(s: seq<T>) {
    forall i, j :: 0 <= i < j < |s| ==> s[i] != s[j]
  }

  /** `Tuple(size_t)`: `n` value-initialised fields, i.e. the int 0, each
      declared INT. */
  function EmptyTuple(n: nat): (r: Tuple)
    ensures |r.fields| == |r.types| == n
    ensures forall i :: 0 <= i < n ==> r.fields[i] == IntF(0) && r.types[i] == INT
  {
    Tuple(seq(n, _ => IntF(0)), seq(n, _ => INT))
  }

  /** `Tuple(fields, types)`: throws `logic_error` on a count mismatch. */
  function MakeTuple(fields: seq<Field>, types: seq<Type>): (r: Result<Tuple>)
    ensures r.Ok? <==> |fields| == |types|
    ensures r.Ok? ==> r.value.fields == fields && r.value.types == types
    ensures r.Err? ==> r.error.LogicError?
  {
    if |fields| != |types| then Err(LogicError("Tuple: field count does not match type count"))
    else Ok(Tuple(fields, types))
  }

  /** `set_field`: throws `out_of_range` past the end; otherwise replaces one
      field value. The declared type is not touched. */
  function SetField(t: Tuple, i: nat, v: Field): (r: Result<Tuple>)
    ensures r.Ok? <==> i < |t.fields|
    ensures r.Err? ==> r.error.OutOfRange?
    ensures r.Ok? ==> |r.value.fields| == |t.fields| && r.value.fields[i] == v
    ensures r.Ok? ==> forall j :: 0 <= j < |t.fields| && j != i ==> r.value.fields[j] == t.fields[j]
    ensures r.Ok? ==> r.value.types == t.types
  {
    if i >= |t.fields| then Err(OutOfRange("Tuple: index out of range in set_field"))
    else Ok(t.(fields := t.fields[i := v]))
  }

  /** The `name_to_index` map the constructor fills: `names[i] -> i`, a later
      duplicate overwriting an earlier one. */
  function NameIndex(names: seq<string>): (m: map<string, nat>)
    ensures forall x :: x in m <==> x in names
    ensures forall x :: x in m ==> m[x] < |names| && names[m[x]] == x
  {
    if |names| == 0 then map[]
    else
      var prefix := names[..|names| - 1];
      assert names == prefix + [names[|names| - 1]];
      NameIndex(prefix)[names[|names| - 1] := |names| - 1]
  }

  /** The map has one entry per name exactly when the names are distinct. */
  lemma NameIndexSizeIffDistinct(names: seq<string>)
    ensures |NameIndex(names)| <= |names|
    ensures |NameIndex(names)| == |names| <==> Distinct(names)
  {
    var m := NameIndex(names);
    assert m.Keys == SetOf(names) by {
      forall x ensures x in m.Keys <==> x in SetOf(names) {
      }
    }
    assert |m| == |m.Keys|;
    SetOfSize(names);
  }

  ghost function SetOf<T>(s: seq<T>): set<T> {
    set x | x in s
  }

  lemma {:induction false} SetOfSize<T>(s: seq<T>)
    ensures |SetOf(s)| <= |s|
    ensures |SetOf(s)| == |s| <==> Distinct(s)
  {
    if |s| > 0 {
      var prefix := s[..|s| - 1];
      var last := s[|s| - 1];
      assert s == prefix + [last];
      SetOfSize(prefix);
      assert SetOf(s) == SetOf(prefix) + {last};
      if last in prefix {
        var k :| 0 <= k < |prefix| && prefix[k] == last;
        assert s[k] == s[|s| - 1];
        assert SetOf(s) == SetOf(prefix);
      } else {
        assert last !in SetOf(prefix);
        assert |SetOf(s)| == |SetOf(prefix)| + 1;
        DistinctSnoc(prefix, last);
      }
    }
  }

  lemma DistinctSnoc<T>(s: seq<T>, x: T)
    requires x !in s
    ensures Distinct(s + [x]) <==> Distinct(s)
  {
    var t := s + [x];
    if Distinct(s) {
      forall i, j | 0 <= i < j < |t|
        ensures t[i] != t[j]
      {
        if j < |s| {
          assert t[i] == s[i] && t[j] == s[j];
        } else {
          assert t[i] == s[i];
        }
      }
    }
    if Distinct(t) {
      forall i, j | 0 <= i < j < |s|
        ensures s[i] != s[j]
      {
        assert t[i] == s[i] && t[j] == s[j];
      }
    }
  }

  /** In a distinct list the map sends every name to its own position. */
  lemma NameIndexOfDistinct(names: seq<string>)
    requires Distinct(names)
    ensures forall i :: 0 <= i < |names| ==> NameIndex(names)[names[i]] == i
  {
    forall i | 0 <= i < |names|
      ensures NameIndex(names)[names[i]] == i
    {
      var m := NameIndex(names);
      assert names[i] in m.Keys;
      assert names[m[names[i]]] == names[i];
    }
  }

  /** `TupleDesc(types, names)`: rejects a length mismatch, then a map with
      fewer entries than names (a repeated name). */
  function MakeDesc(types: seq<Type>, names: seq<string>): (r: Result<Desc>)
    ensures r.Err? ==> r.error.LogicError?
    ensures r.Ok? ==> r.value == Desc(types, names)
  {
    if |types| != |names| then Err(LogicError("Types and names sizes do not match"))
    else if |NameIndex(names)| != |names| then Err(LogicError("Duplicate name"))
    else Ok(Desc(types, names))
  }

  /** The constructor accepts exactly the valid schemas. */
  lemma MakeDescAcceptsValid(types: seq<Type>, names: seq<string>)
    ensures MakeDesc(types, names).Ok? <==> Desc(types, names).Valid()
  {
    NameIndexSizeIffDistinct(names);
  }

  /** `index_of`: `name_to_index.at(name)`. */
  function IndexOf(d: Desc, name: string): (r: Result<nat>)
    ensures r.Ok? <==> name in d.names
    ensures r.Err? ==> r.error.OutOfRange?
    ensures r.Ok? ==> r.value < |d.names| && d.names[r.value] == name
  {
    var m := NameIndex(d.names);
    if name in m then Ok(m[name]) else Err(OutOfRange("unknown field name"))
  }

  /** `compatible`: same field count and the same declared type position by
      position. */
  function Compatible(d: Desc, t: Tuple): (r: bool)
    requires |t.fields| == |t.types|
  {
    |t.fields| == |d.types| &&
    forall i :: 0 <= i < |t.fields| ==> t.types[i] == d.types[i]
  }

  /** A well-formed tuple is compatible exactly when it declares the schema's
      type list. */
  lemma CompatibleIffSameTypes(d: Desc, t: Tuple)
    requires |t.fields| == |t.types|
    ensures Compatible(d, t) <==> t.types == d.types
  {
    if Compatible(d, t) {
      assert |t.types| == |d.types|;
      assert forall i :: 0 <= i < |t.types| ==> t.types[i] == d.types[i];
    }
  }

  /** `TupleDesc::merge`: the first schema's fields, then the second's, with
      the second's names placed at offset `td1.size()`; the result goes
      through the constructor and so fails on a shared name. */
  function Merge(d1: Desc, d2: Desc): (r: Result<Desc>)
    requires d1.Valid() && d2.Valid()
    ensures r.Ok? <==> forall x :: x in d1.names ==> x !in d2.names
    ensures r.Err? ==> r.error.LogicError?
    ensures r.Ok? ==> r.value.types == d1.types + d2.types && r.value.Valid()
  {
    var names := d1.names + d2.names;
    MakeDescAcceptsValid(d1.types + d2.types, names);
    MergeDistinct(d1.names, d2.names);
    MakeDesc(d1.types + d2.types, names)
  }

  /** After a merge every name of the first schema keeps its index and every
      name of the second moves up by the first schema's width. */
  lemma MergeIndexes(d1: Desc, d2: Desc)
    requires d1.Valid() && d2.Valid()
    requires Merge(d1, d2).Ok?
    ensures forall x :: x in d1.names ==> IndexOf(Merge(d1, d2).value, x) == IndexOf(d1, x)
    ensures forall x :: x in d2.names ==>
      IndexOf(Merge(d1, d2).value, x).Ok? &&
      IndexOf(Merge(d1, d2).value, x).value == |d1.types| + IndexOf(d2, x).value
  {
    forall x | x in d1.names
      ensures IndexOf(Merge(d1, d2).value, x) == IndexOf(d1, x)
    {
      MergeIndexFirst(d1, d2, x);
    }
    forall x | x in d2.names
      ensures IndexOf(Merge(d1, d2).value, x).Ok?
      ensures IndexOf(Merge(d1, d2).value, x).value == |d1.types| + IndexOf(d2, x).value
    {
      MergeIndexSecond(d1, d2, x);
    }
  }

  lemma MergeIndexFirst(d1: Desc, d2: Desc, x: string)
    requires d1.Valid() && d2.Valid()
    requires Merge(d1, d2).Ok?
    requires x in d1.names
    ensures IndexOf(Merge(d1, d2).value, x) == IndexOf(d1, x)
  {
    var m := Merge(d1, d2).value;
    var names := d1.names + d2.names;
    assert m.names == names;
    var k1 := IndexOf(d1, x).value;
    var k := IndexOf(m, x).value;
    assert names[k1] == x;
    DistinctIndexUnique(names, k, k1);
  }

  lemma MergeIndexSecond(d1: Desc, d2: Desc, x: string)
    requires d1.Valid() && d2.Valid()
    requires Merge(d1, d2).Ok?
    requires x in d2.names
    ensures IndexOf(Merge(d1, d2).value, x).Ok?
    ensures IndexOf(Merge(d1, d2).value, x).value == |d1.types| + IndexOf(d2, x).value
  {
    var m := Merge(d1, d2).value;
    assert m.names == d1.names + d2.names;
    IndexOfShifted(m, d1.names, d2, x);
  }

  lemma IndexOfShifted(m: Desc, front: seq<string>, d2: Desc, x: string)
    requires m.names == front + d2.names && Distinct(m.names)
    requires x in d2.names
    ensures IndexOf(m, x).Ok?
    ensures IndexOf(m, x).value == |front| + IndexOf(d2, x).value
  {
    var k2 := IndexOf(d2, x).value;
    ConcatIndex(front, d2.names, k2);
  }

  /** In a distinct concatenation a name of the second part sits at its own
      index shifted by the first part's length. */
  lemma ConcatIndex(a: seq<string>, b: seq<string>, k2: nat)
    requires Distinct(a + b)
    requires k2 < |b|
    ensures NameIndex(a + b)[b[k2]] == |a| + k2
  {
    var s := a + b;
    var x := b[k2];
    assert s[|a| + k2] == x;
    var k := NameIndex(s)[x];
    DistinctIndexUnique(s, k, |a| + k2);
  }

  lemma DistinctIndexUnique<T>(s: seq<T>, i: nat, j: nat)
    requires Distinct(s)
    requires i < |s| && j < |s| && s[i] == s[j]
    ensures i == j
  {
  }

  lemma MergeDistinct<T>(a: seq<T>, b: seq<T>)
    requires Distinct(a) && Distinct(b)
    ensures Distinct(a + b) <==> forall x :: x in a ==> x !in b
  {
    var t := a + b;
    if forall x :: x in a ==> x !in b {
      forall i, j | 0 <= i < j < |t|
        ensures t[i] != t[j]
      {
        if j < |a| {
          assert t[i] == a[i] && t[j] == a[j];
        } else if i >= |a| {
          assert t[i] == b[i - |a|] && t[j] == b[j - |a|];
        } else {
          assert t[i] == a[i] && t[j] == b[j - |a|];
          assert t[i] in a;
        }
      }
    } else {
      var x :| x in a && x in b;
      var i :| 0 <= i < |a| && a[i] == x;
      var j :| 0 <= j < |b| && b[j] == x;
      assert t[i] == t[|a| + j];
    }
  }

  // ---------------------------------------------------------------------
  // Encoded length

  /** `length`: the bytes a tuple occupies under the schema. Only VARCHAR
      columns look at the value; a missing field throws `out_of_range` and a
      non-string VARCHAR value throws `bad_variant_access`. */
  function Length(d: Desc, t: Tuple): (r: Result<nat>)
    ensures r.Ok? <==> forall i :: 0 <= i < |d.types| && d.types[i] == VARCHAR ==>
      i < |t.fields| && t.fields[i].StrF?
  {
    LengthOf(d.types, t.fields)
  }

  function LengthOf(types: seq<Type>, fields: seq<Field>): (r: Result<nat>)
    ensures r.Ok? <==> forall i :: 0 <= i < |types| && types[i] == VARCHAR ==>
      i < |fields| && fields[i].StrF?
    decreases |types|
  {
    if |types| == 0 then Ok(0)
    else
      var head: Result<nat> := match types[0]
        case INT => Ok(INT_SIZE)
        case DOUBLE => Ok(DOUBLE_SIZE)
        case CHAR => Ok(CHAR_SIZE)
        case VARCHAR =>
          if |fields| == 0 then Err(OutOfRange("vector::_M_range_check"))
          else if !fields[0].StrF? then Err(BadVariantAccess)
          else Ok(VARCHAR_PREFIX + |fields[0].s|);
      var tailFields := if |fields| == 0 then [] else fields[1..];
      var rest := LengthOf(types[1..], tailFields);
      assert forall i :: 1 <= i < |types| ==> types[i] == types[1..][i - 1];
      assert forall i :: 1 <= i < |fields| ==> fields[i] == tailFields[i - 1];
      if head.Err? then Err(head.error)
      else if rest.Err? then Err(rest.error)
      else Ok(head.value + rest.value)
  }

  // ---------------------------------------------------------------------
  // Little-endian integers

  function Pow256(w: nat): (r: nat)
    ensures r > 0
  {
    if w == 0 then 1 else 256 * Pow256(w - 1)
  }

  /** The `w` low-order bytes of `u`, least significant first. */
  function ToLE(u: nat, w: nat): (r: seq<byte>)
    ensures |r| == w
  {
    if w == 0 then [] else [u % 256] + ToLE(u / 256, w - 1)
  }

  function FromLE(b: seq<byte>): (r: nat)
    ensures r < Pow256(|b|)
  {
    if |b| == 0 then 0 else b[0] + 256 * FromLE(b[1..])
  }

  lemma {:induction false} FromToLE(u: nat, w: nat)
    requires u < Pow256(w)
    ensures FromLE(ToLE(u, w)) == u
  {
    if w > 0 {
      FromToLE(u / 256, w - 1);
      assert ToLE(u, w)[1..] == ToLE(u / 256, w - 1);
    }
  }

  function EncodeInt(v: int32): (r: seq<byte>)
    ensures |r| == INT_SIZE
  {
    ToLE(v % 0x1_0000_0000, INT_SIZE)
  }

  function DecodeInt(b: seq<byte>): (r: int32)
    requires |b| == INT_SIZE
  {
    var u := FromLE(b);
    if u >= 0x8000_0000 then u - 0x1_0000_0000 else u
  }

  /** Two's complement in four bytes gives every `int` back. */
  lemma IntRoundTrip(v: int32)
    ensures DecodeInt(EncodeInt(v)) == v
  {
    FromToLE(v % 0x1_0000_0000, INT_SIZE);
  }

  // ---------------------------------------------------------------------
  // Fixed-width CHAR columns

  /** `strnlen`: the index of the first NUL, or the whole length. */
  function NulIndex(s: seq<byte>): (r: nat)
    ensures r <= |s|
    ensures forall i :: 0 <= i < r ==> s[i] != 0
    ensures r < |s| ==> s[r] == 0
  {
    if |s| == 0 || s[0] == 0 then 0 else 1 + NulIndex(s[1..])
  }

  lemma NulIndexPrefix(s: seq<byte>, t: seq<byte>)
    requires 0 in t
    ensures NulIndex(s + t) == if 0 in s then NulIndex(s) else |s| + NulIndex(t)
  {
    if |s| > 0 {
      assert (s + t)[1..] == s[1..] + t;
      NulIndexPrefix(s[1..], t);
    } else {
      assert s + t == t;
    }
  }

  /** What a CHAR column can hold of a string: at most 63 bytes, cut at the
      first NUL. */
  function CharStored(s: seq<byte>): (r: seq<byte>)
    ensures |r| <= CHAR_SIZE - 1
    ensures 0 !in r
  {
    var cut := s[..Min(|s|, CHAR_SIZE - 1)];
    cut[..NulIndex(cut)]
  }

  /** Copy at most 63 bytes, terminate with NUL, zero the rest of 64. */
  function EncodeChar(s: seq<byte>): (r: seq<byte>)
    ensures |r| == CHAR_SIZE
  {
    var len := Min(|s|, CHAR_SIZE - 1);
    s[..len] + [0] + seq(CHAR_SIZE - len - 1, _ => 0)
  }

  function DecodeChar(b: seq<byte>): (r: seq<byte>)
    requires |b| == CHAR_SIZE
  {
    b[..NulIndex(b)]
  }

  lemma CharRoundTrip(s: seq<byte>)
    ensures DecodeChar(EncodeChar(s)) == CharStored(s)
  {
    var len := Min(|s|, CHAR_SIZE - 1);
    var cut := s[..len];
    var tail := [0] + seq(CHAR_SIZE - len - 1, _ => 0);
    assert EncodeChar(s) == cut + tail;
    assert tail[0] == 0;
    NulIndexPrefix(cut, tail);
    if 0 !in cut {
      assert NulIndex(cut) == |cut|;
    }
  }

  /** A CHAR value of at most 63 bytes without NUL comes back whole; a longer
      one comes back as its first 63 bytes when those hold no NUL. */
  lemma CharStoredCases(s: seq<byte>)
    ensures |s| <= CHAR_SIZE - 1 && 0 !in s ==> CharStored(s) == s
    ensures |s| > CHAR_SIZE - 1 && 0 !in s[..CHAR_SIZE - 1] ==> CharStored(s) == s[..CHAR_SIZE - 1]
  {
    var cut := s[..Min(|s|, CHAR_SIZE - 1)];
    if 0 !in cut {
      assert NulIndex(cut) == |cut|;
    }
  }

  // ---------------------------------------------------------------------
  // Whole tuples

  /** One field under its declared column type. `std::get` throws when the
      variant holds another alternative. */
  function EncodeField(ty: Type, f: Field): (r: Result<seq<byte>>)
    ensures r.Ok? <==> FieldMatches(ty, f)
  {
    match ty
    case INT => if f.IntF? then Ok(EncodeInt(f.i)) else Err(BadVariantAccess)
    case DOUBLE => if f.DoubleF? then Ok(ToLE(f.bits, DOUBLE_SIZE)) else Err(BadVariantAccess)
    case CHAR => if f.StrF? then Ok(EncodeChar(f.s)) else Err(BadVariantAccess)
    case VARCHAR =>
      if f.StrF? then
        var len := |f.s| % 0x1_0000;
        Ok(ToLE(len, VARCHAR_PREFIX) + f.s[..len])
      else Err(BadVariantAccess)
  }

  predicate FieldMatches(ty: Type, f: Field) {
    match ty
    case INT => f.IntF?
    case DOUBLE => f.DoubleF?
    case CHAR | VARCHAR => f.StrF?
  }

  /** `serialize`, field by field in schema order. */
  function Serialize(d: Desc, t: Tuple): (r: Result<seq<byte>>)
    ensures r.Ok? <==> |d.types| <= |t.fields| && forall i :: 0 <= i < |d.types| ==> FieldMatches(d.types[i], t.fields[i])
  {
    EncodeFields(d.types, t.fields)
  }

  function EncodeFields(types: seq<Type>, fields: seq<Field>): (r: Result<seq<byte>>)
    ensures r.Ok? <==> |types| <= |fields| && forall i :: 0 <= i < |types| ==> FieldMatches(types[i], fields[i])
    decreases |types|
  {
    if |types| == 0 then Ok([])
    else if |fields| == 0 then Err(OutOfRange("vector::_M_range_check"))
    else
      var head := EncodeField(types[0], fields[0]);
      var rest := EncodeFields(types[1..], fields[1..]);
      assert forall i :: 1 <= i < |types| ==> types[i] == types[1..][i - 1];
      assert forall i :: 1 <= i < |fields| ==> fields[i] == fields[1..][i - 1];
      if head.Err? then Err(head.error)
      else if rest.Err? then Err(rest.error)
      else Ok(head.value + rest.value)
  }

  /** One field read back, with the number of bytes it took. Reading past the
      end of `data` is `None` (`Tuple::deserialize` reads past the record). */
  function DecodeField(ty: Type, data: seq<byte>): (r: Option<(Field, nat)>)
    ensures r.Some? ==> r.value.1 <= |data|
  {
    match ty
    case INT =>
      if |data| < INT_SIZE then None else Some((IntF(DecodeInt(data[..INT_SIZE])), INT_SIZE))
    case DOUBLE =>
      if |data| < DOUBLE_SIZE then None
      else
        var u := FromLE(data[..DOUBLE_SIZE]);
        assert u < Pow256(8) == 0x1_0000_0000_0000_0000;
        Some((DoubleF(u), DOUBLE_SIZE))
    case CHAR =>
      if |data| < CHAR_SIZE then None else Some((StrF(DecodeChar(data[..CHAR_SIZE])), CHAR_SIZE))
    case VARCHAR =>
      if |data| < VARCHAR_PREFIX then None
      else
        var len := FromLE(data[..VARCHAR_PREFIX]);
        if |data| < VARCHAR_PREFIX + len then None
        else Some((StrF(data[VARCHAR_PREFIX..VARCHAR_PREFIX + len]), VARCHAR_PREFIX + len))
  }

  function DecodeFields(types: seq<Type>, data: seq<byte>): (r: Option<seq<Field>>)
    ensures r.Some? ==> |r.value| == |types|
    decreases |types|
  {
    if |types| == 0 then Some([])
    else
      match DecodeField(types[0], data)
      case None => None
      case Some((f, used)) =>
        match DecodeFields(types[1..], data[used..])
        case None => None
        case Some(rest) => Some([f] + rest)
  }

  /** `deserialize`: the fields read in schema order, declared with the
      schema's types. */
  function Deserialize(d: Desc, data: seq<byte>): (r: Option<Tuple>)
    ensures r.Some? ==> r.value.types == d.types && |r.value.fields| == |d.types|
  {
    match DecodeFields(d.types, data)
    case None => None
    case Some(fields) => Some(Tuple(fields, d.types))
  }

  /** A field as the codec gives it back: CHAR values are cut to what the
      column holds; every other value is unchanged. */
  function Stored(ty: Type, f: Field): (r: Field)
  {
    if ty == CHAR && f.StrF? then StrF(CharStored(f.s)) else f
  }

  /** Every field as the codec gives it back. */
  function StoredFields(types: seq<Type>, fields: seq<Field>): (r: seq<Field>)
    requires |types| <= |fields|
    ensures |r| == |types|
    ensures forall i :: 0 <= i < |types| ==> r[i] == Stored(types[i], fields[i])
  {
    seq(|types|, i requires 0 <= i < |types| => Stored(types[i], fields[i]))
  }

  /** Values the codec can carry: the declared alternatives, with VARCHAR
      strings short enough for their 16-bit length prefix. */
  ghost predicate Encodable(types: seq<Type>, fields: seq<Field>) {
    |fields| == |types| &&
    forall i :: 0 <= i < |types| ==>
      FieldMatches(types[i], fields[i]) && (types[i] == VARCHAR ==> |fields[i].s| < 0x1_0000)
  }

  lemma FieldRoundTrip(ty: Type, f: Field, rest: seq<byte>)
    requires FieldMatches(ty, f)
    requires ty == VARCHAR ==> |f.s| < 0x1_0000
    ensures DecodeField(ty, EncodeField(ty, f).value + rest)
         == Some((Stored(ty, f), |EncodeField(ty, f).value|))
  {
    var e := EncodeField(ty, f).value;
    var data := e + rest;
    match ty {
      case INT =>
        assert data[..INT_SIZE] == e;
        IntRoundTrip(f.i);
      case DOUBLE =>
        assert data[..DOUBLE_SIZE] == e;
        FromToLE(f.bits, DOUBLE_SIZE);
      case CHAR =>
        assert data[..CHAR_SIZE] == e;
        CharRoundTrip(f.s);
      case VARCHAR =>
        VarcharRoundTrip(f, rest);
    }
  }

  /** A `VARCHAR` field reads back from its length prefix and its bytes. */
  lemma VarcharRoundTrip(f: Field, rest: seq<byte>)
    requires FieldMatches(VARCHAR, f) && |f.s| < 0x1_0000
    ensures DecodeField(VARCHAR, EncodeField(VARCHAR, f).value + rest)
         == Some((Stored(VARCHAR, f), |EncodeField(VARCHAR, f).value|))
  {
    var len := |f.s|;
    var prefix := ToLE(len, VARCHAR_PREFIX);
    assert EncodeField(VARCHAR, f).value == prefix + f.s by {
      assert len % 0x1_0000 == len && f.s[..len] == f.s;
    }
    var data := prefix + f.s + rest;
    assert FromLE(data[..VARCHAR_PREFIX]) == len by {
      assert data[..VARCHAR_PREFIX] == prefix;
      assert len < Pow256(VARCHAR_PREFIX) by {
        assert Pow256(VARCHAR_PREFIX) == 0x1_0000;
      }
      FromToLE(len, VARCHAR_PREFIX);
    }
    assert data[VARCHAR_PREFIX..VARCHAR_PREFIX + len] == f.s;
  }

  lemma {:induction false} FieldsRoundTrip(types: seq<Type>, fields: seq<Field>, rest: seq<byte>)
    requires Encodable(types, fields)
    ensures EncodeFields(types, fields).Ok?
    ensures DecodeFields(types, EncodeFields(types, fields).value + rest)
         == Some(StoredFields(types, fields))
    decreases |types|
  {
    if |types| > 0 {
      EncodableTail(types, fields);
      FieldsRoundTrip(types[1..], fields[1..], rest);
      var head := EncodeField(types[0], fields[0]).value;
      var tail := EncodeFields(types[1..], fields[1..]).value;
      var data := head + (tail + rest);
      EncodeFieldsStep(types, fields, rest);
      assert DecodeField(types[0], data) == Some((Stored(types[0], fields[0]), |head|)) by {
        FieldRoundTrip(types[0], fields[0], tail + rest);
      }
      assert data[|head|..] == tail + rest;
      DecodeFieldsStep(types, data, Stored(types[0], fields[0]), |head|);
      StoredFieldsStep(types, fields);
    }
  }

  lemma EncodeFieldsStep(types: seq<Type>, fields: seq<Field>, rest: seq<byte>)
    requires 0 < |types| <= |fields|
    requires EncodeField(types[0], fields[0]).Ok?
    requires EncodeFields(types[1..], fields[1..]).Ok?
    ensures EncodeFields(types, fields).Ok?
    ensures EncodeFields(types, fields).value + rest
         == EncodeField(types[0], fields[0]).value + (EncodeFields(types[1..], fields[1..]).value + rest)
  {
  }

  lemma EncodableTail(types: seq<Type>, fields: seq<Field>)
    requires |types| > 0
    requires Encodable(types, fields)
    ensures Encodable(types[1..], fields[1..])
  {
    assert forall i :: 0 <= i < |types| - 1 ==> types[1..][i] == types[i + 1] && fields[1..][i] == fields[i + 1];
  }

  lemma DecodeFieldsStep(types: seq<Type>, data: seq<byte>, f: Field, used: nat)
    requires |types| > 0
    requires DecodeField(types[0], data) == Some((f, used))
    ensures used <= |data|
    ensures DecodeFields(types, data) ==
      match DecodeFields(types[1..], data[used..])
      case None => None
      case Some(rest) => Some([f] + rest)
  {
  }

  lemma StoredFieldsStep(types: seq<Type>, fields: seq<Field>)
    requires 0 < |types| <= |fields|
    ensures StoredFields(types, fields) == [Stored(types[0], fields[0])] + StoredFields(types[1..], fields[1..])
  {
  }

  /** `deserialize(serialize(t))` gives back `t` with every CHAR value cut to
      what the column holds, and with the schema's declared types. */
  lemma SerializeRoundTrip(d: Desc, t: Tuple)
    requires Encodable(d.types, t.fields)
    ensures Serialize(d, t).Ok?
    ensures Deserialize(d, Serialize(d, t).value) == Some(Tuple(StoredFields(d.types, t.fields), d.types))
  {
    FieldsRoundTrip(d.types, t.fields, []);
    assert Serialize(d, t).value + [] == Serialize(d, t).value;
  }

  /** `serialize` writes exactly `length(t)` bytes. */
  lemma {:induction false} SerializeLengthAgrees(types: seq<Type>, fields: seq<Field>)
    requires Encodable(types, fields)
    ensures EncodeFields(types, fields).Ok? && LengthOf(types, fields).Ok?
    ensures |EncodeFields(types, fields).value| == LengthOf(types, fields).value
    decreases |types|
  {
    if |types| > 0 {
      assert Encodable(types[1..], fields[1..]) by {
        assert forall i :: 0 <= i < |types| - 1 ==> types[1..][i] == types[i + 1] && fields[1..][i] == fields[i + 1];
      }
      SerializeLengthAgrees(types[1..], fields[1..]);
    }
  }
}
